=== FILE: README.md ===
# PastPort backend — a Dafny model

PastPort is the backend of an educational application. Users visit
historical scenes, talk to the historical characters placed in them and pay
for a subscription plan. This project models the decisions inside that
backend as pure functions over immutable records. Each service operation
takes the current stores and returns the new stores together with its
answer.

What is modelled:

- **Subscriptions.** The plan price table and the 12-month discount. Plan-order
  access checks. The derived `IsActive` flag and days remaining. Creating and
  cancelling a subscription. The PayPal checkout flow (`InitiatePayment` and
  `CompletePayment`), composed with the mock PayPal order service.
- **Payments.** Confirming Stripe payment intents and capturing PayPal orders.
  Full and partial refunds. Generating an invoice for a settled payment.
  Activating the linked subscription. Payment statistics. Soft-deleting a
  saved payment method. The Stripe request shaping: cents, lower-case
  currency, the optional refund amount, and exceptions mapped to `false`.
- **Webhooks.** Stripe and PayPal event dispatch and every handler that
  changes a payment's status. The PayPal endpoint is modelled both as
  written, where the controller never receives its PayPal services and every
  delivery fails, and as evidently intended.
- **Repositories as sequences.** Subscriptions, payments, invoices, saved
  payment methods, assets, scenes and conversations. Each store is a
  `seq` in insertion order. Each query is a filter, a first match or a
  sorted permutation of a filter. Invoice-number generation and the
  "at most one default payment method" rule carry their own invariants.
- **Authentication.** Refresh tokens: creation (the Base64 of 64 bytes),
  validation, expiry, revocation and single-use rotation. Registration and
  login rejection rules.
- **Password reset requests.** The field validators of the three requests.
- **Uploads.** File validation, content-type checks, file-name sanitising, the
  upload URL and its rewrite to a relative path, and the path-prefix guard.
  The per-kind limits of the files endpoints and the batch upload partition.
- **Asset sync.** The per-item check decision, `needsDownload`, the
  folder and content-type maps, and the lower-case hex encoding of a digest.
- **Content.** Scenes and characters: create, partial update, delete and
  not-found errors. Conversations: history flattening, storage and listing.
  The mock AI reply template.

The same modelling choices hold throughout:

- Time is an `int` of seconds, passed in as `now`. `AddMonths` is a function
  parameter, and lemmas that need it increasing say so in their `requires`.
- Money is an exact `real`.
- Fresh ids, random tokens, digests and the AI reply generator are
  parameters.
- A thrown exception is an `Err(Fault(kind, message))` of a `Result`.
- Where several enums disagree (payment status, asset type), one datatype
  holds the union of their values.
- The `Payment` record holds every field the services use.

Modules follow the source components. `Wrappers`, `Seqs`, `Text` and `Domain`
hold the shared result types, sequence helpers, ASCII string helpers and
entity records.

## Model

| member | source | states |
|---|---|---|
| SubscriptionService.CalculatePrice | PastPort.Infrastructure/Identity/SubscriptionService.cs:257-275 | the charge is the plan's monthly price times the months, with 20% off from twelve months on; the free plan costs nothing |
| SubscriptionService.MonthlyPriceIncreasesWithPlan | PastPort.Infrastructure/Identity/SubscriptionService.cs:259-266 | a higher plan costs strictly more per month and for any positive number of months |
| SubscriptionService.TwelveMonthsCostLessThanEleven | PastPort.Infrastructure/Identity/SubscriptionService.cs:271-272 | for a paid plan the discount makes twelve months cheaper than eleven |
| SubscriptionService.AvailablePlans | PastPort.Infrastructure/Identity/SubscriptionService.cs:193-245 | the catalogue lists the plans in plan order, named as the enum prints them, with a monthly price equal to the one-month charge |
| SubscriptionService.EachPlanListedOnce | PastPort.Infrastructure/Identity/SubscriptionService.cs:195-242 | every plan appears in the catalogue, and no plan twice |
| SubscriptionService.ListedYearlyPriceExceedsCharge | PastPort.Infrastructure/Identity/SubscriptionService.cs:206-241 | for each paid plan the advertised yearly price is above what twelve months are actually charged |
| SubscriptionService.CheckAccess | PastPort.Infrastructure/Identity/SubscriptionService.cs:247-255 | without a current subscription only the free plan is accessible; with one, exactly the plans not above its plan |
| SubscriptionService.AccessDownwardClosed | PastPort.Infrastructure/Identity/SubscriptionService.cs:254 | access to a plan implies access to every lesser plan |
| SubscriptionService.WholeDays | PastPort.Infrastructure/Identity/SubscriptionService.cs:279 | the whole days of a time span, truncated toward zero for spans of either sign |
| SubscriptionService.MapToResponse | PastPort.Infrastructure/Identity/SubscriptionService.cs:277-296 | active iff the status is Active and the end is in the future; the days remaining are never negative and are the whole days left; the other fields are copied and a missing e-mail becomes "" |
| SubscriptionService.ActiveWithNoDaysRemaining | PastPort.Infrastructure/Identity/SubscriptionService.cs:293-294 | with less than a day left a subscription is reported active with zero days remaining |
| SubscriptionService.FindUser | PastPort.Infrastructure/Identity/SubscriptionService.cs:143 | the user with that id, or none exactly when no user has it |
| SubscriptionService.CreateSubscription | PastPort.Infrastructure/Identity/SubscriptionService.cs:139-164 | an unknown user raises "User not found"; otherwise one active subscription is appended, starting now, ending the given months later, priced by the price table, with no provider id |
| SubscriptionService.CreateGrantsPlanAccess | PastPort.Infrastructure/Identity/SubscriptionService.cs:139-164 | a user without access who subscribes for a future end date gains access to exactly the subscribed plan and the lesser ones |
| SubscriptionService.CancelSubscription | PastPort.Infrastructure/Identity/SubscriptionService.cs:181-191 | without a current subscription it raises "No active subscription found"; otherwise that subscription, and nothing else, becomes Cancelled |
| SubscriptionService.CancelOnlySubscriptionEndsAccess | PastPort.Infrastructure/Identity/SubscriptionService.cs:181-191 | cancelling the only current subscription leaves the user with access to the free plan alone |
| SubscriptionRepository.ActiveIndex | PastPort.Infrastructure/Data/Repositories/SubscriptionRepository.cs:16-20 | the position of a subscription of the user that is Active and ends after now, or none exactly when there is no such subscription |
| SubscriptionRepository.GetActive | PastPort.Infrastructure/Data/Repositories/SubscriptionRepository.cs:14-21 | a stored, current subscription of the user, or none exactly when the user has none |
| SubscriptionRepository.GetUserSubscriptions | PastPort.Infrastructure/Data/Repositories/SubscriptionRepository.cs:23-30 | exactly the user's subscriptions, as a permutation of the filtered store, latest start first |
| SubscriptionRepository.GetByStatus | PastPort.Infrastructure/Data/Repositories/SubscriptionRepository.cs:32-38 | exactly the subscriptions with that status |
| SubscriptionRepository.GetExpiring | PastPort.Infrastructure/Data/Repositories/SubscriptionRepository.cs:41-51 | exactly the Active subscriptions ending after now and no later than the given number of days from now |
| SubscriptionRepository.ExpiringIsActive | PastPort.Infrastructure/Data/Repositories/SubscriptionRepository.cs:46-48 | an expiring subscription is current, so its owner has an active subscription |
| SubscriptionCheckout.CalculatePrice | PastPort.Infrastructure/Identity/SubscriptionServiceWithPayment.cs:156-174 | the checkout's own price table charges the same as the subscription service's for every plan and duration |
| SubscriptionCheckout.InitiatePayment | PastPort.Infrastructure/Identity/SubscriptionServiceWithPayment.cs:36-86 | a provider error yields a failure "Error: ..." and stores nothing; a refused order is passed back and stores nothing; an accepted one stores one Pending payment for the calculated price under the order id |
| SubscriptionCheckout.CompletePayment | PastPort.Infrastructure/Identity/SubscriptionServiceWithPayment.cs:91-152 | a failed capture changes nothing; a successful one completes the order's first payment, if any, and appends an active subscription priced at that payment's amount, or 0 when there is none |
| SubscriptionCheckout.MockCaptureAlwaysCompletes | PastPort.Infrastructure/Identity/SubscriptionServiceWithPayment.cs:99-108 | with the placeholder provider the capture-failure branch is never taken |
| SubscriptionCheckout.CheckoutChargesCalculatedPrice | PastPort.Infrastructure/Identity/SubscriptionServiceWithPayment.cs:36-152 | initiating then completing a fresh order charges the subscription exactly the calculated price and completes the order's payment |
| SubscriptionCheckout.CompletionPlanIsNotTiedToPayment | PastPort.Infrastructure/Identity/SubscriptionServiceWithPayment.cs:120-130 | completion takes the plan from its own request, so an order paid for the free plan activates the top plan at no charge |
| PayPalMock.CreateOrder | PastPort.Infrastructure/ExternalServices/Payment/PayPalService.cs:23-57 | the placeholder order always succeeds as Pending under the fresh order id, with an approval link made of the sandbox checkout address followed by that id |
| PayPalMock.ApprovalLinkCarriesOrderId | PastPort.Infrastructure/ExternalServices/Payment/PayPalService.cs:33-34 | the order id can be read back from the end of the approval link |
| PayPalMock.CreateOrderIgnoresRequest | PastPort.Infrastructure/ExternalServices/Payment/PayPalService.cs:23-45 | the created order depends on the fresh id alone, never on the user, payer or amount |
| PayPalMock.CaptureOrder | PastPort.Infrastructure/ExternalServices/Payment/PayPalService.cs:59-85 | every capture succeeds as Completed and echoes the order id |
| PayPalMock.GetOrderDetails | PastPort.Infrastructure/ExternalServices/Payment/PayPalService.cs:87-111 | every lookup succeeds as Completed and reports exactly what a capture of the same order reports, apart from the message |
| PaymentRepository.IndexByOrderId | PastPort.Infrastructure/Data/Repositories/PaymentRepository.cs:15-17 | the first payment of the PayPal order, or none exactly when no payment has that order id |
| PaymentRepository.GetByPayPalOrderId | PastPort.Infrastructure/Data/Repositories/PaymentRepository.cs:13-18 | a stored payment of that order, or none exactly when there is none |
| PaymentRepository.IndexByProviderId | PastPort.Infrastructure/Identity/PaymentService.cs:118 | the first payment whose provider reference is the given id, or none exactly when there is none |
| PaymentRepository.IndexById | PastPort.Infrastructure/Identity/PaymentService.cs:268 | the payment with that key, or none exactly when no payment has it |
| PaymentRepository.GetUserPayments | PastPort.Infrastructure/Data/Repositories/PaymentRepository.cs:20-26 | exactly the user's payments, as a permutation of the filtered store, newest first |
| PaymentRepository.GetByStatus | PastPort.Infrastructure/Data/Repositories/PaymentRepository.cs:28-33 | exactly the payments with that status |
| PaymentRepository.GetByDateRange | PastPort.Infrastructure/Identity/PaymentService.cs:474 | exactly the payments created within the closed interval |
| PaymentService.UpdateSubscriptionAfterPayment | PastPort.Infrastructure/Identity/PaymentService.cs:513-524 | a failed payment or an unknown subscription leaves the store unchanged; a successful one makes that subscription Active and changes nothing else |
| PaymentService.GenerateInvoice | PastPort.Infrastructure/Identity/PaymentService.cs:426-465 | an unknown payment raises "Payment not found"; otherwise one Paid invoice is appended, carrying the payment's user, subscription, amounts and currency, a single line for the subtotal, and a number of the current month that no earlier invoice has |
| PaymentService.GenerateInvoiceNumbered | PastPort.Infrastructure/Identity/PaymentService.cs:432-437 | the issued invoice carries the next number the generator produces for the month of the clock |
| PaymentService.GenerateInvoiceMatchesRepository | PastPort.Infrastructure/Identity/PaymentService.cs:432-437 | while the month's numbers were issued one after another up to a sequence of at most 9999, the invoice carries exactly the number the repository's own code generates |
| PaymentService.GenerateInvoiceKeepsNumbersUnique | PastPort.Infrastructure/Identity/PaymentService.cs:432-462 | issuing an invoice keeps all invoice numbers distinct |
| PaymentService.InvoiceAmountsAgree | PastPort.Infrastructure/Identity/PaymentService.cs:441-458 | the single line adds up to the invoice's net amount, and with no tax and a subtotal equal to the amount the total is net plus tax |
| PaymentService.ConfirmPayment | PastPort.Infrastructure/Identity/PaymentService.cs:112-169 | an unknown intent raises "Payment not found" and another user's payment raises Unauthorized; otherwise the payment becomes Succeeded or Failed with its reason and only it changes; a confirmed payment activates its subscription, a refused one leaves the subscriptions alone, and exactly a confirmed payment is invoiced |
| PaymentService.StripeExceptionFailsPayment | PastPort.Infrastructure/Identity/StripePaymentService.cs:108-113 | a Stripe exception during confirmation marks the payment Failed and issues no invoice instead of aborting |
| PaymentService.CapturePayPalOrder | PastPort.Infrastructure/Identity/PaymentService.cs:711-764 | an unknown order raises "Payment not found", another user's raises Unauthorized and a PayPal exception propagates; otherwise only the payment changes, and exactly a completed capture of a subscription payment activates that subscription and is invoiced |
| PaymentService.RecordCapture | PastPort.Infrastructure/Identity/PaymentService.cs:728-752 | a completed capture re-keys the payment by its capture id; a completed capture of a subscription payment activates the subscription and adds exactly one invoice, and otherwise nothing but the payment changes |
| PaymentService.CaptureStatusIgnoresCase | PastPort.Infrastructure/Identity/PaymentService.cs:728-732 | two capture statuses that differ only in letter case settle a capture identically |
| PaymentService.CaptureRekeysPayment | PastPort.Infrastructure/Identity/PaymentService.cs:736 | after a capture whose status upper-cases to "COMPLETED" under a new capture id, capturing the same order again finds no payment |
| PaymentService.ApplyRefund | PastPort.Infrastructure/Identity/PaymentService.cs:297-304 | only the refunded payment changes: Refunded when the amount covers the payment, PartiallyRefunded otherwise, with the time and the reason |
| PaymentService.RefundPayment | PastPort.Infrastructure/Identity/PaymentService.cs:262-321 | an unknown payment, one not Succeeded, or a provider error is refused with its message and changes nothing; otherwise the payment is settled as a refund |
| PaymentService.RefundPayPalPayment | PastPort.Infrastructure/Identity/PaymentService.cs:766-830 | as the Stripe refund, but a payment of another provider is refused first with "Not a PayPal payment" |
| PaymentService.RefundWithoutAmountIsFull | PastPort.Infrastructure/Identity/PaymentService.cs:276-300 | a refund without an amount leaves the payment Refunded |
| PaymentService.RefundAtMostOnce | PastPort.Infrastructure/Identity/PaymentService.cs:272-273 | after a successful refund any second refund of the same payment is refused and changes nothing |
| PaymentService.RefundVariantsAgreeOnPayPal | PastPort.Infrastructure/Identity/PaymentService.cs:766-830 | on a PayPal payment both refund operations succeed alike and change the store alike |
| PaymentService.ConfirmedPaymentIsRefundable | PastPort.Infrastructure/Identity/PaymentService.cs:133-143 | with unique ids, a payment can be refunded after confirmation exactly when Stripe confirmed it |
| PaymentService.Average | PastPort.Infrastructure/Identity/PaymentService.cs:491 | the mean amount times the count is the sum of the amounts, and it is 0 for no payments |
| PaymentService.CountThreeStatuses | PastPort.Infrastructure/Identity/PaymentService.cs:487-490 | payments of three distinct statuses number no more than all payments |
| PaymentService.GetPaymentStatistics | PastPort.Infrastructure/Identity/PaymentService.cs:467-493 | over the payments in range, defaulting to the last year up to now: the counts per status, never more than the total, and the mean amount, 0 when there are none |
| PaymentService.SumAmountsBounds | PastPort.Infrastructure/Identity/PaymentService.cs:491 | the sum of amounts each within bounds lies within the count times those bounds |
| PaymentService.AverageBounds | PastPort.Infrastructure/Identity/PaymentService.cs:491 | the mean lies between any lower and upper bound of the amounts |
| PaymentService.AverageWithinAmounts | PastPort.Infrastructure/Identity/PaymentService.cs:467-493 | the reported mean lies between the smallest and the greatest amount of the payments |
| PaymentService.DeletePaymentMethod | PastPort.Infrastructure/Identity/PaymentService.cs:354-379 | an unknown method or another user's is refused with "Payment method not found" and changes nothing; otherwise only that method becomes inactive with its deletion time |
| PaymentService.DeletedMethodNotListed | PastPort.Infrastructure/Identity/PaymentService.cs:365-369 | after deletion the method is neither listed for the user nor their default |
| StripeGateway.Truncate | PastPort.Infrastructure/Identity/StripePaymentService.cs:64 | the conversion to a whole number drops the fraction toward zero, for either sign |
| StripeGateway.ToCents | PastPort.Infrastructure/Identity/StripePaymentService.cs:64 | a non-negative amount becomes the whole number of cents not above it |
| StripeGateway.CentsRoundTrip | PastPort.Infrastructure/Identity/StripePaymentService.cs:64 | a whole number of cents converted to an amount and back is unchanged |
| StripeGateway.CentsMonotone | PastPort.Infrastructure/Identity/StripePaymentService.cs:64 | a larger non-negative amount never converts to fewer cents |
| StripeGateway.CreateIntentOptions | PastPort.Infrastructure/Identity/StripePaymentService.cs:62-72 | the intent asks for the amount in cents, the currency with every letter lowered and nothing else changed, the customer, automatic payment methods, and the metadata or an empty map |
| StripeGateway.IntentCurrencyIgnoresCase | PastPort.Infrastructure/Identity/StripePaymentService.cs:65 | two currency codes build the same intent exactly when they are equal ignoring case |
| StripeGateway.CreateRefundOptions | PastPort.Infrastructure/Identity/StripePaymentService.cs:120-128 | the refund names the intent and carries an amount in cents exactly when one was given |
| StripeGateway.ConfirmPaymentIntent | PastPort.Infrastructure/Identity/StripePaymentService.cs:89-114 | confirmation succeeds exactly when the SDK answered with status "succeeded"; an exception counts as failure |
| InvoiceRepository.GetUserInvoices | PastPort.Infrastructure/Data/Repositories/InvoiceRepository.cs:13-20 | exactly the user's invoices, each as often as stored, most recently issued first |
| InvoiceRepository.GetByNumber | PastPort.Infrastructure/Data/Repositories/InvoiceRepository.cs:22-28 | an invoice carrying the number if one is stored, nothing exactly when none carries it |
| InvoiceRepository.FormatNumberShape | PastPort.Infrastructure/Data/Repositories/InvoiceRepository.cs:36-51 | a generated number starts with the month's prefix `INV-<year>-<month:D2>` and has at least four sequence digits after it |
| InvoiceRepository.SplitFormatNumber | PastPort.Infrastructure/Data/Repositories/InvoiceRepository.cs:44-45 | splitting a generated number on '-' yields exactly four fields: "INV", the year, the month and the sequence |
| InvoiceRepository.SequenceAsWrittenRoundTrip | PastPort.Infrastructure/Data/Repositories/InvoiceRepository.cs:44-47 | the sequence read back from a generated number is the sequence it was generated with |
| InvoiceRepository.Greatest | PastPort.Infrastructure/Data/Repositories/InvoiceRepository.cs:37-38 | the first number in descending string order is one of the numbers and no number sorts after it |
| InvoiceRepository.OfMonth | PastPort.Infrastructure/Data/Repositories/InvoiceRepository.cs:36 | exactly the stored numbers that start with the month's prefix |
| InvoiceRepository.NextSequenceAsWritten | PastPort.Infrastructure/Data/Repositories/InvoiceRepository.cs:40-49 | the next sequence is 1 when the month has no invoice yet, and otherwise at least 1 except after 2147483647, where the unchecked 32-bit addition gives -2147483648 |
| InvoiceRepository.GenerateInvoiceNumberAsWritten | PastPort.Infrastructure/Data/Repositories/InvoiceRepository.cs:30-52 | the generated number carries the month's prefix, and for a non-negative next sequence it is the formatted number of that sequence |
| InvoiceRepository.SignedNumber | PastPort.Infrastructure/Data/Repositories/InvoiceRepository.cs:51 | the number carries the month's prefix, and for a non-negative sequence it is the formatted number of that sequence |
| InvoiceRepository.FormatSignedD4 | PastPort.Infrastructure/Data/Repositories/InvoiceRepository.cs:51 | a non-negative sequence is written with at least four digits, a negative one as a minus sign followed by the digits of its magnitude |
| InvoiceRepository.GenerateAsWrittenWrapsAround | PastPort.Infrastructure/Data/Repositories/InvoiceRepository.cs:40-51 | after a stored sequence of 2147483647 the next sequence is -2147483648, and the generated number carries that negative sequence |
| InvoiceRepository.FormatNumberOrder | PastPort.Infrastructure/Data/Repositories/InvoiceRepository.cs:37 | for sequences up to 9999, string order of a month's numbers is numeric order of their sequences |
| InvoiceRepository.NextAfterIssued | PastPort.Infrastructure/Data/Repositories/InvoiceRepository.cs:37-47 | when a month's numbers were issued 1..n with n ≤ 9999, the greatest stored number is the one with sequence n, and the next sequence is n + 1 |
| InvoiceRepository.GenerateAsWrittenContinues | PastPort.Infrastructure/Data/Repositories/InvoiceRepository.cs:30-52 | when a month's numbers were issued 1..n with n ≤ 9999, the next number has sequence n + 1 |
| InvoiceRepository.GenerateAsWrittenRepeatsAfter9999 | PastPort.Infrastructure/Data/Repositories/InvoiceRepository.cs:37-47 | in every month, with sequences 9999 and 10000 issued, the code produces sequence 10000 again, a number already stored |
| InvoiceRepository.RepeatsWhenOutOfOrder | PastPort.Infrastructure/Data/Repositories/InvoiceRepository.cs:37-47 | whenever the text of a sequence sorts after the text of its successor, a month holding both numbers generates the successor again |
| InvoiceRepository.SequenceOfRoundTrip | PastPort.Infrastructure/Data/Repositories/InvoiceRepository.cs:44-51 | the corrected reading of the sequence recovers any sequence, of any width |
| InvoiceRepository.MaxSequence | PastPort.Infrastructure/Data/Repositories/InvoiceRepository.cs:35-49 | no number of the month has a greater sequence, and the maximum (unless 0) is the sequence of one of them |
| InvoiceRepository.GenerateInvoiceNumber | PastPort.Infrastructure/Data/Repositories/InvoiceRepository.cs:30-52 | the corrected generator keeps the month's prefix and never repeats a stored number |
| InvoiceRepository.MaxSequenceOfIssued | PastPort.Infrastructure/Data/Repositories/InvoiceRepository.cs:35-49 | for numbers issued 1..n, the numeric maximum is n |
| InvoiceRepository.GenerateAgreesWithAsWritten | PastPort.Infrastructure/Data/Repositories/InvoiceRepository.cs:30-52 | while sequences stay at or below 9999 the corrected generator gives the same number as the code |
| SavedPaymentMethods.SetDefault | PastPort.Infrastructure/Data/Repositories/SavedPaymentMethodRepository.cs:31-44 | each of the user's methods becomes default exactly when its key is the chosen one; other users' methods are untouched |
| SavedPaymentMethods.SetDefaultLeavesAtMostOne | PastPort.Infrastructure/Data/Repositories/SavedPaymentMethodRepository.cs:31-44 | with unique keys, the user is left with at most one default method |
| SavedPaymentMethods.SetDefaultUnknownClearsAll | PastPort.Infrastructure/Data/Repositories/SavedPaymentMethodRepository.cs:38-41 | a key that is not one of the user's methods leaves the user with no default |
| SavedPaymentMethods.SetDefaultIdempotent | PastPort.Infrastructure/Data/Repositories/SavedPaymentMethodRepository.cs:31-44 | choosing the same default twice changes nothing the second time |
| SavedPaymentMethods.GetDefault | PastPort.Infrastructure/Data/Repositories/SavedPaymentMethodRepository.cs:23-29 | a stored method of the user that is default and active, nothing exactly when there is none |
| SavedPaymentMethods.SetDefaultThenGetDefault | PastPort.Infrastructure/Data/Repositories/SavedPaymentMethodRepository.cs:23-44 | after an active method is made default, the default lookup returns it |
| SavedPaymentMethods.GetUserMethods | PastPort.Infrastructure/Data/Repositories/SavedPaymentMethodRepository.cs:14-21 | exactly the user's active methods, each as often as stored, defaults first and newest first within each group |
| SavedPaymentMethods.DefaultsListedFirst | PastPort.Infrastructure/Data/Repositories/SavedPaymentMethodRepository.cs:18 | every method listed before a default method is itself default |
| Webhooks.Settle | PastPort.API/Controllers/WebhookController.cs:120-157 | only the payment found by the provider reference changes; its subscription becomes Active only for a success that names one; an unknown reference changes nothing |
| Webhooks.LookupStable | PastPort.API/Controllers/WebhookController.cs:125 | after a handler rewrites the payment it found, looking up the same reference finds the same position |
| Webhooks.FullyRefundedInCents | PastPort.API/Controllers/WebhookController.cs:215-220 | comparing refunded and total cents after dividing both by 100 is comparing the cents themselves |
| Webhooks.HandleStripeEvent | PastPort.API/Controllers/WebhookController.cs:120-234 | only a succeeded payment intent can touch the subscriptions; the payment the event names is rewritten as the event table says (paid now with the receipt, failed now with Stripe's message or "Unknown error", cancelled, or refunded now), nothing else in the payments changes, and a success activates the payment's subscription |
| Webhooks.StripeEventFollowsTable | PastPort.API/Controllers/WebhookController.cs:56-234 | an event changes at most the payment it names, to the status its type dictates (Refunded exactly when the refund covers the charge), sets the time, receipt or failure reason the table gives, keeps that payment's id and reference, and a succeeded intent activates its subscription |
| Webhooks.StripeWebhook | PastPort.API/Controllers/WebhookController.cs:46-115 | a signature exception answers 400 "Invalid signature", any other failure 500, both with no change; a parsed event answers 200 with the ledger exactly as the event handler leaves it; an event that sets no status, or whose payment is unknown, changes nothing |
| Webhooks.StripeLoggingOnlyEvents | PastPort.API/Controllers/WebhookController.cs:78-101 | subscription events, invoice events and unknown types are accepted with no change |
| Webhooks.StripeReplayKeepsStatus | PastPort.API/Controllers/WebhookController.cs:120-234 | delivering the same event again leaves every payment's status as the first delivery set it |
| Webhooks.CaptureIdFromLinks | PastPort.API/Controllers/WebhookController.cs:493-494 | the capture id taken from a refund's links never contains '/' |
| Webhooks.UpLinkNamesCapture | PastPort.API/Controllers/WebhookController.cs:493-494 | a first "up" link of the form `<base>/<capture id>` yields exactly that capture id |
| Webhooks.HandlePayPalEvent | PastPort.API/Controllers/WebhookController.cs:369-520 | only a refund event can fail to be handled, and an event without a resource id changes nothing |
| Webhooks.PayPalWebhook | PastPort.API/Controllers/WebhookController.cs:328-405 | an unverified signature answers 400 "Invalid signature", a null body 400 "Invalid webhook event", failures 500; the answer is 200 exactly when the signature verifies, the body holds an event and handling it succeeds, and only then does anything change |
| Webhooks.PayPalOrderEventsChangeNothing | PastPort.API/Controllers/WebhookController.cs:371-397 | order-approved, order-completed and unknown events are accepted with no change |
| Webhooks.PayPalCaptureCompleted | PastPort.API/Controllers/WebhookController.cs:421-457 | a completed capture looks its payment up by the related order id, falling back to the capture id, marks it Succeeded, paid now and referenced by the capture with no other field changed, and activates its subscription when it has one |
| Webhooks.PayPalWebhookAsWritten | PastPort.API/Controllers/WebhookController.cs:328-405 | as the controller is constructed, every PayPal delivery is answered 500 "Webhook processing failed" and changes nothing, whatever the signature and the body |
| Webhooks.PayPalAsWrittenRefusesVerifiedEvents | PastPort.API/Controllers/WebhookController.cs:343-404 | a verified event whose handling succeeds is accepted with its change by the endpoint as intended, and refused with no change by the endpoint as constructed |
| Webhooks.PayPalRefundStatus | PastPort.API/Controllers/WebhookController.cs:487-520 | the refunded payment becomes Refunded exactly when the parsed amount covers its amount, and PartiallyRefunded otherwise |
| Webhooks.PayPalRefundWithoutAmount | PastPort.API/Controllers/WebhookController.cs:501-506 | a refund event without an amount counts as "0", so it fully refunds only a payment of amount 0 or less |
| Base64.Sextet | PastPort.Infrastructure/Identity/JwtTokenService.cs:74 | each 6-bit group maps to a character of the Base64 alphabet, never the pad |
| Base64.SextetValue | PastPort.Infrastructure/Identity/JwtTokenService.cs:74 | each alphabet character maps back to the group it encodes |
| Base64.SextetInverse | PastPort.Infrastructure/Identity/JwtTokenService.cs:74 | reading back a group's character gives the group |
| Base64.Reassemble | PastPort.Infrastructure/Identity/JwtTokenService.cs:74 | the four 6-bit fields cut from three bytes put the three bytes back together |
| Base64.Encode | PastPort.Infrastructure/Identity/JwtTokenService.cs:74 | the text is four characters per started group of three bytes, made of alphabet characters with at most two trailing pads, and has no pad when the length is a multiple of three |
| Base64.BlockRoundTrip | PastPort.Infrastructure/Identity/JwtTokenService.cs:74 | decoding the four characters of a block gives back its three bytes |
| Base64.OneByteRoundTrip | PastPort.Infrastructure/Identity/JwtTokenService.cs:74 | a lone trailing byte, written with two pads, decodes back to itself |
| Base64.TwoBytesRoundTrip | PastPort.Infrastructure/Identity/JwtTokenService.cs:74 | two trailing bytes, written with one pad, decode back to themselves |
| Base64.DecodeBlockFirst | PastPort.Infrastructure/Identity/JwtTokenService.cs:74 | a whole block at the front decodes to its three bytes followed by the decoding of the rest |
| Base64.RoundTrip | PastPort.Infrastructure/Identity/JwtTokenService.cs:74 | decoding the encoding of any bytes gives back those bytes |
| RefreshTokens.GenerateRefreshToken | PastPort.Infrastructure/Identity/JwtTokenService.cs:69-75 | a token is 88 characters, ends in padding, and decodes back to the 64 random bytes it was made from |
| RefreshTokens.LastCharIsPad | PastPort.Infrastructure/Identity/JwtTokenService.cs:71-74 | the Base64 text of 64 bytes is 88 characters and its last one is '=' |
| RefreshTokens.EncodeConcat | PastPort.Infrastructure/Identity/JwtTokenService.cs:74 | encoding whole blocks and then the rest is the same as encoding the whole |
| RefreshTokens.CreateRefreshToken | PastPort.Infrastructure/Identity/JwtTokenService.cs:77-92 | the new token is appended for the user, not revoked, created now and expiring the configured number of days later |
| RefreshTokens.IndexByToken | PastPort.Infrastructure/Identity/JwtTokenService.cs:96-98 | the position of the first record carrying the token, none exactly when no record carries it |
| RefreshTokens.Revoke | PastPort.Infrastructure/Identity/JwtTokenService.cs:108-109 | revoking sets the flag and the time, and nothing else changes |
| RefreshTokens.ValidateRefreshToken | PastPort.Infrastructure/Identity/JwtTokenService.cs:94-115 | a returned token is stored, carries the string, is not revoked and not expired; a revoked first match is refused with no change, and an expired one is refused and revoked now with no other record changed; an unknown token changes nothing |
| RefreshTokens.ValidateDecision | PastPort.Infrastructure/Identity/JwtTokenService.cs:94-115 | validation succeeds exactly when the first record with the string exists, is not revoked and has not expired |
| RefreshTokens.ExpiryIsInclusive | PastPort.Infrastructure/Identity/JwtTokenService.cs:106 | a token whose expiry is exactly now is still accepted |
| RefreshTokens.RevokeRefreshToken | PastPort.Infrastructure/Identity/JwtTokenService.cs:117-128 | only the first record carrying the token is revoked, and an unknown token changes nothing |
| RefreshTokens.RevokedNeverValidates | PastPort.Infrastructure/Identity/JwtTokenService.cs:103-104 | after revocation the token never validates again, whatever the time |
| RefreshTokens.ExpiredStaysRejected | PastPort.Infrastructure/Identity/JwtTokenService.cs:106-112 | a token revoked for expiry is refused on every later attempt, without further change |
| RefreshTokens.RevokeAllUserTokens | PastPort.Infrastructure/Identity/JwtTokenService.cs:130-143 | every live token of the user is revoked and every other record is left exactly as it was |
| RefreshTokens.RevokeAllKeepsLookup | PastPort.Infrastructure/Identity/JwtTokenService.cs:130-143 | revoking all of a user's tokens keeps every token string at the same position |
| RefreshTokens.RevokeAllSeparatesUsers | PastPort.Infrastructure/Identity/JwtTokenService.cs:130-143 | afterwards none of the user's tokens validates, and other users' tokens validate exactly as before |
| AuthService.FindByEmail | PastPort.Infrastructure/Identity/AuthService.cs:29 | the first user whose address matches ignoring case, none exactly when no address matches |
| AuthService.UserById | PastPort.Infrastructure/Identity/AuthService.cs:78 | the stored user with that id, none exactly when no user has it |
| AuthService.GenerateAuthResponse | PastPort.Infrastructure/Identity/AuthService.cs:97-126 | one new refresh token for the user, not revoked and expiring seven days from now, is appended; the answer carries that token, an access expiry one hour away and the user's id, e-mail and names |
| AuthService.Register | PastPort.Infrastructure/Identity/AuthService.cs:27-47 | a taken address fails with "User already exists", a refused creation fails with the store's errors joined by ", "; registration succeeds exactly when neither happens, and then appends the user and answers for them |
| AuthService.Login | PastPort.Infrastructure/Identity/AuthService.cs:49-63 | sign-in succeeds exactly when the address is known and the password checks, and answers for that user; every failure is "Invalid credentials" |
| AuthService.LoginHidesWhichCheckFailed | PastPort.Infrastructure/Identity/AuthService.cs:51-57 | an unknown address and a wrong password produce the identical failure |
| AuthService.LiveToken | PastPort.Infrastructure/Identity/AuthService.cs:67-69 | the first record with the string that is not revoked, none exactly when there is no such record |
| AuthService.Refresh | PastPort.Infrastructure/Identity/AuthService.cs:65-79 | rotation succeeds exactly when a live record with the string exists and has not expired; it then revokes that record, appends one token for the same user and answers for them; every failure is "Invalid or expired refresh token" |
| AuthService.RegisterKeepsConsistent | PastPort.Infrastructure/Identity/AuthService.cs:27-47 | registration keeps every token tied to a stored user |
| AuthService.LoginKeepsConsistent | PastPort.Infrastructure/Identity/AuthService.cs:49-63 | sign-in keeps every token tied to a stored user |
| AuthService.RefreshKeepsConsistent | PastPort.Infrastructure/Identity/AuthService.cs:65-79 | rotation keeps every token tied to a stored user |
| AuthService.RevokeToken | PastPort.Infrastructure/Identity/AuthService.cs:81-95 | answers true; every token of the user ends up revoked; live ones are revoked now; other users' tokens are unchanged |
| AuthService.RevokedUserCannotRefresh | PastPort.Infrastructure/Identity/AuthService.cs:65-95 | after a user's tokens are revoked, none of them can be exchanged at any later time |
| AuthService.RefreshAtMostOnce | PastPort.Infrastructure/Identity/AuthService.cs:69-76 | once a token has been exchanged it cannot be exchanged again |
| AuthService.RefreshAgreesWithValidation | PastPort.Infrastructure/Identity/AuthService.cs:65-79 | with unique token strings, rotation accepts exactly the tokens the token service's validation accepts |
| PasswordReset.CodePatternMatch | PastPort.Application/DTOs/Request/ForgotPasswordRequestDto.cs:20 | a match of the code pattern always spans the whole value |
| PasswordReset.CodeIsFiveDigits | PastPort.Application/DTOs/Request/ForgotPasswordRequestDto.cs:18-21 | a code is accepted exactly when it is five characters, all decimal digits |
| PasswordReset.PasswordPatternMatchAsWritten | PastPort.Application/DTOs/Request/ForgotPasswordRequestDto.cs:35 | the password pattern as written matches exactly one character |
| PasswordReset.NoPasswordPassesAsWritten | PastPort.Application/DTOs/Request/ForgotPasswordRequestDto.cs:33-37 | as written, no new password passes both the minimum length of 8 and the whole-value pattern check |
| PasswordReset.StrongPasswordRefusedAsWritten | PastPort.Application/DTOs/Request/ForgotPasswordRequestDto.cs:33-37 | as written, "Passw0rd!" is refused although it meets every rule the error message states |
| PasswordReset.NoResetPassesAsWritten | PastPort.Application/DTOs/Request/ForgotPasswordRequestDto.cs:24-42 | as written, every reset-password request is refused |
| PasswordReset.PasswordPatternMatch | PastPort.Application/DTOs/Request/ForgotPasswordRequestDto.cs:35-36 | a match of the corrected pattern spans the whole value |
| PasswordReset.NewPasswordRule | PastPort.Application/DTOs/Request/ForgotPasswordRequestDto.cs:33-37 | with the corrected pattern, a password is accepted exactly when it has at least 8 characters, all from the allowed class, with at least one lower-case letter, one upper-case letter, one digit and one special character |
| PasswordReset.StrongPasswordAccepted | PastPort.Application/DTOs/Request/ForgotPasswordRequestDto.cs:33-37 | with the corrected pattern, "Passw0rd!" is accepted |
| PasswordReset.ResetPasswordAccepted | PastPort.Application/DTOs/Request/ForgotPasswordRequestDto.cs:24-42 | with the corrected pattern, a well-formed reset request is accepted, and a confirmation that differs from the new password is always refused |
| PasswordReset.EmailAddressRefused | PastPort.Application/DTOs/Request/ForgotPasswordRequestDto.cs:7-9 | an address that starts or ends with '@', holds no '@', or holds two '@' fails the address check |
| PasswordReset.EmailAddressShape | PastPort.Application/DTOs/Request/ForgotPasswordRequestDto.cs:7-9 | any non-empty local part and domain without '@' or line breaks, joined by '@', pass the address check |
| FileStorage.Combine | PastPort.Infrastructure/ExternalServices/Storage/LocalFileStorageService.cs:47 | joining a rooted second part gives that part alone; otherwise the result starts with the first part and ends with the second |
| FileStorage.SiblingPassesGuard | PastPort.Infrastructure/ExternalServices/Storage/LocalFileStorageService.cs:58-64 | the path guard is a bare prefix test, so a sibling directory whose name extends the root's passes it without lying below the root |
| FileStorage.RelativePath | PastPort.Infrastructure/ExternalServices/Storage/LocalFileStorageService.cs:102 | the path named by a URL is the URL with every "/uploads/" removed |
| FileStorage.MapCharIdentity | PastPort.Infrastructure/ExternalServices/Storage/LocalFileStorageService.cs:102 | mapping '/' to itself, the platform separator here, leaves the path unchanged |
| FileStorage.RelativePathNotIdempotent | PastPort.Infrastructure/ExternalServices/Storage/LocalFileStorageService.cs:102 | for every x with no "/uploads/" in "loads/" + x, rewriting "/up/uploads/loads/" + x yields "/uploads/" + x, and rewriting that again yields x: removing "/uploads/" once can create a new occurrence, so the rewrite is not idempotent |
| FileStorage.RootedUrlEscapesRoot | PastPort.Infrastructure/ExternalServices/Storage/LocalFileStorageService.cs:282-285 | a URL that starts with '/' and holds no "/uploads/" resolves to that absolute path, not below the root |
| FileStorage.LastDot | PastPort.Infrastructure/ExternalServices/Storage/LocalFileStorageService.cs:300 | the position of the last '.', none exactly when there is no '.' |
| FileStorage.GetExtension | PastPort.Infrastructure/ExternalServices/Storage/LocalFileStorageService.cs:300 | an extension is empty, or a '.' followed by at least one character, with no further '.' or separator |
| FileStorage.GetFileNameWithoutExtension | PastPort.Infrastructure/ExternalServices/Storage/LocalFileStorageService.cs:301 | the stem contains no separator |
| FileStorage.NameParts | PastPort.Infrastructure/ExternalServices/Storage/LocalFileStorageService.cs:300-301 | the stem and the extension put the file name back together, except that a trailing '.' belongs to neither |
| FileStorage.Sanitize | PastPort.Infrastructure/ExternalServices/Storage/LocalFileStorageService.cs:304-307 | keeps the length; every character outside [a-zA-Z0-9_-] becomes '_' and every other character is kept |
| FileStorage.SanitizeIdempotent | PastPort.Infrastructure/ExternalServices/Storage/LocalFileStorageService.cs:304-307 | sanitising twice is sanitising once |
| FileStorage.GenerateUniqueFileName | PastPort.Infrastructure/ExternalServices/Storage/LocalFileStorageService.cs:298-311 | the stored name has no separator, is neither "." nor "..", is the stem's length plus 9 plus the extension's, and keeps the original extension |
| FileStorage.GeneratedNameParts | PastPort.Infrastructure/ExternalServices/Storage/LocalFileStorageService.cs:310 | the stored name's extension is the original one and its stem is the sanitised stem, '_', and eight GUID characters |
| FileStorage.ContentTypesFor | PastPort.Infrastructure/ExternalServices/Storage/LocalFileStorageService.cs:318-333 | each listed extension accepts at least one content type |
| FileStorage.IsValidContentType | PastPort.Infrastructure/ExternalServices/Storage/LocalFileStorageService.cs:316-342 | an unlisted extension passes; a listed one passes exactly when the content type is present and among its types; an absent or empty type fails |
| FileStorage.ValidateFile | PastPort.Infrastructure/ExternalServices/Storage/LocalFileStorageService.cs:168-214 | a file passes only if present, non-empty, within the size limit and with an allowed lower-cased extension; when those hold it passes exactly when its content type fits |
| FileStorage.ValidateAtLimit | PastPort.Infrastructure/ExternalServices/Storage/LocalFileStorageService.cs:180 | a file exactly at the size limit passes, and one byte over fails |
| FileStorage.UploadTarget | PastPort.Infrastructure/ExternalServices/Storage/LocalFileStorageService.cs:47-55 | the file path is the folder path joined with the stored name |
| FileStorage.UploadFile | PastPort.Infrastructure/ExternalServices/Storage/LocalFileStorageService.cs:36-87 | a missing file fails with a null reference, an empty one with the upload failure, and no failure writes a file; a non-empty file always creates the folder, and succeeds exactly when the target passes the guard, writing the content there and answering "/uploads/<folder>/<name>" |
| FileStorage.DeleteFile | PastPort.Infrastructure/ExternalServices/Storage/LocalFileStorageService.cs:92-130 | deletion succeeds exactly when the URL is non-empty, its path passes the guard and the file exists; it then removes just that file, and otherwise changes nothing |
| FileStorage.GetFile | PastPort.Infrastructure/ExternalServices/Storage/LocalFileStorageService.cs:135-163 | a path failing the guard fails with the outside-root error, a missing file with a not-found error naming the URL; otherwise the stored contents |
| FileStorage.FileExists | PastPort.Infrastructure/ExternalServices/Storage/LocalFileStorageService.cs:278-291 | true exactly when a file is stored at the path the URL names, with no guard |
| FileStorage.GetFileSize | PastPort.Infrastructure/ExternalServices/Storage/LocalFileStorageService.cs:256-273 | the stored file's length, or 0 when it is missing |
| FileStorage.ExistenceProbeIgnoresRoot | PastPort.Infrastructure/ExternalServices/Storage/LocalFileStorageService.cs:256-291 | the existence check answers for an absolute path outside the root, which reading refuses |
| FileStorage.DeleteFolder | PastPort.Infrastructure/ExternalServices/Storage/LocalFileStorageService.cs:219-251 | succeeds exactly when the folder passes the guard and exists; then removes it with every file below it and keeps every other file; otherwise changes nothing |
| FileStorage.UrlNamesTarget | PastPort.Infrastructure/ExternalServices/Storage/LocalFileStorageService.cs:55-73 | for a plain folder and name, the URL an upload answers resolves to the path it wrote |
| FileStorage.UploadThenGet | PastPort.Infrastructure/ExternalServices/Storage/LocalFileStorageService.cs:36-163 | a stored upload reads back through its URL with the content that was uploaded |
| FilesController.Upload | PastPort.API/Controllers/FilesController.cs:36-191 | a file that fails the kind's check is refused with the kind's message and nothing stored; a valid file is answered 200 exactly when the store accepts it, and a store refusal is answered 400 with the store's message, the disk being the one the store left; a success is within the kind's size limit, has one of its extensions, and reports the name, URL, size and (for avatars, models and audio) the content type or the kind's default |
| FilesController.UploadedFileReadsBack | PastPort.API/Controllers/FilesController.cs:36-191 | a file a typed endpoint accepted reads back, with its content, through the URL its answer carries |
| FilesController.ExtensionListsDisjoint | PastPort.API/Controllers/FilesController.cs:18-20 | no extension is in two of the image, model and audio lists |
| FilesController.KindsAcceptDisjointExtensions | PastPort.API/Controllers/FilesController.cs:36-191 | no file is accepted by two endpoints with different extension lists |
| FilesController.RefusedUploadStoresNothing | PastPort.API/Controllers/FilesController.cs:36-191 | a refused typed upload leaves the stored files unchanged |
| FilesController.UploadOne | PastPort.API/Controllers/FilesController.cs:266-294 | a file over 5 MiB fails as "<name>: too large" with nothing stored; a file is stored exactly when it is non-empty, within 5 MiB, and the store accepts it, and then the disk is the store's and the entry carries the file's name, size and generated URL; every failure names the file and stores nothing |
| FilesController.Stages | PastPort.API/Controllers/FilesController.cs:266-294 | the files of a batch are tried in order: the first meets the starting disk and each next one the disk the previous upload left |
| FilesController.UploadEach | PastPort.API/Controllers/FilesController.cs:266-294 | one outcome per file, in order: each file's outcome is that of a single upload on the disk the earlier files left, the batch leaves the last of those disks, and every oversized file fails as too large |
| FilesController.StoredFiles | PastPort.API/Controllers/FilesController.cs:264-287 | never more stored entries than files; every stored file is listed and every listed entry is a stored file |
| FilesController.FailedMessages | PastPort.API/Controllers/FilesController.cs:264-292 | the message of every failed file is listed, and every listed message is a failed file's |
| FilesController.FailedMessagesInOrder | PastPort.API/Controllers/FilesController.cs:264-292 | the failure list keeps batch order: the messages of a batch are those of its first files followed by those of the rest |
| FilesController.PartitionCounts | PastPort.API/Controllers/FilesController.cs:264-292 | every file lands in exactly one of the stored and failed lists |
| FilesController.NothingStored | PastPort.API/Controllers/FilesController.cs:264-292 | when every file fails, the stored list is empty |
| FilesController.UploadMultiple | PastPort.API/Controllers/FilesController.cs:254-314 | an absent or empty batch is refused; otherwise the totals add up to the number of files, each total is its list's length, success means at least one file was stored, a batch of only oversized files reports every file failed, the uploaded list holds exactly the files stored one by one, the failure list holds exactly the failed files' messages in order, each reading "<file name>: <reason>", and the disk is the one the batch left |
| FilesController.Summarize | PastPort.API/Controllers/FilesController.cs:296-306 | the answer lists every stored file and only stored files, and every failure message and only those, in batch order; its totals are its lists' lengths and add up to the batch, and it succeeds exactly when a file was stored |
| FilesController.BatchReadsBack | PastPort.API/Controllers/FilesController.cs:266-287 | a file the batch stored is listed in the answer and read back through its URL after the whole batch, unless a later file of the batch was written to the same path |
| FilesController.UploadOneKeepsOthers | PastPort.API/Controllers/FilesController.cs:266-287 | storing one file of a batch neither adds, removes nor changes any other path of the disk |
| FilesController.KeptThroughStages | PastPort.API/Controllers/FilesController.cs:266-287 | a stored file that no later upload of the batch writes over stays on the disk, with its content, to the end of the batch |
| FilesController.BatchIgnoresExtension | PastPort.API/Controllers/FilesController.cs:266-287 | the batch endpoint stores a file named "<stem>.exe" within the size limit exactly when the store accepts it |
| FilesController.TypedEndpointsRefuseExecutable | PastPort.API/Controllers/FilesController.cs:36-191 | every typed endpoint refuses a file named "<stem>.exe", whatever its content and declared type |
| FilesController.DeleteFile | PastPort.API/Controllers/FilesController.cs:196-218 | a missing URL is a bad request; otherwise the answer is success exactly when the store deleted the file, and not found exactly when it did not |
| FilesController.DeleteTwiceNotFound | PastPort.API/Controllers/FilesController.cs:196-218 | deleting the same URL a second time answers not found |
| FilesController.GetFileInfo | PastPort.API/Controllers/FilesController.cs:223-249 | the info is present exactly when a file is stored at the URL's path, and then carries the URL and that file's size |
| AssetRepository.NameOrderTotal | PastPort.Infrastructure/Data/Repositories/AssetRepository.cs:18 | ordering assets by name compares every pair of assets |
| AssetRepository.GetAssetsBySceneId | PastPort.Infrastructure/Data/Repositories/AssetRepository.cs:14-20 | exactly the scene's available assets, each as often as stored, in ascending name order |
| AssetRepository.IndexByFileName | PastPort.Infrastructure/Data/Repositories/AssetRepository.cs:22-26 | the position of the first asset stored under the name, none exactly when no asset has it |
| AssetRepository.GetAssetByFileName | PastPort.Infrastructure/Data/Repositories/AssetRepository.cs:22-26 | an asset stored under exactly that file name, none exactly when there is no such asset |
| AssetRepository.GetAssetsByType | PastPort.Infrastructure/Data/Repositories/AssetRepository.cs:28-33 | exactly the available assets of the type |
| AssetRepository.AssetExists | PastPort.Infrastructure/Data/Repositories/AssetRepository.cs:35-39 | true exactly when some asset has both the file name and the hash |
| AssetRepository.ExistsAgreesWithLookup | PastPort.Infrastructure/Data/Repositories/AssetRepository.cs:22-39 | the existence test implies the lookup finds the name, and when file names are unique the test holds exactly when the found asset has that hash |
| AssetRepository.SceneAssetsAreAvailable | PastPort.Infrastructure/Data/Repositories/AssetRepository.cs:14-33 | an asset listed for a scene is also listed for its type |
| AssetRepository.IndexById | PastPort.API/Controllers/AssetsController.cs:250 | the position of the first asset with the key, none exactly when no asset has it |
| AssetRepository.GetById | PastPort.API/Controllers/AssetsController.cs:250-252 | an asset with the key, none exactly when no asset has it |
| AssetRepository.RemoveAt | PastPort.API/Controllers/AssetsController.cs:258 | removing a record keeps the records before it and shifts the ones after it down by one |
| AssetsController.ToDto | PastPort.API/Controllers/AssetsController.cs:41-52 | the DTO carries the asset's id, file name, hash, version and status |
| AssetsController.GetSceneAssets | PastPort.API/Controllers/AssetsController.cs:34-67 | the total is the number of DTOs, and the i-th DTO is the DTO of the i-th available asset the repository lists for the scene |
| AssetsController.CheckAsset | PastPort.API/Controllers/AssetsController.cs:79-114 | the result names the item; the file exists exactly when the store has it; an update is needed exactly when the client sent a non-empty hash that differs from the stored one; asset info is attached exactly when an update is needed |
| AssetsController.CheckAssets | PastPort.API/Controllers/AssetsController.cs:72-128 | one result per item, in order, each naming its item |
| AssetsController.CheckAssetsPointwise | PastPort.API/Controllers/AssetsController.cs:79-115 | each result depends on its own item alone, whatever the other items are |
| AssetsController.CheckAssetsSplits | PastPort.API/Controllers/AssetsController.cs:79-115 | checking a list in two parts gives the two answers one after the other |
| AssetsController.NoUpdateWithoutDifferentHash | PastPort.API/Controllers/AssetsController.cs:94-95 | a client sending no hash, an empty hash or the stored hash is never told to update |
| AssetsController.ContentTypeOf | PastPort.API/Controllers/AssetsController.cs:272-288 | each extension named in the switch maps to its media type, and every other extension maps to application/octet-stream |
| AssetsController.HexDigit | PastPort.API/Controllers/AssetsController.cs:294 | a nibble is written as a lower-case hex digit |
| AssetsController.UpperHexDigit | PastPort.API/Controllers/AssetsController.cs:294 | the upper-case digit is never a dash and lower-cases to the lower-case digit |
| AssetsController.ToHex | PastPort.API/Controllers/AssetsController.cs:294 | two lower-case hex digits per byte |
| AssetsController.ToLowerConcat | PastPort.API/Controllers/AssetsController.cs:294 | lower-casing distributes over concatenation |
| AssetsController.ReplaceDashPrefix | PastPort.API/Controllers/AssetsController.cs:294 | text without a dash passes unchanged through dash removal |
| AssetsController.HashTextIsHex | PastPort.API/Controllers/AssetsController.cs:290-295 | the stored hash text is exactly the lower-case hex of the digest |
| AssetsController.HexValue | PastPort.API/Controllers/AssetsController.cs:294 | a hex digit reads back as a nibble |
| AssetsController.FromHex | PastPort.API/Controllers/AssetsController.cs:294 | hex text reads back to half as many bytes |
| AssetsController.HexDigitRoundTrip | PastPort.API/Controllers/AssetsController.cs:294 | reading back the digit of a nibble gives the nibble |
| AssetsController.HexRoundTrip | PastPort.API/Controllers/AssetsController.cs:290-295 | the hash text determines the digest: reading it back gives the digest |
| AssetsController.FolderFor | PastPort.API/Controllers/AssetsController.cs:177-184 | each asset type maps to one of the five folders, and "assets" exactly for types other than model, texture, audio and animation |
| AssetsController.UploadAsset | PastPort.API/Controllers/AssetsController.cs:161-239 | a missing or empty file is refused with no change; a failure adds no record; a success stored the file in its type's folder, read it back, and appended one record with the URL's last segment as file name, the hash of the content read, version "1.0.0" and status Available, answering that record's DTO with the status left empty, since the answer never sets it |
| AssetsController.UploadedAssetRecord | PastPort.API/Controllers/AssetsController.cs:161-239 | after a successful upload the record carries the generated file name and the hex of the content's digest, and a client check with that name and hash reports the asset current |
| AssetsController.UploadAssetAppends | PastPort.API/Controllers/AssetsController.cs:190-231 | when the file is stored and reads back, the upload appends the record built from the URL, the last URL segment and the digest of the content, and answers its DTO with the status left empty |
| AssetsController.DownloadAsset | PastPort.API/Controllers/AssetsController.cs:133-156 | an unknown file name answers "Asset not found" exactly; a record whose file is missing answers "Asset file not found on server"; a success serves that file's contents under the requested name with the name's media type |
| AssetsController.DeleteAsset | PastPort.API/Controllers/AssetsController.cs:244-269 | an unknown key answers "Asset not found" with no change; otherwise the record is removed and answered with success, whether or not the file could be deleted |
| AssetsController.DeletedAssetIsGone | PastPort.API/Controllers/AssetsController.cs:244-269 | when keys are unique, the deleted asset can no longer be found by its key |
| UnityAssetsController.SearchAsset | PastPort.API/Controllers/UnityAssetsController.cs:30-68 | an absent or empty name is refused exactly; no match answers "Asset not found"; when some stored asset's name equals the query ignoring case the search succeeds, with the first such asset |
| UnityAssetsController.SearchIgnoresCase | PastPort.API/Controllers/UnityAssetsController.cs:41-42 | two queries equal ignoring case get the same answer |
| UnityAssetsController.GetContentType | PastPort.API/Controllers/UnityAssetsController.cs:180-195 | the same media types as the other asset endpoint, except that a PDF is served as application/octet-stream |
| UnityAssetsController.ContentTypesDifferOnlyOnPdf | PastPort.API/Controllers/UnityAssetsController.cs:180-195 | the two endpoints' media types differ exactly for files with a .pdf extension |
| UnityAssetsController.DownloadAsset | PastPort.API/Controllers/UnityAssetsController.cs:109-134 | an unknown key answers "Asset not found" exactly; a record whose file is missing answers "File not found on server"; a success serves the stored file under the asset's file name with its media type |
| UnityAssetsController.VerifyAsset | PastPort.API/Controllers/UnityAssetsController.cs:140-177 | an unknown key answers "Asset not found" exactly; otherwise the asset is reported with whether its file exists, whether the hashes match, and a download is needed exactly when either fails |
| UnityAssetsController.FreshnessChecksCompared | PastPort.API/Controllers/UnityAssetsController.cs:150-160 | an update the asset-check endpoint asks for is also a download here; an empty client hash is never an update there but is a download here unless the stored hash is empty too |
| SceneRepository.CharactersOf | PastPort.Infrastructure/Data/Repositories/SceneRepository.cs:36-41 | exactly the characters whose foreign key names the scene |
| SceneRepository.WithCharacters | PastPort.Infrastructure/Data/Repositories/SceneRepository.cs:36-41 | loading changes only the scene's character list, which then holds exactly the characters of that scene |
| SceneRepository.LoadAll | PastPort.Infrastructure/Data/Repositories/SceneRepository.cs:18-34 | each scene of a list with its characters loaded, in order |
| SceneRepository.GetByEra | PastPort.Infrastructure/Data/Repositories/SceneRepository.cs:18-24 | every scene whose era equals the query ignoring case is listed with its characters, and nothing else is listed |
| SceneRepository.SearchScenes | PastPort.Infrastructure/Data/Repositories/SceneRepository.cs:26-34 | every scene whose title, description or era contains the term is listed with its characters, and nothing else is listed |
| SceneRepository.EmptySearchListsAll | PastPort.Infrastructure/Data/Repositories/SceneRepository.cs:26-34 | searching for the empty term lists every scene |
| SceneRepository.IndexById | PastPort.Infrastructure/Identity/ScaneService.cs:66-68 | the position of the first scene with the key, none exactly when no scene has it |
| SceneRepository.GetSceneWithCharacters | PastPort.Infrastructure/Data/Repositories/SceneRepository.cs:36-41 | none exactly when no scene has the key; otherwise a stored scene with that key, with its characters loaded |
| SceneRepository.GetById | PastPort.Infrastructure/Identity/ScaneService.cs:66-68 | none exactly when no scene has the key; otherwise a stored scene with that key, as stored |
| SceneRepository.WithCharactersIdempotent | PastPort.Infrastructure/Data/Repositories/SceneRepository.cs:36-41 | loading a scene's characters twice is loading them once |
| SceneService.MapToResponse | PastPort.Infrastructure/Identity/ScaneService.cs:105-127 | the answer carries the scene's id, title, era, model URL and times, one summary per loaded character in order with its id and name, and their count |
| SceneService.MapAll | PastPort.Infrastructure/Identity/ScaneService.cs:46-62 | one answer per scene, in order |
| SceneService.CreateScene | PastPort.Infrastructure/Identity/ScaneService.cs:18-35 | one scene is appended with the request's fields, an absent model URL stored as "", created now and never updated, and answered with no characters; nothing else changes |
| SceneService.GetSceneById | PastPort.Infrastructure/Identity/ScaneService.cs:37-44 | "Scene not found" exactly when no scene has the key; otherwise the answer for that scene with its characters loaded |
| SceneService.GetAllScenes | PastPort.Infrastructure/Identity/ScaneService.cs:46-50 | one answer per stored scene, in order, each the scene's own answer, counting only the characters the record holds |
| SceneService.ListedSceneReadsBack | PastPort.Infrastructure/Identity/ScaneService.cs:36-50 | reading a listed scene by its key answers the same fields, with only the character summaries loaded afresh |
| SceneService.MapAllMembers | PastPort.Infrastructure/Identity/ScaneService.cs:46-62 | every scene of a list has its answer in the mapped list, and every mapped answer comes from one of the scenes |
| SceneService.GetScenesByEra | PastPort.Infrastructure/Identity/ScaneService.cs:52-56 | every answer's era equals the query ignoring case, and every such stored scene is answered with its characters |
| SceneService.SearchScenesResponse | PastPort.Infrastructure/Identity/ScaneService.cs:58-62 | every stored scene whose title, description or era contains the term is answered with its characters, and every answer is such a scene's; there are no more answers than scenes |
| SceneService.EmptySearchAnswersAll | PastPort.Infrastructure/Identity/ScaneService.cs:58-62 | searching for the empty term answers every stored scene with its characters |
| SceneService.Overwrite | PastPort.Infrastructure/Identity/ScaneService.cs:70-83 | a field keeps its value for an absent or empty update and takes any other update |
| SceneService.ApplyUpdate | PastPort.Infrastructure/Identity/ScaneService.cs:64-93 | the five text fields change only to present, non-empty values; the model URL takes any present value, "" included; the update time becomes now; id, creation time and characters are kept |
| SceneService.UpdateIdempotent | PastPort.Infrastructure/Identity/ScaneService.cs:64-93 | applying an update twice is applying it once, apart from the time stamp |
| SceneService.EmptyUpdateOnlyStamps | PastPort.Infrastructure/Identity/ScaneService.cs:70-88 | an update whose fields are all absent or empty only sets the update time |
| SceneService.EmptyModelUrlClears | PastPort.Infrastructure/Identity/ScaneService.cs:70-86 | an empty model URL clears the stored one, while an empty title leaves the title alone |
| SceneService.UpdateScene | PastPort.Infrastructure/Identity/ScaneService.cs:64-93 | an unknown key fails with "Scene not found" and no change; otherwise only that scene is replaced by its update, which is answered |
| SceneService.DeleteScene | PastPort.Infrastructure/Identity/ScaneService.cs:95-103 | an unknown key fails with "Scene not found" and no change; otherwise the scene is removed, answered true, exactly the characters of other scenes remain, and the assets that named the scene lose their scene reference |
| SceneService.ClearScene | PastPort.Infrastructure/Data/ApplicationDbContext.cs:71-75 | after the set-null rule no asset names the scene, each asset keeps every other field, and assets of other scenes are untouched |
| SceneService.DeletedSceneListsNoAssets | PastPort.Infrastructure/Data/ApplicationDbContext.cs:71-75 | after a scene is deleted its asset listing is empty, and every other scene lists exactly the assets, in the order, it listed before |
| SceneService.ClearedSceneListsNothing | PastPort.Infrastructure/Data/ApplicationDbContext.cs:71-75 | once the scene reference is cleared, no asset is listed for that scene |
| SceneService.ClearKeepsOtherScenes | PastPort.Infrastructure/Data/ApplicationDbContext.cs:71-75 | clearing one scene's reference leaves every other scene's asset listing unchanged |
| SceneService.UpdateThenGet | PastPort.Infrastructure/Identity/ScaneService.cs:37-93 | reading a scene after updating it answers the updated fields with the scene's characters loaded |
| CharacterService.CharacterIndex | PastPort.Infrastructure/Data/Repositories/CharacterRepository.cs:21-26 | the position of the first character with the key, none exactly when no character has it |
| CharacterService.SceneOf | PastPort.Infrastructure/Data/Repositories/CharacterRepository.cs:21-26 | the stored scene the character's foreign key names, none exactly when no scene has that key |
| CharacterService.MapToResponse | PastPort.Infrastructure/Identity/CharacterService.cs:119-134 | the answer carries the character's id, name, scene id and creation time, and the loaded scene's title, or "" when none is loaded |
| CharacterService.GetCharacterWithScene | PastPort.Infrastructure/Data/Repositories/CharacterRepository.cs:21-26 | none exactly when no character has the key; otherwise the answer for the first such character with its scene |
| CharacterService.CreateCharacter | PastPort.Infrastructure/Identity/CharacterService.cs:22-47 | an unknown scene fails with "Scene not found" and no change; otherwise exactly one character is appended with the request's fields, absent voice and avatar stored as "", created now; with a fresh key the answer is that character with its scene's title |
| CharacterService.CreateThenGet | PastPort.Infrastructure/Identity/CharacterService.cs:22-56 | with a fresh key, reading the created character back gives the answer the creation returned |
| CharacterService.GetCharacterById | PastPort.Infrastructure/Identity/CharacterService.cs:49-56 | "Character not found" exactly when no character has the key; otherwise the answer is the first character with that key, with its scene, as the loading lookup gives it |
| CharacterService.ReloadEach | PastPort.Infrastructure/Identity/CharacterService.cs:58-71 | never more answers than characters, each the re-read of one of them, and one per character when all are stored |
| CharacterService.GetAllCharacters | PastPort.Infrastructure/Identity/CharacterService.cs:58-71 | one answer per stored character, each the re-read of a stored character |
| CharacterService.ReloadStored | PastPort.Infrastructure/Identity/CharacterService.cs:65 | with unique keys, re-reading a stored character gives that character with its scene |
| CharacterService.ReloadEachInOrder | PastPort.Infrastructure/Identity/CharacterService.cs:58-71 | with unique keys, the i-th answer describes the i-th stored character |
| CharacterService.GetCharactersBySceneId | PastPort.Infrastructure/Identity/CharacterService.cs:73-77 | one answer per character of the scene, in order, each that character with its scene; every stored character of the scene is answered |
| CharacterService.SceneListAgreesWithLookup | PastPort.Infrastructure/Identity/CharacterService.cs:49-77 | with unique keys, each character listed for a scene is exactly what reading it by its key answers |
| CharacterService.ApplyUpdate | PastPort.Infrastructure/Identity/CharacterService.cs:85-101 | the four text fields change only to present, non-empty values; voice and avatar take any present value, "" included; id, scene and creation time are kept |
| CharacterService.UpdateIdempotent | PastPort.Infrastructure/Identity/CharacterService.cs:85-101 | applying an update twice is applying it once |
| CharacterService.UpdateCharacter | PastPort.Infrastructure/Identity/CharacterService.cs:79-107 | an unknown key fails with "Character not found" and no change; otherwise only that character is replaced by its update, which is answered with its scene |
| CharacterService.DeleteCharacter | PastPort.Infrastructure/Identity/CharacterService.cs:109-117 | an unknown key fails with "Character not found" and no change; otherwise exactly that character is removed and the answer is true |
| ConversationRepository.GetUserConversations | PastPort.Infrastructure/Data/Repositories/ConversationRepository.cs:13-19 | exactly the user's exchanges, each as often as stored, newest first |
| ConversationRepository.GetConversationsByCharacter | PastPort.Infrastructure/Data/Repositories/ConversationRepository.cs:21-28 | exactly the character's exchanges with any user, each as often as stored, newest first |
| ConversationRepository.GetUserConversationsWithCharacter | PastPort.Infrastructure/Data/Repositories/ConversationRepository.cs:30-38 | exactly the exchanges between the user and the character, each as often as stored, oldest first |
| ConversationRepository.HistoryIsBothQueries | PastPort.Infrastructure/Data/Repositories/ConversationRepository.cs:13-38 | the history holds exactly the entries of the user's list that involve the character, and exactly those of the character's list that involve the user, and is never longer than the user's list |
| MockAI.ContainsMiddle | PastPort.Infrastructure/ExternalServices/AI/MockAIConversationService.cs:14-17 | a text occurs inside any text that places it between two others |
| MockAI.GenerateCharacterResponse | PastPort.Infrastructure/ExternalServices/AI/MockAIConversationService.cs:8-20 | the reply starts with "[<name> responds]: ", quotes the user's message right after "You asked: '" and closes the quote, whatever the history |
| MockAI.ReplyMentionsRole | PastPort.Infrastructure/ExternalServices/AI/MockAIConversationService.cs:14 | the reply names the character's role |
| MockAI.ReplyMentionsBackground | PastPort.Infrastructure/ExternalServices/AI/MockAIConversationService.cs:16 | the reply names the character's background |
| MockAI.QuotedMessage | PastPort.Infrastructure/ExternalServices/AI/MockAIConversationService.cs:14-17 | a message is read out of a text exactly when the text is the template around that message |
| MockAI.QuotedMessageRoundTrip | PastPort.Infrastructure/ExternalServices/AI/MockAIConversationService.cs:8-20 | the user's message can be read back out of every reply |
| MockAI.RepliesDependOnlyOnMessage | PastPort.Infrastructure/ExternalServices/AI/MockAIConversationService.cs:8-20 | two replies of one character are equal exactly when the messages are equal, whatever the histories |
| ConversationService.FindCharacter | PastPort.Infrastructure/Identity/ConversationService.cs:30-32 | a stored character with the key, none exactly when no character has it |
| ConversationService.Flatten | PastPort.Infrastructure/Identity/ConversationService.cs:38-40 | each exchange contributes its user message and then its reply, in order, so the list is twice as long as the history |
| ConversationService.ToResponse | PastPort.Infrastructure/Identity/ConversationService.cs:61-70 | the answer carries the exchange's fields and the given character name |
| ConversationService.CreateConversation | PastPort.Infrastructure/Identity/ConversationService.cs:25-71 | an unknown character fails with "Character not found" exactly, with no change; otherwise one exchange is appended, holding the message and the reply generated from the flattened history, and answered with the character's name |
| ConversationService.HistoryAppend | PastPort.Infrastructure/Identity/ConversationService.cs:35-59 | appending an exchange between the two adds exactly that exchange to their history |
| ConversationService.CreateExtendsHistory | PastPort.Infrastructure/Identity/ConversationService.cs:25-71 | after a message is stored, the history for the next message holds it, its text and every earlier exchange, and is one longer |
| ConversationService.FilterAppend | PastPort.Infrastructure/Data/Repositories/ConversationRepository.cs:35 | filtering a concatenation is filtering each part |
| ConversationService.MockReplyQuotesMessage | PastPort.Infrastructure/Identity/ConversationService.cs:43-55 | with the stand-in generator, the stored reply quotes the user's message |
| ConversationService.NameOf | PastPort.Infrastructure/Identity/ConversationService.cs:80-86 | the character's name when the character is stored, "Unknown" otherwise |
| ConversationService.NameEach | PastPort.Infrastructure/Identity/ConversationService.cs:78-91 | one answer per exchange, in order, each named after its own character |
| ConversationService.NameAll | PastPort.Infrastructure/Identity/ConversationService.cs:111-120 | one answer per exchange, in order, each under the one given name |
| ConversationService.GetUserConversations | PastPort.Infrastructure/Identity/ConversationService.cs:73-94 | the user's list in the repository's order, each entry named after its character or "Unknown", all of the user, newest first |
| ConversationService.GetConversationHistoryWithCharacter | PastPort.Infrastructure/Identity/ConversationService.cs:96-122 | an unknown character fails with "Character not found" exactly; otherwise the history names the character, oldest first, one entry per exchange between the two |
| ConversationService.ListAndHistoryAgree | PastPort.Infrastructure/Identity/ConversationService.cs:73-122 | every entry of the user's list with a known character appears identically in the history with that character, and every history entry is in the list |
| ConversationService.InHistory | PastPort.Infrastructure/Identity/ConversationService.cs:73-122 | an entry of the user's list with the character is named the same in the history |
| ConversationService.InList | PastPort.Infrastructure/Identity/ConversationService.cs:73-122 | an entry of the history appears in the user's list with the same name |
| Domain.AllPlansListed | PastPort.Domain/Enums/SubscriptionPlan.cs:3-10 | every plan is in the list of plans, at the position of its enum value |
| InvoiceRepository.Numbers | PastPort.Infrastructure/Data/Repositories/InvoiceRepository.cs:35-37 | one number per stored invoice, in store order |
| InvoiceRepository.SequenceAsWritten | PastPort.Infrastructure/Data/Repositories/InvoiceRepository.cs:44-47 | a sequence read back is never negative, since the fourth field holds no '-', and fits in a 32-bit signed integer |
| Text.TryParseInt32 | PastPort.Infrastructure/Data/Repositories/InvoiceRepository.cs:45 | a parsed value fits in 32 bits; text of digits only parses to its value when that fits and fails otherwise; text without '-' never parses to a negative value |
| Text.ParseSignedDigits | PastPort.Infrastructure/Data/Repositories/InvoiceRepository.cs:45 | digits with an optional '+' or '-' and white space around them parse to their value or its negation, and fail when it does not fit in 32 bits |
| Text.TrimWhiteStart | PastPort.Infrastructure/Data/Repositories/InvoiceRepository.cs:45 | the white space removed is exactly the longest leading run of tab, line-feed, vertical-tab, form-feed, carriage-return and space characters |
| Text.TrimWhiteEnd | PastPort.Infrastructure/Data/Repositories/InvoiceRepository.cs:45 | the white space removed is exactly the longest trailing run of those characters |
| Text.AddInt32 | PastPort.Infrastructure/Data/Repositories/InvoiceRepository.cs:47 | the unchecked 32-bit sum lies in the 32-bit range and differs from the true sum by a multiple of 2^32 |
| Text.AddInt32InRange | PastPort.Infrastructure/Data/Repositories/InvoiceRepository.cs:47 | a sum that fits in 32 bits is unchanged by the wrap-around |
| Text.SplitPiecesOmitSeparator | PastPort.Infrastructure/Data/Repositories/InvoiceRepository.cs:44 | no field of a split contains the separator |

## Left out

- Host wiring, middleware, the database context and logging are configuration, not behaviour. `LogPaymentTransaction` in the webhook controller stores nothing, so it is not modelled.
- Thin forwarding controllers are not modelled: Auth, ExternalAuth, Scenes, Characters, Conversations, Subscriptions, Payments, PayPal, Users, Test and BaseApiController. They only shape status codes around the modelled services.
- Provider SDK and HTTP calls are parameters: the Stripe service objects, the HTTP PayPal service, Stripe's event construction and PayPal's signature verification. Each is the `Result` it produced, or the boolean it answered.
- JWT access-token signing (`GenerateAccessTokenAsync`) is cryptography and is not modelled. The model's auth response therefore has no access-token field; it keeps the refresh token, the expiry and the user.
- Random bytes, GUIDs, MD5, identity password hashing and lockout are not modelled. Fresh ids, token strings, GUID text and the digest function are parameters. `GuidText` states only the shape of a GUID's text that the file-name code relies on.
- File-system effects are modelled as a map from full path to file contents together with the set of created directories; storing a file adds its folder. `Path.GetFullPath` is an abstract normaliser carried by the volume. Windows path rules and I/O errors other than "not found" are not modelled.
- Text comparison that ignores case folds ASCII letters only. Culture-specific and Unicode case rules are not modelled, and neither is a database collation.
- Entity Framework change tracking and navigation fix-up are not modelled. A scene's characters are loaded by filtering the character store. Deleting a scene removes its characters, as the required foreign key cascades, and clears the scene reference of its assets, as the optional one is set to null.
- The generic repository base class is not part of this model. Lookups by id are taken as the first record with that id, and adds as appends.
- `UserService` and the email services are not modelled: one forwards to the identity manager, the others only write to the console.
- `CharacterRepository` is not modelled separately. Its two lookups are the filters used in `CharacterService`.
- The revenue aggregates (`GetTotalRevenueAsync`, `GetRevenueByDateRangeAsync`) are undefined in the repositories, so the model's statistics do not include the two revenue figures.
- `CreatePaymentIntent`, `ProcessPayment` and `CreatePayPalOrder` in `PaymentService` are not modelled: each stores a pending payment built from a provider answer, and the checkout flow models that shape. The second constructor and the undefined settings field near the end of that file do not compile and are ignored.
- The `InitiatePayment` and `CompletePayment` copies inside `SubscriptionService.cs` (its first half) and its `CompletePayment` near the end are not modelled separately. The same flow is modelled once, from `SubscriptionServiceWithPayment.cs`.
- `GetActiveSubscriptionAsync` and `GetUserSubscriptionsAsync` in `SubscriptionService` only map the repository queries, and those queries are modelled.
- UnityAssetsController.GetSceneAssets is not modelled separately: it runs the same query as `AssetsController.GetSceneAssets` and differs only in the shape of the answer.
- The refund record built in `RefundPaymentAsync` is never saved, so the model stores none.
- The Stripe subscription and invoice webhook events only log. They are modelled as events that change nothing.
- Concurrent webhook delivery and interleaved requests are not modelled. Each operation runs alone.
- The unused `MaxTotalUploadSize` constant of the local file storage service (`LocalFileStorageService.cs:15`) is not modelled.
- `DetachPaymentMethodAsync` of the Stripe service is not modelled: it maps every exception to `false`, and its only caller, `DeletePaymentMethodAsync`, ignores the answer.
- StripeGateway.ToCents: the conversion to a 64-bit `long` is modelled as truncation toward zero on unbounded integers, so overflow for amounts beyond the `long` range is not modelled.
- AuthService.Refresh: requires that every stored refresh token names a stored user, the foreign-key invariant the database keeps. The register and login lemmas show that the operations preserve it.
- AssetsController.GetContentType: carries no contract of its own. What it states is proved against the Unity controller's map in `UnityAssetsController.ContentTypesDifferOnlyOnPdf`.
- PaymentService.GenerateInvoice: numbers the invoice with the corrected generator `InvoiceRepository.GenerateInvoiceNumber`, not the program's, which can hand out a stored number again once a month passes sequence 9999 (see Findings). The capture path (`RecordCapture`) issues its invoice through it too. While the month's numbers were issued one after another up to 9999 the two generators agree (`PaymentService.GenerateInvoiceMatchesRepository`, `InvoiceRepository.GenerateAgreesWithAsWritten`).
- PaymentService.GenerateInvoiceKeepsNumbersUnique: holds for the corrected generator; the program's own generator breaks it after sequence 9999 (`InvoiceRepository.GenerateAsWrittenRepeatsAfter9999`).
- PasswordReset.CodePatternMatch: reads `\d` as the ASCII digits 0-9. .NET's `\d` matches every Unicode decimal digit (Arabic-Indic digits, for example), which the program accepts and the model refuses.
- PasswordReset.CodeIsFiveDigits: the same ASCII reading of `\d`; a five-character code of other Unicode decimal digits passes the program's check but not the model's.
- PasswordReset.NewPasswordRule: the digit lookahead is read as ASCII 0-9, so a password whose only digit is a non-ASCII decimal digit is refused by the model but satisfies that lookahead in .NET.
- PasswordReset.PasswordPatternMatch: the same ASCII reading of `\d` in the digit lookahead.
- PasswordReset.PasswordPatternMatchAsWritten: the same ASCII reading of `\d` in the digit lookahead.
- Text.TryParseInt32: trailing NUL characters, which .NET also trims, and culture-specific sign symbols are not modelled; the sign is ASCII `-` or `+`.
- Webhooks.PayPalWebhook: models the endpoint with its PayPal service and settings in place, as evidently intended. As constructed, the controller never receives them, and every PayPal delivery answers 500 (`Webhooks.PayPalWebhookAsWritten`, see Findings).
- PaymentRepository.IndexByProviderId: the payment repository neither declares nor defines `GetPaymentByProviderIdAsync`, which the payment service and the webhook controller call. The model reads it as the first payment whose provider reference equals the key, the reading `FirstOrDefault` gives the other lookups of the same repository.
- PaymentRepository.GetByDateRange: `GetPaymentsByDateRangeAsync` is likewise called but never declared or defined. The model reads it as the payments created within the closed interval from start to end, in store order.
- RefreshTokens.Revoke: `RevokedAt` is declared as text (`RefreshToken.cs:11`), yet the token service assigns it a `DateTime` and the auth service the text of `DateTime.UtcNow`. The model stores the revocation instant as an `Option<Instant>`, since both writers record the same moment and the text form has no behaviour of its own.
- AuthService.GenerateAuthResponse: the auth service calls `GenerateAccessToken` and `GenerateRefreshToken`, which the token-service interface does not declare; it declares only their `Async` forms. The model reads them as the declared methods: the refresh token text is a parameter standing for what `GenerateRefreshTokenAsync` produces (`RefreshTokens.GenerateRefreshToken`), and the signed access token is left out with the rest of the signing.
- FileStorage.Sanitize: maps each Unicode scalar value. .NET walks UTF-16 code units, so a character outside the Basic Multilingual Plane becomes "__" in the program and "_" in the model.
- PaymentService.GetPaymentStatistics: states the counts and the average over the payments in range. The total and ranged revenue are not part of the result, since their queries are not shown.

## Findings

| source | as written | input that shows it | evidently intended | confidence | as-written member | corrected member |
|---|---|---|---|---|---|---|
| PastPort.Infrastructure/Data/Repositories/InvoiceRepository.cs:37-47 | the next sequence comes from the greatest stored number of the month by string order, and "INV-2025-01-9999" sorts after "INV-2025-01-10000" | the month's stored numbers are INV-2025-01-9999 and INV-2025-01-10000; the generator yields INV-2025-01-10000 again, which the unique index then refuses | the next number follows the numerically greatest sequence of the month, so it is never a stored number | medium, not executed | InvoiceRepository.GenerateAsWrittenRepeatsAfter9999 | InvoiceRepository.GenerateInvoiceNumber |
| PastPort.Application/DTOs/Request/ForgotPasswordRequestDto.cs:35 | the new-password pattern is four lookaheads followed by a single character class with no repetition and no end anchor; the validation attribute accepts only a match covering the whole value | "Passw0rd!" meets the length rule and every character rule, but it is refused because the pattern can only match a value of one character | the class is repeated to the end of the value, so a password of 8 or more allowed characters with one of each kind passes | high, not executed | PasswordReset.StrongPasswordRefusedAsWritten | PasswordReset.StrongPasswordAccepted |
| PastPort.API/Controllers/WebhookController.cs:25-39 | the constructor takes no PayPal service or PayPal settings, so `_paypalService` and `_paypalSettings` stay null; the signature check at line 345 dereferences them, the exception is caught at line 401 and the answer is 500 | any PayPal delivery, for example a correctly signed PAYMENT.CAPTURE.COMPLETED event for a stored order: the payment stays unchanged and the answer is 500 "Webhook processing failed" | the PayPal service and settings are injected, the signature is verified, and a verified event is handled and answered with 200 | high, not executed | Webhooks.PayPalAsWrittenRefusesVerifiedEvents | Webhooks.PayPalWebhook |

=== FILE: asset_repository.dfy ===
/** The asset queries of the data layer over a store held in insertion order.
    The generic base repository (lookup by key, listing, adding, removing) is
    not part of this model; its lookup by key is taken to be the first
    record with that key. Names are ordered ordinally. */
module AssetRepository {
  import opened Wrappers
  import opened Seqs
  import opened Text
  import opened Domain

  type Store = seq<Asset>

  predicate NameNoLater(a: Asset, b: Asset) {
    LexLe(a.Name, b.Name)
  }

  lemma NameOrderTotal()
    ensures Total(NameNoLater)
  {
    forall a: Asset, b: Asset ensures NameNoLater(a, b) || NameNoLater(b, a) {
      LexLeTotal(a.Name, b.Name);
    }
  }

  predicate InScene(a: Asset, sceneId: Guid) {
    a.SceneId == Some(sceneId) && a.Status == Available
  }

  /** The available assets of a scene, by name. */
  function GetAssetsBySceneId(store: Store, sceneId: Guid): (r: seq<Asset>)
    ensures forall a :: a in r <==> a in store && a.SceneId == Some(sceneId) && a.Status == Available
    ensures multiset(r) == multiset(Filter(store, (a: Asset) => InScene(a, sceneId)))
    ensures forall i :: 0 < i < |r| ==> LexLe(r[i - 1].Name, r[i].Name)
  {
    var mine := Filter(store, (a: Asset) => InScene(a, sceneId));
    NameOrderTotal();
    var r := SortBy(mine, NameNoLater);
    SameElements(r, mine);
    r
  }

  function IndexByFileName(store: Store, fileName: string): (r: Option<nat>)
    ensures r.Some? ==> r.value < |store| && store[r.value].FileName == fileName &&
                        forall j :: 0 <= j < r.value ==> store[j].FileName != fileName
    ensures r.None? <==> forall j :: 0 <= j < |store| ==> store[j].FileName != fileName
  {
    FindIndex(store, (a: Asset) => a.FileName == fileName)
  }

  /** The first asset stored under exactly that file name. */
  function GetAssetByFileName(store: Store, fileName: string): (r: Option<Asset>)
    ensures r.Some? ==> r.value in store && r.value.FileName == fileName
    ensures r.None? <==> forall a :: a in store ==> a.FileName != fileName
  {
    match IndexByFileName(store, fileName)
    case None => None
    case Some(i) => Some(store[i])
  }

  /** The available assets of one type, in store order. */
  function GetAssetsByType(store: Store, t: AssetType): (r: seq<Asset>)
    ensures forall a :: a in r <==> a in store && a.Type == t && a.Status == Available
    ensures |r| <= |store|
  {
    Filter(store, (a: Asset) => a.Type == t && a.Status == Available)
  }

  /** Whether some asset has both that file name and that hash. */
  function AssetExists(store: Store, fileName: string, fileHash: string): (r: bool)
    ensures r <==> exists i :: 0 <= i < |store| && store[i].FileName == fileName && store[i].FileHash == fileHash
  {
    FindIndex(store, (a: Asset) => a.FileName == fileName && a.FileHash == fileHash).Some?
  }

  /** The existence test and the lookup by file name agree whenever the name
      is unique; with duplicates the existence test may see a later record
      the lookup never returns. */
  lemma ExistsAgreesWithLookup(store: Store, fileName: string, fileHash: string)
    ensures AssetExists(store, fileName, fileHash) ==> GetAssetByFileName(store, fileName).Some?
    ensures GetAssetByFileName(store, fileName).Some? && GetAssetByFileName(store, fileName).value.FileHash == fileHash ==>
              AssetExists(store, fileName, fileHash)
    ensures (forall i, j :: 0 <= i < j < |store| ==> store[i].FileName != store[j].FileName) ==>
              (AssetExists(store, fileName, fileHash) <==>
                 GetAssetByFileName(store, fileName).Some? && GetAssetByFileName(store, fileName).value.FileHash == fileHash)
  {
    match IndexByFileName(store, fileName)
    case None =>
    case Some(k) =>
      assert store[k] in store;
  }

  /** A scene's list holds no asset of another scene, and a type's list no
      asset that is not available. */
  lemma SceneAssetsAreAvailable(store: Store, sceneId: Guid, t: AssetType, a: Asset)
    requires a in GetAssetsBySceneId(store, sceneId)
    requires a.Type == t
    ensures a in GetAssetsByType(store, t)
  {
  }

  // ---------------------------------------------------------------- base repository

  function IndexById(store: Store, id: Guid): (r: Option<nat>)
    ensures r.Some? ==> r.value < |store| && store[r.value].Id == id
    ensures r.None? <==> forall j :: 0 <= j < |store| ==> store[j].Id != id
  {
    FindIndex(store, (a: Asset) => a.Id == id)
  }

  function GetById(store: Store, id: Guid): (r: Option<Asset>)
    ensures r.Some? ==> r.value in store && r.value.Id == id
    ensures r.None? <==> forall a :: a in store ==> a.Id != id
  {
    match IndexById(store, id)
    case None => None
    case Some(i) => Some(store[i])
  }

  /** Removes the record at position `i`. */
  function RemoveAt(store: Store, i: nat): (r: Store)
    requires i < |store|
    ensures |r| == |store| - 1
    ensures forall j :: 0 <= j < i ==> r[j] == store[j]
    ensures forall j :: i <= j < |r| ==> r[j] == store[j + 1]
  {
    store[..i] + store[i + 1..]
  }
}

=== FILE: assets_controller.dfy ===
/** The asset endpoints used by the client application: listing a scene's
    assets, checking local copies against the server's hashes, downloading,
    and the administrator's upload and delete. The digest behind the stored
    hash (MD5) is a parameter; only its text encoding is modelled. */
module AssetsController {
  import opened Wrappers
  import opened Seqs
  import opened Text
  import opened Domain
  import opened FileStorage
  import opened AssetRepository

  /** An endpoint's answer: 200 with data, 404 or 400 with a message. */
  datatype Response<T> = Success(data: T) | NotFound(message: string) | BadRequest(error: string)

  /** `Status` is `None` where the DTO keeps its initial empty text. */
  datatype AssetDto = AssetDto(
    Id: Guid, Name: string, FileName: string, Type: AssetType, FileUrl: string,
    FileSize: int, FileHash: string, Version: string, Status: Option<AssetStatus>)

  function ToDto(a: Asset): (r: AssetDto)
    ensures r.Id == a.Id && r.FileName == a.FileName && r.FileHash == a.FileHash && r.Version == a.Version
    ensures r.Status == Some(a.Status)
  {
    AssetDto(a.Id, a.Name, a.FileName, a.Type, a.FileUrl, a.FileSize, a.FileHash, a.Version, Some(a.Status))
  }

  datatype SyncResponse = SyncResponse(TotalAssets: nat, Assets: seq<AssetDto>)

  /** The available assets of a scene, by name, with their count. */
  function GetSceneAssets(store: AssetRepository.Store, sceneId: Guid): (r: SyncResponse)
    ensures r.TotalAssets == |r.Assets| == |GetAssetsBySceneId(store, sceneId)|
    ensures forall i :: 0 <= i < |r.Assets| ==> FromScene(store, sceneId, r.Assets[i])
    ensures forall i :: 0 <= i < |r.Assets| ==> r.Assets[i] == ToDto(GetAssetsBySceneId(store, sceneId)[i])
  {
    var assets := GetAssetsBySceneId(store, sceneId);
    var dtos := seq(|assets|, i requires 0 <= i < |assets| => ToDto(assets[i]));
    DtosOfSceneAssets(store, sceneId, assets, dtos);
    SyncResponse(|dtos|, dtos)
  }

  /** The DTO of some available asset of the scene. */
  ghost predicate FromScene(store: AssetRepository.Store, sceneId: Guid, d: AssetDto) {
    exists a :: a in store && a.SceneId == Some(sceneId) && a.Status == Available && d == ToDto(a)
  }

  lemma DtosOfSceneAssets(store: AssetRepository.Store, sceneId: Guid, assets: seq<Asset>, dtos: seq<AssetDto>)
    requires forall a :: a in assets ==> a in store && a.SceneId == Some(sceneId) && a.Status == Available
    requires |dtos| == |assets| && forall i :: 0 <= i < |dtos| ==> dtos[i] == ToDto(assets[i])
    ensures forall i :: 0 <= i < |dtos| ==> FromScene(store, sceneId, dtos[i])
  {
    forall i | 0 <= i < |dtos| ensures FromScene(store, sceneId, dtos[i]) {
      assert assets[i] in assets;
    }
  }

  // ---------------------------------------------------------------- check

  datatype CheckItem = CheckItem(FileName: string, FileHash: Option<string>, Version: Option<string>)

  datatype CheckResult = CheckResult(FileName: string, Exists: bool, NeedsUpdate: bool, AssetInfo: Option<AssetDto>)

  /** One item: an unknown file needs nothing; a known one needs an update
      when the client sent a hash and it differs from the stored one. */
  function CheckAsset(store: AssetRepository.Store, item: CheckItem): (r: CheckResult)
    ensures r.FileName == item.FileName
    ensures r.Exists <==> GetAssetByFileName(store, item.FileName).Some?
    ensures r.NeedsUpdate <==>
              GetAssetByFileName(store, item.FileName).Some? && !NullOrEmpty(item.FileHash) &&
              item.FileHash.value != GetAssetByFileName(store, item.FileName).value.FileHash
    ensures r.AssetInfo.Some? <==> r.NeedsUpdate
    ensures r.AssetInfo.Some? ==> r.AssetInfo.value == ToDto(GetAssetByFileName(store, item.FileName).value)
  {
    match GetAssetByFileName(store, item.FileName)
    case None => CheckResult(item.FileName, false, false, None)
    case Some(asset) =>
      var needsUpdate := !NullOrEmpty(item.FileHash) && asset.FileHash != item.FileHash.value;
      CheckResult(item.FileName, true, needsUpdate, if needsUpdate then Some(ToDto(asset)) else None)
  }

  /** Every item in turn, one result each. */
  function CheckAssets(store: AssetRepository.Store, items: seq<CheckItem>): (r: seq<CheckResult>)
    ensures |r| == |items|
    ensures forall i :: 0 <= i < |items| ==> r[i].FileName == items[i].FileName
  {
    if |items| == 0 then []
    else [CheckAsset(store, items[0])] + CheckAssets(store, items[1..])
  }

  /** Each result is the freshness check of its own item, whatever else was asked. */
  lemma {:induction false} CheckAssetsPointwise(store: AssetRepository.Store, items: seq<CheckItem>, i: nat)
    requires i < |items|
    ensures CheckAssets(store, items)[i] == CheckAsset(store, items[i])
  {
    if i > 0 {
      CheckAssetsPointwise(store, items[1..], i - 1);
    }
  }

  /** Checking a list in two parts gives the two answers in order. */
  lemma {:induction false} CheckAssetsSplits(store: AssetRepository.Store, a: seq<CheckItem>, b: seq<CheckItem>)
    ensures CheckAssets(store, a + b) == CheckAssets(store, a) + CheckAssets(store, b)
  {
    if |a| == 0 {
      assert a + b == b;
    } else {
      assert (a + b)[1..] == a[1..] + b;
      CheckAssetsSplits(store, a[1..], b);
    }
  }

  /** A client that sends no hash, or the stored one, is never told to update. */
  lemma NoUpdateWithoutDifferentHash(store: AssetRepository.Store, fileName: string, version: Option<string>)
    ensures !CheckAsset(store, CheckItem(fileName, None, version)).NeedsUpdate
    ensures !CheckAsset(store, CheckItem(fileName, Some(""), version)).NeedsUpdate
    ensures GetAssetByFileName(store, fileName).Some? ==>
              var h := GetAssetByFileName(store, fileName).value.FileHash;
              !CheckAsset(store, CheckItem(fileName, Some(h), version)).NeedsUpdate
  {
  }

  // ---------------------------------------------------------------- content types

  const OctetStream: string := "application/octet-stream"

  /** The extensions the switch names. */
  const NamedExtensions: set<string> := {".fbx", ".obj", ".gltf", ".glb", ".png", ".jpg", ".jpeg", ".mp3", ".wav", ".pdf"}

  /** The media type for a lower-cased extension: total, with the generic
      binary type for every extension the switch does not name. */
  function ContentTypeOf(ext: string): (r: string)
    ensures ext == ".gltf" ==> r == "model/gltf+json"
    ensures ext == ".glb" ==> r == "model/gltf-binary"
    ensures ext == ".png" ==> r == "image/png"
    ensures ext == ".jpg" || ext == ".jpeg" ==> r == "image/jpeg"
    ensures ext == ".mp3" ==> r == "audio/mpeg"
    ensures ext == ".wav" ==> r == "audio/wav"
    ensures ext == ".pdf" ==> r == "application/pdf"
    ensures ext !in NamedExtensions - {".fbx", ".obj"} ==> r == OctetStream
  {
    if ext == ".fbx" then OctetStream
    else if ext == ".obj" then OctetStream
    else if ext == ".gltf" then "model/gltf+json"
    else if ext == ".glb" then "model/gltf-binary"
    else if ext == ".png" then "image/png"
    else if ext == ".jpg" || ext == ".jpeg" then "image/jpeg"
    else if ext == ".mp3" then "audio/mpeg"
    else if ext == ".wav" then "audio/wav"
    else if ext == ".pdf" then "application/pdf"
    else OctetStream
  }

  /** The media type served for a file. */
  function GetContentType(fileName: string): string {
    ContentTypeOf(ToLower(GetExtension(fileName)))
  }

  // ---------------------------------------------------------------- hash text

  function HexDigit(n: nat): (c: char)
    requires n < 16
    ensures IsDigit(c) || ('a' <= c <= 'f')
  {
    if n < 10 then DigitChar(n) else ('a' as int + n - 10) as char
  }

  function UpperHexDigit(n: nat): (c: char)
    requires n < 16
    ensures c != '-'
    ensures LowerChar(c) == HexDigit(n)
  {
    if n < 10 then DigitChar(n) else ('A' as int + n - 10) as char
  }

  /** Two lower-case hex digits per byte, most significant first. */
  function ToHex(d: Bytes): (r: string)
    ensures |r| == 2 * |d|
    ensures forall i :: 0 <= i < |r| ==> IsDigit(r[i]) || ('a' <= r[i] <= 'f')
  {
    if |d| == 0 then "" else [HexDigit(d[0] / 16), HexDigit(d[0] % 16)] + ToHex(d[1..])
  }

  /** `BitConverter.ToString`: upper-case pairs joined by '-'. */
  function BitConverterText(d: Bytes): (r: string)
  {
    if |d| == 0 then ""
    else if |d| == 1 then [UpperHexDigit(d[0] / 16), UpperHexDigit(d[0] % 16)]
    else [UpperHexDigit(d[0] / 16), UpperHexDigit(d[0] % 16), '-'] + BitConverterText(d[1..])
  }

  /** The stored hash text of a digest: dashes removed, then lower-cased. */
  function HashText(d: Bytes): (r: string)
  {
    ToLower(Replace(BitConverterText(d), "-", ""))
  }

  lemma ToLowerConcat(a: string, b: string)
    ensures ToLower(a + b) == ToLower(a) + ToLower(b)
  {
  }

  /** Text without a dash passes through the dash removal unchanged. */
  lemma {:induction false} ReplaceDashPrefix(a: string, b: string)
    requires '-' !in a
    ensures Replace(a + b, "-", "") == a + Replace(b, "-", "")
    decreases |a|
  {
    if |a| > 0 {
      assert (a + b)[..1] == [a[0]];
      assert (a + b)[1..] == a[1..] + b;
      ReplaceDashPrefix(a[1..], b);
    } else {
      assert a + b == b;
    }
  }

  /** The hash text is the lower-case hex of the digest. */
  lemma {:induction false} HashTextIsHex(d: Bytes)
    ensures HashText(d) == ToHex(d)
  {
    if |d| > 0 {
      var pair := [UpperHexDigit(d[0] / 16), UpperHexDigit(d[0] % 16)];
      var hex := [HexDigit(d[0] / 16), HexDigit(d[0] % 16)];
      PairLower(pair, d[0] / 16, d[0] % 16);
      assert ToHex(d) == hex + ToHex(d[1..]);
      if |d| == 1 {
        ReplaceDashPrefix(pair, "");
        assert pair + "" == pair;
        assert BitConverterText(d) == pair;
        assert ToHex(d[1..]) == "";
        assert hex + "" == hex;
      } else {
        var rest := BitConverterText(d[1..]);
        var stripped := Replace(rest, "-", "");
        assert BitConverterText(d) == pair + ("-" + rest);
        ReplaceDashPrefix(pair, "-" + rest);
        DropLeadingDash(rest);
        assert Replace(BitConverterText(d), "-", "") == pair + stripped;
        ToLowerConcat(pair, stripped);
        HashTextIsHex(d[1..]);
        assert ToLower(stripped) == ToHex(d[1..]);
      }
    }
  }

  lemma PairLower(pair: string, hi: nat, lo: nat)
    requires hi < 16 && lo < 16 && pair == [UpperHexDigit(hi), UpperHexDigit(lo)]
    ensures '-' !in pair
    ensures ToLower(pair) == [HexDigit(hi), HexDigit(lo)]
  {
    ToLowerConcat([UpperHexDigit(hi)], [UpperHexDigit(lo)]);
    assert pair == [UpperHexDigit(hi)] + [UpperHexDigit(lo)];
  }

  lemma DropLeadingDash(rest: string)
    ensures Replace("-" + rest, "-", "") == Replace(rest, "-", "")
  {
    assert ("-" + rest)[..1] == "-" && ("-" + rest)[1..] == rest;
  }

  function HexValue(c: char): (n: nat)
    requires IsDigit(c) || ('a' <= c <= 'f')
    ensures n < 16
  {
    if IsDigit(c) then DigitValue(c) else c as int - 'a' as int + 10
  }

  /** Reads lower-case hex text back into bytes. */
  function FromHex(s: string): (r: Option<Bytes>)
    ensures r.Some? ==> 2 * |r.value| == |s|
  {
    if |s| == 0 then Some([])
    else if |s| == 1 || !(IsDigit(s[0]) || 'a' <= s[0] <= 'f') || !(IsDigit(s[1]) || 'a' <= s[1] <= 'f') then None
    else match FromHex(s[2..])
      case None => None
      case Some(rest) => Some([HexValue(s[0]) * 16 + HexValue(s[1])] + rest)
  }

  lemma HexDigitRoundTrip(n: nat)
    requires n < 16
    ensures HexValue(HexDigit(n)) == n
  {
  }

  /** The hash text determines the digest: two bytes of text per byte. */
  lemma {:induction false} HexRoundTrip(d: Bytes)
    ensures FromHex(ToHex(d)) == Some(d)
  {
    if |d| > 0 {
      var s := ToHex(d);
      HexDigitRoundTrip(d[0] / 16);
      HexDigitRoundTrip(d[0] % 16);
      assert s[2..] == ToHex(d[1..]);
      HexRoundTrip(d[1..]);
      assert d == [d[0]] + d[1..];
    }
  }

  // ---------------------------------------------------------------- upload, download, delete

  /** The storage folder of each asset type. */
  function FolderFor(t: AssetType): (r: string)
    ensures r in {"models", "textures", "audio", "animations", "assets"}
    ensures r == "assets" <==> !(t.Model3D? || t.Texture? || t.Audio? || t.Animation?)
  {
    match t
    case Model3D => "models"
    case Texture => "textures"
    case Audio => "audio"
    case Animation => "animations"
    case _ => "assets"
  }

  const InitialVersion: string := "1.0.0"
  const NoFileUploaded: string := "No file uploaded"
  const AssetNotFound: string := "Asset not found"
  const AssetFileMissing: string := "Asset file not found on server"

  /** The administrator's upload: store the file in its type's folder, read
      it back for the hash, and add a record for it. */
  function UploadAsset(store: AssetRepository.Store, v: Volume, disk: Disk, file: Option<FormFile>, name: string,
                       t: AssetType, sceneId: Option<Guid>, guid: string, id: Guid, now: Instant, md5: Bytes -> Bytes)
    : (r: (AssetRepository.Store, Disk, Response<AssetDto>))
    requires GuidText(guid)
    ensures file.None? || file.value.Length() == 0 ==> r == (store, disk, BadRequest(NoFileUploaded))
    ensures !r.2.Success? ==> r.0 == store && (r.1 == disk || r.1 == UploadFile(v, disk, file, FolderFor(t), guid).0)
    ensures r.2.Success? ==>
              UploadFile(v, disk, file, FolderFor(t), guid).1.Ok? &&
              var url := UploadFile(v, disk, file, FolderFor(t), guid).1.value;
              r.1 == UploadFile(v, disk, file, FolderFor(t), guid).0 &&
              GetFile(v, r.1, url).Ok? &&
              r.0 == store + [Asset(id, name, LastSegment(url, Separator), t, url, url, file.value.Length(),
                                    HashText(md5(GetFile(v, r.1, url).value)), InitialVersion, sceneId, None, Available, now)] &&
              r.2.data == ToDto(r.0[|store|]).(Status := None)
  {
    if file.None? || file.value.Length() == 0 then (store, disk, BadRequest(NoFileUploaded))
    else
      var (after, stored) := UploadFile(v, disk, file, FolderFor(t), guid);
      match stored
      case Err(e) => (store, after, BadRequest(e.message))
      case Ok(url) =>
        match GetFile(v, after, url)
        case Err(e) => (store, after, BadRequest(e.message))
        case Ok(bytes) =>
          var asset := Asset(id, name, LastSegment(url, Separator), t, url, url, file.value.Length(),
                             HashText(md5(bytes)), InitialVersion, sceneId, None, Available, now);
          (store + [asset], after, Success(ToDto(asset).(Status := None)))
  }

  /** A successful upload records the generated file name, its hash is the
      hex of the digest of the uploaded content, and the client's check of
      that name with that hash reports nothing to update. */
  lemma UploadedAssetRecord(store: AssetRepository.Store, v: Volume, disk: Disk, f: FormFile, name: string,
                            t: AssetType, sceneId: Option<Guid>, guid: string, id: Guid, now: Instant, md5: Bytes -> Bytes)
    requires GuidText(guid)
    requires |v.Root| > 0 && v.Root[|v.Root| - 1] != Separator
    requires UploadFile(v, disk, Some(f), FolderFor(t), guid).1.Ok?
    requires !Contains(FolderFor(t) + "/" + GenerateUniqueFileName(f.FileName, guid), UploadsSegment)
    requires forall a :: a in store ==> a.FileName != GenerateUniqueFileName(f.FileName, guid)
    ensures var (after, _, reply) := UploadAsset(store, v, disk, Some(f), name, t, sceneId, guid, id, now, md5);
            var fileName := GenerateUniqueFileName(f.FileName, guid);
            reply.Success? && reply.data.FileName == fileName && reply.data.FileHash == ToHex(md5(f.Content)) &&
            CheckAsset(after, CheckItem(fileName, Some(ToHex(md5(f.Content))), None)) == CheckResult(fileName, true, false, None)
  {
    var folder := FolderFor(t);
    var fileName := GenerateUniqueFileName(f.FileName, guid);
    var url := UploadFile(v, disk, Some(f), folder, guid).1.value;
    var asset := Asset(id, name, fileName, t, url, url, f.Length(), HashText(md5(f.Content)),
                       InitialVersion, sceneId, None, Available, now);
    var r := UploadAsset(store, v, disk, Some(f), name, t, sceneId, guid, id, now, md5);
    assert r.0 == store + [asset] && r.2 == Success(ToDto(asset).(Status := None)) by {
      UploadThenGet(v, disk, f, folder, guid);
      assert url == (UploadsSegment + folder) + [Separator] + fileName;
      LastSegmentAfter(UploadsSegment + folder, Separator, fileName);
      UploadAssetAppends(store, v, disk, f, name, t, sceneId, guid, id, now, md5);
    }
    HashTextIsHex(md5(f.Content));
    CheckOfNewRecord(store, asset, ToHex(md5(f.Content)));
  }

  /** When the file is stored and reads back, the upload appends the record
      built from the URL and the digest of the stored content. */
  lemma UploadAssetAppends(store: AssetRepository.Store, v: Volume, disk: Disk, f: FormFile, name: string,
                           t: AssetType, sceneId: Option<Guid>, guid: string, id: Guid, now: Instant, md5: Bytes -> Bytes)
    requires GuidText(guid)
    requires UploadFile(v, disk, Some(f), FolderFor(t), guid).1.Ok?
    requires GetFile(v, UploadFile(v, disk, Some(f), FolderFor(t), guid).0,
                     UploadFile(v, disk, Some(f), FolderFor(t), guid).1.value) == Ok(f.Content)
    ensures var (written, stored) := UploadFile(v, disk, Some(f), FolderFor(t), guid);
            var url := stored.value;
            var asset := Asset(id, name, LastSegment(url, Separator), t, url, url, f.Length(),
                               HashText(md5(f.Content)), InitialVersion, sceneId, None, Available, now);
            UploadAsset(store, v, disk, Some(f), name, t, sceneId, guid, id, now, md5)
              == (store + [asset], written, Success(ToDto(asset).(Status := None)))
  {
  }

  /** A record appended under a file name no earlier record has is the one
      the asset check finds, and the same hash needs no update. */
  lemma CheckOfNewRecord(store: AssetRepository.Store, asset: Asset, hash: string)
    requires forall a :: a in store ==> a.FileName != asset.FileName
    requires asset.FileHash == hash
    ensures CheckAsset(store + [asset], CheckItem(asset.FileName, Some(hash), None)) == CheckResult(asset.FileName, true, false, None)
  {
    var after := store + [asset];
    assert after[|store|] == asset;
    forall j | 0 <= j < |store| ensures after[j].FileName != asset.FileName {
      assert after[j] == store[j];
      assert store[j] in store;
    }
    var k := IndexByFileName(after, asset.FileName);
    assert k.Some?;
    assert k.value == |store|;
  }

  datatype FileResult = FileResult(Content: Bytes, ContentType: string, DownloadName: string)

  /** Download by file name: the record, then the file behind it. */
  function DownloadAsset(store: AssetRepository.Store, v: Volume, disk: Disk, fileName: string): (r: Response<FileResult>)
    ensures GetAssetByFileName(store, fileName).None? <==> r == NotFound(AssetNotFound)
    ensures GetAssetByFileName(store, fileName).Some? && !FileExists(v, disk, GetAssetByFileName(store, fileName).value.FileUrl) ==>
              r == NotFound(AssetFileMissing)
    ensures r.Success? ==>
              var asset := GetAssetByFileName(store, fileName).value;
              GetFile(v, disk, asset.FileUrl) == Ok(r.data.Content) &&
              r.data.ContentType == GetContentType(fileName) && r.data.DownloadName == fileName
  {
    match GetAssetByFileName(store, fileName)
    case None => NotFound(AssetNotFound)
    case Some(asset) =>
      if !FileExists(v, disk, asset.FileUrl) then NotFound(AssetFileMissing)
      else match GetFile(v, disk, asset.FileUrl)
        case Err(e) => BadRequest(e.message)
        case Ok(bytes) => Success(FileResult(bytes, GetContentType(fileName), fileName))
  }

  /** Delete by id: the file (whatever the store answers), then the record. */
  function DeleteAsset(store: AssetRepository.Store, v: Volume, disk: Disk, assetId: Guid)
    : (r: (AssetRepository.Store, Disk, Response<()>))
    ensures IndexById(store, assetId).None? ==> r == (store, disk, NotFound(AssetNotFound))
    ensures IndexById(store, assetId).Some? ==>
              var i := IndexById(store, assetId).value;
              r.2 == Success(()) && r.0 == store[..i] + store[i + 1..] &&
              (r.1.files == disk.files - {Resolve(v, store[i].FileUrl)} || r.1 == disk)
  {
    match IndexById(store, assetId)
    case None => (store, disk, NotFound(AssetNotFound))
    case Some(i) =>
      var (after, _) := FileStorage.DeleteFile(v, disk, store[i].FileUrl);
      (RemoveAt(store, i), after, Success(()))
  }

  /** After a delete the id is gone when it was unique in the store. */
  lemma DeletedAssetIsGone(store: AssetRepository.Store, v: Volume, disk: Disk, assetId: Guid)
    requires forall i, j :: 0 <= i < j < |store| ==> store[i].Id != store[j].Id
    ensures GetById(DeleteAsset(store, v, disk, assetId).0, assetId).None?
  {
    match IndexById(store, assetId)
    case None =>
    case Some(i) =>
      var r := DeleteAsset(store, v, disk, assetId).0;
      forall a | a in r ensures a.Id != assetId {
        var k :| 0 <= k < |r| && r[k] == a;
        if k < i { assert r[k] == store[k]; } else { assert r[k] == store[k + 1]; }
      }
  }
}

=== FILE: auth_service.dfy ===
/** Registration, login, refresh-token rotation and revocation of the
    authentication service. The identity store's own checks (password hashing
    and policy) are parameters: the errors `CreateAsync` reported, if any, and
    whether `CheckPasswordAsync` accepted the password. Access tokens are not
    modelled; a response carries the refresh token and the user. */
module AuthService {
  import opened Wrappers
  import opened Seqs
  import opened Text
  import opened Domain
  import RefreshTokens

  datatype Identity = Identity(users: seq<ApplicationUser>, tokens: RefreshTokens.Store)

  datatype UserDto = UserDto(Id: UserId, Email: Option<string>, FirstName: string, LastName: string)

  datatype AuthResponse = AuthResponse(RefreshToken: string, ExpiresAt: Instant, User: UserDto)

  datatype RegisterRequest = RegisterRequest(Email: string, Password: string, FirstName: string, LastName: string)

  const RefreshTokenDays: int := 7
  const AccessTokenSeconds: int := 3600

  const UserExists: string := "User already exists"
  const InvalidCredentials: string := "Invalid credentials"
  const InvalidRefreshToken: string := "Invalid or expired refresh token"

  /** Every token belongs to a stored user (the foreign key of the token table). */
  predicate Consistent(id: Identity) {
    forall i :: 0 <= i < |id.tokens| ==> exists j :: 0 <= j < |id.users| && id.users[j].Id == id.tokens[i].UserId
  }

  /** The identity store matches e-mail addresses by their upper-cased form. */
  function FindByEmail(users: seq<ApplicationUser>, email: string): (r: Option<nat>)
    ensures r.Some? ==> r.value < |users| && users[r.value].Email.Some? &&
                        EqualsIgnoreCase(users[r.value].Email.value, email)
    ensures r.None? ==> forall j :: 0 <= j < |users| && users[j].Email.Some? ==>
                          !EqualsIgnoreCase(users[j].Email.value, email)
  {
    FindIndex(users, (u: ApplicationUser) => u.Email.Some? && EqualsIgnoreCase(u.Email.value, email))
  }

  function UserById(users: seq<ApplicationUser>, userId: UserId): (r: Option<nat>)
    ensures r.Some? ==> r.value < |users| && users[r.value].Id == userId
    ensures r.None? ==> forall j :: 0 <= j < |users| ==> users[j].Id != userId
  {
    FindIndex(users, (u: ApplicationUser) => u.Id == userId)
  }

  /** Issues a seven-day refresh token to `user` and answers with it. */
  function GenerateAuthResponse(id: Identity, user: ApplicationUser, tokenId: Guid, token: string, now: Instant)
    : (r: (Identity, AuthResponse))
    ensures r.0.users == id.users
    ensures |r.0.tokens| == |id.tokens| + 1 && r.0.tokens[..|id.tokens|] == id.tokens
    ensures var t := r.0.tokens[|id.tokens|];
            t.Token == token && t.UserId == user.Id && !t.IsRevoked &&
            t.CreatedAt == now && t.ExpiresAt == now + RefreshTokenDays * SecondsPerDay
    ensures r.1.RefreshToken == token && r.1.ExpiresAt == now + AccessTokenSeconds
    ensures r.1.User == UserDto(user.Id, user.Email, user.FirstName, user.LastName)
  {
    var (tokens, _) := RefreshTokens.CreateRefreshToken(id.tokens, user.Id, tokenId, token, now, RefreshTokenDays);
    (Identity(id.users, tokens), AuthResponse(token, now + AccessTokenSeconds,
                                              UserDto(user.Id, user.Email, user.FirstName, user.LastName)))
  }

  /** A new account, unless the address is taken or the store refuses it;
      `createErrors` are the descriptions the store reported. */
  function Register(id: Identity, req: RegisterRequest, createErrors: Option<seq<string>>,
                    userId: UserId, tokenId: Guid, token: string, now: Instant)
    : (r: Result<(Identity, AuthResponse)>)
    ensures FindByEmail(id.users, req.Email).Some? ==> r == Err(Throw(UserExists))
    ensures FindByEmail(id.users, req.Email).None? && createErrors.Some? ==>
              r == Err(Throw(Join(", ", createErrors.value)))
    ensures r.Ok? <==> FindByEmail(id.users, req.Email).None? && createErrors.None?
    ensures r.Ok? ==> r.value.0.users == id.users + [ApplicationUser(userId, Some(req.Email), req.FirstName, req.LastName, None)]
    ensures r.Ok? ==> r.value.1.User.Id == userId && r.value.1.RefreshToken == token
  {
    if FindByEmail(id.users, req.Email).Some? then Err(Throw(UserExists))
    else match createErrors
      case Some(errors) => Err(Throw(Join(", ", errors)))
      case None =>
        var user := ApplicationUser(userId, Some(req.Email), req.FirstName, req.LastName, None);
        Ok(GenerateAuthResponse(Identity(id.users + [user], id.tokens), user, tokenId, token, now))
  }

  /** Signs a user in; `passwordValid` is the store's password check for the
      account found. */
  function Login(id: Identity, email: string, passwordValid: bool, tokenId: Guid, token: string, now: Instant)
    : (r: Result<(Identity, AuthResponse)>)
    ensures r.Err? ==> r == Err(Throw(InvalidCredentials))
    ensures r.Ok? <==> FindByEmail(id.users, email).Some? && passwordValid
    ensures r.Ok? ==>
              var i := FindByEmail(id.users, email).value;
              ReplacedAt(id.users, r.value.0.users, i, id.users[i].(LastLoginAt := Some(now))) &&
              r.value.1.User.Id == id.users[i].Id
  {
    match FindByEmail(id.users, email)
    case None => Err(Throw(InvalidCredentials))
    case Some(i) =>
      if !passwordValid then Err(Throw(InvalidCredentials))
      else
        var user := id.users[i].(LastLoginAt := Some(now));
        Ok(GenerateAuthResponse(Identity(id.users[i := user], id.tokens), user, tokenId, token, now))
  }

  /** An unknown address and a wrong password cannot be told apart. */
  lemma LoginHidesWhichCheckFailed(id: Identity, known: string, unknown: string, tokenId: Guid, token: string, now: Instant)
    requires FindByEmail(id.users, known).Some? && FindByEmail(id.users, unknown).None?
    ensures Login(id, known, false, tokenId, token, now) == Login(id, unknown, true, tokenId, token, now)
  {
  }

  /** The first live record with that token string. */
  function LiveToken(tokens: RefreshTokens.Store, token: string): (r: Option<nat>)
    ensures r.Some? ==> r.value < |tokens| && tokens[r.value].Token == token && !tokens[r.value].IsRevoked
    ensures r.None? ==> forall j :: 0 <= j < |tokens| ==> tokens[j].Token != token || tokens[j].IsRevoked
  {
    FindIndex(tokens, (t: RefreshToken) => t.Token == token && !t.IsRevoked)
  }

  /** Exchanges a live, unexpired refresh token for a new one: the presented
      token is revoked first. */
  function Refresh(id: Identity, presented: string, now: Instant, tokenId: Guid, token: string)
    : (r: Result<(Identity, AuthResponse)>)
    requires Consistent(id)
    ensures r.Err? ==> r == Err(Throw(InvalidRefreshToken))
    ensures r.Ok? <==> LiveToken(id.tokens, presented).Some? &&
                       now <= id.tokens[LiveToken(id.tokens, presented).value].ExpiresAt
    ensures r.Ok? ==>
              var i := LiveToken(id.tokens, presented).value;
              var after := r.value.0;
              after.users == id.users &&
              |after.tokens| == |id.tokens| + 1 &&
              ReplacedAt(id.tokens, after.tokens[..|id.tokens|], i, RefreshTokens.Revoke(id.tokens[i], now)) &&
              after.tokens[|id.tokens|].UserId == id.tokens[i].UserId &&
              r.value.1.User.Id == id.tokens[i].UserId
  {
    match LiveToken(id.tokens, presented)
    case None => Err(Throw(InvalidRefreshToken))
    case Some(i) =>
      var stored := id.tokens[i];
      if stored.ExpiresAt < now then Err(Throw(InvalidRefreshToken))
      else
        var tokens := id.tokens[i := RefreshTokens.Revoke(stored, now)];
        var j := UserById(id.users, stored.UserId).value;
        Ok(GenerateAuthResponse(Identity(id.users, tokens), id.users[j], tokenId, token, now))
  }

  /** Registration keeps each token tied to a stored user. */
  lemma RegisterKeepsConsistent(id: Identity, req: RegisterRequest, createErrors: Option<seq<string>>,
                                userId: UserId, tokenId: Guid, token: string, now: Instant)
    requires Consistent(id)
    ensures var r := Register(id, req, createErrors, userId, tokenId, token, now);
            r.Ok? ==> Consistent(r.value.0)
  {
    var reg := Register(id, req, createErrors, userId, tokenId, token, now);
    if reg.Ok? {
      var after := reg.value.0;
      forall i | 0 <= i < |after.tokens|
        ensures exists j :: 0 <= j < |after.users| && after.users[j].Id == after.tokens[i].UserId
      {
        if i < |id.tokens| {
          assert after.tokens[i] == id.tokens[i];
          var j :| 0 <= j < |id.users| && id.users[j].Id == id.tokens[i].UserId;
          assert after.users[j] == id.users[j];
        } else {
          assert after.users[|id.users|].Id == userId;
        }
      }
    }
  }

  /** Login keeps each token tied to a stored user. */
  lemma LoginKeepsConsistent(id: Identity, email: string, passwordValid: bool,
                             tokenId: Guid, token: string, now: Instant)
    requires Consistent(id)
    ensures var r := Login(id, email, passwordValid, tokenId, token, now);
            r.Ok? ==> Consistent(r.value.0)
  {
    var log := Login(id, email, passwordValid, tokenId, token, now);
    if log.Ok? {
      var after := log.value.0;
      var k := FindByEmail(id.users, email).value;
      forall i | 0 <= i < |after.tokens|
        ensures exists j :: 0 <= j < |after.users| && after.users[j].Id == after.tokens[i].UserId
      {
        if i < |id.tokens| {
          assert after.tokens[i] == id.tokens[i];
          var j :| 0 <= j < |id.users| && id.users[j].Id == id.tokens[i].UserId;
          assert after.users[j].Id == id.users[j].Id;
        } else {
          assert after.users[k].Id == after.tokens[i].UserId;
        }
      }
    }
  }

  /** Rotation keeps each token tied to a stored user. */
  lemma RefreshKeepsConsistent(id: Identity, presented: string, now: Instant, tokenId: Guid, token: string)
    requires Consistent(id)
    ensures var r := Refresh(id, presented, now, tokenId, token);
            r.Ok? ==> Consistent(r.value.0)
  {
    var ref := Refresh(id, presented, now, tokenId, token);
    if ref.Ok? {
      var after := ref.value.0;
      var k := LiveToken(id.tokens, presented).value;
      forall i | 0 <= i < |after.tokens|
        ensures exists j :: 0 <= j < |after.users| && after.users[j].Id == after.tokens[i].UserId
      {
        if i < |id.tokens| {
          assert after.tokens[i].UserId == id.tokens[i].UserId;
        } else {
          assert after.tokens[i].UserId == id.tokens[k].UserId;
        }
      }
    }
  }

  /** Revokes all of the user's live tokens; always answers `true`. */
  function RevokeToken(id: Identity, userId: UserId, now: Instant): (r: (Identity, bool))
    ensures r.1 && r.0.users == id.users && |r.0.tokens| == |id.tokens|
    ensures forall i :: 0 <= i < |id.tokens| ==>
              r.0.tokens[i].Token == id.tokens[i].Token && r.0.tokens[i].UserId == id.tokens[i].UserId
    ensures forall i :: 0 <= i < |id.tokens| && id.tokens[i].UserId == userId ==> r.0.tokens[i].IsRevoked
    ensures forall i :: 0 <= i < |id.tokens| && id.tokens[i].UserId != userId ==> r.0.tokens[i] == id.tokens[i]
    ensures Consistent(id) ==> Consistent(r.0)
  {
    (Identity(id.users, RefreshTokens.RevokeAllUserTokens(id.tokens, userId, now)), true)
  }

  /** After `RevokeToken` none of the user's tokens can be exchanged. */
  lemma RevokedUserCannotRefresh(id: Identity, userId: UserId, now: Instant, later: Instant,
                                 presented: string, tokenId: Guid, token: string)
    requires Consistent(id)
    requires forall i :: 0 <= i < |id.tokens| && id.tokens[i].Token == presented ==> id.tokens[i].UserId == userId
    ensures var after := RevokeToken(id, userId, now).0;
            Consistent(after) && Refresh(after, presented, later, tokenId, token).Err?
  {
    var after := RevokeToken(id, userId, now).0;
    assert LiveToken(after.tokens, presented).None?;
  }

  /** No two records share a token string. */
  predicate UniqueTokens(tokens: RefreshTokens.Store) {
    forall i, j :: 0 <= i < j < |tokens| ==> tokens[i].Token != tokens[j].Token
  }

  /** Rotation: a refresh token can be exchanged at most once. */
  lemma RefreshAtMostOnce(id: Identity, presented: string, t1: Instant, t2: Instant,
                          id1: Guid, token1: string, id2: Guid, token2: string)
    requires Consistent(id) && UniqueTokens(id.tokens)
    requires token1 != presented
    requires Refresh(id, presented, t1, id1, token1).Ok?
    ensures var after := Refresh(id, presented, t1, id1, token1).value.0;
            Consistent(after) && Refresh(after, presented, t2, id2, token2).Err?
  {
    var after := Refresh(id, presented, t1, id1, token1).value.0;
    RefreshKeepsConsistent(id, presented, t1, id1, token1);
    var i := LiveToken(id.tokens, presented).value;
    forall j | 0 <= j < |after.tokens| ensures after.tokens[j].Token != presented || after.tokens[j].IsRevoked {
      if j < |id.tokens| && j != i {
        assert after.tokens[j] == id.tokens[j];
        assert id.tokens[j].Token != presented;
      }
    }
  }

  /** With unique token strings the service's check agrees with the token
      store's own validation. */
  lemma RefreshAgreesWithValidation(id: Identity, presented: string, now: Instant, tokenId: Guid, token: string)
    requires Consistent(id) && UniqueTokens(id.tokens)
    ensures Refresh(id, presented, now, tokenId, token).Ok? <==>
            RefreshTokens.ValidateRefreshToken(id.tokens, presented, now).1.Some?
  {
    RefreshTokens.ValidateDecision(id.tokens, presented, now);
    var found := RefreshTokens.IndexByToken(id.tokens, presented);
    if found.Some? && !id.tokens[found.value].IsRevoked {
      assert LiveToken(id.tokens, presented) == found;
    } else if found.Some? {
      forall j | 0 <= j < |id.tokens| ensures id.tokens[j].Token != presented || id.tokens[j].IsRevoked {
        if j != found.value && id.tokens[j].Token == presented {
          assert false;
        }
      }
    }
  }
}

=== FILE: base64.dfy ===
/** The standard Base64 alphabet with '=' padding (section 4 of RFC 4648),
    as `Convert.ToBase64String` writes it; refresh tokens are its output. */
module Base64 {
  import opened Wrappers

  type Byte = x: int | 0 <= x < 256

  const Pad: char := '='

  /** The character of a 6-bit group: A-Z, a-z, 0-9, '+', '/'. */
  function Sextet(n: int): (c: char)
    requires 0 <= n < 64
    ensures IsAlphabet(c) && c != Pad
  {
    if n < 26 then ('A' as int + n) as char
    else if n < 52 then ('a' as int + n - 26) as char
    else if n < 62 then ('0' as int + n - 52) as char
    else if n == 62 then '+'
    else '/'
  }

  predicate IsAlphabet(c: char) {
    'A' <= c <= 'Z' || 'a' <= c <= 'z' || '0' <= c <= '9' || c == '+' || c == '/'
  }

  /** The 6-bit group an alphabet character stands for. */
  function SextetValue(c: char): (n: int)
    requires IsAlphabet(c)
    ensures 0 <= n < 64 && Sextet(n) == c
  {
    if 'A' <= c <= 'Z' then c as int - 'A' as int
    else if 'a' <= c <= 'z' then c as int - 'a' as int + 26
    else if '0' <= c <= '9' then c as int - '0' as int + 52
    else if c == '+' then 62
    else 63
  }

  lemma SextetInverse(n: int)
    requires 0 <= n < 64
    ensures SextetValue(Sextet(n)) == n
  {
  }

  /** `x` split as quotient and remainder by 16. */
  lemma By16(x: int, q: int, r: int)
    requires 0 <= r < 16 && x == q * 16 + r
    ensures x / 16 == q && x % 16 == r
  {
  }

  lemma By4(x: int, q: int, r: int)
    requires 0 <= r < 4 && x == q * 4 + r
    ensures x / 4 == q && x % 4 == r
  {
  }

  lemma By64(x: int, q: int, r: int)
    requires 0 <= r < 64 && x == q * 64 + r
    ensures x / 64 == q && x % 64 == r
  {
  }

  /** The bit fields of three bytes reassemble to the bytes. */
  lemma Reassemble(a: Byte, b: Byte, c: Byte)
    ensures (a / 4) * 4 + ((a % 4) * 16 + b / 16) / 16 == a
    ensures (((a % 4) * 16 + b / 16) % 16) * 16 + ((b % 16) * 4 + c / 64) / 4 == b
    ensures (((b % 16) * 4 + c / 64) % 4) * 64 + c % 64 == c
  {
    By16((a % 4) * 16 + b / 16, a % 4, b / 16);
    By4((b % 16) * 4 + c / 64, b % 16, c / 64);
  }

  /** Three bytes as four characters. */
  function EncodeBlock(a: Byte, b: Byte, c: Byte): (r: string)
    ensures |r| == 4 && Encoded(r) && Pad !in r
  {
    [Sextet(a / 4), Sextet((a % 4) * 16 + b / 16), Sextet((b % 16) * 4 + c / 64), Sextet(c % 64)]
  }

  /** A last lone byte: two characters and two pads. */
  function EncodeOne(a: Byte): (r: string)
    ensures |r| == 4 && Encoded(r)
  {
    [Sextet(a / 4), Sextet((a % 4) * 16), Pad, Pad]
  }

  /** Two last bytes: three characters and one pad. */
  function EncodeTwo(a: Byte, b: Byte): (r: string)
    ensures |r| == 4 && Encoded(r)
  {
    [Sextet(a / 4), Sextet((a % 4) * 16 + b / 16), Sextet((b % 16) * 4), Pad]
  }

  predicate Encoded(s: string) {
    forall i :: 0 <= i < |s| ==> IsAlphabet(s[i]) || s[i] == Pad
  }

  /** The encoding: whole blocks, then a final block padded with '='. */
  function Encode(bs: seq<Byte>): (r: string)
    ensures |r| == 4 * ((|bs| + 2) / 3)
    ensures Encoded(r)
    ensures |bs| % 3 == 0 ==> Pad !in r
    decreases |bs|
  {
    if |bs| == 0 then ""
    else if |bs| == 1 then EncodeOne(bs[0])
    else if |bs| == 2 then EncodeTwo(bs[0], bs[1])
    else
      var head := EncodeBlock(bs[0], bs[1], bs[2]);
      var tail := Encode(bs[3..]);
      JoinEncoded(head, tail, |bs|);
      head + tail
  }

  /** A whole block in front of the encoding of the remaining bytes. */
  lemma JoinEncoded(h: string, t: string, n: nat)
    requires n >= 3 && |h| == 4 && Encoded(h) && Pad !in h
    requires |t| == 4 * ((n - 3 + 2) / 3) && Encoded(t) && ((n - 3) % 3 == 0 ==> Pad !in t)
    ensures |h + t| == 4 * ((n + 2) / 3)
    ensures Encoded(h + t)
    ensures n % 3 == 0 ==> Pad !in h + t
  {
    assert (n - 3 + 2) / 3 + 1 == (n + 2) / 3;
    assert forall i :: 0 <= i < |h + t| ==> (h + t)[i] == if i < |h| then h[i] else t[i - |h|];
  }

  /** Four characters back to the bytes they carry; padding ends the data. */
  function DecodeBlock(q: string): (r: seq<Byte>)
    requires |q| == 4 && IsAlphabet(q[0]) && IsAlphabet(q[1])
    requires q[2] != Pad ==> IsAlphabet(q[2])
    requires q[3] != Pad ==> IsAlphabet(q[3])
  {
    var v0 := SextetValue(q[0]);
    var v1 := SextetValue(q[1]);
    var a: Byte := v0 * 4 + v1 / 16;
    if q[2] == Pad then [a]
    else
      var v2 := SextetValue(q[2]);
      var b: Byte := (v1 % 16) * 16 + v2 / 4;
      if q[3] == Pad then [a, b]
      else
        var c: Byte := (v2 % 4) * 64 + SextetValue(q[3]);
        [a, b, c]
  }

  /** Decodes well-formed input; `None` for anything `Encode` cannot produce
      in this position. */
  function Decode(s: string): (r: Option<seq<Byte>>)
    decreases |s|
  {
    if |s| == 0 then Some([])
    else if |s| < 4 then None
    else
      var q := s[..4];
      if !IsAlphabet(q[0]) || !IsAlphabet(q[1]) then None
      else if q[2] == Pad && q[3] != Pad then None
      else if (q[2] != Pad && !IsAlphabet(q[2])) || (q[3] != Pad && !IsAlphabet(q[3])) then None
      else if q[3] == Pad && |s| > 4 then None
      else match Decode(s[4..])
        case None => None
        case Some(rest) => Some(DecodeBlock(q) + rest)
  }

  lemma BlockRoundTrip(a: Byte, b: Byte, c: Byte)
    ensures DecodeBlock(EncodeBlock(a, b, c)) == [a, b, c]
  {
    SextetInverse(a / 4);
    SextetInverse((a % 4) * 16 + b / 16);
    SextetInverse((b % 16) * 4 + c / 64);
    SextetInverse(c % 64);
    Reassemble(a, b, c);
  }

  lemma OneByteRoundTrip(a: Byte)
    ensures Decode(Encode([a])) == Some([a])
  {
    var s := Encode([a]);
    assert s == [Sextet(a / 4), Sextet((a % 4) * 16), Pad, Pad];
    SextetInverse(a / 4);
    SextetInverse((a % 4) * 16);
    By16((a % 4) * 16, a % 4, 0);
    assert s[..4] == s && s[4..] == [];
    assert DecodeBlock(s) == [a];
    assert Decode(s[4..]) == Some([]);
    assert Decode(s) == Some(DecodeBlock(s) + []);
    assert DecodeBlock(s) + [] == [a];
  }

  lemma TwoBytesRoundTrip(a: Byte, b: Byte)
    ensures Decode(Encode([a, b])) == Some([a, b])
  {
    var s := Encode([a, b]);
    assert s == [Sextet(a / 4), Sextet((a % 4) * 16 + b / 16), Sextet((b % 16) * 4), Pad];
    SextetInverse(a / 4);
    SextetInverse((a % 4) * 16 + b / 16);
    SextetInverse((b % 16) * 4);
    By16((a % 4) * 16 + b / 16, a % 4, b / 16);
    By4((b % 16) * 4, b % 16, 0);
    assert s[..4] == s && s[4..] == [];
    assert DecodeBlock(s) == [a, b];
    assert Decode(s[4..]) == Some([]);
    assert Decode(s) == Some(DecodeBlock(s) + []);
    assert DecodeBlock(s) + [] == [a, b];
  }

  /** A whole block in front decodes to its three bytes in front. */
  lemma DecodeBlockFirst(a: Byte, b: Byte, c: Byte, rest: string)
    ensures Decode(EncodeBlock(a, b, c) + rest)
         == match Decode(rest) case None => None case Some(t) => Some([a, b, c] + t)
  {
    var head := EncodeBlock(a, b, c);
    var s := head + rest;
    assert s[..4] == head && s[4..] == rest;
    BlockRoundTrip(a, b, c);
  }

  /** Decoding inverts encoding. */
  lemma {:induction false} RoundTrip(bs: seq<Byte>)
    ensures Decode(Encode(bs)) == Some(bs)
    decreases |bs|
  {
    if |bs| == 1 {
      assert bs == [bs[0]];
      OneByteRoundTrip(bs[0]);
    } else if |bs| == 2 {
      assert bs == [bs[0], bs[1]];
      TwoBytesRoundTrip(bs[0], bs[1]);
    } else if |bs| > 2 {
      RoundTrip(bs[3..]);
      BlockStep(bs, bs[3..], Encode(bs[3..]));
    }
  }

  /** A round trip of the tail extends to one of the whole input. */
  lemma BlockStep(bs: seq<Byte>, tail: seq<Byte>, e: string)
    requires |bs| > 2 && tail == bs[3..] && e == Encode(tail) && Decode(e) == Some(tail)
    ensures Decode(Encode(bs)) == Some(bs)
  {
    var x := EncodeBlock(bs[0], bs[1], bs[2]) + e;
    assert Encode(bs) == x;
    DecodeJoined(bs, tail, e, x);
  }

  lemma DecodeJoined(bs: seq<Byte>, tail: seq<Byte>, e: string, x: string)
    requires |bs| > 2 && tail == bs[3..] && Decode(e) == Some(tail)
    requires x == EncodeBlock(bs[0], bs[1], bs[2]) + e
    ensures Decode(x) == Some(bs)
  {
    DecodeBlockFirst(bs[0], bs[1], bs[2], e);
    assert bs == [bs[0], bs[1], bs[2]] + tail;
  }
}

=== FILE: character_service.dfy ===
/** The character service: create, read, list, update and delete the
    historical characters of a scene. A character is read back "with its
    scene", the first scene whose id is its foreign key. Fresh ids and the
    clock are parameters. */
module CharacterService {
  import opened Wrappers
  import opened Seqs
  import opened Text
  import opened Domain
  import opened SceneRepository

  const SceneNotFound: string := "Scene not found"
  const CharacterNotFound: string := "Character not found"

  datatype CreateCharacterRequest = CreateCharacterRequest(
    Name: string, Role: string, Background: string, Personality: string,
    VoiceId: Option<string>, AvatarUrl: Option<string>, SceneId: Guid)

  datatype UpdateCharacterRequest = UpdateCharacterRequest(
    Name: Option<string>, Role: Option<string>, Background: Option<string>, Personality: Option<string>,
    VoiceId: Option<string>, AvatarUrl: Option<string>)

  datatype CharacterResponse = CharacterResponse(
    Id: Guid, Name: string, Role: string, Background: string, Personality: string,
    VoiceId: string, AvatarUrl: string, SceneId: Guid, SceneTitle: string, CreatedAt: Instant)

  function CharacterIndex(characters: seq<Character>, id: Guid): (r: Option<nat>)
    ensures r.Some? ==> r.value < |characters| && characters[r.value].Id == id &&
                        forall j :: 0 <= j < r.value ==> characters[j].Id != id
    ensures r.None? <==> forall j :: 0 <= j < |characters| ==> characters[j].Id != id
  {
    FindIndex(characters, (c: Character) => c.Id == id)
  }

  /** The scene a character belongs to, if it is stored. */
  function SceneOf(cat: Catalog, c: Character): (r: Option<Scene>)
    ensures r.Some? ==> r.value in cat.scenes && r.value.Id == c.SceneId
    ensures r.None? <==> forall s :: s in cat.scenes ==> s.Id != c.SceneId
  {
    SceneRepository.GetById(cat, c.SceneId)
  }

  /** The answer for a character; the scene title is "" when no scene is loaded. */
  function MapToResponse(c: Character, scene: Option<Scene>): (r: CharacterResponse)
    ensures r.Id == c.Id && r.Name == c.Name && r.SceneId == c.SceneId && r.CreatedAt == c.CreatedAt
    ensures scene.None? ==> r.SceneTitle == ""
    ensures scene.Some? ==> r.SceneTitle == scene.value.Title
  {
    CharacterResponse(c.Id, c.Name, c.Role, c.Background, c.Personality, c.VoiceId, c.AvatarUrl, c.SceneId,
                      if scene.Some? then scene.value.Title else "", c.CreatedAt)
  }

  /** The first character with that id, with its scene. */
  function GetCharacterWithScene(cat: Catalog, id: Guid): (r: Option<CharacterResponse>)
    ensures r.None? <==> forall c :: c in cat.characters ==> c.Id != id
    ensures r.Some? ==> var c := cat.characters[CharacterIndex(cat.characters, id).value];
                        r.value == MapToResponse(c, SceneOf(cat, c))
  {
    match CharacterIndex(cat.characters, id)
    case None => None
    case Some(i) => Some(MapToResponse(cat.characters[i], SceneOf(cat, cat.characters[i])))
  }

  /** A new character in an existing scene; absent voice and avatar are stored as "". */
  function CreateCharacter(cat: Catalog, id: Guid, req: CreateCharacterRequest, now: Instant)
    : (r: (Catalog, Result<CharacterResponse>))
    ensures SceneRepository.IndexById(cat.scenes, req.SceneId).None? ==> r == (cat, Err(Throw(SceneNotFound)))
    ensures SceneRepository.IndexById(cat.scenes, req.SceneId).Some? ==>
              r.0.scenes == cat.scenes && |r.0.characters| == |cat.characters| + 1 &&
              r.0.characters[..|cat.characters|] == cat.characters &&
              var c := r.0.characters[|cat.characters|];
              c == Character(id, req.Name, req.Role, req.Background, req.Personality,
                             req.VoiceId.GetOr(""), req.AvatarUrl.GetOr(""), req.SceneId, now) &&
              r.1.Ok?
    ensures r.1.Ok? && (forall c :: c in cat.characters ==> c.Id != id) ==>
              r.1.value == MapToResponse(r.0.characters[|cat.characters|], SceneRepository.GetById(cat, req.SceneId)) &&
              r.1.value.SceneTitle == SceneRepository.GetById(cat, req.SceneId).value.Title
  {
    if !Exists(cat, req.SceneId) then (cat, Err(Throw(SceneNotFound)))
    else
      var c := Character(id, req.Name, req.Role, req.Background, req.Personality,
                         req.VoiceId.GetOr(""), req.AvatarUrl.GetOr(""), req.SceneId, now);
      var after := Catalog(cat.scenes, cat.characters + [c]);
      assert after.characters[|cat.characters|] == c;
      match GetCharacterWithScene(after, id)
      case Some(dto) => (after, Ok(dto))
      case None => (after, Ok(MapToResponse(c, None)))
  }

  /** With a fresh id, the character created is the one read back. */
  lemma CreateThenGet(cat: Catalog, id: Guid, req: CreateCharacterRequest, now: Instant)
    requires SceneRepository.IndexById(cat.scenes, req.SceneId).Some?
    requires forall c :: c in cat.characters ==> c.Id != id
    ensures var (after, created) := CreateCharacter(cat, id, req, now);
            GetCharacterById(after, id) == created
  {
    var (after, _) := CreateCharacter(cat, id, req, now);
    assert CharacterIndex(after.characters, id) == Some(|cat.characters|) by {
      forall j | 0 <= j < |cat.characters| ensures after.characters[j].Id != id {
        assert after.characters[j] == cat.characters[j];
        assert cat.characters[j] in cat.characters;
      }
    }
  }

  function GetCharacterById(cat: Catalog, id: Guid): (r: Result<CharacterResponse>)
    ensures r.Err? <==> forall c :: c in cat.characters ==> c.Id != id
    ensures r.Err? ==> r.error == Throw(CharacterNotFound)
    ensures r.Ok? ==> r.value.Id == id
    ensures r.Ok? <==> GetCharacterWithScene(cat, id).Some?
    ensures r.Ok? ==> GetCharacterWithScene(cat, id) == Some(r.value)
    ensures r.Ok? ==> var c := cat.characters[CharacterIndex(cat.characters, id).value];
                      r.value == MapToResponse(c, SceneOf(cat, c))
  {
    match GetCharacterWithScene(cat, id)
    case None => Err(Throw(CharacterNotFound))
    case Some(dto) => Ok(dto)
  }

  /** Every stored character, each re-read by its id, keeping those found. */
  function ReloadEach(cat: Catalog, cs: seq<Character>): (r: seq<CharacterResponse>)
    ensures |r| <= |cs|
    ensures forall x :: x in r ==> exists c :: c in cs && GetCharacterWithScene(cat, c.Id) == Some(x)
    ensures (forall c :: c in cs ==> c in cat.characters) ==> |r| == |cs|
  {
    if |cs| == 0 then []
    else
      var rest := ReloadEach(cat, cs[1..]);
      assert forall c :: c in cs[1..] ==> c in cs;
      match GetCharacterWithScene(cat, cs[0].Id)
      case None => rest
      case Some(dto) => [dto] + rest
  }

  function GetAllCharacters(cat: Catalog): (r: seq<CharacterResponse>)
    ensures |r| == |cat.characters|
    ensures forall x :: x in r ==> exists c :: c in cat.characters && GetCharacterWithScene(cat, c.Id) == Some(x)
  {
    ReloadEach(cat, cat.characters)
  }

  predicate UniqueIds(characters: seq<Character>) {
    forall a, b :: 0 <= a < b < |characters| ==> characters[a].Id != characters[b].Id
  }

  /** With unique ids, a stored character is found by its own id. */
  lemma ReloadStored(cat: Catalog, c: Character)
    requires UniqueIds(cat.characters)
    requires c in cat.characters
    ensures GetCharacterWithScene(cat, c.Id) == Some(MapToResponse(c, SceneOf(cat, c)))
  {
    var k := CharacterIndex(cat.characters, c.Id).value;
    var m :| 0 <= m < |cat.characters| && cat.characters[m] == c;
    assert m == k;
  }

  /** With unique ids, the i-th entry of the list describes the i-th character. */
  lemma {:induction false} ReloadEachInOrder(cat: Catalog, cs: seq<Character>, i: nat)
    requires forall c :: c in cs ==> c in cat.characters
    requires UniqueIds(cat.characters)
    requires i < |cs|
    ensures ReloadEach(cat, cs)[i] == MapToResponse(cs[i], SceneOf(cat, cs[i]))
  {
    assert cs[0] in cs;
    ReloadStored(cat, cs[0]);
    if i > 0 {
      assert forall c :: c in cs[1..] ==> c in cs;
      ReloadEachInOrder(cat, cs[1..], i - 1);
      assert cs[1..][i - 1] == cs[i];
    }
  }

  function GetCharactersBySceneId(cat: Catalog, sceneId: Guid): (r: seq<CharacterResponse>)
    ensures |r| == |CharactersOf(cat.characters, sceneId)|
    ensures forall i :: 0 <= i < |r| ==> r[i].SceneId == sceneId
    ensures forall i :: 0 <= i < |r| ==>
              var c := CharactersOf(cat.characters, sceneId)[i];
              r[i] == MapToResponse(c, SceneOf(cat, c))
    ensures forall c :: c in cat.characters && c.SceneId == sceneId ==> MapToResponse(c, SceneOf(cat, c)) in r
  {
    var cs := CharactersOf(cat.characters, sceneId);
    assert forall i :: 0 <= i < |cs| ==> cs[i] in cs;
    seq(|cs|, i requires 0 <= i < |cs| => MapToResponse(cs[i], SceneOf(cat, cs[i])))
  }

  /** With unique ids, each character listed for a scene is exactly what
      reading it by its id answers. */
  lemma SceneListAgreesWithLookup(cat: Catalog, sceneId: Guid, i: nat)
    requires UniqueIds(cat.characters)
    requires i < |GetCharactersBySceneId(cat, sceneId)|
    ensures var listed := GetCharactersBySceneId(cat, sceneId)[i];
            GetCharacterById(cat, listed.Id) == Ok(listed)
  {
    var c := CharactersOf(cat.characters, sceneId)[i];
    assert c in CharactersOf(cat.characters, sceneId);
    ReloadStored(cat, c);
  }

  /** The update rules: the four text fields change only to present,
      non-empty values; voice and avatar change to any present value. */
  function ApplyUpdate(c: Character, req: UpdateCharacterRequest): (r: Character)
    ensures r.Id == c.Id && r.SceneId == c.SceneId && r.CreatedAt == c.CreatedAt
    ensures NullOrEmpty(req.Name) ==> r.Name == c.Name
    ensures !NullOrEmpty(req.Name) ==> r.Name == req.Name.value
    ensures NullOrEmpty(req.Role) ==> r.Role == c.Role
    ensures !NullOrEmpty(req.Role) ==> r.Role == req.Role.value
    ensures NullOrEmpty(req.Background) ==> r.Background == c.Background
    ensures !NullOrEmpty(req.Background) ==> r.Background == req.Background.value
    ensures NullOrEmpty(req.Personality) ==> r.Personality == c.Personality
    ensures !NullOrEmpty(req.Personality) ==> r.Personality == req.Personality.value
    ensures req.VoiceId.None? ==> r.VoiceId == c.VoiceId
    ensures req.VoiceId.Some? ==> r.VoiceId == req.VoiceId.value
    ensures req.AvatarUrl.None? ==> r.AvatarUrl == c.AvatarUrl
    ensures req.AvatarUrl.Some? ==> r.AvatarUrl == req.AvatarUrl.value
  {
    c.(Name := if NullOrEmpty(req.Name) then c.Name else req.Name.value,
       Role := if NullOrEmpty(req.Role) then c.Role else req.Role.value,
       Background := if NullOrEmpty(req.Background) then c.Background else req.Background.value,
       Personality := if NullOrEmpty(req.Personality) then c.Personality else req.Personality.value,
       VoiceId := req.VoiceId.GetOr(c.VoiceId),
       AvatarUrl := req.AvatarUrl.GetOr(c.AvatarUrl))
  }

  /** An update applied twice is applied once. */
  lemma UpdateIdempotent(c: Character, req: UpdateCharacterRequest)
    ensures ApplyUpdate(ApplyUpdate(c, req), req) == ApplyUpdate(c, req)
  {
  }

  function UpdateCharacter(cat: Catalog, id: Guid, req: UpdateCharacterRequest): (r: (Catalog, Result<CharacterResponse>))
    ensures CharacterIndex(cat.characters, id).None? ==> r == (cat, Err(Throw(CharacterNotFound)))
    ensures CharacterIndex(cat.characters, id).Some? ==>
              var i := CharacterIndex(cat.characters, id).value;
              var updated := ApplyUpdate(cat.characters[i], req);
              r.0.scenes == cat.scenes && ReplacedAt(cat.characters, r.0.characters, i, updated) &&
              r.1 == Ok(MapToResponse(updated, SceneOf(cat, updated)))
  {
    match CharacterIndex(cat.characters, id)
    case None => (cat, Err(Throw(CharacterNotFound)))
    case Some(i) =>
      var updated := ApplyUpdate(cat.characters[i], req);
      var after := Catalog(cat.scenes, cat.characters[i := updated]);
      assert forall j :: 0 <= j < i ==> after.characters[j] == cat.characters[j];
      assert after.characters[i].Id == id;
      assert CharacterIndex(after.characters, id) == Some(i);
      (after, Ok(GetCharacterWithScene(after, id).value))
  }

  function DeleteCharacter(cat: Catalog, id: Guid): (r: (Catalog, Result<bool>))
    ensures CharacterIndex(cat.characters, id).None? ==> r == (cat, Err(Throw(CharacterNotFound)))
    ensures CharacterIndex(cat.characters, id).Some? ==>
              var i := CharacterIndex(cat.characters, id).value;
              r.1 == Ok(true) && r.0.scenes == cat.scenes &&
              r.0.characters == cat.characters[..i] + cat.characters[i + 1..]
  {
    match CharacterIndex(cat.characters, id)
    case None => (cat, Err(Throw(CharacterNotFound)))
    case Some(i) => (Catalog(cat.scenes, cat.characters[..i] + cat.characters[i + 1..]), Ok(true))
  }
}

=== FILE: conversation_repository.dfy ===
/** The conversation queries of the data layer. Each conversation is one
    exchange: a user's message and the character's reply. */
module ConversationRepository {
  import opened Wrappers
  import opened Seqs
  import opened Domain

  predicate CreatedNoEarlier(a: Conversation, b: Conversation) {
    a.CreatedAt >= b.CreatedAt
  }

  predicate CreatedNoLater(a: Conversation, b: Conversation) {
    a.CreatedAt <= b.CreatedAt
  }

  /** All of a user's exchanges, newest first. */
  function GetUserConversations(store: seq<Conversation>, userId: UserId): (r: seq<Conversation>)
    ensures forall c :: c in r <==> c in store && c.UserId == userId
    ensures multiset(r) == multiset(Filter(store, (c: Conversation) => c.UserId == userId))
    ensures forall i :: 0 < i < |r| ==> r[i - 1].CreatedAt >= r[i].CreatedAt
  {
    var mine := Filter(store, (c: Conversation) => c.UserId == userId);
    var r := SortBy(mine, CreatedNoEarlier);
    SameElements(r, mine);
    r
  }

  /** Every user's exchanges with one character, newest first. */
  function GetConversationsByCharacter(store: seq<Conversation>, characterId: Guid): (r: seq<Conversation>)
    ensures forall c :: c in r <==> c in store && c.CharacterId == characterId
    ensures multiset(r) == multiset(Filter(store, (c: Conversation) => c.CharacterId == characterId))
    ensures forall i :: 0 < i < |r| ==> r[i - 1].CreatedAt >= r[i].CreatedAt
  {
    var theirs := Filter(store, (c: Conversation) => c.CharacterId == characterId);
    var r := SortBy(theirs, CreatedNoEarlier);
    SameElements(r, theirs);
    r
  }

  predicate Between(c: Conversation, userId: UserId, characterId: Guid) {
    c.UserId == userId && c.CharacterId == characterId
  }

  /** One user's exchanges with one character, oldest first: the history a
      reply is generated from. */
  function GetUserConversationsWithCharacter(store: seq<Conversation>, userId: UserId, characterId: Guid)
    : (r: seq<Conversation>)
    ensures forall c :: c in r <==> c in store && c.UserId == userId && c.CharacterId == characterId
    ensures multiset(r) == multiset(Filter(store, (c: Conversation) => Between(c, userId, characterId)))
    ensures forall i :: 0 < i < |r| ==> r[i - 1].CreatedAt <= r[i].CreatedAt
  {
    var both := Filter(store, (c: Conversation) => Between(c, userId, characterId));
    var r := SortBy(both, CreatedNoLater);
    SameElements(r, both);
    r
  }

  /** The history with a character holds exactly the entries of the user's
      list that involve the character, and those of the character's list
      that involve the user; it is never longer than the user's list. */
  lemma HistoryIsBothQueries(store: seq<Conversation>, userId: UserId, characterId: Guid)
    ensures var h := GetUserConversationsWithCharacter(store, userId, characterId);
            (forall c :: c in h <==> c in GetUserConversations(store, userId) && c.CharacterId == characterId) &&
            (forall c :: c in h <==> c in GetConversationsByCharacter(store, characterId) && c.UserId == userId) &&
            |h| <= |GetUserConversations(store, userId)|
  {
    var mine := Filter(store, (c: Conversation) => c.UserId == userId);
    var both := Filter(store, (c: Conversation) => Between(c, userId, characterId));
    CountMonotone(store, (c: Conversation) => Between(c, userId, characterId), (c: Conversation) => c.UserId == userId);
    assert |GetUserConversations(store, userId)| == |multiset(mine)|;
    assert |GetUserConversationsWithCharacter(store, userId, characterId)| == |multiset(both)|;
  }
}

=== FILE: conversation_service.dfy ===
/** The conversation service: a user sends a message to a historical
    character, a reply is generated from the character and the earlier
    exchanges between the two, and the exchange is stored. The reply
    generator, fresh ids and the clock are parameters. */
module ConversationService {
  import opened Wrappers
  import opened Seqs
  import opened Domain
  import opened ConversationRepository
  import MockAI

  const CharacterNotFound: string := "Character not found"
  const UnknownCharacter: string := "Unknown"

  datatype CreateConversationRequest = CreateConversationRequest(CharacterId: Guid, UserMessage: string)

  datatype ConversationResponse = ConversationResponse(
    Id: Guid, UserId: UserId, CharacterId: Guid, CharacterName: string,
    UserMessage: string, CharacterResponse: string, CreatedAt: Instant)

  datatype ConversationHistory = ConversationHistory(
    CharacterId: Guid, CharacterName: string, Messages: seq<ConversationResponse>)

  /** A reply generator: the character, the new message and the earlier
      messages, alternating the user's and the character's. */
  type Generator = (Character, string, seq<string>) -> string

  /** The first character with that id. */
  function FindCharacter(characters: seq<Character>, id: Guid): (r: Option<Character>)
    ensures r.Some? ==> r.value in characters && r.value.Id == id
    ensures r.None? <==> forall c :: c in characters ==> c.Id != id
  {
    Find(characters, (c: Character) => c.Id == id)
  }

  /** Each exchange contributes the user's message, then the reply. */
  function Flatten(history: seq<Conversation>): (r: seq<string>)
    ensures |r| == 2 * |history|
    ensures forall i :: 0 <= i < |history| ==>
              r[2 * i] == history[i].UserMessage && r[2 * i + 1] == history[i].CharacterResponse
  {
    if |history| == 0 then []
    else
      var rest := Flatten(history[1..]);
      var r := [history[0].UserMessage, history[0].CharacterResponse] + rest;
      assert forall i :: 1 <= i < |history| ==> r[2 * i] == rest[2 * (i - 1)] && r[2 * i + 1] == rest[2 * (i - 1) + 1];
      r
  }

  function ToResponse(c: Conversation, characterName: string): (r: ConversationResponse)
    ensures r.Id == c.Id && r.UserId == c.UserId && r.CharacterId == c.CharacterId
    ensures r.UserMessage == c.UserMessage && r.CharacterResponse == c.CharacterResponse && r.CreatedAt == c.CreatedAt
    ensures r.CharacterName == characterName
  {
    ConversationResponse(c.Id, c.UserId, c.CharacterId, characterName, c.UserMessage, c.CharacterResponse, c.CreatedAt)
  }

  /** The exchange a create would store. */
  function NewExchange(store: seq<Conversation>, ch: Character, userId: UserId, req: CreateConversationRequest,
                       generate: Generator, id: Guid, now: Instant): Conversation
  {
    var history := GetUserConversationsWithCharacter(store, userId, req.CharacterId);
    Conversation(id, userId, req.CharacterId, req.UserMessage, generate(ch, req.UserMessage, Flatten(history)), now)
  }

  function CreateConversation(store: seq<Conversation>, characters: seq<Character>, userId: UserId,
                              req: CreateConversationRequest, generate: Generator, id: Guid, now: Instant)
    : (r: (seq<Conversation>, Result<ConversationResponse>))
    ensures FindCharacter(characters, req.CharacterId).None? <==> r == (store, Err(Throw(CharacterNotFound)))
    ensures r.1.Ok? ==>
              var ch := FindCharacter(characters, req.CharacterId).value;
              |r.0| == |store| + 1 && r.0[..|store|] == store &&
              r.0[|store|] == NewExchange(store, ch, userId, req, generate, id, now) &&
              r.1.value == ToResponse(r.0[|store|], ch.Name)
  {
    match FindCharacter(characters, req.CharacterId)
    case None => (store, Err(Throw(CharacterNotFound)))
    case Some(ch) =>
      var c := NewExchange(store, ch, userId, req, generate, id, now);
      (store + [c], Ok(ToResponse(c, ch.Name)))
  }

  /** Appending an exchange between the two adds exactly it to their history. */
  lemma HistoryAppend(store: seq<Conversation>, c: Conversation, userId: UserId, characterId: Guid)
    requires Between(c, userId, characterId)
    ensures var before := GetUserConversationsWithCharacter(store, userId, characterId);
            var next := GetUserConversationsWithCharacter(store + [c], userId, characterId);
            (forall x :: x in next <==> x in before || x == c) && |next| == |before| + 1
  {
    var both := (x: Conversation) => Between(x, userId, characterId);
    FilterAppend(store, [c], both);
    var before := GetUserConversationsWithCharacter(store, userId, characterId);
    var next := GetUserConversationsWithCharacter(store + [c], userId, characterId);
    assert |next| == |multiset(next)| == |multiset(Filter(store + [c], both))|;
    assert |before| == |multiset(before)| == |multiset(Filter(store, both))|;
  }

  /** A stored exchange joins the history the next message is answered
      from, together with every earlier exchange between the two. */
  lemma CreateExtendsHistory(store: seq<Conversation>, characters: seq<Character>, userId: UserId,
                             req: CreateConversationRequest, generate: Generator, id: Guid, now: Instant)
    requires FindCharacter(characters, req.CharacterId).Some?
    ensures var (after, created) := CreateConversation(store, characters, userId, req, generate, id, now);
            var before := GetUserConversationsWithCharacter(store, userId, req.CharacterId);
            var next := GetUserConversationsWithCharacter(after, userId, req.CharacterId);
            after[|store|] in next && req.UserMessage in Flatten(next) &&
            (forall c :: c in before ==> c in next) && |next| == |before| + 1
  {
    var (after, _) := CreateConversation(store, characters, userId, req, generate, id, now);
    var c := after[|store|];
    assert after == store + [c];
    HistoryAppend(store, c, userId, req.CharacterId);
    var next := GetUserConversationsWithCharacter(after, userId, req.CharacterId);
    var k :| 0 <= k < |next| && next[k] == c;
    assert Flatten(next)[2 * k] == req.UserMessage;
  }

  /** Filtering a concatenation filters each part. */
  lemma {:induction false} FilterAppend<T(!new)>(a: seq<T>, b: seq<T>, p: T -> bool)
    ensures Filter(a + b, p) == Filter(a, p) + Filter(b, p)
  {
    if |a| == 0 {
      assert a + b == b;
    } else {
      assert (a + b)[1..] == a[1..] + b;
      FilterAppend(a[1..], b, p);
    }
  }

  /** With the stand-in generator, the stored reply quotes the user's message. */
  lemma MockReplyQuotesMessage(store: seq<Conversation>, characters: seq<Character>, userId: UserId,
                               req: CreateConversationRequest, id: Guid, now: Instant)
    requires FindCharacter(characters, req.CharacterId).Some?
    ensures var generate := (ch: Character, m: string, h: seq<string>) => MockAI.GenerateCharacterResponse(ch, m, h);
            var created := CreateConversation(store, characters, userId, req, generate, id, now).1.value;
            MockAI.QuotedMessage(FindCharacter(characters, req.CharacterId).value, created.CharacterResponse) == Some(req.UserMessage)
  {
    var ch := FindCharacter(characters, req.CharacterId).value;
    var history := GetUserConversationsWithCharacter(store, userId, req.CharacterId);
    MockAI.QuotedMessageRoundTrip(ch, req.UserMessage, Flatten(history));
  }

  /** The name shown for an exchange: its character's, or "Unknown". */
  function NameOf(characters: seq<Character>, id: Guid): (r: string)
    ensures FindCharacter(characters, id).Some? ==> r == FindCharacter(characters, id).value.Name
    ensures FindCharacter(characters, id).None? ==> r == UnknownCharacter
  {
    match FindCharacter(characters, id)
    case None => UnknownCharacter
    case Some(ch) => ch.Name
  }

  /** Each exchange with its character's name. */
  function NameEach(cs: seq<Conversation>, characters: seq<Character>): (r: seq<ConversationResponse>)
    ensures |r| == |cs|
    ensures forall i :: 0 <= i < |cs| ==> r[i] == ToResponse(cs[i], NameOf(characters, cs[i].CharacterId))
  {
    if |cs| == 0 then [] else [ToResponse(cs[0], NameOf(characters, cs[0].CharacterId))] + NameEach(cs[1..], characters)
  }

  /** Each exchange under one fixed name. */
  function NameAll(cs: seq<Conversation>, name: string): (r: seq<ConversationResponse>)
    ensures |r| == |cs|
    ensures forall i :: 0 <= i < |cs| ==> r[i] == ToResponse(cs[i], name)
  {
    if |cs| == 0 then [] else [ToResponse(cs[0], name)] + NameAll(cs[1..], name)
  }

  /** The user's exchanges, newest first, each named after its character. */
  function GetUserConversations(store: seq<Conversation>, characters: seq<Character>, userId: UserId)
    : (r: seq<ConversationResponse>)
    ensures var mine := ConversationRepository.GetUserConversations(store, userId);
            |r| == |mine| &&
            forall i :: 0 <= i < |r| ==> r[i] == ToResponse(mine[i], NameOf(characters, mine[i].CharacterId))
    ensures forall i :: 0 <= i < |r| ==> r[i].UserId == userId
    ensures forall i :: 0 < i < |r| ==> r[i - 1].CreatedAt >= r[i].CreatedAt
  {
    var mine := ConversationRepository.GetUserConversations(store, userId);
    var r := NameEach(mine, characters);
    forall i | 0 <= i < |r| ensures r[i].UserId == userId {
      assert mine[i] in mine;
    }
    forall i | 0 < i < |r| ensures r[i - 1].CreatedAt >= r[i].CreatedAt {
      assert mine[i - 1].CreatedAt >= mine[i].CreatedAt;
    }
    r
  }

  /** The exchanges between a user and one character, oldest first. */
  function GetConversationHistoryWithCharacter(store: seq<Conversation>, characters: seq<Character>,
                                               userId: UserId, characterId: Guid)
    : (r: Result<ConversationHistory>)
    ensures FindCharacter(characters, characterId).None? <==> r == Err(Throw(CharacterNotFound))
    ensures r.Ok? ==>
              var name := FindCharacter(characters, characterId).value.Name;
              var h := GetUserConversationsWithCharacter(store, userId, characterId);
              r.value.CharacterId == characterId && r.value.CharacterName == name &&
              |r.value.Messages| == |h| &&
              forall i :: 0 <= i < |h| ==> r.value.Messages[i] == ToResponse(h[i], name)
  {
    match FindCharacter(characters, characterId)
    case None => Err(Throw(CharacterNotFound))
    case Some(ch) =>
      var h := GetUserConversationsWithCharacter(store, userId, characterId);
      Ok(ConversationHistory(characterId, ch.Name, NameAll(h, ch.Name)))
  }

  /** The user's list and the history agree: every entry of the list that
      concerns a known character appears, identically, in the history with
      that character, and every entry of the history is in the list. */
  lemma ListAndHistoryAgree(store: seq<Conversation>, characters: seq<Character>, userId: UserId, characterId: Guid)
    requires FindCharacter(characters, characterId).Some?
    ensures var list := GetUserConversations(store, characters, userId);
            var history := GetConversationHistoryWithCharacter(store, characters, userId, characterId).value.Messages;
            (forall x :: x in list && x.CharacterId == characterId ==> x in history) &&
            (forall x :: x in history ==> x in list)
  {
    var list := GetUserConversations(store, characters, userId);
    var history := GetConversationHistoryWithCharacter(store, characters, userId, characterId).value.Messages;
    var mine := ConversationRepository.GetUserConversations(store, userId);
    var h := GetUserConversationsWithCharacter(store, userId, characterId);
    forall x | x in list && x.CharacterId == characterId ensures x in history {
      var i :| 0 <= i < |list| && list[i] == x;
      InHistory(store, characters, userId, characterId, mine[i]);
    }
    forall x | x in history ensures x in list {
      var j :| 0 <= j < |history| && history[j] == x;
      InList(store, characters, userId, characterId, h[j]);
    }
  }

  lemma InHistory(store: seq<Conversation>, characters: seq<Character>, userId: UserId, characterId: Guid, c: Conversation)
    requires FindCharacter(characters, characterId).Some?
    requires c in ConversationRepository.GetUserConversations(store, userId) && c.CharacterId == characterId
    ensures ToResponse(c, NameOf(characters, c.CharacterId)) in
              GetConversationHistoryWithCharacter(store, characters, userId, characterId).value.Messages
  {
    var h := GetUserConversationsWithCharacter(store, userId, characterId);
    var j :| 0 <= j < |h| && h[j] == c;
    assert GetConversationHistoryWithCharacter(store, characters, userId, characterId).value.Messages[j] ==
           ToResponse(c, NameOf(characters, c.CharacterId));
  }

  lemma InList(store: seq<Conversation>, characters: seq<Character>, userId: UserId, characterId: Guid, c: Conversation)
    requires FindCharacter(characters, characterId).Some?
    requires c in GetUserConversationsWithCharacter(store, userId, characterId)
    ensures ToResponse(c, FindCharacter(characters, characterId).value.Name) in GetUserConversations(store, characters, userId)
  {
    var mine := ConversationRepository.GetUserConversations(store, userId);
    var i :| 0 <= i < |mine| && mine[i] == c;
    assert GetUserConversations(store, characters, userId)[i] == ToResponse(c, NameOf(characters, c.CharacterId));
  }
}

=== FILE: domain.dfy ===
/** The persisted entities and their enumerations.

    Identifiers: entity keys (C# `Guid`) are `nat`s and user ids are strings,
    as in the identity store. Instants are whole seconds on the UTC clock,
    amounts of money are exact `real`s (C# `decimal`).

    Where the code uses several conflicting definitions of one enumeration,
    the datatype here is their union: `PaymentStatus` joins the two PayPal DTO
    enumerations with the statuses the Stripe flow uses, and `AssetType` joins
    the domain and the Unity asset enumerations. Where an entity record lacks
    a field the services assign, the record here carries it.
 */
module Domain {
  import opened Wrappers

  type Guid = nat
  type UserId = string
  /** Seconds on the UTC clock. */
  type Instant = int

  const SecondsPerDay: int := 86400

  // ---------------------------------------------------------------- enums

  datatype SubscriptionPlan = Free | Individual | School | Museum | Enterprise {
    /** The enumeration's underlying value, which orders the plans. */
    function Rank(): nat {
      match this
      case Free => 0
      case Individual => 1
      case School => 2
      case Museum => 3
      case Enterprise => 4
    }
  }

  const AllPlans: seq<SubscriptionPlan> := [Free, Individual, School, Museum, Enterprise]

  lemma AllPlansListed(p: SubscriptionPlan)
    ensures p in AllPlans
    ensures AllPlans[p.Rank()] == p
  {
  }

  datatype SubscriptionStatus = Active | Cancelled | Expired | PendingPayment

  datatype PaymentStatus =
    | Pending | Approved | Completed | Failed | Cancelled
    | Succeeded | Refunded | PartiallyRefunded

  /** `Method` and `Provider` are unset (the enum's zero value, which names no
      member) on payments created by the PayPal checkout flow; `None` models it. */
  datatype PaymentMethod = CreditCard | DebitCard | PayPalWallet | ApplePay | GooglePay | BankTransfer
  datatype PaymentProvider = Stripe | PayPal | Manual

  datatype InvoiceStatus = Draft | Open | Paid | Void | Uncollectible

  datatype RefundReason = RequestedByCustomer | Duplicate | Fraudulent | ServiceNotProvided | OtherReason {
    /** `Enum.ToString()`: the member's name. */
    function Name(): string {
      match this
      case RequestedByCustomer => "RequestedByCustomer"
      case Duplicate => "Duplicate"
      case Fraudulent => "Fraudulent"
      case ServiceNotProvided => "ServiceNotProvided"
      case OtherReason => "Other"
    }
  }

  datatype AssetType =
    | Model3D | Texture | Material | Audio | Animation | Prefab | SceneAsset
    | Image | Video | Document | Other

  datatype AssetStatus = Available | Processing | Unavailable | Deprecated

  /** The generic reply of the billing operations. */
  datatype ApiResponse = ApiResponse(Success: bool, Message: string)

  // ---------------------------------------------------------------- billing

  datatype Subscription = Subscription(
    Id: Guid,
    UserId: UserId,
    Plan: SubscriptionPlan,
    Status: SubscriptionStatus,
    StartDate: Instant,
    EndDate: Instant,
    Price: real,
    StripeSubscriptionId: string)

  datatype Payment = Payment(
    Id: Guid,
    UserId: UserId,
    SubscriptionId: Option<Guid>,
    PayPalOrderId: string,
    PayerEmail: string,
    PayerName: string,
    Amount: real,
    Currency: string,
    Status: PaymentStatus,
    Method: Option<PaymentMethod>,
    Provider: Option<PaymentProvider>,
    ProviderPaymentId: Option<string>,
    Description: Option<string>,
    SubtotalAmount: real,
    TaxAmount: Option<real>,
    CreatedAt: Instant,
    CompletedAt: Option<Instant>,
    PaidAt: Option<Instant>,
    FailedAt: Option<Instant>,
    RefundedAt: Option<Instant>,
    FailureReason: Option<string>,
    RefundReason: Option<string>,
    ReceiptUrl: Option<string>)

  datatype InvoiceItem = InvoiceItem(
    Id: Guid,
    Description: string,
    Quantity: int,
    UnitPrice: real,
    Amount: real)

  datatype Invoice = Invoice(
    Id: Guid,
    InvoiceNumber: string,
    UserId: UserId,
    PaymentId: Option<Guid>,
    SubscriptionId: Option<Guid>,
    Amount: real,
    TaxAmount: real,
    TotalAmount: real,
    Currency: string,
    Status: InvoiceStatus,
    IssuedAt: Instant,
    DueDate: Instant,
    PaidAt: Option<Instant>,
    Items: seq<InvoiceItem>)

  datatype SavedPaymentMethod = SavedPaymentMethod(
    Id: Guid,
    UserId: UserId,
    Provider: PaymentProvider,
    ProviderPaymentMethodId: string,
    Type: PaymentMethod,
    IsDefault: bool,
    IsActive: bool,
    CreatedAt: Instant,
    DeletedAt: Option<Instant>)

  // ---------------------------------------------------------------- identity

  /** An account of the identity store; credentials stay in the store. */
  datatype ApplicationUser = ApplicationUser(
    Id: UserId,
    Email: Option<string>,
    FirstName: string,
    LastName: string,
    LastLoginAt: Option<Instant>)

  datatype RefreshToken = RefreshToken(
    Id: Guid,
    UserId: UserId,
    Token: string,
    ExpiresAt: Instant,
    CreatedAt: Instant,
    IsRevoked: bool,
    RevokedAt: Option<Instant>)

  // ---------------------------------------------------------------- content

  datatype Character = Character(
    Id: Guid,
    Name: string,
    Role: string,
    Background: string,
    Personality: string,
    VoiceId: string,
    AvatarUrl: string,
    SceneId: Guid,
    CreatedAt: Instant)

  datatype Scene = Scene(
    Id: Guid,
    Title: string,
    Era: string,
    Location: string,
    Description: string,
    EnvironmentPrompt: string,
    Model3DUrl: string,
    CreatedAt: Instant,
    UpdatedAt: Option<Instant>,
    Characters: seq<Character>)

  datatype Conversation = Conversation(
    Id: Guid,
    UserId: UserId,
    CharacterId: Guid,
    UserMessage: string,
    CharacterResponse: string,
    CreatedAt: Instant)

  datatype Asset = Asset(
    Id: Guid,
    Name: string,
    FileName: string,
    Type: AssetType,
    FilePath: string,
    FileUrl: string,
    FileSize: int,
    FileHash: string,
    Version: string,
    SceneId: Option<Guid>,
    Description: Option<string>,
    Status: AssetStatus,
    CreatedAt: Instant)
}

=== FILE: file_storage.dfy ===
/** The local file store: uploads under a web root's "uploads" directory,
    addressed by URLs of the form "/uploads/<folder>/<name>".

    The host is Unix-like: the directory separator is '/', and a path that
    starts with '/' is rooted. `Path.GetFullPath` is a parameter of the
    volume (any normaliser); the disk is a map from full paths to contents
    plus the set of directories that exist. */
module FileStorage {
  import opened Wrappers
  import opened Text
  import Base64

  type Bytes = seq<Base64.Byte>

  const Separator: char := '/'
  const UploadsSegment: string := "/uploads/"

  /** The upload root and the platform's path normaliser. */
  datatype Volume = Volume(Root: string, FullPath: string -> string)

  datatype Disk = Disk(files: map<string, Bytes>, dirs: set<string>)

  datatype FormFile = FormFile(FileName: string, Content: Bytes, ContentType: Option<string>) {
    function Length(): nat { |Content| }
  }

  /** Messages of the exceptions the store raises (its text is Arabic). */
  const UploadFailed: string := "فشل رفع الملف"
  const NullReference: string := "Object reference not set to an instance of an object."
  const FileNotFoundPrefix: string := "الملف غير موجود: "
  const OutsideRoot: string := "محاولة الوصول إلى ملف خارج المسار المسموح"

  // ---------------------------------------------------------------- paths

  predicate EndsWith(s: string, suffix: string) {
    |suffix| <= |s| && s[|s| - |suffix|..] == suffix
  }

  /** `Path.Combine(a, b)`: a rooted `b` replaces `a`. */
  function Combine(a: string, b: string): (r: string)
    ensures |b| > 0 && b[0] == Separator ==> r == b
    ensures (|b| == 0 || b[0] != Separator) ==> StartsWith(r, a) && EndsWith(r, b)
  {
    if |b| == 0 then a
    else if b[0] == Separator then b
    else if |a| == 0 || a[|a| - 1] == Separator then a + b
    else a + [Separator] + b
  }

  /** The guard of upload, delete, read and folder deletion: the normalised
      target must start with the normalised root, as plain text. */
  predicate InsideRoot(v: Volume, path: string) {
    StartsWith(v.FullPath(path), v.FullPath(v.Root))
  }

  /** The guard does not look for a separator after the root: a sibling
      directory whose name extends the root's passes it. */
  lemma SiblingPassesGuard(v: Volume, path: string, suffix: string)
    requires v.FullPath(path) == v.FullPath(v.Root) + suffix
    requires |suffix| > 0 && suffix[0] != Separator
    ensures InsideRoot(v, path)
    ensures !StartsWith(v.FullPath(path), v.FullPath(v.Root) + [Separator])
  {
    var root := v.FullPath(v.Root);
    assert v.FullPath(path)[..|root|] == root;
    assert v.FullPath(path)[|root|] == suffix[0];
    assert (root + [Separator])[|root|] == Separator;
  }

  /** The path a URL names: every "/uploads/" removed, then '/' mapped to
      the separator. */
  function RelativePath(url: string): (r: string)
    ensures r == Replace(url, UploadsSegment, "")
  {
    var stripped := Replace(url, UploadsSegment, "");
    MapCharIdentity(stripped, '/');
    MapChar(stripped, '/', Separator)
  }

  lemma MapCharIdentity(s: string, c: char)
    ensures MapChar(s, c, c) == s
  {
  }

  /** Removing "/uploads/" once can create a new occurrence, so the rewrite
      is not idempotent: "/up/uploads/loads/" followed by any `x` becomes the
      rooted "/uploads/" + `x`, which a second rewrite turns into `x`. */
  lemma RelativePathNotIdempotent(x: string)
    requires !Contains("loads/" + x, UploadsSegment)
    ensures RelativePath("/up" + UploadsSegment + "loads/" + x) == UploadsSegment + x
    ensures RelativePath(RelativePath("/up" + UploadsSegment + "loads/" + x)) == x
    ensures RelativePath(RelativePath("/up" + UploadsSegment + "loads/" + x)) != RelativePath("/up" + UploadsSegment + "loads/" + x)
  {
    FirstRewriteJoins(x);
    if Contains(x, UploadsSegment) {
      ContainsAfterPrefix("loads/", x, UploadsSegment);
    }
    StripUploadsPrefix(x);
  }

  lemma FirstRewriteJoins(x: string)
    requires !Contains("loads/" + x, UploadsSegment)
    ensures RelativePath("/up" + UploadsSegment + "loads/" + x) == UploadsSegment + x
  {
    var tail := "loads/" + x;
    var rest := UploadsSegment + tail;
    assert "/up" + UploadsSegment + "loads/" + x == "/up" + rest;
    forall i | 0 <= i < 3 ensures !OccursAt("/up" + rest, UploadsSegment, i) {
      var k := if i == 0 then 3 else 0;
      assert ("/up" + rest)[i + k] != UploadsSegment[k];
    }
    assert "/up" + tail == UploadsSegment + x;
    RewriteJoins("/up" + rest, "/up", rest, tail, x);
  }

  /** Rewriting `p` + "/uploads/" + `tail`, where no occurrence starts in `p`
      and none is in `tail`, gives `p` + `tail`. */
  lemma RewriteJoins(u: string, p: string, rest: string, tail: string, x: string)
    requires u == p + rest && rest == UploadsSegment + tail && p + tail == UploadsSegment + x
    requires forall i :: 0 <= i < |p| ==> !OccursAt(p + rest, UploadsSegment, i)
    requires !Contains(tail, UploadsSegment)
    ensures Replace(u, UploadsSegment, "") == UploadsSegment + x
  {
    ReplaceKeepsPrefix(p, rest, UploadsSegment, "");
    DropSegment(rest, tail);
    ReplaceAbsent(tail, UploadsSegment, "");
  }

  /** A character that cannot start "/uploads/" is kept by the rewrite. */
  lemma KeepFirst(s: string, k: nat)
    requires |s| >= |UploadsSegment| && k < |UploadsSegment| && s[k] != UploadsSegment[k]
    ensures Replace(s, UploadsSegment, "") == [s[0]] + Replace(s[1..], UploadsSegment, "")
  {
    assert s[..|UploadsSegment|][k] == s[k];
  }

  /** A leading "/uploads/" is dropped by the rewrite. */
  lemma DropSegment(s: string, rest: string)
    requires s == UploadsSegment + rest
    ensures Replace(s, UploadsSegment, "") == Replace(rest, UploadsSegment, "")
  {
    assert s[..|UploadsSegment|] == UploadsSegment;
    assert s[|UploadsSegment|..] == rest;
  }

  /** A URL without "/uploads/" that starts with '/' names that absolute
      path, wherever the root is. */
  lemma RootedUrlEscapesRoot(v: Volume, url: string)
    requires |url| > 0 && url[0] == Separator && !Contains(url, UploadsSegment)
    ensures Combine(v.Root, RelativePath(url)) == url
  {
    ReplaceAbsent(url, UploadsSegment, "");
  }

  // ---------------------------------------------------------------- file names

  function LastDot(s: string): (r: Option<nat>)
    ensures r.Some? ==> r.value < |s| && s[r.value] == '.' && '.' !in s[r.value + 1..]
    ensures r.None? ==> '.' !in s
  {
    if |s| == 0 then None
    else if s[|s| - 1] == '.' then Some(|s| - 1)
    else
      var r := LastDot(s[..|s| - 1]);
      assert s == s[..|s| - 1] + [s[|s| - 1]];
      if r.Some? then
        assert s[r.value + 1..] == s[..|s| - 1][r.value + 1..] + [s[|s| - 1]];
        r
      else r
  }

  /** `Path.GetExtension`: from the last '.' of the file name, or "" when
      there is none or it is the last character. */
  function GetExtension(path: string): (r: string)
    ensures r == "" || (|r| >= 2 && r[0] == '.' && '.' !in r[1..] && Separator !in r)
  {
    var name := LastSegment(path, Separator);
    match LastDot(name)
    case None => ""
    case Some(i) => if i == |name| - 1 then "" else name[i..]
  }

  /** `Path.GetFileNameWithoutExtension`: the file name up to its last '.'. */
  function GetFileNameWithoutExtension(path: string): (r: string)
    ensures Separator !in r
  {
    var name := LastSegment(path, Separator);
    match LastDot(name)
    case None => name
    case Some(i) => name[..i]
  }

  /** The two parts put the file name back together, except that a trailing
      '.' belongs to neither. */
  lemma NameParts(path: string)
    ensures var name := LastSegment(path, Separator);
            var stem := GetFileNameWithoutExtension(path);
            var ext := GetExtension(path);
            (!EndsWith(name, ".") ==> stem + ext == name) &&
            (EndsWith(name, ".") ==> stem + "." == name && ext == "")
  {
    var name := LastSegment(path, Separator);
    match LastDot(name)
    case None =>
    case Some(i) =>
      assert name == name[..i] + name[i..];
      if i == |name| - 1 {
        assert name[i..] == ".";
      }
  }

  predicate IsSafeChar(c: char) {
    IsUpper(c) || IsLower(c) || IsDigit(c) || c == '_' || c == '-'
  }

  /** Every character outside [a-zA-Z0-9_-] becomes '_'. */
  function Sanitize(s: string): (r: string)
    ensures |r| == |s|
    ensures forall i :: 0 <= i < |s| ==> IsSafeChar(r[i])
    ensures forall i :: 0 <= i < |s| ==> (IsSafeChar(s[i]) ==> r[i] == s[i]) && (!IsSafeChar(s[i]) ==> r[i] == '_')
  {
    if |s| == 0 then "" else [if IsSafeChar(s[0]) then s[0] else '_'] + Sanitize(s[1..])
  }

  lemma SanitizeIdempotent(s: string)
    ensures Sanitize(Sanitize(s)) == Sanitize(s)
  {
  }

  predicate IsHexDigit(c: char) { IsDigit(c) || 'a' <= c <= 'f' }

  /** The first eight characters of a GUID's text are hex digits. */
  predicate GuidText(guid: string) {
    |guid| >= 8 && forall i :: 0 <= i < 8 ==> IsHexDigit(guid[i])
  }

  /** The stored name: the sanitised stem, '_', eight characters of a fresh
      GUID, and the original extension. */
  function GenerateUniqueFileName(original: string, guid: string): (r: string)
    requires GuidText(guid)
    ensures Separator !in r && r != "." && r != ".."
    ensures |r| == |GetFileNameWithoutExtension(original)| + 9 + |GetExtension(original)|
    ensures GetExtension(r) == GetExtension(original)
  {
    var ext := GetExtension(original);
    var safe := Sanitize(GetFileNameWithoutExtension(original));
    var r := safe + "_" + guid[..8] + ext;
    GeneratedNameParts(safe, guid[..8], ext);
    r
  }

  lemma GeneratedNameParts(safe: string, g: string, ext: string)
    requires forall i :: 0 <= i < |safe| ==> IsSafeChar(safe[i])
    requires |g| == 8 && forall i :: 0 <= i < 8 ==> IsHexDigit(g[i])
    requires ext == "" || (|ext| >= 2 && ext[0] == '.' && '.' !in ext[1..] && Separator !in ext)
    ensures var r := safe + "_" + g + ext;
            Separator !in r && r != "." && r != ".." && GetExtension(r) == ext
  {
    var head := safe + "_" + g;
    PlainHead(safe, g);
    ExtensionAfterPlainHead(head, ext);
    assert safe + "_" + g + ext == head + ext;
  }

  /** The sanitised stem, '_' and hex digits hold neither '.' nor a separator. */
  lemma PlainHead(safe: string, g: string)
    requires forall i :: 0 <= i < |safe| ==> IsSafeChar(safe[i])
    requires forall i :: 0 <= i < |g| ==> IsHexDigit(g[i])
    ensures forall i :: 0 <= i < |safe + "_" + g| ==> (safe + "_" + g)[i] != '.' && (safe + "_" + g)[i] != Separator
  {
    var head := safe + "_" + g;
    forall i | 0 <= i < |head| ensures head[i] != '.' && head[i] != Separator {
      if i < |safe| { assert head[i] == safe[i]; }
      else if i > |safe| { assert head[i] == g[i - |safe| - 1]; }
    }
  }

  /** After a head without '.' or separator, the extension is what follows. */
  lemma ExtensionAfterPlainHead(head: string, ext: string)
    requires |head| >= 2
    requires forall i :: 0 <= i < |head| ==> head[i] != '.' && head[i] != Separator
    requires ext == "" || (|ext| >= 2 && ext[0] == '.' && '.' !in ext[1..] && Separator !in ext)
    ensures Separator !in head + ext && head + ext != "." && head + ext != ".."
    ensures GetExtension(head + ext) == ext
  {
    var r := head + ext;
    assert Separator !in r by {
      forall i | 0 <= i < |r| ensures r[i] != Separator {
        if i < |head| { assert r[i] == head[i]; } else { assert r[i] == ext[i - |head|]; }
      }
    }
    assert |r| >= 2 && r[0] == head[0] && r[1] == head[1];
    assert LastSegment(r, Separator) == r;
    if ext == "" {
      assert r == head;
      assert '.' !in r;
    } else {
      var k := LastDot(r).value;
      assert r[|head|] == '.';
      assert forall i :: |head| < i < |r| ==> r[i] == ext[1..][i - |head| - 1];
      assert forall i :: 0 <= i < |head| ==> r[i] == head[i];
      assert k == |head|;
      assert r[k..] == ext;
    }
  }

  // ---------------------------------------------------------------- validation

  /** The content types accepted for a known extension. */
  function ContentTypesFor(extension: string): (r: Option<seq<string>>)
    ensures r.Some? ==> |r.value| > 0
  {
    if extension == ".jpg" || extension == ".jpeg" then Some(["image/jpeg", "image/jpg"])
    else if extension == ".png" then Some(["image/png"])
    else if extension == ".gif" then Some(["image/gif"])
    else if extension == ".webp" then Some(["image/webp"])
    else if extension == ".mp3" then Some(["audio/mpeg", "audio/mp3"])
    else if extension == ".wav" then Some(["audio/wav", "audio/x-wav"])
    else if extension == ".ogg" then Some(["audio/ogg"])
    else if extension == ".glb" then Some(["model/gltf-binary", "application/octet-stream"])
    else if extension == ".gltf" then Some(["model/gltf+json", "application/json"])
    else if extension == ".obj" then Some(["model/obj", "application/octet-stream"])
    else if extension == ".fbx" then Some(["application/octet-stream"])
    else if extension == ".pdf" then Some(["application/pdf"])
    else None
  }

  /** An extension outside the table passes; a listed one needs one of its
      content types, and an absent or empty content type never is one. */
  function IsValidContentType(contentType: Option<string>, extension: string): (r: bool)
    ensures ContentTypesFor(extension).None? ==> r
    ensures ContentTypesFor(extension).Some? ==>
              (r <==> contentType.Some? && contentType.value in ContentTypesFor(extension).value)
    ensures NullOrEmpty(contentType) && ContentTypesFor(extension).Some? ==> !r
  {
    match ContentTypesFor(extension)
    case None => true
    case Some(types) => !NullOrEmpty(contentType) && contentType.value in types
  }

  /** The upload check: a file that is present and non-empty, no larger than
      `maxSize`, whose lower-cased extension is allowed and whose content
      type fits that extension. */
  function ValidateFile(file: Option<FormFile>, allowedExtensions: seq<string>, maxSize: int): (r: bool)
    ensures r ==> file.Some? && 0 < file.value.Length() <= maxSize
    ensures r ==> ToLower(GetExtension(file.value.FileName)) in allowedExtensions
    ensures file.Some? && 0 < file.value.Length() <= maxSize &&
            ToLower(GetExtension(file.value.FileName)) in allowedExtensions ==>
              (r <==> IsValidContentType(file.value.ContentType, ToLower(GetExtension(file.value.FileName))))
  {
    match file
    case None => false
    case Some(f) =>
      if f.Length() == 0 then false
      else if f.Length() > maxSize then false
      else
        var extension := ToLower(GetExtension(f.FileName));
        if extension !in allowedExtensions then false
        else IsValidContentType(f.ContentType, extension)
  }

  /** The size limit is inclusive. */
  lemma ValidateAtLimit(f: FormFile, allowed: seq<string>)
    requires f.Length() > 0
    requires ToLower(GetExtension(f.FileName)) in allowed
    requires ContentTypesFor(ToLower(GetExtension(f.FileName))).None?
    ensures ValidateFile(Some(f), allowed, f.Length())
    ensures !ValidateFile(Some(f), allowed, f.Length() - 1)
  {
  }

  // ---------------------------------------------------------------- operations

  /** The folder and file paths of an upload, before normalisation. */
  function UploadTarget(v: Volume, folder: string, name: string): (r: (string, string))
    ensures r.1 == Combine(r.0, name)
  {
    var folderPath := Combine(v.Root, folder);
    (folderPath, Combine(folderPath, name))
  }

  /** Stores the file under a fresh name in `folder` and answers its URL.
      The folder is created before the guard runs, so a refused upload may
      still leave a new directory behind. */
  function UploadFile(v: Volume, disk: Disk, file: Option<FormFile>, folder: string, guid: string)
    : (r: (Disk, Result<string>))
    requires GuidText(guid)
    ensures file.None? ==> r == (disk, Err(Throw(NullReference)))
    ensures file.Some? && file.value.Length() == 0 ==> r == (disk, Err(Throw(UploadFailed)))
    ensures r.1.Err? ==> r.0.files == disk.files
    ensures r.1.Ok? ==>
              var name := GenerateUniqueFileName(file.value.FileName, guid);
              var target := UploadTarget(v, folder, name);
              InsideRoot(v, target.1) &&
              r.1.value == UploadsSegment + folder + "/" + name &&
              r.0.files == disk.files[v.FullPath(target.1) := file.value.Content]
    ensures file.Some? && file.value.Length() > 0 ==>
              var target := UploadTarget(v, folder, GenerateUniqueFileName(file.value.FileName, guid));
              r.0.dirs == disk.dirs + {v.FullPath(target.0)} &&
              (r.1.Ok? <==> InsideRoot(v, target.1))
  {
    match file
    case None => (disk, Err(Throw(NullReference)))
    case Some(f) =>
      if f.Length() == 0 then (disk, Err(Throw(UploadFailed)))
      else
        var name := GenerateUniqueFileName(f.FileName, guid);
        var (folderPath, filePath) := UploadTarget(v, folder, name);
        var created := Disk(disk.files, disk.dirs + {v.FullPath(folderPath)});
        if !InsideRoot(v, filePath) then (created, Err(Throw(UploadFailed)))
        else (Disk(created.files[v.FullPath(filePath) := f.Content], created.dirs),
              Ok(UploadsSegment + folder + "/" + name))
  }

  /** The full path a URL resolves to. */
  function Resolve(v: Volume, url: string): string {
    v.FullPath(Combine(v.Root, RelativePath(url)))
  }

  /** Deletes the file a URL names; false for an empty URL, a path outside
      the root or a missing file. */
  function DeleteFile(v: Volume, disk: Disk, url: string): (r: (Disk, bool))
    ensures r.1 <==> |url| > 0 && InsideRoot(v, Combine(v.Root, RelativePath(url))) && Resolve(v, url) in disk.files
    ensures r.1 ==> r.0.files == disk.files - {Resolve(v, url)} && r.0.dirs == disk.dirs
    ensures !r.1 ==> r.0 == disk
  {
    if |url| == 0 then (disk, false)
    else
      var filePath := Combine(v.Root, RelativePath(url));
      if !InsideRoot(v, filePath) then (disk, false)
      else if v.FullPath(filePath) in disk.files then (Disk(disk.files - {v.FullPath(filePath)}, disk.dirs), true)
      else (disk, false)
  }

  /** The contents of the file a URL names. */
  function GetFile(v: Volume, disk: Disk, url: string): (r: Result<Bytes>)
    ensures !InsideRoot(v, Combine(v.Root, RelativePath(url))) ==> r == Err(Fault(InvalidOperation, OutsideRoot))
    ensures InsideRoot(v, Combine(v.Root, RelativePath(url))) && Resolve(v, url) !in disk.files ==>
              r == Err(Fault(FileNotFound, FileNotFoundPrefix + url))
    ensures r.Ok? ==> Resolve(v, url) in disk.files && r.value == disk.files[Resolve(v, url)]
  {
    var filePath := Combine(v.Root, RelativePath(url));
    if !InsideRoot(v, filePath) then Err(Fault(InvalidOperation, OutsideRoot))
    else if v.FullPath(filePath) !in disk.files then Err(Fault(FileNotFound, FileNotFoundPrefix + url))
    else Ok(disk.files[v.FullPath(filePath)])
  }

  /** Whether a file exists at the path a URL names; no guard is applied. */
  function FileExists(v: Volume, disk: Disk, url: string): (r: bool)
    ensures r <==> Resolve(v, url) in disk.files
  {
    Resolve(v, url) in disk.files
  }

  /** The size of that file, 0 when it is missing; no guard is applied. */
  function GetFileSize(v: Volume, disk: Disk, url: string): (r: nat)
    ensures FileExists(v, disk, url) ==> r == |disk.files[Resolve(v, url)]|
    ensures !FileExists(v, disk, url) ==> r == 0
  {
    if Resolve(v, url) in disk.files then |disk.files[Resolve(v, url)]| else 0
  }

  /** `FileExists` answers for any absolute path a caller names, even one
      that `GetFile` refuses to read. */
  lemma ExistenceProbeIgnoresRoot(v: Volume, disk: Disk, url: string)
    requires |url| > 0 && url[0] == Separator && !Contains(url, UploadsSegment)
    requires !StartsWith(v.FullPath(url), v.FullPath(v.Root))
    ensures FileExists(v, disk, url) <==> v.FullPath(url) in disk.files
    ensures GetFile(v, disk, url).Err?
  {
    RootedUrlEscapesRoot(v, url);
  }

  /** Removes a folder under the root with everything below it. */
  function DeleteFolder(v: Volume, disk: Disk, folder: string): (r: (Disk, bool))
    ensures r.1 <==> InsideRoot(v, Combine(v.Root, folder)) && v.FullPath(Combine(v.Root, folder)) in disk.dirs
    ensures !r.1 ==> r.0 == disk
    ensures r.1 ==>
              var dir := v.FullPath(Combine(v.Root, folder));
              dir !in r.0.dirs &&
              (forall p :: p in r.0.files ==> p in disk.files && !StartsWith(p, dir + [Separator])) &&
              (forall p :: p in disk.files && !StartsWith(p, dir + [Separator]) ==> p in r.0.files)
  {
    var folderPath := Combine(v.Root, folder);
    var dir := v.FullPath(folderPath);
    if !InsideRoot(v, folderPath) || dir !in disk.dirs then (disk, false)
    else
      var files := map p | p in disk.files && !StartsWith(p, dir + [Separator]) :: disk.files[p];
      var dirs := set d | d in disk.dirs && d != dir && !StartsWith(d, dir + [Separator]);
      (Disk(files, dirs), true)
  }

  /** The URL of an upload names the path the upload wrote. */
  lemma UrlNamesTarget(v: Volume, folder: string, name: string)
    requires |v.Root| > 0 && v.Root[|v.Root| - 1] != Separator
    requires |folder| > 0 && folder[0] != Separator && folder[|folder| - 1] != Separator
    requires |name| > 0 && name[0] != Separator
    requires !Contains(folder + "/" + name, UploadsSegment)
    ensures Combine(v.Root, RelativePath(UploadsSegment + folder + "/" + name)) == UploadTarget(v, folder, name).1
  {
    var rest := folder + "/" + name;
    assert UploadsSegment + folder + "/" + name == UploadsSegment + rest;
    StripUploadsPrefix(rest);
    var folderPath := v.Root + [Separator] + folder;
    assert rest[0] == folder[0];
    assert Combine(v.Root, folder) == folderPath;
    assert folderPath[|folderPath| - 1] == folder[|folder| - 1];
    assert Combine(folderPath, name) == folderPath + [Separator] + name;
    assert v.Root + [Separator] + rest == folderPath + [Separator] + name;
  }

  /** The rewrite drops a leading "/uploads/" and keeps a rest that holds no other. */
  lemma StripUploadsPrefix(rest: string)
    requires !Contains(rest, UploadsSegment)
    ensures RelativePath(UploadsSegment + rest) == rest
  {
    var url := UploadsSegment + rest;
    assert url[..|UploadsSegment|] == UploadsSegment;
    assert url[|UploadsSegment|..] == rest;
    ReplaceAbsent(rest, UploadsSegment, "");
  }

  /** A stored upload is read back through the URL it was given, as long as
      the folder is a plain relative name and the URL holds "/uploads/" only
      at its start. */
  lemma UploadThenGet(v: Volume, disk: Disk, f: FormFile, folder: string, guid: string)
    requires GuidText(guid)
    requires |v.Root| > 0 && v.Root[|v.Root| - 1] != Separator
    requires |folder| > 0 && folder[0] != Separator && folder[|folder| - 1] != Separator
    requires UploadFile(v, disk, Some(f), folder, guid).1.Ok?
    requires !Contains(folder + "/" + GenerateUniqueFileName(f.FileName, guid), UploadsSegment)
    ensures var (after, url) := UploadFile(v, disk, Some(f), folder, guid);
            GetFile(v, after, url.value) == Ok(f.Content)
  {
    var name := GenerateUniqueFileName(f.FileName, guid);
    assert |name| > 0 && name[0] != Separator by {
      assert name[0] in name;
    }
    UrlNamesTarget(v, folder, name);
  }
}

=== FILE: files_controller.dfy ===
/** The file endpoints: typed single uploads with per-kind limits, the batch
    upload, deletion and the existence probe. The storage is the local file
    store; its answers, the clock and fresh GUIDs are parameters. */
module FilesController {
  import opened Wrappers
  import opened Text
  import opened FileStorage

  const MiB: int := 1024 * 1024
  const MaxImageSize: int := 5 * MiB
  const MaxModelSize: int := 50 * MiB
  const MaxAudioSize: int := 10 * MiB

  const ImageExtensions: seq<string> := [".jpg", ".jpeg", ".png", ".gif", ".webp"]
  const ModelExtensions: seq<string> := [".glb", ".gltf", ".obj", ".fbx"]
  const AudioExtensions: seq<string> := [".mp3", ".wav", ".ogg"]

  /** The four typed upload endpoints. */
  datatype UploadKind = Avatar | Model | SceneImage | Audio {
    function Folder(): string {
      match this
      case Avatar => "avatars"
      case Model => "models"
      case SceneImage => "scenes"
      case Audio => "audio"
    }
    function Extensions(): seq<string> {
      match this
      case Avatar => ImageExtensions
      case Model => ModelExtensions
      case SceneImage => ImageExtensions
      case Audio => AudioExtensions
    }
    function MaxSize(): int {
      match this
      case Avatar => MaxImageSize
      case Model => MaxModelSize
      case SceneImage => MaxImageSize
      case Audio => MaxAudioSize
    }
    /** The content type reported when the upload names none; the scene-image
        and audio answers carry no type. */
    function DefaultFileType(): Option<string> {
      match this
      case Avatar => Some("image/jpeg")
      case Model => Some("application/octet-stream")
      case SceneImage => None
      case Audio => None
    }
    function InvalidFileMessage(): string {
      match this
      case Avatar => "ملف غير صحيح. الأنواع المسموحة: JPG, PNG, GIF, WebP. الحجم الأقصى: 5MB"
      case Model => "ملف غير صحيح. الأنواع المسموحة: GLB, GLTF, OBJ, FBX. الحجم الأقصى: 50MB"
      case SceneImage => "ملف صورة غير صحيح"
      case Audio => "ملف صوتي غير صحيح. الأنواع المسموحة: MP3, WAV, OGG. الحجم الأقصى: 10MB"
    }
  }

  datatype Uploaded = Uploaded(FileName: string, FileUrl: string, FileType: Option<string>, FileSize: nat)

  datatype Reply =
    | Ok200(data: Option<Uploaded>)
    | BadRequest(error: string)
    | NotFound(error: string)

  const MissingUrl: string := "رابط الملف مفقود"
  const FileMissing: string := "الملف غير موجود"
  const NoFilesChosen: string := "لم يتم اختيار ملفات"
  const TooLarge: string := "يتجاوز الحد الأقصى للحجم"

  /** A typed upload: validate, then store under the kind's folder. A
      storage failure is answered with its message. */
  function Upload(kind: UploadKind, v: Volume, disk: Disk, file: Option<FormFile>, guid: string)
    : (r: (Disk, Reply))
    requires GuidText(guid)
    ensures !ValidateFile(file, kind.Extensions(), kind.MaxSize()) ==>
              r == (disk, BadRequest(kind.InvalidFileMessage()))
    ensures r.1.Ok200? ==>
              ValidateFile(file, kind.Extensions(), kind.MaxSize()) &&
              var stored := UploadFile(v, disk, file, kind.Folder(), guid);
              stored.1.Ok? && r.0 == stored.0 &&
              r.1.data == Some(Uploaded(file.value.FileName, stored.1.value,
                                        if kind.DefaultFileType().Some? then Some(file.value.ContentType.GetOr(kind.DefaultFileType().value)) else None,
                                        file.value.Length()))
    ensures ValidateFile(file, kind.Extensions(), kind.MaxSize()) ==>
              var stored := UploadFile(v, disk, file, kind.Folder(), guid);
              r.0 == stored.0 && (r.1.Ok200? <==> stored.1.Ok?) &&
              (stored.1.Err? ==> r.1 == BadRequest(stored.1.error.message))
    ensures r.1.BadRequest? || r.1.Ok200?
    ensures r.1.Ok200? ==> r.1.data.Some? && r.1.data.value.FileSize <= kind.MaxSize()
    ensures r.1.Ok200? ==> ToLower(GetExtension(file.value.FileName)) in kind.Extensions()
  {
    if !ValidateFile(file, kind.Extensions(), kind.MaxSize()) then (disk, BadRequest(kind.InvalidFileMessage()))
    else
      var f := file.value;
      var (after, stored) := UploadFile(v, disk, file, kind.Folder(), guid);
      match stored
      case Err(e) => (after, BadRequest(e.message))
      case Ok(url) =>
        var fileType := if kind.DefaultFileType().Some? then Some(f.ContentType.GetOr(kind.DefaultFileType().value)) else None;
        (after, Ok200(Some(Uploaded(f.FileName, url, fileType, f.Length()))))
  }

  /** No extension is accepted by two different kinds of endpoint, except
      that avatars and scene images share the image list. */
  lemma ExtensionListsDisjoint(e: string)
    ensures !(e in ImageExtensions && e in ModelExtensions)
    ensures !(e in ImageExtensions && e in AudioExtensions)
    ensures !(e in ModelExtensions && e in AudioExtensions)
  {
  }

  /** An image endpoint never stores a model or audio file, and so on for
      any two kinds with different extension lists. */
  lemma KindsAcceptDisjointExtensions(k1: UploadKind, k2: UploadKind, f: FormFile, v: Volume, disk: Disk, guid: string)
    requires GuidText(guid)
    requires k1.Extensions() != k2.Extensions()
    ensures !(Upload(k1, v, disk, Some(f), guid).1.Ok200? && Upload(k2, v, disk, Some(f), guid).1.Ok200?)
  {
    var e := ToLower(GetExtension(f.FileName));
    ExtensionListsDisjoint(e);
    assert Upload(k1, v, disk, Some(f), guid).1.Ok200? ==> e in k1.Extensions();
    assert Upload(k2, v, disk, Some(f), guid).1.Ok200? ==> e in k2.Extensions();
  }

  /** A file a typed endpoint accepted is read back through the URL its
      answer carries. */
  lemma UploadedFileReadsBack(kind: UploadKind, v: Volume, disk: Disk, f: FormFile, guid: string)
    requires GuidText(guid)
    requires |v.Root| > 0 && v.Root[|v.Root| - 1] != Separator
    requires !Contains(kind.Folder() + "/" + GenerateUniqueFileName(f.FileName, guid), UploadsSegment)
    ensures var (after, reply) := Upload(kind, v, disk, Some(f), guid);
            reply.Ok200? ==> GetFile(v, after, reply.data.value.FileUrl) == Ok(f.Content)
  {
    if Upload(kind, v, disk, Some(f), guid).1.Ok200? {
      UploadThenGet(v, disk, f, kind.Folder(), guid);
    }
  }

  /** A refused upload leaves the files as they were. */
  lemma RefusedUploadStoresNothing(kind: UploadKind, v: Volume, disk: Disk, file: Option<FormFile>, guid: string)
    requires GuidText(guid)
    ensures Upload(kind, v, disk, file, guid).1.BadRequest? ==> Upload(kind, v, disk, file, guid).0.files == disk.files
  {
  }

  // ---------------------------------------------------------------- batch

  datatype Outcome = Stored(file: Uploaded) | Failed(message: string)

  /** One file of a batch: only the 5 MiB limit is checked before storing,
      and neither the extension nor the content type is. */
  function UploadOne(v: Volume, disk: Disk, f: FormFile, folder: string, guid: string): (r: (Disk, Outcome))
    requires GuidText(guid)
    ensures f.Length() > MaxImageSize ==> r == (disk, Failed(f.FileName + ": " + TooLarge))
    ensures r.1.Stored? <==> 0 < f.Length() <= MaxImageSize && UploadFile(v, disk, Some(f), folder, guid).1.Ok?
    ensures r.1.Failed? ==> r.0.files == disk.files
    ensures r.1.Failed? ==> StartsWith(r.1.message, f.FileName + ": ")
    ensures r.1.Stored? ==>
              r.0 == UploadFile(v, disk, Some(f), folder, guid).0 &&
              r.1.file.FileName == f.FileName && r.1.file.FileSize == f.Length() &&
              r.1.file.FileUrl == UploadsSegment + folder + "/" + GenerateUniqueFileName(f.FileName, guid)
  {
    if f.Length() > MaxImageSize then (disk, Failed(f.FileName + ": " + TooLarge))
    else
      var (after, stored) := UploadFile(v, disk, Some(f), folder, guid);
      match stored
      case Err(e) => (after, Failed(f.FileName + ": " + e.message))
      case Ok(url) =>
        (after, Stored(Uploaded(f.FileName, url, Some(f.ContentType.GetOr("application/octet-stream")), f.Length())))
  }

  predicate AllGuids(guids: seq<string>) {
    forall i :: 0 <= i < |guids| ==> GuidText(guids[i])
  }

  /** The disks a batch passes through: the disk file `i` meets is entry
      `i`, and the last entry is the disk the batch leaves behind. */
  function Stages(v: Volume, disk: Disk, files: seq<FormFile>, folder: string, guids: seq<string>)
    : (r: seq<Disk>)
    requires |guids| == |files| && AllGuids(guids)
    ensures |r| == |files| + 1 && r[0] == disk
    ensures forall i :: 0 <= i < |files| ==> r[i + 1] == UploadOne(v, r[i], files[i], folder, guids[i]).0
    decreases |files|
  {
    if |files| == 0 then [disk]
    else [disk] + Stages(v, UploadOne(v, disk, files[0], folder, guids[0]).0, files[1..], folder, guids[1..])
  }

  /** The files of a batch in order, each with its own fresh GUID: each file
      is tried on the disk the earlier ones left. */
  function UploadEach(v: Volume, disk: Disk, files: seq<FormFile>, folder: string, guids: seq<string>)
    : (r: (Disk, seq<Outcome>))
    requires |guids| == |files| && AllGuids(guids)
    ensures |r.1| == |files|
    ensures var stages := Stages(v, disk, files, folder, guids);
            r.0 == stages[|files|] &&
            forall i :: 0 <= i < |files| ==> r.1[i] == UploadOne(v, stages[i], files[i], folder, guids[i]).1
    ensures forall i :: 0 <= i < |files| && files[i].Length() > MaxImageSize ==>
              r.1[i] == Failed(files[i].FileName + ": " + TooLarge)
    decreases |files|
  {
    if |files| == 0 then (disk, [])
    else
      var (next, first) := UploadOne(v, disk, files[0], folder, guids[0]);
      var (last, rest) := UploadEach(v, next, files[1..], folder, guids[1..]);
      (last, [first] + rest)
  }

  function StoredFiles(outcomes: seq<Outcome>): (r: seq<Uploaded>)
    ensures |r| <= |outcomes|
    ensures forall i :: 0 <= i < |outcomes| && outcomes[i].Stored? ==> outcomes[i].file in r
    ensures forall u :: u in r ==> Stored(u) in outcomes
  {
    if |outcomes| == 0 then []
    else (if outcomes[0].Stored? then [outcomes[0].file] else []) + StoredFiles(outcomes[1..])
  }

  /** The message of every failed file, in batch order. */
  function FailedMessages(outcomes: seq<Outcome>): (r: seq<string>)
    ensures |r| <= |outcomes|
    ensures forall i :: 0 <= i < |outcomes| && outcomes[i].Failed? ==> outcomes[i].message in r
    ensures forall m :: m in r ==> Failed(m) in outcomes
  {
    if |outcomes| == 0 then []
    else (if outcomes[0].Failed? then [outcomes[0].message] else []) + FailedMessages(outcomes[1..])
  }

  /** The failure list keeps the batch order: the messages of a batch are
      those of its first part followed by those of the rest. */
  lemma {:induction false} FailedMessagesInOrder(a: seq<Outcome>, b: seq<Outcome>)
    ensures FailedMessages(a + b) == FailedMessages(a) + FailedMessages(b)
  {
    if |a| == 0 {
      assert a + b == b;
    } else {
      assert (a + b)[1..] == a[1..] + b;
      FailedMessagesInOrder(a[1..], b);
    }
  }

  /** Every file lands in exactly one of the two lists. */
  lemma {:induction false} PartitionCounts(outcomes: seq<Outcome>)
    ensures |StoredFiles(outcomes)| + |FailedMessages(outcomes)| == |outcomes|
  {
    if |outcomes| > 0 {
      PartitionCounts(outcomes[1..]);
    }
  }

  /** No stored file means an empty upload list. */
  lemma {:induction false} NothingStored(outcomes: seq<Outcome>)
    requires forall i :: 0 <= i < |outcomes| ==> outcomes[i].Failed?
    ensures StoredFiles(outcomes) == []
  {
    if |outcomes| > 0 {
      NothingStored(outcomes[1..]);
    }
  }

  datatype BatchReply =
    | BatchBadRequest(error: string)
    | Batch(Success: bool, UploadedFiles: seq<Uploaded>, FailedFiles: seq<string>, TotalUploaded: nat, TotalFailed: nat)

  /** The answer to a batch whose files had the given outcomes. */
  function Summarize(outcomes: seq<Outcome>): (r: BatchReply)
    ensures r.Batch?
    ensures r.TotalUploaded + r.TotalFailed == |outcomes|
    ensures r.TotalUploaded == |r.UploadedFiles| && r.TotalFailed == |r.FailedFiles|
    ensures r.Success <==> |r.UploadedFiles| > 0
    ensures forall i :: 0 <= i < |outcomes| && outcomes[i].Stored? ==> outcomes[i].file in r.UploadedFiles
    ensures forall u :: u in r.UploadedFiles ==> Stored(u) in outcomes
    ensures forall i :: 0 <= i < |outcomes| && outcomes[i].Failed? ==> outcomes[i].message in r.FailedFiles
    ensures forall m :: m in r.FailedFiles ==> Failed(m) in outcomes
    ensures r.UploadedFiles == StoredFiles(outcomes) && r.FailedFiles == FailedMessages(outcomes)
    ensures (forall i :: 0 <= i < |outcomes| ==> outcomes[i].Failed?) ==> !r.Success && |r.FailedFiles| == |outcomes|
  {
    var stored := StoredFiles(outcomes);
    var failed := FailedMessages(outcomes);
    PartitionCounts(outcomes);
    if forall i :: 0 <= i < |outcomes| ==> outcomes[i].Failed? then
      NothingStored(outcomes);
      Batch(false, stored, failed, |stored|, |failed|)
    else
      Batch(|stored| > 0, stored, failed, |stored|, |failed|)
  }

  /** The batch endpoint: an absent or empty collection is refused; otherwise
      every file is tried, the stored ones are listed with their URLs and
      the answer succeeds when any file was stored. */
  function UploadMultiple(v: Volume, disk: Disk, files: Option<seq<FormFile>>, folder: string, guids: seq<string>)
    : (r: (Disk, BatchReply))
    requires files.Some? ==> |guids| == |files.value| && AllGuids(guids)
    ensures files.None? || |files.value| == 0 ==> r == (disk, BatchBadRequest(NoFilesChosen))
    ensures r.1.Batch? ==> r.1.TotalUploaded + r.1.TotalFailed == |files.value|
    ensures r.1.Batch? ==> r.1.TotalUploaded == |r.1.UploadedFiles| && r.1.TotalFailed == |r.1.FailedFiles|
    ensures r.1.Batch? ==> (r.1.Success <==> |r.1.UploadedFiles| > 0)
    ensures r.1.Batch? && (forall i :: 0 <= i < |files.value| ==> files.value[i].Length() > MaxImageSize) ==>
              !r.1.Success && |r.1.FailedFiles| == |files.value|
    ensures r.1.Batch? ==>
              var each := UploadEach(v, disk, files.value, folder, guids);
              r.0 == each.0 &&
              (forall i :: 0 <= i < |files.value| && each.1[i].Stored? ==> each.1[i].file in r.1.UploadedFiles) &&
              (forall u :: u in r.1.UploadedFiles ==> Stored(u) in each.1) &&
              r.1.FailedFiles == FailedMessages(each.1) &&
              (forall i :: 0 <= i < |files.value| && each.1[i].Failed? ==>
                 each.1[i].message in r.1.FailedFiles && StartsWith(each.1[i].message, files.value[i].FileName + ": ")) &&
              (forall m :: m in r.1.FailedFiles ==> Failed(m) in each.1)
  {
    match files
    case None => (disk, BatchBadRequest(NoFilesChosen))
    case Some(fs) =>
      if |fs| == 0 then (disk, BatchBadRequest(NoFilesChosen))
      else
        var (after, outcomes) := UploadEach(v, disk, fs, folder, guids);
        (after, Summarize(outcomes))
  }

  /** The full path an upload of `f` under `guid` writes to. */
  function TargetOf(v: Volume, folder: string, f: FormFile, guid: string): string
    requires GuidText(guid)
  {
    v.FullPath(UploadTarget(v, folder, GenerateUniqueFileName(f.FileName, guid)).1)
  }

  /** A file the batch stored is read back through the URL the answer lists,
      once the whole batch is done, as long as no later file of the batch
      was written to the same path. */
  lemma BatchReadsBack(v: Volume, disk: Disk, files: seq<FormFile>, folder: string, guids: seq<string>, i: nat)
    requires |guids| == |files| && AllGuids(guids)
    requires |v.Root| > 0 && v.Root[|v.Root| - 1] != Separator
    requires |folder| > 0 && folder[0] != Separator && folder[|folder| - 1] != Separator
    requires i < |files|
    requires !Contains(folder + "/" + GenerateUniqueFileName(files[i].FileName, guids[i]), UploadsSegment)
    requires forall j :: i < j < |files| ==>
               TargetOf(v, folder, files[j], guids[j]) != TargetOf(v, folder, files[i], guids[i])
    ensures var r := UploadMultiple(v, disk, Some(files), folder, guids);
            var each := UploadEach(v, disk, files, folder, guids);
            each.1[i].Stored? ==>
              each.1[i].file in r.1.UploadedFiles && GetFile(v, r.0, each.1[i].file.FileUrl) == Ok(files[i].Content)
  {
    var stages := Stages(v, disk, files, folder, guids);
    var each := UploadEach(v, disk, files, folder, guids);
    if each.1[i].Stored? {
      var f, guid := files[i], guids[i];
      var name := GenerateUniqueFileName(f.FileName, guid);
      var key := TargetOf(v, folder, f, guid);
      var up := UploadOne(v, stages[i], f, folder, guid);
      assert up.1 == each.1[i];
      var stored := UploadFile(v, stages[i], Some(f), folder, guid);
      assert stored.1.Ok? && stages[i + 1] == stored.0;
      assert stages[i + 1].files == stages[i].files[key := f.Content];
      KeptThroughStages(v, disk, files, folder, guids, i + 1, key, f.Content);
      assert |name| > 0 && name[0] != Separator by {
        assert name[0] in name;
      }
      UrlNamesTarget(v, folder, name);
      assert Resolve(v, each.1[i].file.FileUrl) == key;
    }
  }

  /** A file no later upload of the batch overwrites stays on the disk to the end. */
  lemma {:induction false} KeptThroughStages(v: Volume, disk: Disk, files: seq<FormFile>, folder: string,
                                             guids: seq<string>, k: nat, key: string, content: Bytes)
    requires |guids| == |files| && AllGuids(guids)
    requires k <= |files|
    requires key in Stages(v, disk, files, folder, guids)[k].files
    requires Stages(v, disk, files, folder, guids)[k].files[key] == content
    requires forall j :: k <= j < |files| ==> TargetOf(v, folder, files[j], guids[j]) != key
    ensures key in Stages(v, disk, files, folder, guids)[|files|].files
    ensures Stages(v, disk, files, folder, guids)[|files|].files[key] == content
    decreases |files| - k
  {
    if k < |files| {
      var stages := Stages(v, disk, files, folder, guids);
      assert stages[k + 1] == UploadOne(v, stages[k], files[k], folder, guids[k]).0;
      UploadOneKeepsOthers(v, stages[k], files[k], folder, guids[k], key);
      KeptThroughStages(v, disk, files, folder, guids, k + 1, key, content);
    }
  }

  /** Uploading one file of a batch leaves every other path's contents alone. */
  lemma UploadOneKeepsOthers(v: Volume, disk: Disk, f: FormFile, folder: string, guid: string, key: string)
    requires GuidText(guid)
    requires TargetOf(v, folder, f, guid) != key
    ensures var r := UploadOne(v, disk, f, folder, guid);
            (key in r.0.files <==> key in disk.files) &&
            (key in disk.files ==> r.0.files[key] == disk.files[key])
  {
    var up := UploadOne(v, disk, f, folder, guid);
    if up.1.Stored? {
      assert up.0.files == disk.files[TargetOf(v, folder, f, guid) := f.Content];
    }
  }

  /** A batch accepts a file whatever its extension: an executable within
      the size limit is stored exactly when the store lets it in. */
  lemma BatchIgnoresExtension(v: Volume, disk: Disk, stem: string, content: Bytes, contentType: Option<string>,
                              folder: string, guid: string)
    requires GuidText(guid)
    requires 0 < |content| <= MaxImageSize
    ensures var f := FormFile(stem + ".exe", content, contentType);
            UploadOne(v, disk, f, folder, guid).1.Stored? <==> UploadFile(v, disk, Some(f), folder, guid).1.Ok?
  {
  }

  /** Every typed endpoint refuses an executable, whatever its name, content
      or declared type. */
  lemma TypedEndpointsRefuseExecutable(stem: string, content: Bytes, contentType: Option<string>, kind: UploadKind)
    requires |stem| >= 2
    requires forall i :: 0 <= i < |stem| ==> stem[i] != '.' && stem[i] != Separator
    ensures !ValidateFile(Some(FormFile(stem + ".exe", content, contentType)), kind.Extensions(), kind.MaxSize())
  {
    ExecutableExtension();
    ExtensionAfterPlainHead(stem, ".exe");
  }

  /** ".exe" is a well-formed extension in lower case that no typed endpoint allows. */
  lemma ExecutableExtension()
    ensures |".exe"| >= 2 && ".exe"[0] == '.' && '.' !in ".exe"[1..] && Separator !in ".exe"
    ensures ToLower(".exe") == ".exe"
    ensures ".exe" !in ImageExtensions && ".exe" !in ModelExtensions && ".exe" !in AudioExtensions
  {
    assert ".exe"[1..] == "exe";
  }

  // ---------------------------------------------------------------- delete and info

  /** Delete: a missing URL is a bad request, a file the store did not
      delete is not found. */
  function DeleteFile(v: Volume, disk: Disk, url: Option<string>): (r: (Disk, Reply))
    ensures NullOrEmpty(url) ==> r == (disk, BadRequest(MissingUrl))
    ensures !NullOrEmpty(url) ==>
              var (after, deleted) := FileStorage.DeleteFile(v, disk, url.value);
              r.0 == after && (deleted <==> r.1 == Ok200(None)) && (!deleted <==> r.1 == NotFound(FileMissing))
  {
    if NullOrEmpty(url) then (disk, BadRequest(MissingUrl))
    else
      var (after, deleted) := FileStorage.DeleteFile(v, disk, url.value);
      if deleted then (after, Ok200(None)) else (after, NotFound(FileMissing))
  }

  /** Deleting the same URL twice: the second time finds nothing. */
  lemma DeleteTwiceNotFound(v: Volume, disk: Disk, url: string)
    requires |url| > 0
    ensures var (after, _) := DeleteFile(v, disk, Some(url));
            DeleteFile(v, after, Some(url)).1 == NotFound(FileMissing)
  {
  }

  datatype FileInfo = FileInfo(FileUrl: string, FileSize: nat)

  /** The existence probe: the size of the file the URL names, if any. */
  function GetFileInfo(v: Volume, disk: Disk, url: Option<string>): (r: Option<FileInfo>)
    ensures r.Some? <==> url.Some? && Resolve(v, url.value) in disk.files
    ensures r.Some? ==> r.value == FileInfo(url.value, |disk.files[Resolve(v, url.value)]|)
  {
    match url
    case None => None
    case Some(u) => if !FileExists(v, disk, u) then None else Some(FileInfo(u, GetFileSize(v, disk, u)))
  }
}

=== FILE: invoice_repository.dfy ===
/** Invoice queries and invoice-number generation.

    Numbers have the form `INV-<year>-<month, 2 digits>-<sequence, at least 4
    digits>`; the store keeps them unique. The generator as written takes the
    greatest existing number of the month in string order and adds one to its
    sequence; string order stops agreeing with numeric order once sequences
    reach five digits, so after `9999` it keeps producing `10000`.
    `GenerateInvoiceNumberAsWritten` models that code, `GenerateInvoiceNumber`
    takes the numeric maximum instead and is the generator the payment service
    uses. */
module InvoiceRepository {
  import opened Wrappers
  import opened Seqs
  import opened Text
  import opened Domain

  // ---------------------------------------------------------------- queries

  predicate IssuedNoEarlier(a: Invoice, b: Invoice) {
    a.IssuedAt >= b.IssuedAt
  }

  /** The user's invoices, most recently issued first. */
  function GetUserInvoices(store: seq<Invoice>, userId: UserId): (r: seq<Invoice>)
    ensures forall v :: v in r <==> v in store && v.UserId == userId
    ensures multiset(r) == multiset(Filter(store, (v: Invoice) => v.UserId == userId))
    ensures forall i :: 0 < i < |r| ==> r[i - 1].IssuedAt >= r[i].IssuedAt
  {
    var mine := Filter(store, (v: Invoice) => v.UserId == userId);
    var r := SortBy(mine, IssuedNoEarlier);
    SameElements(r, mine);
    r
  }

  function GetByNumber(store: seq<Invoice>, number: string): (r: Option<Invoice>)
    ensures r.Some? ==> r.value in store && r.value.InvoiceNumber == number
    ensures r.None? <==> forall v :: v in store ==> v.InvoiceNumber != number
  {
    Find(store, (v: Invoice) => v.InvoiceNumber == number)
  }

  /** The invoice numbers in the store. */
  function Numbers(store: seq<Invoice>): (r: seq<string>)
    ensures |r| == |store|
    ensures forall i :: 0 <= i < |store| ==> r[i] == store[i].InvoiceNumber
  {
    if |store| == 0 then [] else [store[0].InvoiceNumber] + Numbers(store[1..])
  }

  // ---------------------------------------------------------------- number format

  /** The numbers of one month share this prefix. */
  function Prefix(year: nat, month: nat): string {
    "INV-" + NatToString(year) + "-" + FormatD(month, 2)
  }

  function FormatNumber(year: nat, month: nat, sequence: nat): string {
    Prefix(year, month) + "-" + FormatD(sequence, 4)
  }

  lemma FormatNumberShape(year: nat, month: nat, sequence: nat)
    ensures StartsWith(FormatNumber(year, month, sequence), Prefix(year, month))
    ensures |FormatNumber(year, month, sequence)| >= |Prefix(year, month)| + 5
  {
    var p := Prefix(year, month);
    assert FormatNumber(year, month, sequence)[..|p|] == p;
  }

  /** A formatted number splits on '-' into its four fields. */
  lemma {:induction false} SplitFormatNumber(year: nat, month: nat, sequence: nat)
    ensures Split(FormatNumber(year, month, sequence), '-') ==
            ["INV", NatToString(year), FormatD(month, 2), FormatD(sequence, 4)]
  {
    var y, m, n := NatToString(year), FormatD(month, 2), FormatD(sequence, 4);
    NoDashInDigits(y);
    NoDashInDigits(m);
    NoDashInDigits(n);
    assert FormatNumber(year, month, sequence) == "INV" + ['-'] + y + ['-'] + m + ['-'] + n;
    SplitFourFields("INV", y, m, n, '-');
  }

  // ---------------------------------------------------------------- as written

  /** The sequence number the code reads back: the fourth '-'-separated field
      parsed as a 32-bit integer. */
  function SequenceAsWritten(number: string): (r: Option<nat>)
    ensures r.Some? ==> r.value <= Int32Max
  {
    var parts := Split(number, '-');
    if |parts| == 4 then
      SplitPiecesOmitSeparator(number, '-');
      match TryParseInt32(parts[3])
      case None => None
      case Some(v) => Some(v as nat)
    else None
  }

  lemma SequenceAsWrittenRoundTrip(year: nat, month: nat, sequence: nat)
    requires sequence <= Int32Max
    ensures SequenceAsWritten(FormatNumber(year, month, sequence)) == Some(sequence)
  {
    SplitFormatNumber(year, month, sequence);
    FormatDRoundTrip(sequence, 4);
  }

  /** The greatest of `s` in string order (`OrderByDescending(...).First()`). */
  function Greatest(s: seq<string>): (r: string)
    requires |s| > 0
    ensures r in s
    ensures forall x :: x in s ==> LexLe(x, r)
  {
    if |s| == 1 then
      LexLeReflexive(s[0]);
      s[0]
    else
      var m := Greatest(s[1..]);
      LexLeTotal(m, s[0]);
      if LexLe(s[0], m) then
        assert forall x :: x in s ==> x == s[0] || x in s[1..];
        m
      else
        assert forall x :: x in s[1..] ==> LexLe(x, s[0]) by {
          forall x | x in s[1..] ensures LexLe(x, s[0]) {
            LexLeTransitive(x, m, s[0]);
          }
        }
        LexLeReflexive(s[0]);
        assert forall x :: x in s ==> x == s[0] || x in s[1..];
        s[0]
  }

  /** The numbers already issued in the month. */
  function OfMonth(existing: seq<string>, year: nat, month: nat): (r: seq<string>)
    ensures forall x :: x in r <==> x in existing && StartsWith(x, Prefix(year, month))
  {
    Filter(existing, (x: string) => StartsWith(x, Prefix(year, month)))
  }

  /** The sequence after the month's greatest number, added in unchecked
      32-bit arithmetic: after 2147483647 comes -2147483648. */
  function NextSequenceAsWritten(existing: seq<string>, year: nat, month: nat): (r: int)
    ensures r >= 1 || r == Int32Min
    ensures |OfMonth(existing, year, month)| == 0 ==> r == 1
  {
    var ofMonth := OfMonth(existing, year, month);
    if |ofMonth| == 0 then 1
    else
      match SequenceAsWritten(Greatest(ofMonth))
      case None => 1
      case Some(last) => AddInt32(last, 1)
  }

  /** `n.ToString("D4")` for a 32-bit `n`: a minus sign for a negative value,
      then at least four digits. */
  function FormatSignedD4(n: int): (r: string)
    ensures n >= 0 ==> r == FormatD(n, 4)
    ensures n < 0 ==> |r| > 0 && r[0] == '-' && r[1..] == FormatD(-n, 4)
  {
    if n >= 0 then FormatD(n, 4) else "-" + FormatD(-n, 4)
  }

  /** The number the code generates for the month, given the numbers already
      in the store. */
  function GenerateInvoiceNumberAsWritten(existing: seq<string>, year: nat, month: nat): (r: string)
    ensures StartsWith(r, Prefix(year, month))
    ensures NextSequenceAsWritten(existing, year, month) >= 0 ==>
              r == FormatNumber(year, month, NextSequenceAsWritten(existing, year, month))
  {
    SignedNumber(year, month, NextSequenceAsWritten(existing, year, month))
  }

  /** The month's prefix, a dash and a sequence formatted as the code does. */
  function SignedNumber(year: nat, month: nat, sequence: int): (r: string)
    ensures StartsWith(r, Prefix(year, month))
    ensures sequence >= 0 ==> r == FormatNumber(year, month, sequence)
  {
    var prefix := Prefix(year, month);
    StartsWithJoined(prefix, "-", FormatSignedD4(sequence));
    prefix + "-" + FormatSignedD4(sequence)
  }

  /** A month whose greatest number has sequence 2147483647 continues with
      -2147483648: the unchecked addition wraps, and the number generated
      carries a minus sign in its sequence field. */
  lemma GenerateAsWrittenWrapsAround(existing: seq<string>, year: nat, month: nat)
    requires existing == [FormatNumber(year, month, Int32Max)]
    ensures NextSequenceAsWritten(existing, year, month) == Int32Min
    ensures GenerateInvoiceNumberAsWritten(existing, year, month)
         == Prefix(year, month) + "-" + "-" + FormatD(-Int32Min, 4)
  {
    var top := FormatNumber(year, month, Int32Max);
    FormatNumberShape(year, month, Int32Max);
    var ofMonth := OfMonth(existing, year, month);
    assert top in ofMonth;
    assert ofMonth == [top];
    SequenceAsWrittenRoundTrip(year, month, Int32Max);
  }

  /** While sequences have at most four digits, string order of a month's
      numbers is numeric order of their sequences. */
  lemma {:induction false} FormatNumberOrder(year: nat, month: nat, a: nat, b: nat)
    requires a <= 9999 && b <= 9999
    ensures LexLe(FormatNumber(year, month, a), FormatNumber(year, month, b)) <==> a <= b
  {
    var p := Prefix(year, month) + "-";
    assert FormatNumber(year, month, a) == p + FormatD(a, 4);
    assert FormatNumber(year, month, b) == p + FormatD(b, 4);
    LexLeCommonPrefix(p, FormatD(a, 4), FormatD(b, 4));
    NatToStringLength(a, 4);
    NatToStringLength(b, 4);
    FormatDRoundTrip(a, 4);
    FormatDRoundTrip(b, 4);
    LexLeDigits(FormatD(a, 4), FormatD(b, 4));
  }

  /** Numbers issued one after another in a month: the store holds, for that
      month, only formatted numbers with sequence at most `n`, including `n`. */
  predicate IssuedUpTo(existing: seq<string>, year: nat, month: nat, n: nat) {
    FormatNumber(year, month, n) in existing &&
    forall x :: x in existing && StartsWith(x, Prefix(year, month)) ==>
      SequenceAsWritten(x).Some? && SequenceAsWritten(x).value <= n &&
      x == FormatNumber(year, month, SequenceAsWritten(x).value)
  }

  /** Up to sequence 9999, each generation continues from the last one. */
  lemma GenerateAsWrittenContinues(existing: seq<string>, year: nat, month: nat, n: nat)
    requires 1 <= n <= 9999
    requires IssuedUpTo(existing, year, month, n)
    ensures GenerateInvoiceNumberAsWritten(existing, year, month) == FormatNumber(year, month, n + 1)
  {
    NextAfterIssued(existing, year, month, n);
  }

  /** Up to sequence 9999, the next sequence is one past the last one issued. */
  lemma NextAfterIssued(existing: seq<string>, year: nat, month: nat, n: nat)
    requires 1 <= n <= 9999
    requires IssuedUpTo(existing, year, month, n)
    ensures NextSequenceAsWritten(existing, year, month) == n + 1
  {
    var ofMonth := OfMonth(existing, year, month);
    var top := FormatNumber(year, month, n);
    FormatNumberShape(year, month, n);
    assert top in ofMonth;
    var g := Greatest(ofMonth);
    assert g in existing && StartsWith(g, Prefix(year, month));
    var j := SequenceAsWritten(g).value;
    assert j <= n && g == FormatNumber(year, month, j);
    assert LexLe(top, g);
    FormatNumberOrder(year, month, n, j);
    assert g == top;
    SequenceAsWrittenRoundTrip(year, month, n);
    AddInt32InRange(n, 1);
  }

  /** Two numbers of one month, sequence 9999 and 10000. */
  function DuplicateWitness(year: nat, month: nat): (r: seq<string>)
    ensures |r| == 2 && forall x :: x in r ==> StartsWith(x, Prefix(year, month))
  {
    FormatNumberShape(year, month, 9999);
    FormatNumberShape(year, month, 10000);
    [FormatNumber(year, month, 9999), FormatNumber(year, month, 10000)]
  }

  /** The two sequence fields, and their string order: "10000" sorts before "9999". */
  lemma WideSequenceFields()
    ensures FormatD(9999, 4) == "9999" && FormatD(10000, 4) == "10000"
    ensures LexLe("10000", "9999") && !LexLe("9999", "10000")
  {
    assert NatToString(9999) == "9999";
    assert NatToString(10000) == "10000";
  }

  /** Once `10000` has been issued, `9999` still sorts last in string order,
      so the code generates `10000` again: a number already in the store. */
  lemma GenerateAsWrittenRepeatsAfter9999(year: nat, month: nat)
    ensures GenerateInvoiceNumberAsWritten(DuplicateWitness(year, month), year, month) == FormatNumber(year, month, 10000)
    ensures GenerateInvoiceNumberAsWritten(DuplicateWitness(year, month), year, month) in DuplicateWitness(year, month)
  {
    WideSequenceFields();
    RepeatsWhenOutOfOrder(year, month, 9999, 10000, DuplicateWitness(year, month));
  }

  /** When the string of sequence `lo` sorts after that of `lo + 1`, a month
      holding both numbers generates `lo + 1` again. */
  lemma RepeatsWhenOutOfOrder(year: nat, month: nat, lo: nat, hi: nat, w: seq<string>)
    requires lo < Int32Max && hi == lo + 1
    requires w == [FormatNumber(year, month, lo), FormatNumber(year, month, hi)]
    requires !LexLe(FormatD(lo, 4), FormatD(hi, 4))
    ensures GenerateInvoiceNumberAsWritten(w, year, month) == FormatNumber(year, month, hi)
  {
    var a, b := FormatNumber(year, month, lo), FormatNumber(year, month, hi);
    var p := Prefix(year, month) + "-";
    LexLeCommonPrefix(p, FormatD(lo, 4), FormatD(hi, 4));
    FormatNumberShape(year, month, lo);
    FormatNumberShape(year, month, hi);
    var ofMonth := OfMonth(w, year, month);
    assert a in w && b in w;
    GreatestOfPair(ofMonth, a, b);
    SequenceAsWrittenRoundTrip(year, month, lo);
    AddInt32InRange(lo, 1);
    assert NextSequenceAsWritten(w, year, month) == hi;
  }

  /** Of a list holding `a` and otherwise only `b`, where `a` does not sort
      before `b`, the greatest is `a`. */
  lemma GreatestOfPair(s: seq<string>, a: string, b: string)
    requires a in s && forall x :: x in s ==> x == a || x == b
    requires !LexLe(a, b)
    ensures Greatest(s) == a
  {
  }

  // ---------------------------------------------------------------- corrected

  /** The sequence field of a number: its fourth '-'-separated field, when that
      is a non-empty run of decimal digits. */
  function SequenceOf(number: string): Option<nat> {
    var parts := Split(number, '-');
    if |parts| == 4 && |parts[3]| > 0 && AllDigits(parts[3]) then Some(ValueOf(parts[3])) else None
  }

  lemma SequenceOfRoundTrip(year: nat, month: nat, sequence: nat)
    ensures SequenceOf(FormatNumber(year, month, sequence)) == Some(sequence)
  {
    SplitFormatNumber(year, month, sequence);
    FormatDRoundTrip(sequence, 4);
  }

  /** The greatest sequence among the month's numbers, 0 if there is none. */
  function MaxSequence(existing: seq<string>, year: nat, month: nat): (r: nat)
    ensures forall x :: x in existing && StartsWith(x, Prefix(year, month)) && SequenceOf(x).Some? ==>
              SequenceOf(x).value <= r
    ensures r == 0 || exists x :: x in existing && StartsWith(x, Prefix(year, month)) && SequenceOf(x) == Some(r)
  {
    if |existing| == 0 then 0
    else
      var rest := MaxSequence(existing[1..], year, month);
      var x := existing[0];
      assert forall y :: y in existing ==> y == x || y in existing[1..];
      if StartsWith(x, Prefix(year, month)) && SequenceOf(x).Some? && SequenceOf(x).value > rest then
        SequenceOf(x).value
      else rest
  }

  /** The number following the numerically greatest one of the month. */
  function GenerateInvoiceNumber(existing: seq<string>, year: nat, month: nat): (r: string)
    ensures StartsWith(r, Prefix(year, month))
    ensures r !in existing
  {
    var next := MaxSequence(existing, year, month) + 1;
    var r := FormatNumber(year, month, next);
    FormatNumberShape(year, month, next);
    SequenceOfRoundTrip(year, month, next);
    r
  }

  /** For numbers issued one after another, the greatest sequence is the last one issued. */
  lemma MaxSequenceOfIssued(existing: seq<string>, year: nat, month: nat, n: nat)
    requires n <= Int32Max
    requires IssuedUpTo(existing, year, month, n)
    ensures MaxSequence(existing, year, month) == n
  {
    FormatNumberShape(year, month, n);
    SequenceOfRoundTrip(year, month, n);
    var m := MaxSequence(existing, year, month);
    assert m >= n;
    if m != n {
      var x :| x in existing && StartsWith(x, Prefix(year, month)) && SequenceOf(x) == Some(m);
      var k := SequenceAsWritten(x).value;
      assert x == FormatNumber(year, month, k) && k <= n;
      SequenceOfRoundTrip(year, month, k);
      assert false;
    }
  }

  /** Where the code as written works, the corrected generator agrees with it. */
  lemma GenerateAgreesWithAsWritten(existing: seq<string>, year: nat, month: nat, n: nat)
    requires 1 <= n <= 9999
    requires IssuedUpTo(existing, year, month, n)
    ensures GenerateInvoiceNumber(existing, year, month) == GenerateInvoiceNumberAsWritten(existing, year, month)
  {
    GenerateAsWrittenContinues(existing, year, month, n);
    MaxSequenceOfIssued(existing, year, month, n);
  }
}

=== FILE: mock_ai.dfy ===
/** The stand-in reply generator: a fixed English template that names the
    character, echoes the user's message in quotes and cites the
    character's background. The conversation history is accepted and
    ignored. */
module MockAI {
  import opened Wrappers
  import opened Text
  import opened Domain

  const Closing: string := ", I would say this is a fascinating question from my time period."

  const Asked: string := "You asked: '"

  const BasedOn: string := "'. Based on my background as "

  /** Who answers: the bracketed speaker tag. */
  function Header(c: Character): string {
    "[" + c.Name + " responds]: "
  }

  /** The introduction: who answers, and in what role. */
  function Lead(c: Character): string {
    Header(c) + "I am " + c.Name + ", " + c.Role + ". "
  }

  /** Everything the template puts before the quoted message. */
  function Opening(c: Character): string {
    Lead(c) + Asked
  }

  /** Everything the template puts after the quoted message. */
  function Ending(c: Character): string {
    BasedOn + c.Background + Closing
  }

  lemma ContainsMiddle(a: string, t: string, b: string)
    ensures Contains(a + t + b, t)
  {
    assert (a + t + b)[|a|..|a| + |t|] == t;
    assert OccursAt(a + t + b, t, |a|);
  }

  lemma ContainsBeforeSuffix(s: string, b: string, t: string)
    requires Contains(s, t)
    ensures Contains(s + b, t)
  {
    var i: nat :| i <= |s| && OccursAt(s, t, i);
    assert (s + b)[i..i + |t|] == s[i..i + |t|];
    assert OccursAt(s + b, t, i);
  }

  /** A text framed by a head and a tail gives back each of the three parts. */
  lemma Framed(head: string, m: string, tail: string, r: string)
    requires r == head + m + tail
    ensures |r| == |head| + |m| + |tail|
    ensures r[..|head|] == head && r[|r| - |tail|..] == tail
    ensures r[|head|..|head| + |m|] == m
  {
  }

  /** A text that starts with the head and ends with the tail is the head,
      the middle and the tail; one that does not is no such framing. */
  lemma FrameShape(reply: string, head: string, tail: string)
    ensures (|head| + |tail| <= |reply| && reply[..|head|] == head && reply[|reply| - |tail|..] == tail) ==>
              reply == head + reply[|head|..|reply| - |tail|] + tail
    ensures !(|head| + |tail| <= |reply| && reply[..|head|] == head && reply[|reply| - |tail|..] == tail) ==>
              forall m :: reply != head + m + tail
  {
    if |head| + |tail| <= |reply| && reply[..|head|] == head && reply[|reply| - |tail|..] == tail {
      assert reply == reply[..|head|] + reply[|head|..|reply| - |tail|] + reply[|reply| - |tail|..];
    } else {
      forall m ensures reply != head + m + tail {
        if reply == head + m + tail {
          Framed(head, m, tail, reply);
        }
      }
    }
  }

  /** The quote opened before the message is closed right after it. */
  lemma QuoteAround(lead: string, m: string, e: string, r: string)
    requires r == lead + Asked + m + e && |e| > 0 && e[0] == '\''
    ensures OccursAt(r, Asked + m + "'", |lead|)
  {
    assert r == lead + (Asked + m + [e[0]]) + e[1..];
  }

  lemma StartsWithAppend(s: string, p: string, b: string)
    requires StartsWith(s, p)
    ensures StartsWith(s + b, p)
  {
    assert (s + b)[..|p|] == s[..|p|];
  }

  lemma HeadStartsLead(c: Character)
    ensures StartsWith(Lead(c), Header(c))
  {
    var h := Header(c);
    assert (h + "I am ")[..|h|] == h;
    StartsWithAppend(h + "I am ", h, c.Name);
    StartsWithAppend(h + "I am " + c.Name, h, ", ");
    StartsWithAppend(h + "I am " + c.Name + ", ", h, c.Role);
    StartsWithAppend(h + "I am " + c.Name + ", " + c.Role, h, ". ");
  }

  function GenerateCharacterResponse(c: Character, userMessage: string, history: seq<string>): (r: string)
    ensures StartsWith(r, "[" + c.Name + " responds]: ")
    ensures |r| == |Opening(c)| + |userMessage| + |Ending(c)|
    ensures r[|Opening(c)|..|Opening(c)| + |userMessage|] == userMessage
    ensures OccursAt(r, Asked + userMessage + "'", |Lead(c)|)
  {
    var r := Opening(c) + userMessage + Ending(c);
    Framed(Opening(c), userMessage, Ending(c), r);
    HeadStartsLead(c);
    StartsWithAppend(Lead(c), Header(c), Asked);
    StartsWithAppend(Opening(c), Header(c), userMessage);
    StartsWithAppend(Opening(c) + userMessage, Header(c), Ending(c));
    assert Ending(c)[0] == BasedOn[0];
    QuoteAround(Lead(c), userMessage, Ending(c), r);
    r
  }

  /** The reply names the character's role. */
  lemma ReplyMentionsRole(c: Character, userMessage: string, history: seq<string>)
    ensures Contains(GenerateCharacterResponse(c, userMessage, history), c.Role)
  {
    ContainsMiddle(Header(c) + "I am " + c.Name + ", ", c.Role, ". ");
    ContainsBeforeSuffix(Lead(c), Asked, c.Role);
    ContainsBeforeSuffix(Opening(c), userMessage, c.Role);
    ContainsBeforeSuffix(Opening(c) + userMessage, Ending(c), c.Role);
  }

  /** The reply names the character's background. */
  lemma ReplyMentionsBackground(c: Character, userMessage: string, history: seq<string>)
    ensures Contains(GenerateCharacterResponse(c, userMessage, history), c.Background)
  {
    ContainsMiddle(BasedOn, c.Background, Closing);
    ContainsAfterPrefix(Opening(c) + userMessage, Ending(c), c.Background);
  }

  /** The message quoted in a reply of character `c`, if the text has the
      template's shape. */
  function QuotedMessage(c: Character, reply: string): (r: Option<string>)
    ensures r.Some? ==> reply == Opening(c) + r.value + Ending(c)
    ensures r.None? ==> forall m :: reply != Opening(c) + m + Ending(c)
  {
    var head := Opening(c);
    var tail := Ending(c);
    FrameShape(reply, head, tail);
    if |head| + |tail| <= |reply| && reply[..|head|] == head && reply[|reply| - |tail|..] == tail then
      Some(reply[|head|..|reply| - |tail|])
    else
      None
  }

  /** The user's message can be read back out of every reply. */
  lemma QuotedMessageRoundTrip(c: Character, userMessage: string, history: seq<string>)
    ensures QuotedMessage(c, GenerateCharacterResponse(c, userMessage, history)) == Some(userMessage)
  {
    var r := GenerateCharacterResponse(c, userMessage, history);
    Framed(Opening(c), userMessage, Ending(c), r);
  }

  /** Different messages to the same character get different replies, and
      the history never changes the reply. */
  lemma RepliesDependOnlyOnMessage(c: Character, m1: string, m2: string, h1: seq<string>, h2: seq<string>)
    ensures GenerateCharacterResponse(c, m1, h1) == GenerateCharacterResponse(c, m2, h2) <==> m1 == m2
  {
    if GenerateCharacterResponse(c, m1, h1) == GenerateCharacterResponse(c, m2, h2) {
      QuotedMessageRoundTrip(c, m1, h1);
      QuotedMessageRoundTrip(c, m2, h2);
    }
  }
}

=== FILE: password_reset.dfy ===
/** The validation attributes of the three password-reset requests, with
    the semantics the framework gives them: an attribute other than
    `Required` accepts an absent value; `RegularExpression` accepts the empty
    string and otherwise only a first match that starts at 0 and covers the
    whole value; `EmailAddress` wants exactly one '@', neither first nor last,
    and no line break. Values are present strings here (the request binds
    missing fields to ""). */
module PasswordReset {
  import opened Wrappers
  import opened Text

  // ---------------------------------------------------------------- attributes

  /** `char.IsWhiteSpace`: the control characters U+0009 to U+000D and
      U+0085, and the Unicode space, line and paragraph separators. */
  predicate IsWhiteSpace(c: char) {
    '\t' <= c <= '\r' || c == ' ' || c == '\U{85}' || c == '\U{A0}' || c == '\U{1680}' ||
    '\U{2000}' <= c <= '\U{200A}' || c == '\U{2028}' || c == '\U{2029}' || c == '\U{202F}' ||
    c == '\U{205F}' || c == '\U{3000}'
  }

  /** `[Required]`: not empty and not white space only. */
  predicate Required(s: string) {
    exists i :: 0 <= i < |s| && !IsWhiteSpace(s[i])
  }

  predicate HasAt(s: string, i: int) { 0 <= i < |s| && s[i] == '@' }

  /** `[EmailAddress]`. */
  predicate EmailAddress(s: string) {
    '\r' !in s && '\n' !in s &&
    exists k :: 0 < k < |s| - 1 && HasAt(s, k) && forall j :: 0 <= j < |s| && j != k ==> !HasAt(s, j)
  }

  /** `[RegularExpression]` given the length of the pattern's first match
      (which starts at 0 for an anchored pattern), if there is one. */
  predicate RegexAccepts(s: string, firstMatchLength: Option<nat>) {
    |s| == 0 || firstMatchLength == Some(|s|)
  }

  // ---------------------------------------------------------------- reset code

  const CodeLength: nat := 5

  /** The length of the first match of `^\d{5}$`: five digits that end the value. */
  function CodePatternMatch(s: string): (r: Option<nat>)
    ensures r.Some? ==> r.value == |s|
  {
    if |s| == CodeLength && AllDigits(s) then Some(CodeLength) else None
  }

  predicate CodeValid(code: string) {
    Required(code) && |code| == CodeLength && RegexAccepts(code, CodePatternMatch(code))
  }

  /** The code rules together: exactly five decimal digits. */
  lemma CodeIsFiveDigits(code: string)
    ensures CodeValid(code) <==> |code| == 5 && forall i :: 0 <= i < |code| ==> IsDigit(code[i])
  {
    if |code| == 5 && AllDigits(code) {
      assert !IsWhiteSpace(code[0]);
    }
  }

  // ---------------------------------------------------------------- new password

  const MinPasswordLength: nat := 8

  predicate IsSpecial(c: char) {
    c == '@' || c == '$' || c == '!' || c == '%' || c == '*' || c == '?' || c == '&'
  }

  /** The class `[A-Za-z\d@$!%*?&]`. */
  predicate InClass(c: char) {
    IsUpper(c) || IsLower(c) || IsDigit(c) || IsSpecial(c)
  }

  /** A look-ahead `(?=.*[…])`: a character of the class before the first line break. */
  predicate LookAhead(s: string, p: char -> bool) {
    exists i :: 0 <= i < |s| && p(s[i]) && '\n' !in s[..i]
  }

  predicate LookAheadsHold(s: string) {
    LookAhead(s, IsLower) && LookAhead(s, IsUpper) && LookAhead(s, IsDigit) && LookAhead(s, IsSpecial)
  }

  /** The first match of the pattern as written: the four look-aheads, then
      exactly one character of the class. */
  function PasswordPatternMatchAsWritten(s: string): (r: Option<nat>)
    ensures r.Some? ==> r.value == 1
  {
    if |s| > 0 && LookAheadsHold(s) && InClass(s[0]) then Some(1) else None
  }

  predicate NewPasswordValidAsWritten(s: string) {
    Required(s) && |s| >= MinPasswordLength && RegexAccepts(s, PasswordPatternMatchAsWritten(s))
  }

  /** As written, no new password passes: the pattern's match is one
      character long and a whole-value match of one character cannot meet
      the minimum length. */
  lemma NoPasswordPassesAsWritten(s: string)
    ensures !NewPasswordValidAsWritten(s)
  {
  }

  /** Even a password meeting every stated rule is refused. */
  lemma StrongPasswordRefusedAsWritten()
    ensures !NewPasswordValidAsWritten("Passw0rd!")
  {
    NoPasswordPassesAsWritten("Passw0rd!");
  }

  /** The evident intent, `…[A-Za-z\d@$!%*?&]+$`: the look-aheads, then class
      characters up to the end. */
  function PasswordPatternMatch(s: string): (r: Option<nat>)
    ensures r.Some? ==> r.value == |s|
  {
    if |s| > 0 && LookAheadsHold(s) && (forall i :: 0 <= i < |s| ==> InClass(s[i])) then Some(|s|) else None
  }

  predicate NewPasswordValid(s: string) {
    Required(s) && |s| >= MinPasswordLength && RegexAccepts(s, PasswordPatternMatch(s))
  }

  /** The corrected rule says what its error message says: at least eight
      characters from the class, with a lower-case letter, an upper-case
      letter, a digit and a special character among them. */
  lemma NewPasswordRule(s: string)
    ensures NewPasswordValid(s) <==>
              |s| >= MinPasswordLength && (forall i :: 0 <= i < |s| ==> InClass(s[i])) &&
              (exists i :: 0 <= i < |s| && IsLower(s[i])) && (exists i :: 0 <= i < |s| && IsUpper(s[i])) &&
              (exists i :: 0 <= i < |s| && IsDigit(s[i])) && (exists i :: 0 <= i < |s| && IsSpecial(s[i]))
  {
    if (forall i :: 0 <= i < |s| ==> InClass(s[i])) {
      forall p: char -> bool, i | 0 <= i < |s| && p(s[i]) ensures '\n' !in s[..i] {
        assert forall j :: 0 <= j < i ==> s[..i][j] == s[j];
      }
      if |s| > 0 {
        assert !IsWhiteSpace(s[0]) by { assert InClass(s[0]); }
      }
    }
  }

  lemma StrongPasswordAccepted()
    ensures NewPasswordValid("Passw0rd!")
  {
    var s := "Passw0rd!";
    NewPasswordRule(s);
    assert IsLower(s[1]) && IsUpper(s[0]) && IsDigit(s[5]) && IsSpecial(s[8]);
  }

  // ---------------------------------------------------------------- requests

  datatype ForgotPasswordRequest = ForgotPasswordRequest(Email: string)
  datatype VerifyResetCodeRequest = VerifyResetCodeRequest(Email: string, Code: string)
  datatype ResetPasswordRequest = ResetPasswordRequest(Email: string, Token: string, NewPassword: string, ConfirmPassword: string)

  predicate EmailValid(email: string) { Required(email) && EmailAddress(email) }

  predicate ForgotPasswordValid(r: ForgotPasswordRequest) { EmailValid(r.Email) }

  predicate VerifyResetCodeValid(r: VerifyResetCodeRequest) { EmailValid(r.Email) && CodeValid(r.Code) }

  /** The reset request with the corrected password rule. */
  predicate ResetPasswordValid(r: ResetPasswordRequest) {
    EmailValid(r.Email) && Required(r.Token) && NewPasswordValid(r.NewPassword) &&
    Required(r.ConfirmPassword) && r.ConfirmPassword == r.NewPassword
  }

  predicate ResetPasswordValidAsWritten(r: ResetPasswordRequest) {
    EmailValid(r.Email) && Required(r.Token) && NewPasswordValidAsWritten(r.NewPassword) &&
    Required(r.ConfirmPassword) && r.ConfirmPassword == r.NewPassword
  }

  /** As written, every reset request is refused. */
  lemma NoResetPassesAsWritten(r: ResetPasswordRequest)
    ensures !ResetPasswordValidAsWritten(r)
  {
    NoPasswordPassesAsWritten(r.NewPassword);
  }

  /** With the corrected rule a well-formed reset request is accepted, and
      a confirmation that differs from the new password never is. */
  lemma ResetPasswordAccepted(email: string, token: string)
    requires EmailValid(email) && Required(token)
    ensures ResetPasswordValid(ResetPasswordRequest(email, token, "Passw0rd!", "Passw0rd!"))
    ensures forall other :: other != "Passw0rd!" ==>
              !ResetPasswordValid(ResetPasswordRequest(email, token, "Passw0rd!", other))
  {
    StrongPasswordAccepted();
  }

  /** `[EmailAddress]` refuses a value that starts or ends with '@', holds
      no '@' or holds two. */
  lemma EmailAddressRefused(s: string, j: nat, k: nat)
    ensures |s| > 0 && (s[0] == '@' || s[|s| - 1] == '@') ==> !EmailAddress(s)
    ensures '@' !in s ==> !EmailAddress(s)
    ensures j < k < |s| && s[j] == '@' && s[k] == '@' ==> !EmailAddress(s)
  {
    if |s| > 0 && s[0] == '@' {
      assert HasAt(s, 0);
    }
    if |s| > 0 && s[|s| - 1] == '@' {
      assert HasAt(s, |s| - 1);
    }
    if j < k < |s| && s[j] == '@' && s[k] == '@' {
      assert HasAt(s, j) && HasAt(s, k);
    }
  }

  /** An address with one '@' between a non-empty local part and a non-empty
      domain, neither of which holds '@' or a line break, passes. */
  lemma EmailAddressShape(local: string, domain: string)
    requires |local| > 0 && |domain| > 0
    requires '@' !in local && '@' !in domain
    requires '\r' !in local + domain && '\n' !in local + domain
    ensures EmailAddress(local + "@" + domain)
  {
    var s := local + "@" + domain;
    assert HasAt(s, |local|);
    forall j | 0 <= j < |s| && j != |local| ensures !HasAt(s, j) {
      if j < |local| { assert s[j] == local[j]; } else { assert s[j] == domain[j - |local| - 1]; }
    }
    assert forall c :: c in s ==> c in local || c == '@' || c in domain;
  }
}

=== FILE: payment_repository.dfy ===
/** The payment queries of the data layer, over a store held as a sequence in
    insertion order. Lookups that return one payment return the first match,
    as `FirstOrDefault` does. */
module PaymentRepository {
  import opened Wrappers
  import opened Seqs
  import opened Domain

  /** Position of the first payment of the PayPal order `orderId`. */
  function IndexByOrderId(store: seq<Payment>, orderId: string): (r: Option<nat>)
    ensures r.Some? ==> r.value < |store| && store[r.value].PayPalOrderId == orderId
    ensures r.None? <==> forall j :: 0 <= j < |store| ==> store[j].PayPalOrderId != orderId
  {
    FindIndex(store, (p: Payment) => p.PayPalOrderId == orderId)
  }

  function GetByPayPalOrderId(store: seq<Payment>, orderId: string): (r: Option<Payment>)
    ensures r.Some? ==> r.value in store && r.value.PayPalOrderId == orderId
    ensures r.None? <==> forall p :: p in store ==> p.PayPalOrderId != orderId
  {
    match IndexByOrderId(store, orderId)
    case None => None
    case Some(i) => Some(store[i])
  }

  /** Position of the first payment whose provider reference is `providerId`
      (a Stripe payment intent, or a PayPal order or capture). */
  function IndexByProviderId(store: seq<Payment>, providerId: string): (r: Option<nat>)
    ensures r.Some? ==> r.value < |store| && store[r.value].ProviderPaymentId == Some(providerId)
    ensures r.None? <==> forall j :: 0 <= j < |store| ==> store[j].ProviderPaymentId != Some(providerId)
  {
    FindIndex(store, (p: Payment) => p.ProviderPaymentId == Some(providerId))
  }

  /** Position of the payment with key `id`. */
  function IndexById(store: seq<Payment>, id: Guid): (r: Option<nat>)
    ensures r.Some? ==> r.value < |store| && store[r.value].Id == id
    ensures r.None? <==> forall j :: 0 <= j < |store| ==> store[j].Id != id
  {
    FindIndex(store, (p: Payment) => p.Id == id)
  }

  predicate CreatedNoEarlier(a: Payment, b: Payment) {
    a.CreatedAt >= b.CreatedAt
  }

  /** All of the user's payments, newest first. */
  function GetUserPayments(store: seq<Payment>, userId: UserId): (r: seq<Payment>)
    ensures forall p :: p in r <==> p in store && p.UserId == userId
    ensures multiset(r) == multiset(Filter(store, (p: Payment) => p.UserId == userId))
    ensures forall i :: 0 < i < |r| ==> r[i - 1].CreatedAt >= r[i].CreatedAt
  {
    var mine := Filter(store, (p: Payment) => p.UserId == userId);
    var r := SortBy(mine, CreatedNoEarlier);
    SameElements(r, mine);
    r
  }

  function GetByStatus(store: seq<Payment>, status: PaymentStatus): (r: seq<Payment>)
    ensures forall p :: p in r <==> p in store && p.Status == status
    ensures |r| <= |store|
  {
    Filter(store, (p: Payment) => p.Status == status)
  }

  /** Payments created within the closed interval `[start, end]`. */
  function GetByDateRange(store: seq<Payment>, start: Instant, end: Instant): (r: seq<Payment>)
    ensures forall p :: p in r <==> p in store && start <= p.CreatedAt <= end
    ensures |r| <= |store|
  {
    Filter(store, (p: Payment) => start <= p.CreatedAt <= end)
  }
}

=== FILE: payment_service.dfy ===
/** The payment service: confirming Stripe payments, capturing PayPal orders,
    refunds, invoice generation, statistics and the soft deletion of saved
    payment methods.

    The providers are parameters: whether Stripe confirmed an intent, the
    status and capture id PayPal returned, the refund id (or the exception)
    a refund call produced. Fresh keys and the clock are parameters too. */
module PaymentService {
  import opened Wrappers
  import opened Seqs
  import opened Text
  import opened Domain
  import PaymentRepository
  import InvoiceRepository
  import SavedPaymentMethods
  import StripeGateway

  /** A reading of the UTC clock: the instant and its calendar year and month. */
  datatype Clock = Clock(now: Instant, year: nat, month: nat)

  /** The stores the payment operations change together. */
  datatype Billing = Billing(payments: seq<Payment>, subscriptions: seq<Subscription>, invoices: seq<Invoice>)

  // ---------------------------------------------------------------- subscription after payment

  /** Marks the subscription `id` Active when the payment succeeded; a failed
      payment or an unknown subscription leaves the store as it is. */
  function UpdateSubscriptionAfterPayment(subs: seq<Subscription>, id: Guid, success: bool): (r: seq<Subscription>)
    ensures |r| == |subs|
    ensures forall j :: 0 <= j < |subs| ==>
              r[j] == subs[j] || (success && subs[j].Id == id && r[j] == subs[j].(Status := Active))
    ensures success && (exists j :: 0 <= j < |subs| && subs[j].Id == id) ==>
              exists j :: 0 <= j < |r| && r[j].Id == id && r[j].Status == Active
    ensures !success ==> r == subs
  {
    if !success then subs
    else match FindIndex(subs, (s: Subscription) => s.Id == id)
      case None => subs
      case Some(i) => subs[i := subs[i].(Status := Active)]
  }

  // ---------------------------------------------------------------- invoices

  const DefaultItemDescription: string := "Subscription Payment"

  /** No two invoices share a number (the store's unique index). */
  predicate UniqueNumbers(invoices: seq<Invoice>) {
    forall i, j :: 0 <= i < j < |invoices| ==> invoices[i].InvoiceNumber != invoices[j].InvoiceNumber
  }

  /** The paid invoice of payment `p`, with its single line. */
  function InvoiceFor(p: Payment, number: string, id: Guid, itemId: Guid, now: Instant): Invoice {
    Invoice(id, number, p.UserId, Some(p.Id), p.SubscriptionId, p.SubtotalAmount, p.TaxAmount.GetOr(0.0),
            p.Amount, p.Currency, Paid, now, now, p.PaidAt,
            [InvoiceItem(itemId, p.Description.GetOr(DefaultItemDescription), 1, p.SubtotalAmount, p.SubtotalAmount)])
  }

  /** Issues the invoice of the payment with key `paymentId`. */
  function GenerateInvoice(payments: seq<Payment>, invoices: seq<Invoice>, paymentId: Guid, clock: Clock,
                           invoiceId: Guid, itemId: Guid): (r: Result<seq<Invoice>>)
    ensures r.Err? <==> PaymentRepository.IndexById(payments, paymentId).None?
    ensures r.Err? ==> r.error == Throw("Payment not found")
    ensures r.Ok? ==>
              |r.value| == |invoices| + 1 && r.value[..|invoices|] == invoices &&
              var v := r.value[|invoices|];
              var p := payments[PaymentRepository.IndexById(payments, paymentId).value];
              v.PaymentId == Some(paymentId) && v.UserId == p.UserId && v.SubscriptionId == p.SubscriptionId &&
              v.Status == Paid && v.Currency == p.Currency && v.PaidAt == p.PaidAt &&
              v.IssuedAt == clock.now && v.DueDate == clock.now &&
              v.TotalAmount == p.Amount && v.Amount == p.SubtotalAmount && v.TaxAmount == p.TaxAmount.GetOr(0.0) &&
              |v.Items| == 1 && v.Items[0].Quantity == 1 &&
              v.Items[0].UnitPrice == p.SubtotalAmount && v.Items[0].Amount == p.SubtotalAmount &&
              v.Items[0].Description == p.Description.GetOr(DefaultItemDescription) &&
              StartsWith(v.InvoiceNumber, InvoiceRepository.Prefix(clock.year, clock.month)) &&
              v.InvoiceNumber !in InvoiceRepository.Numbers(invoices)
  {
    match PaymentRepository.IndexById(payments, paymentId)
    case None => Err(Throw("Payment not found"))
    case Some(i) =>
      var number := InvoiceRepository.GenerateInvoiceNumber(InvoiceRepository.Numbers(invoices), clock.year, clock.month);
      Ok(invoices + [InvoiceFor(payments[i], number, invoiceId, itemId, clock.now)])
  }

  /** Issuing an invoice keeps invoice numbers unique. */
  lemma GenerateInvoiceKeepsNumbersUnique(payments: seq<Payment>, invoices: seq<Invoice>, paymentId: Guid,
                                          clock: Clock, invoiceId: Guid, itemId: Guid)
    requires UniqueNumbers(invoices)
    ensures var r := GenerateInvoice(payments, invoices, paymentId, clock, invoiceId, itemId);
            r.Ok? ==> UniqueNumbers(r.value)
  {
    var r := GenerateInvoice(payments, invoices, paymentId, clock, invoiceId, itemId);
    if r.Ok? {
      var numbers := InvoiceRepository.Numbers(invoices);
      forall i, j | 0 <= i < j < |r.value| ensures r.value[i].InvoiceNumber != r.value[j].InvoiceNumber {
        if j == |invoices| {
          assert numbers[i] == invoices[i].InvoiceNumber;
        }
      }
    }
  }

  /** While the month's numbers were issued one after another up to a
      sequence of at most 9999, the invoice carries the very number the
      repository's own generator produces, so it is fresh there too. */
  lemma GenerateInvoiceMatchesRepository(payments: seq<Payment>, invoices: seq<Invoice>, paymentId: Guid,
                                         clock: Clock, invoiceId: Guid, itemId: Guid, n: nat)
    requires 1 <= n <= 9999
    requires InvoiceRepository.IssuedUpTo(InvoiceRepository.Numbers(invoices), clock.year, clock.month, n)
    ensures var r := GenerateInvoice(payments, invoices, paymentId, clock, invoiceId, itemId);
            var number := InvoiceRepository.GenerateInvoiceNumberAsWritten(InvoiceRepository.Numbers(invoices), clock.year, clock.month);
            r.Ok? ==> r.value[|invoices|].InvoiceNumber == number
  {
    var existing := InvoiceRepository.Numbers(invoices);
    InvoiceRepository.GenerateAgreesWithAsWritten(existing, clock.year, clock.month, n);
    GenerateInvoiceNumbered(payments, invoices, paymentId, clock, invoiceId, itemId);
  }

  /** The issued invoice carries the repository's next number for the month. */
  lemma GenerateInvoiceNumbered(payments: seq<Payment>, invoices: seq<Invoice>, paymentId: Guid,
                                clock: Clock, invoiceId: Guid, itemId: Guid)
    ensures var r := GenerateInvoice(payments, invoices, paymentId, clock, invoiceId, itemId);
            r.Ok? ==> r.value[|invoices|].InvoiceNumber ==
                      InvoiceRepository.GenerateInvoiceNumber(InvoiceRepository.Numbers(invoices), clock.year, clock.month)
  {
  }

  /** The invoice's lines add up to its net amount, and for a payment whose
      subtotal is its amount and that carries no tax, the invoice total is net
      plus tax. */
  lemma InvoiceAmountsAgree(p: Payment, number: string, id: Guid, itemId: Guid, now: Instant)
    ensures var v := InvoiceFor(p, number, id, itemId, now);
            v.Items[0].Quantity as real * v.Items[0].UnitPrice == v.Amount &&
            (p.SubtotalAmount == p.Amount && p.TaxAmount.None? ==> v.TotalAmount == v.Amount + v.TaxAmount)
  {
  }

  // ---------------------------------------------------------------- confirming a Stripe payment

  const ConfirmationFailed: string := "Payment confirmation failed"

  /** How a confirmation answer settles a payment. */
  predicate SettledByConfirmation(before: Payment, after: Payment, confirmed: bool, now: Instant) {
    if confirmed then after == before.(Status := Succeeded, PaidAt := Some(now))
    else after == before.(Status := Failed, FailedAt := Some(now), FailureReason := Some(ConfirmationFailed))
  }

  /** Records Stripe's answer for the payment intent `paymentIntentId`, updates
      the linked subscription and, when confirmed, issues the invoice. */
  function ConfirmPayment(b: Billing, userId: UserId, paymentIntentId: string, confirmed: bool,
                          clock: Clock, invoiceId: Guid, itemId: Guid): (r: Result<(Billing, Payment)>)
    ensures PaymentRepository.IndexByProviderId(b.payments, paymentIntentId).None? ==>
              r == Err(Throw("Payment not found"))
    ensures PaymentRepository.IndexByProviderId(b.payments, paymentIntentId).Some? ==>
              var i := PaymentRepository.IndexByProviderId(b.payments, paymentIntentId).value;
              var p := b.payments[i];
              (p.UserId != userId ==> r == Err(Fault(Unauthorized, "Unauthorized"))) &&
              (p.UserId == userId ==>
                 r.Ok? &&
                 var (after, settled) := r.value;
                 SettledByConfirmation(p, settled, confirmed, clock.now) &&
                 ReplacedAt(b.payments, after.payments, i, settled) &&
                 (confirmed <==> |after.invoices| == |b.invoices| + 1) &&
                 |b.invoices| <= |after.invoices| && after.invoices[..|b.invoices|] == b.invoices &&
                 (confirmed ==> after.invoices[|b.invoices|].PaymentId == Some(p.Id)) &&
                 (!confirmed ==> after.subscriptions == b.subscriptions) &&
                 (p.SubscriptionId.None? ==> after.subscriptions == b.subscriptions) &&
                 (confirmed && p.SubscriptionId.Some? ==>
                    after.subscriptions == UpdateSubscriptionAfterPayment(b.subscriptions, p.SubscriptionId.value, true)))
  {
    match PaymentRepository.IndexByProviderId(b.payments, paymentIntentId)
    case None => Err(Throw("Payment not found"))
    case Some(i) =>
      var p := b.payments[i];
      if p.UserId != userId then Err(Fault(Unauthorized, "Unauthorized"))
      else
        var settled := if confirmed then p.(Status := Succeeded, PaidAt := Some(clock.now))
                       else p.(Status := Failed, FailedAt := Some(clock.now), FailureReason := Some(ConfirmationFailed));
        var payments := b.payments[i := settled];
        var subscriptions := match settled.SubscriptionId
          case None => b.subscriptions
          case Some(s) => UpdateSubscriptionAfterPayment(b.subscriptions, s, confirmed);
        if !confirmed then Ok((Billing(payments, subscriptions, b.invoices), settled))
        else
          assert payments[i].Id == settled.Id;
          match GenerateInvoice(payments, b.invoices, settled.Id, clock, invoiceId, itemId)
          case Err(e) => Err(e)
          case Ok(invoices) => Ok((Billing(payments, subscriptions, invoices), settled))
  }

  /** Stripe's confirmation call swallows its exceptions, so a provider
      failure marks the payment Failed instead of aborting the confirmation. */
  lemma StripeExceptionFailsPayment(b: Billing, userId: UserId, intentId: string, e: Fault,
                                    clock: Clock, invoiceId: Guid, itemId: Guid)
    ensures var r := ConfirmPayment(b, userId, intentId, StripeGateway.ConfirmPaymentIntent(Err(e)),
                                    clock, invoiceId, itemId);
            r.Ok? ==> r.value.1.Status == Failed && r.value.1.FailureReason == Some(ConfirmationFailed) &&
                      r.value.0.invoices == b.invoices && r.value.0.subscriptions == b.subscriptions
  {
  }

  // ---------------------------------------------------------------- capturing a PayPal order

  /** What PayPal's capture call reports: the order status and the id of the
      first capture, when there is one. */
  datatype CaptureResult = CaptureResult(Status: string, CaptureId: Option<string>)

  const CompletedStatus: string := "COMPLETED"
  const CaptureFailedPrefix: string := "PayPal capture failed: "

  /** How a capture result settles a payment. */
  predicate SettledByCapture(before: Payment, after: Payment, capture: CaptureResult, orderId: string, now: Instant) {
    var status := ToUpper(capture.Status);
    if status == CompletedStatus then
      after == before.(Status := Succeeded, PaidAt := Some(now),
                       ProviderPaymentId := Some(capture.CaptureId.GetOr(orderId)))
    else
      after == before.(Status := Failed, FailedAt := Some(now),
                       FailureReason := Some(CaptureFailedPrefix + status))
  }

  /** Captures the PayPal order `orderId`, records the outcome and, for a
      completed capture of a subscription payment, activates the subscription
      and issues the invoice. An exception from PayPal propagates. */
  function CapturePayPalOrder(b: Billing, userId: UserId, orderId: string, capture: Result<CaptureResult>,
                              clock: Clock, invoiceId: Guid, itemId: Guid): (r: Result<(Billing, Payment)>)
    ensures PaymentRepository.IndexByProviderId(b.payments, orderId).None? ==>
              r == Err(Throw("Payment not found"))
    ensures PaymentRepository.IndexByProviderId(b.payments, orderId).Some? ==>
              var i := PaymentRepository.IndexByProviderId(b.payments, orderId).value;
              var p := b.payments[i];
              (p.UserId != userId ==> r == Err(Fault(Unauthorized, "Unauthorized"))) &&
              (p.UserId == userId && capture.Err? ==> r == Err(capture.error)) &&
              (p.UserId == userId && capture.Ok? ==>
                 r.Ok? &&
                 var (after, settled) := r.value;
                 var touches := ToUpper(capture.value.Status) == CompletedStatus && p.SubscriptionId.Some?;
                 SettledByCapture(p, settled, capture.value, orderId, clock.now) &&
                 ReplacedAt(b.payments, after.payments, i, settled) &&
                 (touches <==> |after.invoices| == |b.invoices| + 1) &&
                 |b.invoices| <= |after.invoices| && after.invoices[..|b.invoices|] == b.invoices &&
                 (touches ==> after.subscriptions == UpdateSubscriptionAfterPayment(
                                                      b.subscriptions, p.SubscriptionId.value, true)) &&
                 (!touches ==> after.subscriptions == b.subscriptions))
  {
    match PaymentRepository.IndexByProviderId(b.payments, orderId)
    case None => Err(Throw("Payment not found"))
    case Some(i) =>
      if b.payments[i].UserId != userId then Err(Fault(Unauthorized, "Unauthorized"))
      else match capture
        case Err(e) => Err(e)
        case Ok(c) => Ok(RecordCapture(b, i, orderId, ToUpper(c.Status), c.CaptureId, clock, invoiceId, itemId))
  }

  /** Records a capture whose upper-cased status is `status` on payment `i`. */
  function RecordCapture(b: Billing, i: nat, orderId: string, status: string, captureId: Option<string>,
                         clock: Clock, invoiceId: Guid, itemId: Guid): (r: (Billing, Payment))
    requires i < |b.payments|
    ensures var (after, settled) := r;
            var touches := status == CompletedStatus && b.payments[i].SubscriptionId.Some?;
            ReplacedAt(b.payments, after.payments, i, settled) &&
            (touches <==> |after.invoices| == |b.invoices| + 1) &&
            |b.invoices| <= |after.invoices| && after.invoices[..|b.invoices|] == b.invoices &&
            (touches ==> after.subscriptions == UpdateSubscriptionAfterPayment(
                                                 b.subscriptions, b.payments[i].SubscriptionId.value, true)) &&
            (!touches ==> after.invoices == b.invoices && after.subscriptions == b.subscriptions)
  {
    var p := b.payments[i];
    var settled := if status == CompletedStatus then
                     p.(Status := Succeeded, PaidAt := Some(clock.now),
                        ProviderPaymentId := Some(captureId.GetOr(orderId)))
                   else
                     p.(Status := Failed, FailedAt := Some(clock.now),
                        FailureReason := Some(CaptureFailedPrefix + status));
    var payments := b.payments[i := settled];
    if status == CompletedStatus && settled.SubscriptionId.Some? then
      var subscriptions := UpdateSubscriptionAfterPayment(b.subscriptions, settled.SubscriptionId.value, true);
      var number := InvoiceRepository.GenerateInvoiceNumber(InvoiceRepository.Numbers(b.invoices), clock.year, clock.month);
      (Billing(payments, subscriptions, b.invoices + [InvoiceFor(settled, number, invoiceId, itemId, clock.now)]), settled)
    else (Billing(payments, b.subscriptions, b.invoices), settled)
  }

  /** The capture status is compared after upper-casing: two spellings that
      differ only in case record the same outcome. */
  lemma CaptureStatusIgnoresCase(b: Billing, userId: UserId, orderId: string, status1: string, status2: string,
                                 captureId: Option<string>, clock: Clock, invoiceId: Guid, itemId: Guid)
    requires ToUpper(status1) == ToUpper(status2)
    ensures CapturePayPalOrder(b, userId, orderId, Ok(CaptureResult(status1, captureId)), clock, invoiceId, itemId)
         == CapturePayPalOrder(b, userId, orderId, Ok(CaptureResult(status2, captureId)), clock, invoiceId, itemId)
  {
  }

  /** At most one payment carries the provider reference `id`. */
  predicate ReferenceUnique(payments: seq<Payment>, id: string) {
    forall j, k :: 0 <= j < k < |payments| ==>
      !(payments[j].ProviderPaymentId == Some(id) && payments[k].ProviderPaymentId == Some(id))
  }

  /** A completed capture re-keys the payment by its capture id, so capturing
      the same order a second time no longer finds the payment. */
  lemma CaptureRekeysPayment(b: Billing, userId: UserId, orderId: string, status: string, captureId: string,
                             capture2: Result<CaptureResult>, clock: Clock, invoiceId: Guid, itemId: Guid)
    requires ReferenceUnique(b.payments, orderId)
    requires captureId != orderId && ToUpper(status) == CompletedStatus
    ensures var first := CapturePayPalOrder(b, userId, orderId, Ok(CaptureResult(status, Some(captureId))),
                                            clock, invoiceId, itemId);
            first.Ok? ==>
              CapturePayPalOrder(first.value.0, userId, orderId, capture2, clock, invoiceId, itemId)
                == Err(Throw("Payment not found"))
  {
    var first := CapturePayPalOrder(b, userId, orderId, Ok(CaptureResult(status, Some(captureId))),
                                    clock, invoiceId, itemId);
    if first.Ok? {
      CompletedCaptureDropsOrder(b, userId, orderId, status, captureId, clock, invoiceId, itemId);
    }
  }

  /** After a completed capture, no payment carries the order id any more. */
  lemma CompletedCaptureDropsOrder(b: Billing, userId: UserId, orderId: string, status: string, captureId: string,
                                   clock: Clock, invoiceId: Guid, itemId: Guid)
    requires ReferenceUnique(b.payments, orderId)
    requires captureId != orderId && ToUpper(status) == CompletedStatus
    ensures var first := CapturePayPalOrder(b, userId, orderId, Ok(CaptureResult(status, Some(captureId))),
                                            clock, invoiceId, itemId);
            first.Ok? ==> PaymentRepository.IndexByProviderId(first.value.0.payments, orderId).None?
  {
    var c := CaptureResult(status, Some(captureId));
    var first := CapturePayPalOrder(b, userId, orderId, Ok(c), clock, invoiceId, itemId);
    if first.Ok? {
      var i := PaymentRepository.IndexByProviderId(b.payments, orderId).value;
      var (after, settled) := first.value;
      assert SettledByCapture(b.payments[i], settled, c, orderId, clock.now);
      assert settled.ProviderPaymentId == Some(captureId);
      ReferenceDropped(b.payments, after.payments, i, settled, orderId);
    }
  }

  /** Replacing the one payment that carried `id` by one that does not leaves
      no payment carrying it. */
  lemma ReferenceDropped(before: seq<Payment>, after: seq<Payment>, i: nat, settled: Payment, id: string)
    requires ReferenceUnique(before, id)
    requires i < |before| && before[i].ProviderPaymentId == Some(id)
    requires ReplacedAt(before, after, i, settled) && settled.ProviderPaymentId != Some(id)
    ensures PaymentRepository.IndexByProviderId(after, id).None?
  {
    forall j | 0 <= j < |after| ensures after[j].ProviderPaymentId != Some(id) {
      if j < i {
        assert after[j] == before[j];
      } else if j > i {
        assert after[j] == before[j];
      }
    }
  }

  // ---------------------------------------------------------------- refunds

  /** An administrator's refund request; no amount means the full amount. */
  datatype RefundRequest = RefundRequest(PaymentId: Guid, Amount: Option<real>, Reason: RefundReason)

  /** How a refund of `amount` settles a payment. */
  predicate SettledByRefund(before: Payment, after: Payment, amount: real, reason: RefundReason, now: Instant) {
    (after.Status == Refunded <==> amount >= before.Amount) &&
    (after.Status == Refunded || after.Status == PartiallyRefunded) &&
    after == before.(Status := after.Status, RefundedAt := Some(now), RefundReason := Some(reason.Name()))
  }

  /** Applies a refund the provider accepted to payment `i`. */
  function ApplyRefund(payments: seq<Payment>, i: nat, request: RefundRequest, now: Instant): (r: seq<Payment>)
    requires i < |payments|
    ensures |r| == |payments| && ReplacedAt(payments, r, i, r[i])
    ensures SettledByRefund(payments[i], r[i], request.Amount.GetOr(payments[i].Amount), request.Reason, now)
  {
    var p := payments[i];
    var amount := request.Amount.GetOr(p.Amount);
    var status := if amount >= p.Amount then Refunded else PartiallyRefunded;
    payments[i := p.(Status := status, RefundedAt := Some(now), RefundReason := Some(request.Reason.Name()))]
  }

  const CannotRefund: string := "Payment cannot be refunded"

  /** Refunds a succeeded Stripe payment; `provider` is the refund id Stripe
      returned, or the exception its call raised. The refund record the code
      builds is never stored, so only the payment changes. */
  function RefundPayment(payments: seq<Payment>, request: RefundRequest, provider: Result<string>, now: Instant)
    : (r: (seq<Payment>, ApiResponse))
    ensures !r.1.Success ==> r.0 == payments
    ensures PaymentRepository.IndexById(payments, request.PaymentId).None? ==>
              r.1 == ApiResponse(false, "Payment not found")
    ensures PaymentRepository.IndexById(payments, request.PaymentId).Some? ==>
              var i := PaymentRepository.IndexById(payments, request.PaymentId).value;
              var p := payments[i];
              (p.Status != Succeeded ==> r.1 == ApiResponse(false, CannotRefund)) &&
              (p.Status == Succeeded && provider.Err? ==> r.1 == ApiResponse(false, provider.error.message)) &&
              (p.Status == Succeeded && provider.Ok? ==>
                 r.1 == ApiResponse(true, "Payment refunded successfully") &&
                 |r.0| == |payments| && ReplacedAt(payments, r.0, i, r.0[i]) &&
                 SettledByRefund(p, r.0[i], request.Amount.GetOr(p.Amount), request.Reason, now))
  {
    match PaymentRepository.IndexById(payments, request.PaymentId)
    case None => (payments, ApiResponse(false, "Payment not found"))
    case Some(i) =>
      if payments[i].Status != Succeeded then (payments, ApiResponse(false, CannotRefund))
      else match provider
        case Err(e) => (payments, ApiResponse(false, e.message))
        case Ok(_) => (ApplyRefund(payments, i, request, now), ApiResponse(true, "Payment refunded successfully"))
  }

  /** The PayPal variant: additionally rejects payments of other providers,
      before looking at the status. */
  function RefundPayPalPayment(payments: seq<Payment>, request: RefundRequest, provider: Result<string>, now: Instant)
    : (r: (seq<Payment>, ApiResponse))
    ensures !r.1.Success ==> r.0 == payments
    ensures PaymentRepository.IndexById(payments, request.PaymentId).None? ==>
              r.1 == ApiResponse(false, "Payment not found")
    ensures PaymentRepository.IndexById(payments, request.PaymentId).Some? ==>
              var i := PaymentRepository.IndexById(payments, request.PaymentId).value;
              var p := payments[i];
              (p.Provider != Some(PayPal) ==> r.1 == ApiResponse(false, "Not a PayPal payment")) &&
              (p.Provider == Some(PayPal) && p.Status != Succeeded ==> r.1 == ApiResponse(false, CannotRefund)) &&
              (p.Provider == Some(PayPal) && p.Status == Succeeded && provider.Err? ==>
                 r.1 == ApiResponse(false, provider.error.message)) &&
              (p.Provider == Some(PayPal) && p.Status == Succeeded && provider.Ok? ==>
                 r.1 == ApiResponse(true, "PayPal payment refunded successfully") &&
                 |r.0| == |payments| && ReplacedAt(payments, r.0, i, r.0[i]) &&
                 SettledByRefund(p, r.0[i], request.Amount.GetOr(p.Amount), request.Reason, now))
  {
    match PaymentRepository.IndexById(payments, request.PaymentId)
    case None => (payments, ApiResponse(false, "Payment not found"))
    case Some(i) =>
      if payments[i].Provider != Some(PayPal) then (payments, ApiResponse(false, "Not a PayPal payment"))
      else if payments[i].Status != Succeeded then (payments, ApiResponse(false, CannotRefund))
      else match provider
        case Err(e) => (payments, ApiResponse(false, e.message))
        case Ok(_) =>
          (ApplyRefund(payments, i, request, now), ApiResponse(true, "PayPal payment refunded successfully"))
  }

  /** Without an amount the whole payment is refunded. */
  lemma RefundWithoutAmountIsFull(payments: seq<Payment>, id: Guid, reason: RefundReason, refundId: string, now: Instant)
    ensures var r := RefundPayment(payments, RefundRequest(id, None, reason), Ok(refundId), now);
            r.1.Success ==> r.0[PaymentRepository.IndexById(payments, id).value].Status == Refunded
  {
  }

  /** A refunded payment is no longer Succeeded, so a second refund of it is
      refused and changes nothing, whatever amount it asks for. */
  lemma RefundAtMostOnce(payments: seq<Payment>, first: RefundRequest, second: RefundRequest,
                         p1: Result<string>, p2: Result<string>, now: Instant, later: Instant)
    requires second.PaymentId == first.PaymentId
    ensures var (after, r1) := RefundPayment(payments, first, p1, now);
            r1.Success ==>
              RefundPayment(after, second, p2, later) == (after, ApiResponse(false, CannotRefund))
  {
    var (after, r1) := RefundPayment(payments, first, p1, now);
    if r1.Success {
      var i := PaymentRepository.IndexById(payments, first.PaymentId).value;
      assert after[i].Id == payments[i].Id;
      var k := PaymentRepository.IndexById(after, first.PaymentId);
      assert k == Some(i) by {
        forall j | 0 <= j < i ensures after[j].Id != first.PaymentId {
          assert after[j] == payments[j];
        }
      }
    }
  }

  /** On a PayPal payment both refund operations change the store alike. */
  lemma RefundVariantsAgreeOnPayPal(payments: seq<Payment>, request: RefundRequest, provider: Result<string>, now: Instant)
    requires forall p :: p in payments && p.Id == request.PaymentId ==> p.Provider == Some(PayPal)
    ensures RefundPayPalPayment(payments, request, provider, now).0 == RefundPayment(payments, request, provider, now).0
    ensures RefundPayPalPayment(payments, request, provider, now).1.Success
        == RefundPayment(payments, request, provider, now).1.Success
  {
    match PaymentRepository.IndexById(payments, request.PaymentId)
    case None =>
    case Some(i) => assert payments[i] in payments;
  }

  // ---------------------------------------------------------------- confirmation then refund

  /** Ids are keys: no two payments share one. */
  predicate UniquePaymentIds(payments: seq<Payment>) {
    forall j, k :: 0 <= j < k < |payments| ==> payments[j].Id != payments[k].Id
  }

  /** A payment Stripe confirmed can be refunded; one it declined cannot. */
  lemma ConfirmedPaymentIsRefundable(b: Billing, userId: UserId, intentId: string, confirmed: bool, clock: Clock,
                                     invoiceId: Guid, itemId: Guid, reason: RefundReason, refundId: string, later: Instant)
    requires UniquePaymentIds(b.payments)
    ensures var r := ConfirmPayment(b, userId, intentId, confirmed, clock, invoiceId, itemId);
            r.Ok? ==>
              var refund := RefundPayment(r.value.0.payments, RefundRequest(r.value.1.Id, None, reason), Ok(refundId), later);
              refund.1.Success == confirmed
  {
    var r := ConfirmPayment(b, userId, intentId, confirmed, clock, invoiceId, itemId);
    if r.Ok? {
      var i := PaymentRepository.IndexByProviderId(b.payments, intentId).value;
      var after := r.value.0.payments;
      var k := PaymentRepository.IndexById(after, r.value.1.Id);
      assert after[i].Id == b.payments[i].Id;
      assert k == Some(i) by {
        forall j | 0 <= j < i ensures after[j].Id != r.value.1.Id {
          assert after[j] == b.payments[j];
        }
      }
    }
  }

  // ---------------------------------------------------------------- statistics

  datatype Statistics = Statistics(
    TotalPayments: nat,
    SuccessfulPayments: nat,
    FailedPayments: nat,
    RefundedPayments: nat,
    AveragePaymentAmount: real)

  function SumAmounts(payments: seq<Payment>): real {
    if |payments| == 0 then 0.0 else payments[0].Amount + SumAmounts(payments[1..])
  }

  lemma DivideThenScale(x: real, n: real)
    ensures n != 0.0 ==> (x / n) * n == x
  {
  }

  /** The mean amount, 0 for no payments. */
  function Average(s: seq<Payment>): (r: real)
    ensures |s| == 0 ==> r == 0.0
    ensures |s| > 0 ==> r * |s| as real == SumAmounts(s)
  {
    if |s| == 0 then 0.0
    else
      var n := |s| as real;
      var total := SumAmounts(s);
      DivideThenScale(total, n);
      total / n
  }

  /** Three distinct statuses select at most all the payments between them. */
  lemma {:induction false} CountThreeStatuses(s: seq<Payment>, a: PaymentStatus, b: PaymentStatus, c: PaymentStatus)
    requires a != b && b != c && a != c
    ensures |PaymentRepository.GetByStatus(s, a)| + |PaymentRepository.GetByStatus(s, b)|
          + |PaymentRepository.GetByStatus(s, c)| <= |s|
  {
    if |s| > 0 {
      CountThreeStatuses(s[1..], a, b, c);
      assert s == [s[0]] + s[1..];
    }
  }

  /** The statistics over the payments created in `[start, end]`; the range
      defaults to the year up to `now`, whose start the caller's clock
      supplies as `yearAgo`. */
  function GetPaymentStatistics(payments: seq<Payment>, start: Option<Instant>, end: Option<Instant>,
                                now: Instant, yearAgo: Instant): (r: Statistics)
    ensures var inRange := PaymentRepository.GetByDateRange(payments, start.GetOr(yearAgo), end.GetOr(now));
            r.TotalPayments == |inRange| &&
            r.SuccessfulPayments == |PaymentRepository.GetByStatus(inRange, Succeeded)| &&
            r.FailedPayments == |PaymentRepository.GetByStatus(inRange, Failed)| &&
            r.RefundedPayments == |PaymentRepository.GetByStatus(inRange, Refunded)| &&
            r.AveragePaymentAmount == Average(inRange)
    ensures r.SuccessfulPayments + r.FailedPayments + r.RefundedPayments <= r.TotalPayments
    ensures r.TotalPayments == 0 ==> r.AveragePaymentAmount == 0.0
  {
    var inRange := PaymentRepository.GetByDateRange(payments, start.GetOr(yearAgo), end.GetOr(now));
    CountThreeStatuses(inRange, Succeeded, Failed, Refunded);
    var n := |inRange|;
    Statistics(n, |PaymentRepository.GetByStatus(inRange, Succeeded)|,
               |PaymentRepository.GetByStatus(inRange, Failed)|,
               |PaymentRepository.GetByStatus(inRange, Refunded)|,
               Average(inRange))
  }

  lemma {:induction false} SumAmountsBounds(s: seq<Payment>, lo: real, hi: real)
    requires forall i :: 0 <= i < |s| ==> lo <= s[i].Amount <= hi
    ensures lo * |s| as real <= SumAmounts(s) <= hi * |s| as real
  {
    if |s| > 0 {
      var tail := s[1..];
      SumAmountsBounds(tail, lo, hi);
      var n := |s| as real;
      var m := |tail| as real;
      assert n == m + 1.0;
      assert lo * n == lo + lo * m;
      assert hi * n == hi + hi * m;
    }
  }

  /** Scaling by a positive factor keeps a strict order. */
  lemma ScaleStrict(a: real, b: real, n: real)
    requires n > 0.0 && a < b
    ensures a * n < b * n
  {
    assert (b - a) * n > 0.0;
    assert (b - a) * n == b * n - a * n;
  }

  /** The mean lies between the smallest and the greatest amount. */
  lemma AverageBounds(s: seq<Payment>, lo: real, hi: real)
    requires forall i :: 0 <= i < |s| ==> lo <= s[i].Amount <= hi
    ensures |s| > 0 ==> lo <= Average(s) <= hi
  {
    SumAmountsBounds(s, lo, hi);
    if |s| > 0 {
      var n := |s| as real;
      var a := Average(s);
      if a < lo {
        ScaleStrict(a, lo, n);
      }
      if a > hi {
        ScaleStrict(hi, a, n);
      }
    }
  }

  /** The reported average lies between the smallest and the greatest amount in range. */
  lemma AverageWithinAmounts(payments: seq<Payment>, start: Option<Instant>, end: Option<Instant>,
                             now: Instant, yearAgo: Instant, lo: real, hi: real)
    requires forall p :: p in payments ==> lo <= p.Amount <= hi
    ensures var r := GetPaymentStatistics(payments, start, end, now, yearAgo);
            r.TotalPayments > 0 ==> lo <= r.AveragePaymentAmount <= hi
  {
    var inRange := PaymentRepository.GetByDateRange(payments, start.GetOr(yearAgo), end.GetOr(now));
    assert forall i :: 0 <= i < |inRange| ==> inRange[i] in payments;
    AverageBounds(inRange, lo, hi);
  }

  // ---------------------------------------------------------------- saved payment methods

  /** Soft-deletes the user's saved method `methodId`. The provider detach
      call reports failure as `false` and its result is not used. */
  function DeletePaymentMethod(methods: seq<SavedPaymentMethod>, userId: UserId, methodId: Guid, now: Instant)
    : (r: (seq<SavedPaymentMethod>, ApiResponse))
    ensures var found := FindIndex(methods, (m: SavedPaymentMethod) => m.Id == methodId);
            (found.None? || methods[found.value].UserId != userId <==> !r.1.Success) &&
            (!r.1.Success ==> r == (methods, ApiResponse(false, "Payment method not found"))) &&
            (r.1.Success ==>
               r.1.Message == "Payment method deleted" &&
               ReplacedAt(methods, r.0, found.value,
                          methods[found.value].(IsActive := false, DeletedAt := Some(now))))
  {
    match FindIndex(methods, (m: SavedPaymentMethod) => m.Id == methodId)
    case None => (methods, ApiResponse(false, "Payment method not found"))
    case Some(i) =>
      if methods[i].UserId != userId then (methods, ApiResponse(false, "Payment method not found"))
      else (methods[i := methods[i].(IsActive := false, DeletedAt := Some(now))],
            ApiResponse(true, "Payment method deleted"))
  }

  /** A deleted method drops out of the user's list and cannot be the default. */
  lemma DeletedMethodNotListed(methods: seq<SavedPaymentMethod>, userId: UserId, methodId: Guid, now: Instant)
    requires SavedPaymentMethods.UniqueIds(methods)
    ensures var (after, response) := DeletePaymentMethod(methods, userId, methodId, now);
            response.Success ==>
              (forall m :: m in SavedPaymentMethods.GetUserMethods(after, userId) ==> m.Id != methodId) &&
              (SavedPaymentMethods.GetDefault(after, userId).Some? ==>
                 SavedPaymentMethods.GetDefault(after, userId).value.Id != methodId)
  {
    var (after, response) := DeletePaymentMethod(methods, userId, methodId, now);
    if response.Success {
      var i := FindIndex(methods, (m: SavedPaymentMethod) => m.Id == methodId).value;
      forall m | m in after && m.Id == methodId ensures !m.IsActive {
        var j :| 0 <= j < |after| && after[j] == m;
        if j != i {
          assert after[j] == methods[j];
        }
      }
    }
  }
}

=== FILE: paypal_mock.dfy ===
/** The placeholder PayPal order service used by the checkout flow: it invents
    an order id and reports success for every call. The invented id is a
    parameter. */
module PayPalMock {
  import opened Wrappers
  import opened Domain

  /** The order service's reply. */
  datatype OrderResponse = OrderResponse(
    Success: bool,
    Message: string,
    ApprovalLink: Option<string>,
    OrderId: Option<string>,
    Status: PaymentStatus)

  /** The payer's part of a checkout request. */
  datatype PayPalRequest = PayPalRequest(
    DurationInMonths: int,
    PayerEmail: string,
    PayerName: string,
    ReturnUrl: string,
    CancelUrl: string)

  const ApprovalBase: string := "https://sandbox.paypal.com/checkoutnow?token="

  /** The checkout order for `amount`; `newOrderId` is the fresh identifier. */
  function CreateOrder(userId: UserId, request: PayPalRequest, amount: real, newOrderId: string): (r: OrderResponse)
    ensures r.Success && r.Status == Pending
    ensures r.OrderId == Some(newOrderId)
    ensures r.ApprovalLink.Some? && |r.ApprovalLink.value| == |ApprovalBase| + |newOrderId|
    ensures r.ApprovalLink.value[..|ApprovalBase|] == ApprovalBase
  {
    OrderResponse(true, "Order created successfully", Some(ApprovalBase + newOrderId), Some(newOrderId), Pending)
  }

  /** The approval link hands the order id back as its `token` parameter. */
  lemma ApprovalLinkCarriesOrderId(userId: UserId, request: PayPalRequest, amount: real, newOrderId: string)
    ensures var r := CreateOrder(userId, request, amount, newOrderId);
            r.ApprovalLink.value[|ApprovalBase|..] == r.OrderId.value
  {
  }

  /** The created order depends only on the fresh identifier. */
  lemma CreateOrderIgnoresRequest(u1: UserId, q1: PayPalRequest, a1: real, u2: UserId, q2: PayPalRequest, a2: real, id: string)
    ensures CreateOrder(u1, q1, a1, id) == CreateOrder(u2, q2, a2, id)
  {
  }

  function CaptureOrder(orderId: string): (r: OrderResponse)
    ensures r.Success && r.Status == Completed
    ensures r.OrderId == Some(orderId)
  {
    OrderResponse(true, "Payment completed successfully", None, Some(orderId), Completed)
  }

  /** A lookup reports what a capture of the same order reports, apart from
      the message. */
  function GetOrderDetails(orderId: string): (r: OrderResponse)
    ensures r.Success && r.Status == Completed
    ensures r == CaptureOrder(orderId).(Message := r.Message)
  {
    OrderResponse(true, "Order details retrieved", None, Some(orderId), Completed)
  }
}

=== FILE: refresh_tokens.dfy ===
/** The refresh-token store of the token service: creation, validation with
    expiry, and revocation. Access-token (JWT) signing is not modelled. The
    store is the token table in insertion order; a lookup by token string
    takes the first match. */
module RefreshTokens {
  import opened Wrappers
  import opened Seqs
  import opened Domain
  import Base64

  type Store = seq<RefreshToken>

  const RandomBytes: nat := 64

  /** A new token string: the Base64 text of 64 random bytes. */
  function GenerateRefreshToken(random: seq<Base64.Byte>): (r: string)
    requires |random| == RandomBytes
    ensures |r| == 88 && Base64.Pad in r
    ensures Base64.Decode(r) == Some(random)
  {
    Base64.RoundTrip(random);
    var r := Base64.Encode(random);
    assert r[87] == Base64.Pad by { LastCharIsPad(random); }
    r
  }

  /** 64 is one more than a multiple of 3, so the last block carries two pads. */
  lemma LastCharIsPad(random: seq<Base64.Byte>)
    requires |random| == RandomBytes
    ensures |Base64.Encode(random)| == 88 && Base64.Encode(random)[87] == Base64.Pad
  {
    var k := 21;
    var head := random[..3 * k];
    assert random == head + random[3 * k..];
    EncodeConcat(head, random[3 * k..]);
  }

  /** Encoding whole blocks and then the rest is encoding the whole. */
  lemma {:induction false} EncodeConcat(a: seq<Base64.Byte>, b: seq<Base64.Byte>)
    requires |a| % 3 == 0
    ensures Base64.Encode(a + b) == Base64.Encode(a) + Base64.Encode(b)
    decreases |a|
  {
    if |a| > 0 {
      assert (a + b)[3..] == a[3..] + b;
      EncodeConcat(a[3..], b);
    } else {
      assert a + b == b;
    }
  }

  /** A token issued to `userId` at `now`, valid for `days` days. */
  function CreateRefreshToken(store: Store, userId: UserId, id: Guid, token: string, now: Instant, days: int)
    : (r: (Store, RefreshToken))
    ensures r.0 == store + [r.1]
    ensures r.1.UserId == userId && r.1.Token == token && r.1.Id == id
    ensures !r.1.IsRevoked && r.1.RevokedAt.None?
    ensures r.1.CreatedAt == now && r.1.ExpiresAt - r.1.CreatedAt == days * SecondsPerDay
  {
    var t := RefreshToken(id, userId, token, now + days * SecondsPerDay, now, false, None);
    (store + [t], t)
  }

  function IndexByToken(store: Store, token: string): (r: Option<nat>)
    ensures r.Some? ==> r.value < |store| && store[r.value].Token == token &&
                        forall j :: 0 <= j < r.value ==> store[j].Token != token
    ensures r.None? ==> forall j :: 0 <= j < |store| ==> store[j].Token != token
  {
    FindIndex(store, (t: RefreshToken) => t.Token == token)
  }

  function Revoke(t: RefreshToken, now: Instant): (r: RefreshToken)
    ensures r.IsRevoked && r.RevokedAt == Some(now)
    ensures r.(IsRevoked := t.IsRevoked, RevokedAt := t.RevokedAt) == t
  {
    t.(IsRevoked := true, RevokedAt := Some(now))
  }

  /** The stored token if it exists, is not revoked and has not expired; an
      expired one is revoked on the way. */
  function ValidateRefreshToken(store: Store, token: string, now: Instant): (r: (Store, Option<RefreshToken>))
    ensures r.1.Some? ==> r.0 == store && r.1.value in store && r.1.value.Token == token &&
                          !r.1.value.IsRevoked && now <= r.1.value.ExpiresAt
    ensures r.0 != store ==>
              r.1.None? && IndexByToken(store, token).Some? &&
              var i := IndexByToken(store, token).value;
              store[i].ExpiresAt < now && ReplacedAt(store, r.0, i, Revoke(store[i], now))
    ensures IndexByToken(store, token).None? ==> r == (store, None)
    ensures IndexByToken(store, token).Some? ==>
              var i := IndexByToken(store, token).value;
              (store[i].IsRevoked ==> r == (store, None)) &&
              (!store[i].IsRevoked && store[i].ExpiresAt < now ==>
                 r == (store[i := Revoke(store[i], now)], None))
  {
    match IndexByToken(store, token)
    case None => (store, None)
    case Some(i) =>
      var t := store[i];
      if t.IsRevoked then (store, None)
      else if t.ExpiresAt < now then (store[i := Revoke(t, now)], None)
      else (store, Some(t))
  }

  /** The decision of `ValidateRefreshToken` stated on the first record with
      that token string: both directions. */
  lemma ValidateDecision(store: Store, token: string, now: Instant)
    ensures var found := IndexByToken(store, token);
            ValidateRefreshToken(store, token, now).1.Some? <==>
              found.Some? && !store[found.value].IsRevoked && now <= store[found.value].ExpiresAt
  {
  }

  /** A token expiring exactly now is still accepted. */
  lemma ExpiryIsInclusive(store: Store, token: string, i: nat)
    requires IndexByToken(store, token) == Some(i) && !store[i].IsRevoked
    ensures ValidateRefreshToken(store, token, store[i].ExpiresAt) == (store, Some(store[i]))
  {
  }

  /** Revokes the first record with that token string; unknown tokens change nothing. */
  function RevokeRefreshToken(store: Store, token: string, now: Instant): (r: Store)
    ensures IndexByToken(store, token).None? ==> r == store
    ensures IndexByToken(store, token).Some? ==>
              var i := IndexByToken(store, token).value;
              ReplacedAt(store, r, i, Revoke(store[i], now))
  {
    match IndexByToken(store, token)
    case None => store
    case Some(i) => store[i := Revoke(store[i], now)]
  }

  /** Once revoked, a token never validates again, at any later time. */
  lemma RevokedNeverValidates(store: Store, token: string, t1: Instant, t2: Instant)
    ensures ValidateRefreshToken(RevokeRefreshToken(store, token, t1), token, t2).1.None?
  {
    var r := RevokeRefreshToken(store, token, t1);
    if IndexByToken(store, token).Some? {
      var i := IndexByToken(store, token).value;
      assert forall j :: 0 <= j < i ==> r[j] == store[j];
      assert IndexByToken(r, token) == Some(i);
    }
  }

  /** A token turned away as expired stays turned away. */
  lemma ExpiredStaysRejected(store: Store, token: string, t1: Instant, t2: Instant)
    requires ValidateRefreshToken(store, token, t1).0 != store
    ensures var after := ValidateRefreshToken(store, token, t1).0;
            ValidateRefreshToken(after, token, t2) == (after, None)
  {
    var i := IndexByToken(store, token).value;
    var after := ValidateRefreshToken(store, token, t1).0;
    assert forall j :: 0 <= j < i ==> after[j] == store[j];
    assert IndexByToken(after, token) == Some(i);
  }

  /** Revokes every live token of the user. */
  function RevokeAllUserTokens(store: Store, userId: UserId, now: Instant): (r: Store)
    ensures |r| == |store|
    ensures forall i :: 0 <= i < |store| && store[i].UserId == userId && !store[i].IsRevoked ==>
              r[i] == Revoke(store[i], now)
    ensures forall i :: 0 <= i < |store| && (store[i].UserId != userId || store[i].IsRevoked) ==>
              r[i] == store[i]
  {
    if |store| == 0 then []
    else
      var t := store[0];
      [if t.UserId == userId && !t.IsRevoked then Revoke(t, now) else t]
        + RevokeAllUserTokens(store[1..], userId, now)
  }

  /** Revocation keeps every token string in its place. */
  lemma RevokeAllKeepsLookup(store: Store, userId: UserId, now: Instant, token: string)
    ensures IndexByToken(RevokeAllUserTokens(store, userId, now), token) == IndexByToken(store, token)
  {
    var r := RevokeAllUserTokens(store, userId, now);
    assert forall j :: 0 <= j < |store| ==> r[j].Token == store[j].Token;
    match IndexByToken(store, token)
    case None =>
    case Some(i) =>
      assert IndexByToken(r, token) == Some(i);
  }

  /** After revoking all of a user's tokens none of them validates, and
      every other user's tokens validate exactly as before. */
  lemma RevokeAllSeparatesUsers(store: Store, userId: UserId, now: Instant, token: string, later: Instant)
    requires IndexByToken(store, token).Some?
    ensures var r := RevokeAllUserTokens(store, userId, now);
            var t := store[IndexByToken(store, token).value];
            (t.UserId == userId ==> ValidateRefreshToken(r, token, later).1.None?) &&
            (t.UserId != userId ==> ValidateRefreshToken(r, token, later).1 == ValidateRefreshToken(store, token, later).1)
  {
    RevokeAllKeepsLookup(store, userId, now, token);
  }
}

=== FILE: saved_payment_methods.dfy ===
/** The saved-payment-method queries and the default-method update of the
    data layer. */
module SavedPaymentMethods {
  import opened Wrappers
  import opened Seqs
  import opened Domain

  /** No two stored methods share a key. */
  predicate UniqueIds(store: seq<SavedPaymentMethod>) {
    forall i, j :: 0 <= i < j < |store| ==> store[i].Id != store[j].Id
  }

  /** Makes `id` the user's default: every method of the user is marked
      default exactly when it is `id`. */
  function SetDefault(store: seq<SavedPaymentMethod>, userId: UserId, id: Guid): (r: seq<SavedPaymentMethod>)
    ensures |r| == |store|
    ensures forall i :: 0 <= i < |store| && store[i].UserId == userId ==>
              r[i] == store[i].(IsDefault := store[i].Id == id)
    ensures forall i :: 0 <= i < |store| && store[i].UserId != userId ==> r[i] == store[i]
  {
    if |store| == 0 then []
    else
      var m := store[0];
      [if m.UserId == userId then m.(IsDefault := m.Id == id) else m] + SetDefault(store[1..], userId, id)
  }

  /** With unique keys the user is left with at most one default method. */
  lemma SetDefaultLeavesAtMostOne(store: seq<SavedPaymentMethod>, userId: UserId, id: Guid)
    requires UniqueIds(store)
    ensures var r := SetDefault(store, userId, id);
            forall i, j :: (0 <= i < j < |r| && r[i].UserId == userId && r[j].UserId == userId &&
                            r[i].IsDefault) ==> !r[j].IsDefault
  {
  }

  /** A key that is none of the user's methods leaves the user without a default. */
  lemma SetDefaultUnknownClearsAll(store: seq<SavedPaymentMethod>, userId: UserId, id: Guid)
    requires forall m :: m in store && m.UserId == userId ==> m.Id != id
    ensures forall m :: m in SetDefault(store, userId, id) && m.UserId == userId ==> !m.IsDefault
  {
    var r := SetDefault(store, userId, id);
    forall m | m in r && m.UserId == userId ensures !m.IsDefault {
      var i :| 0 <= i < |r| && r[i] == m;
      assert store[i] in store;
    }
  }

  lemma SetDefaultIdempotent(store: seq<SavedPaymentMethod>, userId: UserId, id: Guid)
    ensures SetDefault(SetDefault(store, userId, id), userId, id) == SetDefault(store, userId, id)
  {
    var once := SetDefault(store, userId, id);
    var twice := SetDefault(once, userId, id);
    assert forall i :: 0 <= i < |store| ==> twice[i] == once[i];
  }

  predicate IsUsableDefault(m: SavedPaymentMethod, userId: UserId) {
    m.UserId == userId && m.IsDefault && m.IsActive
  }

  /** The user's first method that is both default and active. */
  function GetDefault(store: seq<SavedPaymentMethod>, userId: UserId): (r: Option<SavedPaymentMethod>)
    ensures r.Some? ==> r.value in store && IsUsableDefault(r.value, userId)
    ensures r.None? <==> forall m :: m in store ==> !IsUsableDefault(m, userId)
  {
    Find(store, (m: SavedPaymentMethod) => IsUsableDefault(m, userId))
  }

  /** After choosing an active method as default, it is the one `GetDefault`
      returns. */
  lemma SetDefaultThenGetDefault(store: seq<SavedPaymentMethod>, userId: UserId, k: nat)
    requires UniqueIds(store)
    requires k < |store| && store[k].UserId == userId && store[k].IsActive
    ensures GetDefault(SetDefault(store, userId, store[k].Id), userId) == Some(store[k].(IsDefault := true))
  {
    var r := SetDefault(store, userId, store[k].Id);
    assert r[k] == store[k].(IsDefault := true);
    var found := GetDefault(r, userId).value;
    var i :| 0 <= i < |r| && r[i] == found;
  }

  /** Defaults first, then newest first. */
  predicate ListedBefore(a: SavedPaymentMethod, b: SavedPaymentMethod) {
    (a.IsDefault && !b.IsDefault) || (a.IsDefault == b.IsDefault && a.CreatedAt >= b.CreatedAt)
  }

  /** The user's active methods, the default ones first, newest first within each group. */
  function GetUserMethods(store: seq<SavedPaymentMethod>, userId: UserId): (r: seq<SavedPaymentMethod>)
    ensures forall m :: m in r <==> m in store && m.UserId == userId && m.IsActive
    ensures multiset(r) == multiset(Filter(store, (m: SavedPaymentMethod) => m.UserId == userId && m.IsActive))
    ensures forall i :: 0 < i < |r| ==> ListedBefore(r[i - 1], r[i])
  {
    var mine := Filter(store, (m: SavedPaymentMethod) => m.UserId == userId && m.IsActive);
    var r := SortBy(mine, ListedBefore);
    SameElements(r, mine);
    r
  }

  /** No method that is not default is listed before a default one. */
  lemma {:induction false} DefaultsListedFirst(store: seq<SavedPaymentMethod>, userId: UserId, i: nat, j: nat)
    requires i < j < |GetUserMethods(store, userId)|
    requires GetUserMethods(store, userId)[j].IsDefault
    ensures GetUserMethods(store, userId)[i].IsDefault
    decreases j - i
  {
    var r := GetUserMethods(store, userId);
    assert ListedBefore(r[j - 1], r[j]);
    if i < j - 1 {
      DefaultsListedFirst(store, userId, i, j - 1);
    }
  }
}

=== FILE: scene_repository.dfy ===
/** The historical scenes and their characters as the data layer holds them:
    two tables in insertion order, related by each character's scene id.
    Loading a scene "with its characters" fills the scene's character list
    from the character table; a scene read without that gets its record as
    stored. The generic base repository (lookup by key, existence, add,
    update, delete) is not part of this model; its key lookup is taken to
    be the first record with that key. */
module SceneRepository {
  import opened Wrappers
  import opened Seqs
  import opened Text
  import opened Domain

  datatype Catalog = Catalog(scenes: seq<Scene>, characters: seq<Character>)

  /** The characters whose foreign key names the scene. */
  function CharactersOf(characters: seq<Character>, sceneId: Guid): (r: seq<Character>)
    ensures forall c :: c in r <==> c in characters && c.SceneId == sceneId
  {
    Filter(characters, (c: Character) => c.SceneId == sceneId)
  }

  /** The scene with its characters loaded. */
  function WithCharacters(cat: Catalog, s: Scene): (r: Scene)
    ensures r.(Characters := s.Characters) == s
    ensures forall c :: c in r.Characters <==> c in cat.characters && c.SceneId == s.Id
  {
    s.(Characters := CharactersOf(cat.characters, s.Id))
  }

  function LoadAll(cat: Catalog, ss: seq<Scene>): (r: seq<Scene>)
    ensures |r| == |ss|
    ensures forall i :: 0 <= i < |ss| ==> r[i] == WithCharacters(cat, ss[i])
  {
    if |ss| == 0 then [] else [WithCharacters(cat, ss[0])] + LoadAll(cat, ss[1..])
  }

  predicate EraMatches(s: Scene, era: string) {
    EqualsIgnoreCase(s.Era, era)
  }

  /** The scenes of an era, compared without regard to case, in store order. */
  function GetByEra(cat: Catalog, era: string): (r: seq<Scene>)
    ensures |r| <= |cat.scenes|
    ensures forall s :: s in cat.scenes && EqualsIgnoreCase(s.Era, era) ==> WithCharacters(cat, s) in r
    ensures forall x :: x in r ==> exists s :: s in cat.scenes && EqualsIgnoreCase(s.Era, era) && x == WithCharacters(cat, s)
  {
    var matching := Filter(cat.scenes, (s: Scene) => EraMatches(s, era));
    var r := LoadAll(cat, matching);
    assert forall s :: s in matching ==> WithCharacters(cat, s) in r by {
      forall s | s in matching ensures WithCharacters(cat, s) in r {
        var k :| 0 <= k < |matching| && matching[k] == s;
        assert r[k] == WithCharacters(cat, s);
      }
    }
    assert forall i :: 0 <= i < |r| ==> matching[i] in matching;
    r
  }

  predicate MatchesTerm(s: Scene, term: string) {
    Contains(s.Title, term) || Contains(s.Description, term) || Contains(s.Era, term)
  }

  /** The scenes whose title, description or era contains the term. */
  function SearchScenes(cat: Catalog, term: string): (r: seq<Scene>)
    ensures |r| <= |cat.scenes|
    ensures forall s :: s in cat.scenes && MatchesTerm(s, term) ==> WithCharacters(cat, s) in r
    ensures forall x :: x in r ==> exists s :: s in cat.scenes && MatchesTerm(s, term) && x == WithCharacters(cat, s)
  {
    var matching := Filter(cat.scenes, (s: Scene) => MatchesTerm(s, term));
    var r := LoadAll(cat, matching);
    assert forall s :: s in matching ==> WithCharacters(cat, s) in r by {
      forall s | s in matching ensures WithCharacters(cat, s) in r {
        var k :| 0 <= k < |matching| && matching[k] == s;
        assert r[k] == WithCharacters(cat, s);
      }
    }
    assert forall i :: 0 <= i < |r| ==> matching[i] in matching;
    r
  }

  /** The empty term is contained in every text: searching for it lists
      every scene. */
  lemma EmptySearchListsAll(cat: Catalog)
    ensures forall s :: s in cat.scenes ==> WithCharacters(cat, s) in SearchScenes(cat, "")
  {
    forall s | s in cat.scenes ensures MatchesTerm(s, "") {
      EmptyContained(s.Title);
    }
  }

  function IndexById(scenes: seq<Scene>, id: Guid): (r: Option<nat>)
    ensures r.Some? ==> r.value < |scenes| && scenes[r.value].Id == id
    ensures r.None? <==> forall j :: 0 <= j < |scenes| ==> scenes[j].Id != id
  {
    FindIndex(scenes, (s: Scene) => s.Id == id)
  }

  /** The first scene with that id, with its characters. */
  function GetSceneWithCharacters(cat: Catalog, id: Guid): (r: Option<Scene>)
    ensures r.None? <==> forall s :: s in cat.scenes ==> s.Id != id
    ensures r.Some? ==> r.value.Id == id && exists s :: s in cat.scenes && r.value == WithCharacters(cat, s)
  {
    match IndexById(cat.scenes, id)
    case None => None
    case Some(i) => Some(WithCharacters(cat, cat.scenes[i]))
  }

  /** The first scene with that id as stored, without loading its characters. */
  function GetById(cat: Catalog, id: Guid): (r: Option<Scene>)
    ensures r.None? <==> forall s :: s in cat.scenes ==> s.Id != id
    ensures r.Some? ==> r.value in cat.scenes && r.value.Id == id
  {
    match IndexById(cat.scenes, id)
    case None => None
    case Some(i) => Some(cat.scenes[i])
  }

  predicate Exists(cat: Catalog, id: Guid) {
    IndexById(cat.scenes, id).Some?
  }

  /** Loading characters twice is loading them once. */
  lemma WithCharactersIdempotent(cat: Catalog, s: Scene)
    ensures WithCharacters(cat, WithCharacters(cat, s)) == WithCharacters(cat, s)
  {
  }
}

=== FILE: scene_service.dfy ===
/** The scene service: create, read, list, search, update and delete
    historical scenes. Fresh ids and the clock are parameters. A missing
    scene raises "Scene not found". Deleting a scene removes its characters
    too, since their required foreign key cascades. */
module SceneService {
  import opened Wrappers
  import opened Seqs
  import opened Text
  import opened Domain
  import opened SceneRepository
  import AssetRepository

  const SceneNotFound: string := "Scene not found"

  datatype CreateSceneRequest = CreateSceneRequest(
    Title: string, Era: string, Location: string, Description: string,
    EnvironmentPrompt: string, Model3DUrl: Option<string>)

  datatype UpdateSceneRequest = UpdateSceneRequest(
    Title: Option<string>, Era: Option<string>, Location: Option<string>, Description: Option<string>,
    EnvironmentPrompt: Option<string>, Model3DUrl: Option<string>)

  datatype CharacterSummary = CharacterSummary(Id: Guid, Name: string, Role: string, AvatarUrl: string)

  datatype SceneResponse = SceneResponse(
    Id: Guid, Title: string, Era: string, Location: string, Description: string,
    EnvironmentPrompt: string, Model3DUrl: string, CreatedAt: Instant, UpdatedAt: Option<Instant>,
    CharactersCount: nat, Characters: seq<CharacterSummary>)

  function Summary(c: Character): CharacterSummary {
    CharacterSummary(c.Id, c.Name, c.Role, c.AvatarUrl)
  }

  /** The answer for a scene: its fields and a summary of each loaded character. */
  function MapToResponse(s: Scene): (r: SceneResponse)
    ensures r.CharactersCount == |r.Characters| == |s.Characters|
    ensures forall i :: 0 <= i < |s.Characters| ==>
              r.Characters[i].Id == s.Characters[i].Id && r.Characters[i].Name == s.Characters[i].Name
    ensures r.Id == s.Id && r.Title == s.Title && r.Era == s.Era && r.Model3DUrl == s.Model3DUrl
    ensures r.CreatedAt == s.CreatedAt && r.UpdatedAt == s.UpdatedAt
  {
    var summaries := seq(|s.Characters|, i requires 0 <= i < |s.Characters| => Summary(s.Characters[i]));
    SceneResponse(s.Id, s.Title, s.Era, s.Location, s.Description, s.EnvironmentPrompt, s.Model3DUrl,
                  s.CreatedAt, s.UpdatedAt, |summaries|, summaries)
  }

  function MapAll(ss: seq<Scene>): (r: seq<SceneResponse>)
    ensures |r| == |ss|
    ensures forall i :: 0 <= i < |ss| ==> r[i] == MapToResponse(ss[i])
  {
    if |ss| == 0 then [] else [MapToResponse(ss[0])] + MapAll(ss[1..])
  }

  /** A new scene from the request; an absent model URL is stored as "". */
  function CreateScene(cat: Catalog, id: Guid, req: CreateSceneRequest, now: Instant): (r: (Catalog, SceneResponse))
    ensures r.0.characters == cat.characters
    ensures |r.0.scenes| == |cat.scenes| + 1 && r.0.scenes[..|cat.scenes|] == cat.scenes
    ensures var s := r.0.scenes[|cat.scenes|];
            s.Id == id && s.Title == req.Title && s.Era == req.Era && s.Location == req.Location &&
            s.Description == req.Description && s.EnvironmentPrompt == req.EnvironmentPrompt &&
            s.Model3DUrl == req.Model3DUrl.GetOr("") && s.CreatedAt == now && s.UpdatedAt.None? &&
            r.1 == MapToResponse(s)
    ensures r.1.CharactersCount == 0
  {
    var s := Scene(id, req.Title, req.Era, req.Location, req.Description, req.EnvironmentPrompt,
                   req.Model3DUrl.GetOr(""), now, None, []);
    (Catalog(cat.scenes + [s], cat.characters), MapToResponse(s))
  }

  function GetSceneById(cat: Catalog, id: Guid): (r: Result<SceneResponse>)
    ensures r.Err? <==> forall s :: s in cat.scenes ==> s.Id != id
    ensures r.Err? ==> r.error == Throw(SceneNotFound)
    ensures r.Ok? ==> r.value == MapToResponse(GetSceneWithCharacters(cat, id).value)
  {
    match GetSceneWithCharacters(cat, id)
    case None => Err(Throw(SceneNotFound))
    case Some(s) => Ok(MapToResponse(s))
  }

  /** Every scene as stored, without loading characters. */
  function GetAllScenes(cat: Catalog): (r: seq<SceneResponse>)
    ensures |r| == |cat.scenes|
    ensures forall i :: 0 <= i < |r| ==> r[i] == MapToResponse(cat.scenes[i])
    ensures forall i :: 0 <= i < |r| ==> r[i].Id == cat.scenes[i].Id && r[i].CharactersCount == |cat.scenes[i].Characters|
  {
    MapAll(cat.scenes)
  }

  /** The list and the lookup by key agree on a scene's fields: the lookup
      answers the first scene with that key with its characters loaded, and
      differs from the listed entry at most in the character summaries. */
  lemma ListedSceneReadsBack(cat: Catalog, i: nat)
    requires i < |cat.scenes|
    requires forall j :: 0 <= j < i ==> cat.scenes[j].Id != cat.scenes[i].Id
    ensures var listed := GetAllScenes(cat)[i];
            var got := GetSceneById(cat, cat.scenes[i].Id);
            got == Ok(MapToResponse(WithCharacters(cat, cat.scenes[i]))) &&
            got.value.(Characters := listed.Characters, CharactersCount := listed.CharactersCount) == listed
  {
    assert IndexById(cat.scenes, cat.scenes[i].Id) == Some(i);
  }

  /** Each scene maps to its answer, and each answer comes from a scene. */
  lemma MapAllMembers(ss: seq<Scene>)
    ensures forall s :: s in ss ==> MapToResponse(s) in MapAll(ss)
    ensures forall x :: x in MapAll(ss) ==> exists s :: s in ss && x == MapToResponse(s)
  {
    var r := MapAll(ss);
    forall s | s in ss ensures MapToResponse(s) in r {
      var k :| 0 <= k < |ss| && ss[k] == s;
      assert r[k] == MapToResponse(s);
    }
    forall x | x in r ensures exists s :: s in ss && x == MapToResponse(s) {
      var k :| 0 <= k < |r| && r[k] == x;
      assert ss[k] in ss;
    }
  }

  function GetScenesByEra(cat: Catalog, era: string): (r: seq<SceneResponse>)
    ensures forall x :: x in r ==> EqualsIgnoreCase(x.Era, era)
    ensures forall s :: s in cat.scenes && EqualsIgnoreCase(s.Era, era) ==> MapToResponse(WithCharacters(cat, s)) in r
  {
    var found := GetByEra(cat, era);
    MapAllMembers(found);
    MapAll(found)
  }

  function SearchScenesResponse(cat: Catalog, term: string): (r: seq<SceneResponse>)
    ensures forall x :: x in r ==> Contains(x.Title, term) || Contains(x.Description, term) || Contains(x.Era, term)
    ensures |r| <= |cat.scenes|
    ensures forall s :: s in cat.scenes && MatchesTerm(s, term) ==> MapToResponse(WithCharacters(cat, s)) in r
    ensures forall x :: x in r ==>
              exists s :: s in cat.scenes && MatchesTerm(s, term) && x == MapToResponse(WithCharacters(cat, s))
  {
    var found := SearchScenes(cat, term);
    var r := MapAll(found);
    MapAllMembers(found);
    assert forall i :: 0 <= i < |r| ==> found[i] in found;
    r
  }

  /** The empty term is contained in every text, so searching for it
      answers every stored scene, loaded. */
  lemma EmptySearchAnswersAll(cat: Catalog)
    ensures forall s :: s in cat.scenes ==> MapToResponse(WithCharacters(cat, s)) in SearchScenesResponse(cat, "")
  {
    forall s | s in cat.scenes ensures MatchesTerm(s, "") {
      EmptyContained(s.Title);
    }
  }

  /** Overwrite a text field only with a present, non-empty value. */
  function Overwrite(current: string, update: Option<string>): (r: string)
    ensures NullOrEmpty(update) ==> r == current
    ensures !NullOrEmpty(update) ==> r == update.value
  {
    if NullOrEmpty(update) then current else update.value
  }

  /** The update rules: the five text fields change only to present,
      non-empty values; the model URL changes to any present value, "" included;
      the update time is set. */
  function ApplyUpdate(s: Scene, req: UpdateSceneRequest, now: Instant): (r: Scene)
    ensures r.Id == s.Id && r.CreatedAt == s.CreatedAt && r.Characters == s.Characters
    ensures r.UpdatedAt == Some(now)
    ensures NullOrEmpty(req.Title) ==> r.Title == s.Title
    ensures !NullOrEmpty(req.Title) ==> r.Title == req.Title.value
    ensures NullOrEmpty(req.Era) ==> r.Era == s.Era
    ensures !NullOrEmpty(req.Era) ==> r.Era == req.Era.value
    ensures NullOrEmpty(req.Location) ==> r.Location == s.Location
    ensures !NullOrEmpty(req.Location) ==> r.Location == req.Location.value
    ensures NullOrEmpty(req.Description) ==> r.Description == s.Description
    ensures !NullOrEmpty(req.Description) ==> r.Description == req.Description.value
    ensures NullOrEmpty(req.EnvironmentPrompt) ==> r.EnvironmentPrompt == s.EnvironmentPrompt
    ensures !NullOrEmpty(req.EnvironmentPrompt) ==> r.EnvironmentPrompt == req.EnvironmentPrompt.value
    ensures req.Model3DUrl.None? ==> r.Model3DUrl == s.Model3DUrl
    ensures req.Model3DUrl.Some? ==> r.Model3DUrl == req.Model3DUrl.value
  {
    s.(Title := Overwrite(s.Title, req.Title),
       Era := Overwrite(s.Era, req.Era),
       Location := Overwrite(s.Location, req.Location),
       Description := Overwrite(s.Description, req.Description),
       EnvironmentPrompt := Overwrite(s.EnvironmentPrompt, req.EnvironmentPrompt),
       Model3DUrl := req.Model3DUrl.GetOr(s.Model3DUrl),
       UpdatedAt := Some(now))
  }

  /** Applying an update twice is applying it once, apart from the time. */
  lemma UpdateIdempotent(s: Scene, req: UpdateSceneRequest, t1: Instant, t2: Instant)
    ensures ApplyUpdate(ApplyUpdate(s, req, t1), req, t2) == ApplyUpdate(s, req, t2)
  {
  }

  /** A request with every field absent or empty only stamps the time. */
  lemma EmptyUpdateOnlyStamps(s: Scene, now: Instant)
    ensures ApplyUpdate(s, UpdateSceneRequest(Some(""), Some(""), None, Some(""), None, None), now) == s.(UpdatedAt := Some(now))
  {
  }

  /** An empty model URL clears the stored one, unlike an empty title. */
  lemma EmptyModelUrlClears(s: Scene, now: Instant)
    ensures ApplyUpdate(s, UpdateSceneRequest(Some(""), None, None, None, None, Some("")), now).Model3DUrl == ""
    ensures ApplyUpdate(s, UpdateSceneRequest(Some(""), None, None, None, None, Some("")), now).Title == s.Title
  {
  }

  function UpdateScene(cat: Catalog, id: Guid, req: UpdateSceneRequest, now: Instant): (r: (Catalog, Result<SceneResponse>))
    ensures IndexById(cat.scenes, id).None? ==> r == (cat, Err(Throw(SceneNotFound)))
    ensures IndexById(cat.scenes, id).Some? ==>
              var i := IndexById(cat.scenes, id).value;
              var updated := ApplyUpdate(cat.scenes[i], req, now);
              r.0.characters == cat.characters && ReplacedAt(cat.scenes, r.0.scenes, i, updated) &&
              r.1 == Ok(MapToResponse(updated))
  {
    match IndexById(cat.scenes, id)
    case None => (cat, Err(Throw(SceneNotFound)))
    case Some(i) =>
      var updated := ApplyUpdate(cat.scenes[i], req, now);
      (Catalog(cat.scenes[i := updated], cat.characters), Ok(MapToResponse(updated)))
  }

  /** Removes the scene. Through the required foreign key the characters
      that name it go with it; the assets that name it stay, with their
      scene cleared (the optional foreign key is set to null). */
  function DeleteScene(cat: Catalog, assets: AssetRepository.Store, id: Guid)
    : (r: (Catalog, AssetRepository.Store, Result<bool>))
    ensures IndexById(cat.scenes, id).None? ==> r == (cat, assets, Err(Throw(SceneNotFound)))
    ensures IndexById(cat.scenes, id).Some? ==>
              var i := IndexById(cat.scenes, id).value;
              r.2 == Ok(true) && r.0.scenes == cat.scenes[..i] + cat.scenes[i + 1..] &&
              (forall c :: c in r.0.characters <==> c in cat.characters && c.SceneId != id) &&
              r.1 == ClearScene(assets, id)
  {
    match IndexById(cat.scenes, id)
    case None => (cat, assets, Err(Throw(SceneNotFound)))
    case Some(i) =>
      (Catalog(cat.scenes[..i] + cat.scenes[i + 1..], Filter(cat.characters, (c: Character) => c.SceneId != id)),
       ClearScene(assets, id), Ok(true))
  }

  /** The assets with the scene reference `id` set to null: no asset names
      the scene afterwards, each asset keeps every other field, and an asset
      of another scene (or of none) is untouched. */
  function ClearScene(assets: AssetRepository.Store, id: Guid): (r: AssetRepository.Store)
    ensures |r| == |assets|
    ensures forall i :: 0 <= i < |r| ==> r[i].SceneId != Some(id)
    ensures forall i :: 0 <= i < |r| ==> r[i] == assets[i].(SceneId := r[i].SceneId)
    ensures forall i :: 0 <= i < |r| && assets[i].SceneId != Some(id) ==> r[i] == assets[i]
  {
    seq(|assets|, i requires 0 <= i < |assets| =>
      if assets[i].SceneId == Some(id) then assets[i].(SceneId := None) else assets[i])
  }

  /** Once the scene is deleted, listing its assets answers nothing, while
      every other scene lists exactly the assets it listed before. */
  lemma DeletedSceneListsNoAssets(cat: Catalog, assets: AssetRepository.Store, id: Guid, other: Guid)
    requires IndexById(cat.scenes, id).Some?
    requires other != id
    ensures var (_, after, _) := DeleteScene(cat, assets, id);
            AssetRepository.GetAssetsBySceneId(after, id) == [] &&
            AssetRepository.GetAssetsBySceneId(after, other) == AssetRepository.GetAssetsBySceneId(assets, other)
  {
    ClearedSceneListsNothing(assets, id);
    ClearKeepsOtherScenes(assets, id, other);
  }

  /** No asset of the cleared store names the scene, so it lists none. */
  lemma ClearedSceneListsNothing(assets: AssetRepository.Store, id: Guid)
    ensures AssetRepository.GetAssetsBySceneId(ClearScene(assets, id), id) == []
  {
  }

  /** Clearing one scene's reference leaves every other scene's listing as it was. */
  lemma ClearKeepsOtherScenes(assets: AssetRepository.Store, id: Guid, other: Guid)
    requires other != id
    ensures AssetRepository.GetAssetsBySceneId(ClearScene(assets, id), other)
         == AssetRepository.GetAssetsBySceneId(assets, other)
  {
    var cleared := ClearScene(assets, id);
    var inOther := (a: Asset) => AssetRepository.InScene(a, other);
    FilterAgrees(cleared, assets, inOther);
  }


  /** Update then read: the read answers the updated fields with the
      scene's characters loaded. */
  lemma UpdateThenGet(cat: Catalog, id: Guid, req: UpdateSceneRequest, now: Instant)
    requires IndexById(cat.scenes, id).Some?
    ensures var (after, _) := UpdateScene(cat, id, req, now);
            var i := IndexById(cat.scenes, id).value;
            GetSceneById(after, id) == Ok(MapToResponse(WithCharacters(cat, ApplyUpdate(cat.scenes[i], req, now))))
  {
    var i := IndexById(cat.scenes, id).value;
    var (after, _) := UpdateScene(cat, id, req, now);
    assert forall j :: 0 <= j < i ==> after.scenes[j] == cat.scenes[j];
    assert IndexById(after.scenes, id) == Some(i);
  }
}

=== FILE: seqs.dfy ===
/** Stores are sequences of records; the repositories' LINQ queries become the
    functions here: `FirstOrDefault` is `Find`, `Where` is `Filter`, `Count(p)`
    is `Count`, and `OrderBy`/`OrderByDescending` is `SortBy` with the
    appropriate ordering.
 */
module Seqs {
  import opened Wrappers

  /** Position of the first element that satisfies `p`, if any. */
  function FindIndex<T>(s: seq<T>, p: T -> bool): (r: Option<nat>)
    ensures r.Some? ==> r.value < |s| && p(s[r.value])
    ensures r.Some? ==> forall j :: 0 <= j < r.value ==> !p(s[j])
    ensures r.None? <==> forall j :: 0 <= j < |s| ==> !p(s[j])
  {
    if |s| == 0 then None
    else if p(s[0]) then Some(0)
    else match FindIndex(s[1..], p)
      case None => None
      case Some(i) => Some(i + 1)
  }

  /** The first element that satisfies `p` (LINQ `FirstOrDefault(p)`). */
  function Find<T>(s: seq<T>, p: T -> bool): (r: Option<T>)
    ensures r.Some? ==> r.value in s && p(r.value)
    ensures r.None? <==> forall j :: 0 <= j < |s| ==> !p(s[j])
  {
    match FindIndex(s, p)
    case None => None
    case Some(i) => Some(s[i])
  }

  /** The elements that satisfy `p`, in store order (LINQ `Where(p)`). */
  function Filter<T(!new)>(s: seq<T>, p: T -> bool): (r: seq<T>)
    ensures |r| <= |s|
    ensures forall x :: x in r <==> x in s && p(x)
    ensures forall x :: multiset(r)[x] == if p(x) then multiset(s)[x] else 0
  {
    if |s| == 0 then []
    else
      assert s == [s[0]] + s[1..];
      (if p(s[0]) then [s[0]] else []) + Filter(s[1..], p)
  }

  /** Number of elements that satisfy `p` (LINQ `Count(p)`). */
  function Count<T(!new)>(s: seq<T>, p: T -> bool): nat {
    |Filter(s, p)|
  }

  /** Two predicates no element satisfies together select at most `|s|`
      elements between them. */
  lemma {:induction false} CountDisjoint<T(!new)>(s: seq<T>, p: T -> bool, q: T -> bool)
    requires forall x :: !(p(x) && q(x))
    ensures Count(s, p) + Count(s, q) <= |s|
  {
    if |s| > 0 {
      CountDisjoint(s[1..], p, q);
    }
  }

  /** Every element satisfying `p` also satisfies `q`: `p` selects no more. */
  lemma {:induction false} CountMonotone<T(!new)>(s: seq<T>, p: T -> bool, q: T -> bool)
    requires forall x :: p(x) ==> q(x)
    ensures Count(s, p) <= Count(s, q)
  {
    if |s| > 0 {
      CountMonotone(s[1..], p, q);
    }
  }

  /** Two sequences that agree wherever either element is selected, and
      select the same positions, filter to the same sequence. */
  lemma {:induction false} FilterAgrees<T(!new)>(s: seq<T>, t: seq<T>, p: T -> bool)
    requires |s| == |t|
    requires forall i :: 0 <= i < |s| ==> p(s[i]) == p(t[i])
    requires forall i :: 0 <= i < |s| && p(s[i]) ==> s[i] == t[i]
    ensures Filter(s, p) == Filter(t, p)
  {
    if |s| > 0 {
      FilterAgrees(s[1..], t[1..], p);
    }
  }

  /** Any two elements are comparable under `le`. */
  ghost predicate Total<T(!new)>(le: (T, T) -> bool) {
    forall a, b :: le(a, b) || le(b, a)
  }

  /** Each element is ordered before its successor (`le` is `<=` for an
      ascending order and `>=` for a descending one). */
  predicate SortedBy<T>(s: seq<T>, le: (T, T) -> bool) {
    forall i :: 0 < i < |s| ==> le(s[i - 1], s[i])
  }

  /** Places `x` into the sorted sequence `s`. */
  function Insert<T(!new)>(x: T, s: seq<T>, le: (T, T) -> bool): (r: seq<T>)
    requires Total(le)
    requires SortedBy(s, le)
    ensures multiset(r) == multiset(s) + multiset{x}
    ensures SortedBy(r, le)
    ensures |r| == |s| + 1 && (r[0] == x || (|s| > 0 && r[0] == s[0]))
  {
    if |s| == 0 then [x]
    else if le(x, s[0]) then
      assert s == [s[0]] + s[1..];
      [x] + s
    else
      var rest := Insert(x, s[1..], le);
      assert s == [s[0]] + s[1..];
      assert le(s[0], rest[0]);
      [s[0]] + rest
  }

  /** The elements of `s` in an order that respects `le` (LINQ `OrderBy`). */
  function SortBy<T(!new)>(s: seq<T>, le: (T, T) -> bool): (r: seq<T>)
    requires Total(le)
    ensures multiset(r) == multiset(s)
    ensures SortedBy(r, le)
  {
    if |s| == 0 then []
    else
      assert s == [s[0]] + s[1..];
      Insert(s[0], SortBy(s[1..], le), le)
  }

  /** A permutation keeps exactly the elements it started with. */
  lemma SameElements<T>(a: seq<T>, b: seq<T>)
    requires multiset(a) == multiset(b)
    ensures forall x :: x in a <==> x in b
  {
    forall x ensures x in a <==> x in b {
      assert x in a <==> x in multiset(a);
      assert x in b <==> x in multiset(b);
    }
  }

  /** `after` equals `before` except at position `i`, which holds `x`. */
  predicate ReplacedAt<T(==)>(before: seq<T>, after: seq<T>, i: nat, x: T) {
    i < |before| && |after| == |before| && after[i] == x &&
    forall j :: 0 <= j < |before| && j != i ==> after[j] == before[j]
  }
}

=== FILE: stripe_gateway.dfy ===
/** The parts of the Stripe adapter that are decisions rather than SDK calls:
    the request options it builds and how it turns the SDK's answers (or
    exceptions) into results. The SDK's answer is a parameter: the status
    string it returned, or the exception it raised. */
module StripeGateway {
  import opened Wrappers
  import opened Text

  /** Conversion of a `decimal` to `long`: truncation toward zero. */
  function Truncate(x: real): (r: int)
    ensures x >= 0.0 ==> 0 <= r && r as real <= x < r as real + 1.0
    ensures x < 0.0 ==> r <= 0 && r as real - 1.0 < x <= r as real
  {
    if x >= 0.0 then x.Floor else -((-x).Floor)
  }

  /** An amount in the currency's minor unit: the fraction of a cent is dropped. */
  function ToCents(amount: real): (r: int)
    ensures amount >= 0.0 ==> r == (amount * 100.0).Floor
    ensures amount >= 0.0 ==> 0 <= r && r as real <= amount * 100.0 < r as real + 1.0
  {
    Truncate(amount * 100.0)
  }

  /** A whole number of cents survives the conversion. */
  lemma CentsRoundTrip(cents: int)
    ensures ToCents(cents as real / 100.0) == cents
  {
    assert cents as real / 100.0 * 100.0 == cents as real;
  }

  /** Larger non-negative amounts never convert to fewer cents. */
  lemma CentsMonotone(a: real, b: real)
    requires 0.0 <= a <= b
    ensures ToCents(a) <= ToCents(b)
  {
    assert a * 100.0 <= b * 100.0;
  }

  /** The options of a new payment intent. */
  datatype IntentOptions = IntentOptions(
    AmountCents: int,
    Currency: string,
    Customer: string,
    AutomaticPaymentMethods: bool,
    Metadata: map<string, string>)

  function CreateIntentOptions(amount: real, currency: string, customerId: string,
                               metadata: Option<map<string, string>>): (r: IntentOptions)
    ensures r.AmountCents == ToCents(amount)
    ensures |r.Currency| == |currency| && forall i :: 0 <= i < |currency| ==> !IsUpper(r.Currency[i])
    ensures forall i :: 0 <= i < |currency| ==> r.Currency[i] == LowerChar(currency[i])
    ensures r.Customer == customerId && r.AutomaticPaymentMethods
    ensures metadata.None? ==> r.Metadata == map[]
    ensures metadata.Some? ==> r.Metadata == metadata.value
  {
    IntentOptions(ToCents(amount), ToLower(currency), customerId, true, metadata.GetOr(map[]))
  }

  /** The currency code is case-insensitive: two codes build the same intent
      exactly when they are equal ignoring case. */
  lemma IntentCurrencyIgnoresCase(amount: real, c1: string, c2: string, customerId: string,
                                  metadata: Option<map<string, string>>)
    ensures CreateIntentOptions(amount, c1, customerId, metadata) == CreateIntentOptions(amount, c2, customerId, metadata)
        <==> EqualsIgnoreCase(c1, c2)
  {
  }

  /** The options of a refund; without an amount Stripe refunds in full. */
  datatype RefundOptions = RefundOptions(PaymentIntent: string, AmountCents: Option<int>)

  function CreateRefundOptions(paymentIntentId: string, amount: Option<real>): (r: RefundOptions)
    ensures r.PaymentIntent == paymentIntentId
    ensures r.AmountCents.Some? <==> amount.Some?
    ensures amount.Some? && amount.value >= 0.0 ==>
              r.AmountCents.value as real <= amount.value * 100.0 < r.AmountCents.value as real + 1.0
  {
    RefundOptions(paymentIntentId, match amount case None => None case Some(a) => Some(ToCents(a)))
  }

  const SucceededStatus: string := "succeeded"

  /** Whether the confirmed intent succeeded; an exception counts as "no". */
  function ConfirmPaymentIntent(outcome: Result<string>): (r: bool)
    ensures r <==> outcome == Ok(SucceededStatus)
  {
    match outcome
    case Err(_) => false
    case Ok(status) => status == SucceededStatus
  }
}

=== FILE: subscription_checkout.dfy ===
/** The PayPal checkout of a subscription: initiating stores a pending
    payment for the order the provider creates, completing captures the order,
    marks the payment completed and stores a new active subscription.

    The provider's replies are parameters (`Err` when its call throws); the
    placeholder provider of `PayPalMock` is one such oracle, and the lemmas at
    the end compose the flow with it. */
module SubscriptionCheckout {
  import opened Wrappers
  import opened Domain
  import Pricing = SubscriptionService
  import PaymentRepository
  import opened PayPalMock

  /** The checkout service's own copy of the price table. */
  function CalculatePrice(plan: SubscriptionPlan, months: int): (r: real)
    ensures r == Pricing.CalculatePrice(plan, months)
  {
    var monthly := match plan
      case Free => 0.0
      case Individual => 9.99
      case School => 49.99
      case Museum => 199.99
      case Enterprise => 999.99;
    var total := monthly * months as real;
    if months >= 12 then total * 0.8 else total
  }

  /** The payment recorded when an order is created; every field the
      checkout does not assign keeps its default. */
  function PendingOrderPayment(id: Guid, userId: UserId, orderId: string, payer: PayPalRequest, amount: real, now: Instant): Payment {
    Payment(id, userId, None, orderId, payer.PayerEmail, payer.PayerName, amount, "USD", Pending,
            None, None, None, None, 0.0, None, now, None, None, None, None, None, None, None)
  }

  /** Creates the provider order for the subscription's price and records a
      pending payment for it. */
  function InitiatePayment(
    payments: seq<Payment>, userId: UserId, request: Pricing.CreateRequest, payer: PayPalRequest,
    order: Result<OrderResponse>, newId: Guid, now: Instant)
    : (r: (seq<Payment>, OrderResponse))
    ensures order.Err? ==>
              r.0 == payments && !r.1.Success && r.1.Message == "Error: " + order.error.message
    ensures order.Ok? && !order.value.Success ==> r == (payments, order.value)
    ensures order.Ok? && order.value.Success ==>
              r.1 == order.value && |r.0| == |payments| + 1 && r.0[..|payments|] == payments &&
              var p := r.0[|payments|];
              p.Id == newId && p.UserId == userId && p.Status == Pending &&
              p.Amount == Pricing.CalculatePrice(request.Plan, request.DurationInMonths) &&
              p.PayPalOrderId == order.value.OrderId.GetOr("") &&
              p.PayerEmail == payer.PayerEmail && p.PayerName == payer.PayerName
  {
    match order
    case Err(e) => (payments, OrderResponse(false, "Error: " + e.message, None, None, Pending))
    case Ok(response) =>
      if !response.Success then (payments, response)
      else
        var price := CalculatePrice(request.Plan, request.DurationInMonths);
        var p := PendingOrderPayment(newId, userId, response.OrderId.GetOr(""), payer, price, now);
        (payments + [p], response)
  }

  datatype Completion = Completion(payments: seq<Payment>, subscriptions: seq<Subscription>, response: ApiResponse)

  /** Captures the order, completes its payment and stores the subscription. */
  function CompletePayment(
    payments: seq<Payment>, subscriptions: seq<Subscription>, userId: UserId, orderId: string,
    request: Pricing.CreateRequest, capture: Result<OrderResponse>, now: Instant, newId: Guid,
    addMonths: Pricing.AddMonths)
    : (r: Completion)
    ensures capture.Err? ==>
              r == Completion(payments, subscriptions, ApiResponse(false, "Error: " + capture.error.message))
    ensures capture.Ok? && !capture.value.Success ==>
              r == Completion(payments, subscriptions, ApiResponse(false, "Payment capture failed"))
    ensures capture.Ok? && capture.value.Success ==>
              r.response == ApiResponse(true, "Payment completed and subscription activated") &&
              |r.payments| == |payments| &&
              (forall j :: 0 <= j < |payments| && Some(j) != PaymentRepository.IndexByOrderId(payments, orderId) ==>
                 r.payments[j] == payments[j]) &&
              |r.subscriptions| == |subscriptions| + 1 && r.subscriptions[..|subscriptions|] == subscriptions &&
              var s := r.subscriptions[|subscriptions|];
              s.Id == newId && s.UserId == userId && s.Plan == request.Plan && s.Status == Active &&
              s.StartDate == now && s.EndDate == addMonths(now, request.DurationInMonths) &&
              s.StripeSubscriptionId == orderId &&
              match PaymentRepository.IndexByOrderId(payments, orderId)
              case None => s.Price == 0.0
              case Some(i) =>
                r.payments[i] == payments[i].(Status := Completed, CompletedAt := Some(now)) &&
                s.Price == payments[i].Amount
  {
    match capture
    case Err(e) => Completion(payments, subscriptions, ApiResponse(false, "Error: " + e.message))
    case Ok(captured) =>
      if !captured.Success then
        Completion(payments, subscriptions, ApiResponse(false, "Payment capture failed"))
      else
        var found := PaymentRepository.IndexByOrderId(payments, orderId);
        var payments' := match found
          case None => payments
          case Some(i) => payments[i := payments[i].(Status := Completed, CompletedAt := Some(now))];
        var price := match found
          case None => 0.0
          case Some(i) => payments[i].Amount;
        var s := Subscription(newId, userId, request.Plan, Active, now,
                              addMonths(now, request.DurationInMonths), price, orderId);
        Completion(payments', subscriptions + [s],
                   ApiResponse(true, "Payment completed and subscription activated"))
  }

  // ---------------------------------------------------------------- with the placeholder provider

  /** The placeholder provider never makes completion take the
      capture-failure branch. */
  lemma MockCaptureAlwaysCompletes(
    payments: seq<Payment>, subscriptions: seq<Subscription>, userId: UserId, orderId: string,
    request: Pricing.CreateRequest, now: Instant, newId: Guid, addMonths: Pricing.AddMonths)
    ensures CompletePayment(payments, subscriptions, userId, orderId, request,
                            Ok(CaptureOrder(orderId)), now, newId, addMonths).response.Success
  {
  }

  /** Initiating and then completing a fresh order charges the subscription
      exactly the calculated price, and leaves the order's payment Completed. */
  lemma CheckoutChargesCalculatedPrice(
    payments: seq<Payment>, subscriptions: seq<Subscription>, userId: UserId,
    request: Pricing.CreateRequest, payer: PayPalRequest, orderId: string,
    paymentId: Guid, subscriptionId: Guid, now: Instant, later: Instant, addMonths: Pricing.AddMonths)
    requires forall p :: p in payments ==> p.PayPalOrderId != orderId
    ensures var price := Pricing.CalculatePrice(request.Plan, request.DurationInMonths);
            var order := CreateOrder(userId, payer, price, orderId);
            var (afterInit, _) := InitiatePayment(payments, userId, request, payer, Ok(order), paymentId, now);
            var done := CompletePayment(afterInit, subscriptions, userId, orderId, request,
                                        Ok(CaptureOrder(orderId)), later, subscriptionId, addMonths);
            done.response.Success &&
            done.subscriptions[|subscriptions|].Price == price &&
            done.payments[|payments|].Status == Completed
  {
    var price := Pricing.CalculatePrice(request.Plan, request.DurationInMonths);
    var order := CreateOrder(userId, payer, price, orderId);
    var (afterInit, _) := InitiatePayment(payments, userId, request, payer, Ok(order), paymentId, now);
    var found := PaymentRepository.IndexByOrderId(afterInit, orderId);
    assert afterInit[|payments|].PayPalOrderId == orderId;
    assert found.Some?;
    assert found.value == |payments|;
  }

  /** Completion takes the plan from its own request and the price from the
      order's payment, so an order paid for the free plan can activate any
      plan at no charge. */
  lemma CompletionPlanIsNotTiedToPayment(
    payments: seq<Payment>, subscriptions: seq<Subscription>, userId: UserId, payer: PayPalRequest,
    orderId: string, paymentId: Guid, subscriptionId: Guid, now: Instant, addMonths: Pricing.AddMonths)
    requires forall p :: p in payments ==> p.PayPalOrderId != orderId
    ensures var paid := Pricing.CreateRequest(Free, 1);
            var claimed := Pricing.CreateRequest(Enterprise, 1);
            var order := CreateOrder(userId, payer, 0.0, orderId);
            var (afterInit, _) := InitiatePayment(payments, userId, paid, payer, Ok(order), paymentId, now);
            var done := CompletePayment(afterInit, subscriptions, userId, orderId, claimed,
                                        Ok(CaptureOrder(orderId)), now, subscriptionId, addMonths);
            var s := done.subscriptions[|subscriptions|];
            s.Plan == Enterprise && s.Price == 0.0
  {
    CheckoutChargesCalculatedPrice(payments, subscriptions, userId, Pricing.CreateRequest(Free, 1), payer,
                                   orderId, paymentId, subscriptionId, now, now, addMonths);
    var order := CreateOrder(userId, payer, 0.0, orderId);
    var (afterInit, _) := InitiatePayment(payments, userId, Pricing.CreateRequest(Free, 1), payer, Ok(order), paymentId, now);
    var found := PaymentRepository.IndexByOrderId(afterInit, orderId);
    assert afterInit[|payments|].PayPalOrderId == orderId;
    assert found.value == |payments|;
  }
}

=== FILE: subscription_repository.dfy ===
/** The subscription queries of the data layer, over a store held as a
    sequence in insertion order. */
module SubscriptionRepository {
  import opened Wrappers
  import opened Seqs
  import opened Domain

  /** A subscription that grants its owner access at `now`. */
  predicate IsCurrent(s: Subscription, userId: UserId, now: Instant) {
    s.UserId == userId && s.Status == Active && s.EndDate > now
  }

  /** Position of the subscription `GetActive` returns. */
  function ActiveIndex(store: seq<Subscription>, userId: UserId, now: Instant): (r: Option<nat>)
    ensures r.Some? ==> r.value < |store| && IsCurrent(store[r.value], userId, now)
    ensures r.None? <==> forall j :: 0 <= j < |store| ==> !IsCurrent(store[j], userId, now)
  {
    FindIndex(store, s => IsCurrent(s, userId, now))
  }

  /** The user's first subscription that is Active and not yet ended. */
  function GetActive(store: seq<Subscription>, userId: UserId, now: Instant): (r: Option<Subscription>)
    ensures r.Some? ==> r.value in store && IsCurrent(r.value, userId, now)
    ensures r.None? <==> forall s :: s in store ==> !IsCurrent(s, userId, now)
  {
    match ActiveIndex(store, userId, now)
    case None => None
    case Some(i) => Some(store[i])
  }

  /** Later start first. */
  predicate StartedNoEarlier(a: Subscription, b: Subscription) {
    a.StartDate >= b.StartDate
  }

  /** All of the user's subscriptions, most recently started first. */
  function GetUserSubscriptions(store: seq<Subscription>, userId: UserId): (r: seq<Subscription>)
    ensures forall s :: s in r <==> s in store && s.UserId == userId
    ensures multiset(r) == multiset(Filter(store, (s: Subscription) => s.UserId == userId))
    ensures forall i :: 0 < i < |r| ==> r[i - 1].StartDate >= r[i].StartDate
  {
    var mine := Filter(store, (s: Subscription) => s.UserId == userId);
    var r := SortBy(mine, StartedNoEarlier);
    SameElements(r, mine);
    r
  }

  function GetByStatus(store: seq<Subscription>, status: SubscriptionStatus): (r: seq<Subscription>)
    ensures forall s :: s in r <==> s in store && s.Status == status
    ensures |r| <= |store|
  {
    Filter(store, (s: Subscription) => s.Status == status)
  }

  /** Active subscriptions ending after `now` and no later than `days` days from it. */
  predicate IsExpiring(s: Subscription, days: int, now: Instant) {
    s.Status == Active && s.EndDate <= now + days * SecondsPerDay && s.EndDate > now
  }

  function GetExpiring(store: seq<Subscription>, days: int, now: Instant): (r: seq<Subscription>)
    ensures forall s :: s in r <==> s in store && s.Status == Active && now < s.EndDate <= now + days * SecondsPerDay
  {
    Filter(store, (s: Subscription) => IsExpiring(s, days, now))
  }

  /** An expiring subscription still grants its owner access, so its owner's
      `GetActive` finds a subscription. */
  lemma ExpiringIsActive(store: seq<Subscription>, days: int, now: Instant, s: Subscription)
    requires s in GetExpiring(store, days, now)
    ensures IsCurrent(s, s.UserId, now)
    ensures GetActive(store, s.UserId, now).Some?
  {
  }
}

=== FILE: subscription_service.dfy ===
/** Subscription pricing, the plan catalogue, access checks and the
    create/cancel operations of the subscription service. */
module SubscriptionService {
  import opened Wrappers
  import opened Seqs
  import opened Domain
  import Repo = SubscriptionRepository

  // ---------------------------------------------------------------- pricing

  /** The price of one month of each plan. */
  function MonthlyPrice(plan: SubscriptionPlan): real {
    match plan
    case Free => 0.0
    case Individual => 9.99
    case School => 49.99
    case Museum => 199.99
    case Enterprise => 999.99
  }

  /** Subscriptions of twelve months or more get 20% off. */
  const LongTermDiscount: real := 0.8
  const LongTermMonths: int := 12

  /** The price charged for `months` months of `plan`. */
  function CalculatePrice(plan: SubscriptionPlan, months: int): (r: real)
    ensures months < LongTermMonths ==> r == MonthlyPrice(plan) * months as real
    ensures months >= LongTermMonths ==> r == MonthlyPrice(plan) * months as real * LongTermDiscount
    ensures plan == Free ==> r == 0.0
  {
    var total := MonthlyPrice(plan) * months as real;
    if months >= LongTermMonths then total * LongTermDiscount else total
  }

  /** A better plan costs more per month. */
  lemma MonthlyPriceIncreasesWithPlan(p: SubscriptionPlan, q: SubscriptionPlan)
    requires p.Rank() < q.Rank()
    ensures MonthlyPrice(p) < MonthlyPrice(q)
    ensures forall m: int :: m > 0 ==> CalculatePrice(p, m) < CalculatePrice(q, m)
  {
  }

  /** The discount makes a twelve-month subscription of a paid plan cheaper
      than an eleven-month one. */
  lemma TwelveMonthsCostLessThanEleven(plan: SubscriptionPlan)
    requires plan != Free
    ensures CalculatePrice(plan, 12) < CalculatePrice(plan, 11)
  {
  }

  // ---------------------------------------------------------------- catalogue

  datatype PlanInfo = PlanInfo(
    Plan: SubscriptionPlan,
    Name: string,
    Description: string,
    MonthlyPrice: real,
    YearlyPrice: real,
    Features: seq<string>)

  /** `Enum.ToString()` of a plan. */
  function PlanName(plan: SubscriptionPlan): string {
    match plan
    case Free => "Free"
    case Individual => "Individual"
    case School => "School"
    case Museum => "Museum"
    case Enterprise => "Enterprise"
  }

  function StatusName(status: SubscriptionStatus): string {
    match status
    case Active => "Active"
    case Cancelled => "Cancelled"
    case Expired => "Expired"
    case PendingPayment => "PendingPayment"
  }

  /** The catalogue shown to clients, one entry per plan in plan order. */
  function AvailablePlans(): (r: seq<PlanInfo>)
    ensures |r| == |AllPlans|
    ensures forall i :: 0 <= i < |r| ==> r[i].Plan == AllPlans[i]
    ensures forall i :: 0 <= i < |r| ==> r[i].Name == PlanName(r[i].Plan)
    ensures forall i :: 0 <= i < |r| ==> r[i].MonthlyPrice == CalculatePrice(r[i].Plan, 1)
  {
    [ PlanInfo(Free, "Free", "Basic access", 0.0, 0.0, ["5 scenes", "Basic support"]),
      PlanInfo(Individual, "Individual", "Full access", 9.99, 99.99,
               ["All scenes", "HD quality", "Priority support"]),
      PlanInfo(School, "School", "Educational", 49.99, 499.99,
               ["50 students", "Dashboard", "Custom content"]),
      PlanInfo(Museum, "Museum", "Museums", 199.99, 1999.99,
               ["Unlimited visitors", "Analytics", "24/7 support"]),
      PlanInfo(Enterprise, "Enterprise", "Large organizations", 999.99, 9999.99,
               ["White-label", "API access", "Dedicated manager"]) ]
  }

  /** Every plan appears exactly once in the catalogue. */
  lemma EachPlanListedOnce(plan: SubscriptionPlan)
    ensures exists i :: 0 <= i < |AvailablePlans()| && AvailablePlans()[i].Plan == plan
    ensures forall i, j :: 0 <= i < j < |AvailablePlans()| ==> AvailablePlans()[i].Plan != AvailablePlans()[j].Plan
  {
    var r := AvailablePlans();
    assert r[plan.Rank()].Plan == plan;
  }

  /** The catalogue's yearly price is not what twelve months are charged:
      for every paid plan the charge is lower. */
  lemma ListedYearlyPriceExceedsCharge(i: nat)
    requires 0 < i < |AvailablePlans()|
    ensures CalculatePrice(AvailablePlans()[i].Plan, 12) < AvailablePlans()[i].YearlyPrice
  {
  }

  // ---------------------------------------------------------------- access

  /** Whether the user may use content that requires `required`. */
  function CheckAccess(store: seq<Subscription>, userId: UserId, required: SubscriptionPlan, now: Instant): (r: bool)
    ensures Repo.GetActive(store, userId, now).None? ==> (r <==> required == Free)
    ensures Repo.GetActive(store, userId, now).Some? ==>
              (r <==> Repo.GetActive(store, userId, now).value.Plan.Rank() >= required.Rank())
  {
    match Repo.GetActive(store, userId, now)
    case None => required == Free
    case Some(s) => s.Plan.Rank() >= required.Rank()
  }

  /** Access granted for a plan is granted for every lesser plan. */
  lemma AccessDownwardClosed(store: seq<Subscription>, userId: UserId, p: SubscriptionPlan, q: SubscriptionPlan, now: Instant)
    requires CheckAccess(store, userId, p, now)
    requires q.Rank() <= p.Rank()
    ensures CheckAccess(store, userId, q, now)
  {
  }

  // ---------------------------------------------------------------- response

  /** `TimeSpan.Days` of a span of `seconds`: whole days, truncated toward zero. */
  function WholeDays(seconds: int): (r: int)
    ensures seconds >= 0 ==> 0 <= r * SecondsPerDay <= seconds < (r + 1) * SecondsPerDay
    ensures seconds < 0 ==> (r - 1) * SecondsPerDay < seconds <= r * SecondsPerDay <= 0
  {
    if seconds >= 0 then seconds / SecondsPerDay else -((-seconds) / SecondsPerDay)
  }

  datatype SubscriptionResponse = SubscriptionResponse(
    Id: Guid,
    UserId: UserId,
    UserEmail: string,
    Plan: SubscriptionPlan,
    PlanName: string,
    Status: SubscriptionStatus,
    StatusName: string,
    StartDate: Instant,
    EndDate: Instant,
    Price: real,
    DaysRemaining: int,
    IsActive: bool)

  function MapToResponse(s: Subscription, user: ApplicationUser, now: Instant): (r: SubscriptionResponse)
    ensures r.IsActive <==> Repo.IsCurrent(s, s.UserId, now)
    ensures r.DaysRemaining >= 0
    ensures r.DaysRemaining * SecondsPerDay <= if s.EndDate > now then s.EndDate - now else 0
    ensures s.EndDate >= now ==> s.EndDate - now < (r.DaysRemaining + 1) * SecondsPerDay
    ensures r.UserEmail == user.Email.GetOr("")
    ensures r.Id == s.Id && r.UserId == s.UserId && r.Plan == s.Plan && r.Status == s.Status
    ensures r.StartDate == s.StartDate && r.EndDate == s.EndDate && r.Price == s.Price
  {
    var days := WholeDays(s.EndDate - now);
    SubscriptionResponse(
      s.Id, s.UserId, user.Email.GetOr(""), s.Plan, PlanName(s.Plan), s.Status, StatusName(s.Status),
      s.StartDate, s.EndDate, s.Price,
      if days > 0 then days else 0,
      s.Status == Active && s.EndDate > now)
  }

  /** With less than a day left a subscription is still active while showing
      no remaining days. */
  lemma ActiveWithNoDaysRemaining(s: Subscription, user: ApplicationUser, now: Instant)
    requires s.Status == Active && now < s.EndDate < now + SecondsPerDay
    ensures MapToResponse(s, user, now).IsActive
    ensures MapToResponse(s, user, now).DaysRemaining == 0
  {
  }

  // ---------------------------------------------------------------- create / cancel

  datatype CreateRequest = CreateRequest(Plan: SubscriptionPlan, DurationInMonths: int)

  /** `DateTime.AddMonths`, whose calendar arithmetic is left abstract. */
  type AddMonths = (Instant, int) -> Instant

  function FindUser(users: seq<ApplicationUser>, userId: UserId): (r: Option<ApplicationUser>)
    ensures r.Some? ==> r.value in users && r.value.Id == userId
    ensures r.None? <==> forall u :: u in users ==> u.Id != userId
  {
    Find(users, (u: ApplicationUser) => u.Id == userId)
  }

  /** Stores a new active subscription for an existing user. */
  function CreateSubscription(
    store: seq<Subscription>, users: seq<ApplicationUser>, userId: UserId,
    request: CreateRequest, now: Instant, newId: Guid, addMonths: AddMonths)
    : (r: Result<(seq<Subscription>, SubscriptionResponse)>)
    ensures r.Err? <==> FindUser(users, userId).None?
    ensures r.Err? ==> r.error == Throw("User not found")
    ensures r.Ok? ==>
      var (after, response) := r.value;
      |after| == |store| + 1 && after[..|store|] == store &&
      var s := after[|store|];
      s.Id == newId && s.UserId == userId && s.Plan == request.Plan && s.Status == Active &&
      s.StartDate == now && s.EndDate == addMonths(now, request.DurationInMonths) &&
      s.Price == CalculatePrice(request.Plan, request.DurationInMonths) &&
      s.StripeSubscriptionId == "" &&
      response == MapToResponse(s, FindUser(users, userId).value, now)
  {
    match FindUser(users, userId)
    case None => Err(Throw("User not found"))
    case Some(user) =>
      var s := Subscription(newId, userId, request.Plan, Active, now,
                            addMonths(now, request.DurationInMonths),
                            CalculatePrice(request.Plan, request.DurationInMonths), "");
      Ok((store + [s], MapToResponse(s, user, now)))
  }

  /** A user without access who subscribes to a plan ending in the future
      gains access to exactly that plan and the lesser ones. */
  lemma CreateGrantsPlanAccess(
    store: seq<Subscription>, users: seq<ApplicationUser>, userId: UserId,
    request: CreateRequest, now: Instant, newId: Guid, addMonths: AddMonths, q: SubscriptionPlan)
    requires Repo.GetActive(store, userId, now).None?
    requires addMonths(now, request.DurationInMonths) > now
    requires CreateSubscription(store, users, userId, request, now, newId, addMonths).Ok?
    ensures var after := CreateSubscription(store, users, userId, request, now, newId, addMonths).value.0;
            CheckAccess(after, userId, q, now) <==> q.Rank() <= request.Plan.Rank()
  {
    var after := CreateSubscription(store, users, userId, request, now, newId, addMonths).value.0;
    var s := after[|store|];
    assert Repo.IsCurrent(s, userId, now);
    var i := Repo.ActiveIndex(after, userId, now);
    assert i.Some? by {
      assert !(forall j :: 0 <= j < |after| ==> !Repo.IsCurrent(after[j], userId, now));
    }
  }

  /** Marks the user's active subscription Cancelled. */
  function CancelSubscription(store: seq<Subscription>, userId: UserId, now: Instant): (r: Result<seq<Subscription>>)
    ensures r.Err? <==> Repo.GetActive(store, userId, now).None?
    ensures r.Err? ==> r.error == Throw("No active subscription found")
    ensures r.Ok? ==>
      var i := Repo.ActiveIndex(store, userId, now).value;
      |r.value| == |store| &&
      r.value[i] == store[i].(Status := SubscriptionStatus.Cancelled) &&
      forall j :: 0 <= j < |store| && j != i ==> r.value[j] == store[j]
  {
    match Repo.ActiveIndex(store, userId, now)
    case None => Err(Throw("No active subscription found"))
    case Some(i) => Ok(store[i := store[i].(Status := SubscriptionStatus.Cancelled)])
  }

  /** Cancelling the only subscription that granted access leaves the user
      with access to the free plan alone. */
  lemma CancelOnlySubscriptionEndsAccess(store: seq<Subscription>, userId: UserId, now: Instant, q: SubscriptionPlan)
    requires Repo.ActiveIndex(store, userId, now).Some?
    requires forall j :: 0 <= j < |store| && j != Repo.ActiveIndex(store, userId, now).value ==>
               !Repo.IsCurrent(store[j], userId, now)
    ensures CancelSubscription(store, userId, now).Ok?
    ensures var after := CancelSubscription(store, userId, now).value;
            Repo.GetActive(after, userId, now).None? &&
            (CheckAccess(after, userId, q, now) <==> q == Free)
  {
    var after := CancelSubscription(store, userId, now).value;
    var i := Repo.ActiveIndex(store, userId, now).value;
    forall j | 0 <= j < |after| ensures !Repo.IsCurrent(after[j], userId, now) {
      if j != i {
        assert after[j] == store[j];
      }
    }
  }
}

=== FILE: text.dfy ===
/** String operations of the .NET base library that the modelled code relies
    on, restricted to the ASCII behaviour the code exercises: case mapping,
    ordinal prefix/substring tests, `Replace`, `Split`, decimal formatting with
    `D<n>` and `int.TryParse`, and ordinal string order.
 */
module Text {
  import opened Wrappers

  // ---------------------------------------------------------------- case

  predicate IsUpper(c: char) { 'A' <= c <= 'Z' }
  predicate IsLower(c: char) { 'a' <= c <= 'z' }
  predicate IsDigit(c: char) { '0' <= c <= '9' }

  function LowerChar(c: char): (r: char)
    ensures !IsUpper(r)
    ensures IsUpper(c) ==> IsLower(r)
    ensures !IsUpper(c) ==> r == c
  {
    if IsUpper(c) then (c as int + 32) as char else c
  }

  function UpperChar(c: char): (r: char)
    ensures !IsLower(r)
    ensures IsLower(c) ==> IsUpper(r)
    ensures !IsLower(c) ==> r == c
  {
    if IsLower(c) then (c as int - 32) as char else c
  }

  /** `ToLowerInvariant()` on ASCII text. */
  function ToLower(s: string): (r: string)
    ensures |r| == |s|
    ensures forall i :: 0 <= i < |s| ==> r[i] == LowerChar(s[i])
  {
    if |s| == 0 then [] else [LowerChar(s[0])] + ToLower(s[1..])
  }

  /** `ToUpper()` on ASCII text. */
  function ToUpper(s: string): (r: string)
    ensures |r| == |s|
    ensures forall i :: 0 <= i < |s| ==> r[i] == UpperChar(s[i])
  {
    if |s| == 0 then [] else [UpperChar(s[0])] + ToUpper(s[1..])
  }

  lemma ToLowerIdempotent(s: string)
    ensures ToLower(ToLower(s)) == ToLower(s)
  {
  }

  /** `string.Equals(a, b, StringComparison.OrdinalIgnoreCase)` on ASCII text. */
  predicate EqualsIgnoreCase(a: string, b: string) {
    ToLower(a) == ToLower(b)
  }

  // ---------------------------------------------------------------- tests

  /** `string.IsNullOrEmpty` on a nullable string. */
  predicate NullOrEmpty(s: Option<string>) {
    s.None? || |s.value| == 0
  }

  predicate StartsWith(s: string, prefix: string) {
    |prefix| <= |s| && s[..|prefix|] == prefix
  }

  lemma StartsWithJoined(prefix: string, a: string, b: string)
    ensures StartsWith(prefix + a + b, prefix)
  {
    assert (prefix + a + b)[..|prefix|] == prefix;
  }

  predicate OccursAt(s: string, t: string, i: nat) {
    i + |t| <= |s| && s[i..i + |t|] == t
  }

  /** `s.Contains(t)`, ordinal. */
  predicate Contains(s: string, t: string) {
    exists i: nat | i <= |s| :: OccursAt(s, t, i)
  }

  lemma EmptyContained(s: string)
    ensures Contains(s, "")
  {
    assert OccursAt(s, "", 0);
  }

  /** Text that occurs in `s` occurs in anything that ends with `s`. */
  lemma ContainsAfterPrefix(p: string, s: string, t: string)
    requires Contains(s, t)
    ensures Contains(p + s, t)
  {
    var i: nat :| i <= |s| && OccursAt(s, t, i);
    assert (p + s)[|p| + i..|p| + i + |t|] == s[i..i + |t|];
    assert OccursAt(p + s, t, |p| + i);
  }

  // ---------------------------------------------------------------- rewriting

  /** `s.Replace(pattern, replacement)`: every non-overlapping occurrence,
      scanned from the left, is replaced. */
  function Replace(s: string, pattern: string, replacement: string): (r: string)
    requires |pattern| > 0
    decreases |s|
  {
    if |s| < |pattern| then s
    else if s[..|pattern|] == pattern then replacement + Replace(s[|pattern|..], pattern, replacement)
    else [s[0]] + Replace(s[1..], pattern, replacement)
  }

  /** Text without any occurrence of `pattern` is left as it is. */
  lemma {:induction false} ReplaceAbsent(s: string, pattern: string, replacement: string)
    requires |pattern| > 0
    requires !Contains(s, pattern)
    ensures Replace(s, pattern, replacement) == s
    decreases |s|
  {
    if |s| >= |pattern| {
      assert !OccursAt(s, pattern, 0);
      if !Contains(s[1..], pattern) {
        ReplaceAbsent(s[1..], pattern, replacement);
        assert s == [s[0]] + s[1..];
      } else {
        var i: nat :| i <= |s[1..]| && OccursAt(s[1..], pattern, i);
        assert s[1..][i..i + |pattern|] == s[i + 1..i + 1 + |pattern|];
        assert OccursAt(s, pattern, i + 1);
        assert false;
      }
    }
  }

  /** A prefix in which no occurrence of `pattern` starts passes through unchanged. */
  lemma {:induction false} ReplaceKeepsPrefix(p: string, s: string, pattern: string, replacement: string)
    requires |pattern| > 0
    requires forall i :: 0 <= i < |p| ==> !OccursAt(p + s, pattern, i)
    ensures Replace(p + s, pattern, replacement) == p + Replace(s, pattern, replacement)
    decreases |p|
  {
    if |p| > 0 {
      var q := p[1..];
      var r := Replace(s, pattern, replacement);
      NoOccurrenceShifts(p, s, pattern);
      ReplaceKeepsPrefix(q, s, pattern, replacement);
      ReplaceStep(p + s, pattern, replacement);
      assert p + r == [p[0]] + (q + r);
    } else {
      assert p + s == s;
    }
  }

  /** Dropping the first character of the prefix keeps it free of the pattern. */
  lemma NoOccurrenceShifts(p: string, s: string, pattern: string)
    requires |p| > 0
    requires forall i :: 0 <= i < |p| ==> !OccursAt(p + s, pattern, i)
    ensures (p + s)[1..] == p[1..] + s && (p + s)[0] == p[0]
    ensures forall i :: 0 <= i < |p| - 1 ==> !OccursAt(p[1..] + s, pattern, i)
  {
    var t := p + s;
    var q := p[1..];
    assert t[1..] == q + s;
    forall i | 0 <= i < |q| ensures !OccursAt(q + s, pattern, i) {
      assert !OccursAt(t, pattern, i + 1);
      if i + |pattern| <= |q + s| {
        assert (q + s)[i..i + |pattern|] == t[i + 1..i + 1 + |pattern|];
      }
    }
  }

  /** Where the pattern does not start, `Replace` keeps the first character. */
  lemma ReplaceStep(t: string, pattern: string, replacement: string)
    requires |pattern| > 0 && |t| > 0
    requires !OccursAt(t, pattern, 0)
    ensures Replace(t, pattern, replacement) == [t[0]] + Replace(t[1..], pattern, replacement)
  {
    if |t| < |pattern| {
      assert Replace(t[1..], pattern, replacement) == t[1..];
      assert t == [t[0]] + t[1..];
    } else {
      assert t[0..|pattern|] == t[..|pattern|];
    }
  }

  /** Replacing a single character by another one, everywhere. */
  function MapChar(s: string, from: char, to: char): (r: string)
    ensures |r| == |s|
    ensures forall i :: 0 <= i < |s| ==> r[i] == if s[i] == from then to else s[i]
  {
    if |s| == 0 then [] else [if s[0] == from then to else s[0]] + MapChar(s[1..], from, to)
  }

  /** A one-character `Replace` is `MapChar`. */
  lemma {:induction false} ReplaceOneChar(s: string, from: char, to: char)
    ensures Replace(s, [from], [to]) == MapChar(s, from, to)
    decreases |s|
  {
    if |s| > 0 {
      ReplaceOneChar(s[1..], from, to);
      assert s[..1] == [s[0]];
    }
  }

  // ---------------------------------------------------------------- split

  /** `s.Split(d)`: the pieces between occurrences of `d`; never empty. */
  function Split(s: string, d: char): (r: seq<string>)
    ensures |r| >= 1
    decreases |s|
  {
    if d !in s then [s]
    else
      var i := IndexOf(s, d);
      [s[..i]] + Split(s[i + 1..], d)
  }

  function IndexOf(s: string, d: char): (i: nat)
    requires d in s
    ensures i < |s| && s[i] == d && d !in s[..i]
  {
    if s[0] == d then 0 else
      assert s == [s[0]] + s[1..];
      1 + IndexOf(s[1..], d)
  }

  lemma SplitNoDelimiter(s: string, d: char)
    requires d !in s
    ensures Split(s, d) == [s]
  {
  }

  lemma {:induction false} SplitConcat(a: string, d: char, b: string)
    requires d !in a
    ensures Split(a + [d] + b, d) == [a] + Split(b, d)
  {
    var s := a + [d] + b;
    assert s[..|a|] == a;
    assert s[|a|] == d;
    var i := IndexOf(s, d);
    assert i == |a|;
    assert s[i + 1..] == b;
  }

  /** No piece of a split contains the separator. */
  lemma {:induction false} SplitPiecesOmitSeparator(s: string, d: char)
    ensures forall k :: 0 <= k < |Split(s, d)| ==> d !in Split(s, d)[k]
    decreases |s|
  {
    if d in s {
      var i := IndexOf(s, d);
      SplitPiecesOmitSeparator(s[i + 1..], d);
      assert Split(s, d) == [s[..i]] + Split(s[i + 1..], d);
    }
  }

  /** Four fields joined by a separator they do not contain split back. */
  lemma SplitFourFields(a: string, b: string, c: string, e: string, d: char)
    requires d !in a && d !in b && d !in c && d !in e
    ensures Split(a + [d] + b + [d] + c + [d] + e, d) == [a, b, c, e]
  {
    var t2 := c + [d] + e;
    var t1 := b + [d] + t2;
    SplitFields(a + [d] + b + [d] + c + [d] + e, t1, t2, a, b, c, e, d);
  }

  lemma SplitFields(s: string, t1: string, t2: string, a: string, b: string, c: string, e: string, d: char)
    requires d !in a && d !in b && d !in c && d !in e
    requires s == a + [d] + t1 && t1 == b + [d] + t2 && t2 == c + [d] + e
    ensures Split(s, d) == [a, b, c, e]
  {
    SplitThreeFields(t1, t2, b, c, e, d);
    SplitPrepend(a, d, t1, s, [b, c, e]);
    assert [a] + [b, c, e] == [a, b, c, e];
  }

  lemma SplitThreeFields(t1: string, t2: string, b: string, c: string, e: string, d: char)
    requires d !in b && d !in c && d !in e
    requires t1 == b + [d] + t2 && t2 == c + [d] + e
    ensures Split(t1, d) == [b, c, e]
  {
    SplitNoDelimiter(e, d);
    SplitPrepend(c, d, e, t2, [e]);
    assert [c] + [e] == [c, e];
    SplitPrepend(b, d, t2, t1, [c, e]);
    assert [b] + [c, e] == [b, c, e];
  }

  lemma SplitPrepend(a: string, d: char, t: string, s: string, pieces: seq<string>)
    requires d !in a && Split(t, d) == pieces && s == a + [d] + t
    ensures Split(s, d) == [a] + pieces
  {
    SplitConcat(a, d, t);
  }

  /** `string.Join(sep, parts)`. */
  function Join(sep: string, parts: seq<string>): (r: string)
    ensures |parts| == 0 ==> r == ""
    ensures |parts| > 0 ==> StartsWith(r, parts[0])
    decreases |parts|
  {
    if |parts| == 0 then ""
    else if |parts| == 1 then parts[0]
    else parts[0] + sep + Join(sep, parts[1..])
  }

  /** Joining with a one-character separator no part contains is undone by `Split`. */
  lemma {:induction false} JoinSplitRoundTrip(parts: seq<string>, d: char)
    requires |parts| > 0
    requires forall i :: 0 <= i < |parts| ==> d !in parts[i]
    ensures Split(Join([d], parts), d) == parts
    decreases |parts|
  {
    if |parts| == 1 {
      SplitNoDelimiter(parts[0], d);
    } else {
      JoinSplitRoundTrip(parts[1..], d);
      SplitConcat(parts[0], d, Join([d], parts[1..]));
      assert parts == [parts[0]] + parts[1..];
    }
  }

  /** The last piece of `s.Split(d)` (LINQ `LastOrDefault`). */
  function LastSegment(s: string, d: char): (r: string)
    ensures d !in r
    ensures |r| <= |s|
    decreases |s|
  {
    if d !in s then s
    else
      var i := IndexOf(s, d);
      LastSegment(s[i + 1..], d)
  }

  /** A suffix of a suffix of `s` is a suffix of `s`. */
  lemma SuffixOfSuffix(s: string, j: nat, r: string)
    requires j <= |s| && |r| <= |s| - j && s[j..][|s| - j - |r|..] == r
    ensures s[|s| - |r|..] == r
  {
    assert s[j..][|s| - j - |r|..] == s[|s| - |r|..];
  }

  lemma {:induction false} LastSegmentIsSuffix(s: string, d: char)
    ensures s[|s| - |LastSegment(s, d)|..] == LastSegment(s, d)
    decreases |s|
  {
    if d in s {
      var i := IndexOf(s, d);
      var rest := s[i + 1..];
      var r := LastSegment(rest, d);
      assert LastSegment(s, d) == r;
      LastSegmentIsSuffix(rest, d);
      SuffixOfSuffix(s, i + 1, r);
    } else {
      assert LastSegment(s, d) == s;
      assert s[0..] == s;
    }
  }

  /** `LastSegment` is the last piece `Split` produces. */
  lemma {:induction false} LastSegmentIsLastPiece(s: string, d: char)
    ensures LastSegment(s, d) == Split(s, d)[|Split(s, d)| - 1]
    decreases |s|
  {
    if d in s {
      LastSegmentIsLastPiece(s[IndexOf(s, d) + 1..], d);
    }
  }

  /** Whatever precedes the last separator, the piece after it is the last segment. */
  lemma {:induction false} LastSegmentAfter(a: string, d: char, t: string)
    requires d !in t
    ensures LastSegment(a + [d] + t, d) == t
    decreases |a|
  {
    var s := a + [d] + t;
    var i := IndexOf(s, d);
    if i < |a| {
      assert s[i + 1..] == a[i + 1..] + [d] + t;
      LastSegmentAfter(a[i + 1..], d, t);
    } else {
      assert d !in a by {
        assert a == s[..|a|];
        assert s[..i] == a;
      }
      assert s[i + 1..] == t;
    }
  }

  // ---------------------------------------------------------------- numbers

  predicate AllDigits(s: string) {
    forall i :: 0 <= i < |s| ==> IsDigit(s[i])
  }

  function DigitChar(n: nat): (c: char)
    requires n < 10
    ensures IsDigit(c)
  {
    ('0' as int + n) as char
  }

  function DigitValue(c: char): nat
    requires IsDigit(c)
  {
    c as int - '0' as int
  }

  /** The number a string of decimal digits denotes. */
  function ValueOf(s: string): nat
    requires AllDigits(s)
  {
    if |s| == 0 then 0 else ValueOf(s[..|s| - 1]) * 10 + DigitValue(s[|s| - 1])
  }

  /** `n.ToString()` for a non-negative number. */
  function NatToString(n: nat): (r: string)
    ensures |r| >= 1
    ensures AllDigits(r)
  {
    if n < 10 then [DigitChar(n)] else NatToString(n / 10) + [DigitChar(n % 10)]
  }

  function Zeros(k: nat): (r: string)
    ensures |r| == k
    ensures AllDigits(r)
    ensures forall i :: 0 <= i < k ==> r[i] == '0'
  {
    if k == 0 then [] else "0" + Zeros(k - 1)
  }

  /** `n.ToString("D" + width)`: the digits of `n`, left-padded with zeros to
      at least `width` characters. */
  function FormatD(n: nat, width: nat): (r: string)
    ensures AllDigits(r)
    ensures |r| >= width
  {
    var digits := NatToString(n);
    if |digits| >= width then digits else Zeros(width - |digits|) + digits
  }

  lemma {:induction false} NatToStringRoundTrip(n: nat)
    ensures ValueOf(NatToString(n)) == n
  {
    if n >= 10 {
      NatToStringRoundTrip(n / 10);
      var r := NatToString(n);
      assert r[..|r| - 1] == NatToString(n / 10);
    }
  }

  lemma {:induction false} ZerosValue(k: nat)
    ensures ValueOf(Zeros(k)) == 0
  {
    if k > 0 {
      var z := Zeros(k);
      var y := z[..k - 1];
      assert y == Zeros(k - 1) by {
        assert forall i :: 0 <= i < k - 1 ==> y[i] == '0';
      }
      ZerosValue(k - 1);
    }
  }

  lemma {:induction false} LeadingZerosValue(k: nat, s: string)
    requires AllDigits(s)
    ensures AllDigits(Zeros(k) + s)
    ensures ValueOf(Zeros(k) + s) == ValueOf(s)
    decreases |s|
  {
    var t := Zeros(k) + s;
    assert AllDigits(t) by {
      forall i | 0 <= i < |t| ensures IsDigit(t[i]) {
        if i < k { assert t[i] == Zeros(k)[i]; } else { assert t[i] == s[i - k]; }
      }
    }
    if |s| == 0 {
      assert t == Zeros(k);
      ZerosValue(k);
    } else {
      assert t[..|t| - 1] == Zeros(k) + s[..|s| - 1];
      LeadingZerosValue(k, s[..|s| - 1]);
    }
  }

  lemma FormatDRoundTrip(n: nat, width: nat)
    ensures ValueOf(FormatD(n, width)) == n
  {
    NatToStringRoundTrip(n);
    var digits := NatToString(n);
    if |digits| < width {
      var padded := Zeros(width - |digits|) + digits;
      LeadingZerosValue(width - |digits|, digits);
      assert ValueOf(FormatD(n, width)) == ValueOf(padded);
    }
  }

  /** `NatToString` uses as few digits as the number needs. */
  lemma {:induction false} NatToStringLength(n: nat, k: nat)
    ensures n < Pow10(k) && k >= 1 ==> |NatToString(n)| <= k
    ensures |NatToString(n)| <= k ==> n < Pow10(k)
  {
    if n >= 10 {
      if k >= 1 { NatToStringLength(n / 10, k - 1); }
    } else if k >= 1 {
      Pow10Positive(k - 1);
    }
  }

  function Pow10(k: nat): nat {
    if k == 0 then 1 else 10 * Pow10(k - 1)
  }

  lemma Pow10Positive(k: nat)
    ensures Pow10(k) >= 1
  {
  }

  lemma {:induction false} ValueOfBound(s: string)
    requires AllDigits(s)
    ensures ValueOf(s) < Pow10(|s|)
  {
    if |s| > 0 {
      ValueOfBound(s[..|s| - 1]);
    }
  }

  /** The leading digit of `s` contributes its value times `10^(|s|-1)`. */
  lemma {:induction false} ValueOfFront(s: string)
    requires AllDigits(s) && |s| >= 1
    ensures ValueOf(s) == DigitValue(s[0]) * Pow10(|s| - 1) + ValueOf(s[1..])
  {
    var n := |s|;
    if n > 1 {
      var init := s[..n - 1];
      var tail := s[1..];
      ValueOfFront(init);
      assert init[0] == s[0];
      assert init[1..] == tail[..n - 2];
      assert tail[n - 2] == s[n - 1];
      var d0 := DigitValue(s[0]);
      var v := ValueOf(init[1..]);
      var last := DigitValue(s[n - 1]);
      assert ValueOf(s) == ValueOf(init) * 10 + last;
      assert ValueOf(tail) == v * 10 + last;
      assert Pow10(n - 1) == 10 * Pow10(n - 2);
      ShiftDigit(d0, Pow10(n - 2), v, last);
    } else {
      assert s[1..] == [];
    }
  }

  lemma ShiftDigit(d0: int, p: int, v: int, last: int)
    ensures (d0 * p + v) * 10 + last == d0 * (10 * p) + (v * 10 + last)
  {
  }

  lemma LeadingDigitDominates(a: int, b: int, p: int, x: int, y: int)
    requires 0 <= a < b && 0 <= x < p && 0 <= y
    ensures a * p + x < b * p + y
  {
    var k := b - a - 1;
    assert k * p >= 0;
    calc {
      b * p;
      (a + 1 + k) * p;
      a * p + p + k * p;
    }
  }

  /** On digit strings of one length, ordinal order is numeric order. */
  lemma {:induction false} LexLeDigits(s: string, t: string)
    requires AllDigits(s) && AllDigits(t) && |s| == |t|
    ensures LexLe(s, t) <==> ValueOf(s) <= ValueOf(t)
  {
    if |s| > 0 {
      ValueOfFront(s);
      ValueOfFront(t);
      ValueOfBound(s[1..]);
      ValueOfBound(t[1..]);
      var p := Pow10(|s| - 1);
      var a, b := DigitValue(s[0]), DigitValue(t[0]);
      assert LexLe(s, t) == (s[0] < t[0] || (s[0] == t[0] && LexLe(s[1..], t[1..])));
      if a < b {
        LeadingDigitDominates(a, b, p, ValueOf(s[1..]), ValueOf(t[1..]));
      } else if a > b {
        LeadingDigitDominates(b, a, p, ValueOf(t[1..]), ValueOf(s[1..]));
      } else {
        LexLeDigits(s[1..], t[1..]);
      }
    }
  }

  lemma NoDashInDigits(s: string)
    requires AllDigits(s)
    ensures '-' !in s
  {
  }

  const Int32Max: int := 2147483647
  const Int32Min: int := -2147483648

  /** C#'s unchecked `+` on `int`: the sum taken modulo 2^32 into the 32-bit range. */
  function AddInt32(a: int, b: int): (r: int)
    requires Int32Min <= a <= Int32Max && Int32Min <= b <= Int32Max
    ensures Int32Min <= r <= Int32Max
    ensures (a + b - r) % 0x1_0000_0000 == 0
  {
    if a + b > Int32Max then a + b - 0x1_0000_0000
    else if a + b < Int32Min then a + b + 0x1_0000_0000
    else a + b
  }

  /** A sum that fits in 32 bits is not changed by the wrap-around. */
  lemma AddInt32InRange(a: int, b: int)
    requires Int32Min <= a <= Int32Max && Int32Min <= b <= Int32Max
    requires Int32Min <= a + b <= Int32Max
    ensures AddInt32(a, b) == a + b
  {
    var r := AddInt32(a, b);
    assert (a + b - r) % 0x1_0000_0000 == 0;
  }

  /** The white space `int.TryParse` skips around a number: tab, line feed,
      vertical tab, form feed, carriage return and space. */
  predicate IsParseWhite(c: char) { '\t' <= c <= '\r' || c == ' ' }

  /** `s` without its leading white space. */
  function TrimWhiteStart(s: string): (r: string)
    ensures |r| <= |s| && r == s[|s| - |r|..]
    ensures forall i :: 0 <= i < |s| - |r| ==> IsParseWhite(s[i])
    ensures |r| > 0 ==> !IsParseWhite(r[0])
  {
    if |s| > 0 && IsParseWhite(s[0]) then TrimWhiteStart(s[1..]) else s
  }

  /** `s` without its trailing white space. */
  function TrimWhiteEnd(s: string): (r: string)
    ensures |r| <= |s| && r == s[..|r|]
    ensures forall i :: |r| <= i < |s| ==> IsParseWhite(s[i])
    ensures |r| > 0 ==> !IsParseWhite(r[|r| - 1])
  {
    if |s| > 0 && IsParseWhite(s[|s| - 1]) then TrimWhiteEnd(s[..|s| - 1]) else s
  }

  /** `int.TryParse(s, out v)` in the invariant culture: optional white
      space, an optional '+' or '-', decimal digits, optional white space,
      and a value that fits in 32 bits. */
  function TryParseInt32(s: string): (r: Option<int>)
    ensures r.Some? ==> Int32Min <= r.value <= Int32Max
    ensures |s| > 0 && AllDigits(s) ==> r == (if ValueOf(s) <= Int32Max then Some(ValueOf(s)) else None)
    ensures '-' !in s && r.Some? ==> r.value >= 0
  {
    ParseSigned(TrimWhiteEnd(TrimWhiteStart(s)))
  }

  /** The number an optionally signed run of digits denotes, when it fits in 32 bits. */
  function ParseSigned(t: string): (r: Option<int>)
    ensures r.Some? ==> Int32Min <= r.value <= Int32Max
    ensures '-' !in t && r.Some? ==> r.value >= 0
  {
    if |t| > 0 && t[0] == '-' then
      var d := t[1..];
      if |d| > 0 && AllDigits(d) && ValueOf(d) <= Int32Max + 1 then Some(-(ValueOf(d) as int)) else None
    else
      var d := if |t| > 0 && t[0] == '+' then t[1..] else t;
      if |d| > 0 && AllDigits(d) && ValueOf(d) <= Int32Max then Some(ValueOf(d)) else None
  }

  /** Leading white space is skipped up to the first other character. */
  lemma {:induction false} TrimStartSkipsWhite(w: string, x: string)
    requires forall i :: 0 <= i < |w| ==> IsParseWhite(w[i])
    requires |x| > 0 && !IsParseWhite(x[0])
    ensures TrimWhiteStart(w + x) == x
  {
    if |w| == 0 {
      assert w + x == x;
    } else {
      assert (w + x)[1..] == w[1..] + x;
      TrimStartSkipsWhite(w[1..], x);
    }
  }

  /** Trailing white space is dropped back to the last other character. */
  lemma {:induction false} TrimEndSkipsWhite(x: string, w: string)
    requires |x| > 0 && !IsParseWhite(x[|x| - 1])
    requires forall i :: 0 <= i < |w| ==> IsParseWhite(w[i])
    ensures TrimWhiteEnd(x + w) == x
  {
    if |w| == 0 {
      assert x + w == x;
    } else {
      assert (x + w)[..|x + w| - 1] == x + w[..|w| - 1];
      TrimEndSkipsWhite(x, w[..|w| - 1]);
    }
  }

  /** A signed run of digits in white space parses to its value: "+"
      or no sign gives the value, "-" its negation, within 32 bits. */
  lemma ParseSignedDigits(lead: string, sign: string, d: string, trail: string)
    requires forall i :: 0 <= i < |lead| ==> IsParseWhite(lead[i])
    requires forall i :: 0 <= i < |trail| ==> IsParseWhite(trail[i])
    requires sign == "" || sign == "+" || sign == "-"
    requires |d| > 0 && AllDigits(d)
    ensures sign != "-" ==>
              TryParseInt32(lead + (sign + d) + trail) == (if ValueOf(d) <= Int32Max then Some(ValueOf(d)) else None)
    ensures sign == "-" ==>
              TryParseInt32(lead + (sign + d) + trail) == (if ValueOf(d) <= Int32Max + 1 then Some(-(ValueOf(d) as int)) else None)
  {
    var u := sign + d;
    var s := lead + u + trail;
    assert u[|u| - 1] == d[|d| - 1] && IsDigit(d[|d| - 1]);
    assert !IsParseWhite(u[0]) by {
      if sign == "" {
        assert u[0] == d[0] && IsDigit(d[0]);
      } else {
        assert u[0] == sign[0];
      }
    }
    TrimmedCore(lead, u, trail);
    assert TryParseInt32(s) == ParseSigned(u);
    ParseSignOf(sign, d, u);
  }

  /** The parse of a sign followed by digits. */
  lemma ParseSignOf(sign: string, d: string, u: string)
    requires sign == "" || sign == "+" || sign == "-"
    requires |d| > 0 && AllDigits(d) && u == sign + d
    ensures sign != "-" ==> ParseSigned(u) == (if ValueOf(d) <= Int32Max then Some(ValueOf(d)) else None)
    ensures sign == "-" ==> ParseSigned(u) == (if ValueOf(d) <= Int32Max + 1 then Some(-(ValueOf(d) as int)) else None)
  {
    if sign == "" {
      assert u == d && IsDigit(d[0]);
    } else {
      assert u[0] == sign[0] && u[1..] == d;
    }
  }

  /** Trimming white space around `u` leaves `u` when it starts and ends
      with other characters. */
  lemma TrimmedCore(lead: string, u: string, trail: string)
    requires forall i :: 0 <= i < |lead| ==> IsParseWhite(lead[i])
    requires forall i :: 0 <= i < |trail| ==> IsParseWhite(trail[i])
    requires |u| > 0 && !IsParseWhite(u[0]) && !IsParseWhite(u[|u| - 1])
    ensures TrimWhiteEnd(TrimWhiteStart(lead + u + trail)) == u
  {
    var tail := u + trail;
    assert lead + u + trail == lead + tail;
    assert tail[0] == u[0];
    TrimStartSkipsWhite(lead, tail);
    TrimEndSkipsWhite(u, trail);
  }

  // ---------------------------------------------------------------- order

  /** Ordinal (code-unit) string order: `a` sorts no later than `b`. */
  predicate LexLe(a: string, b: string) {
    |a| == 0 || (|b| > 0 && (a[0] < b[0] || (a[0] == b[0] && LexLe(a[1..], b[1..]))))
  }

  lemma {:induction false} LexLeTotal(a: string, b: string)
    ensures LexLe(a, b) || LexLe(b, a)
  {
    if |a| > 0 && |b| > 0 && a[0] == b[0] {
      LexLeTotal(a[1..], b[1..]);
    }
  }

  lemma {:induction false} LexLeReflexive(a: string)
    ensures LexLe(a, a)
  {
    if |a| > 0 {
      LexLeReflexive(a[1..]);
    }
  }

  lemma {:induction false} LexLeTransitive(a: string, b: string, c: string)
    requires LexLe(a, b) && LexLe(b, c)
    ensures LexLe(a, c)
  {
    if |a| > 0 && a[0] == b[0] && b[0] == c[0] {
      LexLeTransitive(a[1..], b[1..], c[1..]);
    }
  }

  lemma {:induction false} LexLeAntisymmetric(a: string, b: string)
    requires LexLe(a, b) && LexLe(b, a)
    ensures a == b
  {
    if |a| > 0 {
      LexLeAntisymmetric(a[1..], b[1..]);
      assert a == [a[0]] + a[1..];
      assert b == [b[0]] + b[1..];
    }
  }

  /** Text sharing a prefix compares as the text after it. */
  lemma {:induction false} LexLeCommonPrefix(p: string, a: string, b: string)
    ensures LexLe(p + a, p + b) <==> LexLe(a, b)
  {
    if |p| > 0 {
      assert (p + a)[1..] == p[1..] + a;
      assert (p + b)[1..] == p[1..] + b;
      LexLeCommonPrefix(p[1..], a, b);
    } else {
      assert p + a == a && p + b == b;
    }
  }
}

=== FILE: unity_assets.dfy ===
/** The anonymous asset endpoints the game client calls: search by name,
    download by id and verification of a local copy. */
module UnityAssetsController {
  import opened Wrappers
  import opened Seqs
  import opened Text
  import opened Domain
  import opened FileStorage
  import opened AssetRepository
  import AssetsController

  type Response<T> = AssetsController.Response<T>

  const NameRequired: string := "Asset name is required"
  const AssetNotFound: string := "Asset not found"
  const FileMissing: string := "File not found on server"

  /** The first asset whose name equals the query, ignoring case. */
  function SearchAsset(store: AssetRepository.Store, name: Option<string>): (r: Response<Asset>)
    ensures NullOrEmpty(name) <==> r == AssetsController.BadRequest(NameRequired)
    ensures !NullOrEmpty(name) && (forall a :: a in store ==> !EqualsIgnoreCase(a.Name, name.value)) ==>
              r == AssetsController.NotFound(AssetNotFound)
    ensures r.Success? ==>
              exists i :: 0 <= i < |store| && store[i] == r.data && EqualsIgnoreCase(store[i].Name, name.value) &&
                          forall j :: 0 <= j < i ==> !EqualsIgnoreCase(store[j].Name, name.value)
    ensures !NullOrEmpty(name) && (exists a :: a in store && EqualsIgnoreCase(a.Name, name.value)) ==> r.Success?
  {
    if NullOrEmpty(name) then AssetsController.BadRequest(NameRequired)
    else match FindIndex(store, (a: Asset) => EqualsIgnoreCase(a.Name, name.value))
      case None => AssetsController.NotFound(AssetNotFound)
      case Some(i) => AssetsController.Success(store[i])
  }

  /** Two queries that are equal ignoring case get the same answer. */
  lemma SearchIgnoresCase(store: AssetRepository.Store, n1: string, n2: string)
    requires EqualsIgnoreCase(n1, n2)
    ensures SearchAsset(store, Some(n1)) == SearchAsset(store, Some(n2))
  {
    assert |n1| == |ToLower(n1)| == |ToLower(n2)| == |n2|;
    var r1, r2 := SearchAsset(store, Some(n1)), SearchAsset(store, Some(n2));
    if r1.Success? && r2.Success? {
      var i1 :| 0 <= i1 < |store| && store[i1] == r1.data && EqualsIgnoreCase(store[i1].Name, n1) &&
                forall j :: 0 <= j < i1 ==> !EqualsIgnoreCase(store[j].Name, n1);
      var i2 :| 0 <= i2 < |store| && store[i2] == r2.data && EqualsIgnoreCase(store[i2].Name, n2) &&
                forall j :: 0 <= j < i2 ==> !EqualsIgnoreCase(store[j].Name, n2);
      assert !(i1 < i2) && !(i2 < i1);
    }
  }

  /** The media type served for a file; unlike the other asset endpoint
      this one names no type for ".pdf". */
  function GetContentType(fileName: string): (r: string)
    ensures ToLower(GetExtension(fileName)) != ".pdf" ==> r == AssetsController.GetContentType(fileName)
    ensures ToLower(GetExtension(fileName)) == ".pdf" ==> r == AssetsController.OctetStream
  {
    var ext := ToLower(GetExtension(fileName));
    if ext == ".pdf" then AssetsController.OctetStream else AssetsController.ContentTypeOf(ext)
  }

  /** The two endpoints serve a PDF differently and everything else alike. */
  lemma ContentTypesDifferOnlyOnPdf(fileName: string)
    ensures GetContentType(fileName) != AssetsController.GetContentType(fileName) <==>
              ToLower(GetExtension(fileName)) == ".pdf"
  {
  }

  /** Download by id: the record, then the file behind it. */
  function DownloadAsset(store: AssetRepository.Store, v: Volume, disk: Disk, assetId: Guid)
    : (r: Response<AssetsController.FileResult>)
    ensures GetById(store, assetId).None? <==> r == AssetsController.NotFound(AssetNotFound)
    ensures GetById(store, assetId).Some? && !FileExists(v, disk, GetById(store, assetId).value.FileUrl) ==>
              r == AssetsController.NotFound(FileMissing)
    ensures r.Success? ==>
              var asset := GetById(store, assetId).value;
              FileExists(v, disk, asset.FileUrl) && GetFile(v, disk, asset.FileUrl) == Ok(r.data.Content) &&
              r.data.ContentType == GetContentType(asset.FileName) && r.data.DownloadName == asset.FileName
  {
    match GetById(store, assetId)
    case None => AssetsController.NotFound(AssetNotFound)
    case Some(asset) =>
      if !FileExists(v, disk, asset.FileUrl) then AssetsController.NotFound(FileMissing)
      else match GetFile(v, disk, asset.FileUrl)
        case Err(e) => AssetsController.BadRequest(e.message)
        case Ok(bytes) => AssetsController.Success(AssetsController.FileResult(bytes, GetContentType(asset.FileName), asset.FileName))
  }

  datatype Verification = Verification(Exists: bool, HashMatches: bool, NeedsDownload: bool, Asset: Asset)

  /** Whether the client must download an asset again: when the file is
      gone from the server or the hashes differ. */
  function VerifyAsset(store: AssetRepository.Store, v: Volume, disk: Disk, assetId: Guid, fileHash: string)
    : (r: Response<Verification>)
    ensures GetById(store, assetId).None? <==> r == AssetsController.NotFound(AssetNotFound)
    ensures r.Success? || r.NotFound?
    ensures r.Success? ==>
              var asset := GetById(store, assetId).value;
              r.data.Asset == asset &&
              (r.data.Exists <==> FileExists(v, disk, asset.FileUrl)) &&
              (r.data.HashMatches <==> asset.FileHash == fileHash) &&
              (r.data.NeedsDownload <==> !r.data.Exists || !r.data.HashMatches)
  {
    match GetById(store, assetId)
    case None => AssetsController.NotFound(AssetNotFound)
    case Some(asset) =>
      var onDisk := FileExists(v, disk, asset.FileUrl);
      var matches := asset.FileHash == fileHash;
      AssetsController.Success(Verification(onDisk, matches, !onDisk || !matches, asset))
  }

  /** The two freshness checks on the same record: a non-empty client hash
      that the asset-check endpoint flags is also flagged here, but an empty one
      is flagged here (unless the stored hash is empty too) and never by
      the asset-check endpoint. */
  lemma FreshnessChecksCompared(store: AssetRepository.Store, v: Volume, disk: Disk, assetId: Guid, fileHash: string)
    requires GetById(store, assetId).Some?
    requires GetAssetByFileName(store, GetById(store, assetId).value.FileName) == GetById(store, assetId)
    ensures var asset := GetById(store, assetId).value;
            var check := AssetsController.CheckAsset(store, AssetsController.CheckItem(asset.FileName, Some(fileHash), None));
            var verify := VerifyAsset(store, v, disk, assetId, fileHash).data;
            (check.NeedsUpdate ==> verify.NeedsDownload) &&
            (fileHash == "" ==> !check.NeedsUpdate && (verify.NeedsDownload <==> !verify.Exists || asset.FileHash != ""))
  {
  }
}

=== FILE: webhooks.dfy ===
/** The Stripe and PayPal webhook endpoints: how an incoming event moves a
    payment between statuses, and which HTTP status the endpoint answers.

    Signature verification and parsing are the providers' libraries and
    become parameters: the Stripe event as `ConstructEvent` built it (or the
    exception it raised), whether PayPal's verification accepted the request,
    the PayPal event the body deserialised to, and `decimal.Parse`. */
module Webhooks {
  import opened Wrappers
  import opened Seqs
  import opened Text
  import opened Domain
  import PaymentRepository
  import PaymentService

  /** The stores the webhooks change. */
  datatype Ledger = Ledger(payments: seq<Payment>, subscriptions: seq<Subscription>)

  /** The endpoint's answer: an HTTP status and the error body, if any. */
  datatype Reply = Reply(StatusCode: int, Error: Option<string>)

  const Accepted: Reply := Reply(200, None)
  const InvalidSignature: Reply := Reply(400, Some("Invalid signature"))
  const InvalidEvent: Reply := Reply(400, Some("Invalid webhook event"))
  const ProcessingFailed: Reply := Reply(500, Some("Webhook processing failed"))

  // ---------------------------------------------------------------- the common update

  /** Applies `settle` to the payment whose provider reference is `key`;
      `activate` also marks its subscription Active. An unknown reference
      changes nothing. */
  function Settle(l: Ledger, key: string, settle: Payment -> Payment, activate: bool): (r: Ledger)
    ensures PaymentRepository.IndexByProviderId(l.payments, key).None? ==> r == l
    ensures PaymentRepository.IndexByProviderId(l.payments, key).Some? ==>
              var i := PaymentRepository.IndexByProviderId(l.payments, key).value;
              ReplacedAt(l.payments, r.payments, i, settle(l.payments[i])) &&
              (activate && settle(l.payments[i]).SubscriptionId.Some? ==>
                 r.subscriptions == PaymentService.UpdateSubscriptionAfterPayment(
                                      l.subscriptions, settle(l.payments[i]).SubscriptionId.value, true)) &&
              (!activate || settle(l.payments[i]).SubscriptionId.None? ==> r.subscriptions == l.subscriptions)
  {
    match PaymentRepository.IndexByProviderId(l.payments, key)
    case None => l
    case Some(i) =>
      var p := settle(l.payments[i]);
      var subscriptions := if activate && p.SubscriptionId.Some? then
                             PaymentService.UpdateSubscriptionAfterPayment(l.subscriptions, p.SubscriptionId.value, true)
                           else l.subscriptions;
      Ledger(l.payments[i := p], subscriptions)
  }

  /** Settling one payment leaves the lookup by a reference it keeps where it was. */
  lemma LookupStable(before: seq<Payment>, after: seq<Payment>, i: nat, key: string)
    requires PaymentRepository.IndexByProviderId(before, key) == Some(i)
    requires i < |after| && ReplacedAt(before, after, i, after[i])
    requires after[i].ProviderPaymentId == before[i].ProviderPaymentId
    ensures PaymentRepository.IndexByProviderId(after, key) == Some(i)
  {
    forall j | 0 <= j < i ensures after[j].ProviderPaymentId != Some(key) {
      assert after[j] == before[j];
    }
  }

  // ---------------------------------------------------------------- Stripe

  /** The object a Stripe event carries, as far as the handlers read it. */
  datatype StripeObject =
    | PaymentIntentObject(Id: string, ReceiptUrl: Option<string>, LastErrorMessage: Option<string>)
    | ChargeObject(PaymentIntentId: string, Amount: int, AmountRefunded: int)
    | OtherObject

  datatype StripeEvent = StripeEvent(Type: string, Object: StripeObject)

  const UnknownError: string := "Unknown error"

  /** The event types the endpoint dispatches; the subscription and invoice
      ones only log. */
  const StripeEventTypes: seq<string> := [
    "payment_intent.succeeded", "payment_intent.payment_failed", "payment_intent.canceled",
    "charge.refunded", "customer.subscription.created", "customer.subscription.updated",
    "customer.subscription.deleted", "invoice.payment_succeeded", "invoice.payment_failed"]

  /** Amounts in cents compared after both are divided by 100. */
  predicate FullyRefunded(amountRefunded: int, amount: int) {
    amountRefunded as real / 100.0 >= amount as real / 100.0
  }

  /** Dividing both sides by 100 does not change the comparison. */
  lemma FullyRefundedInCents(amountRefunded: int, amount: int)
    ensures FullyRefunded(amountRefunded, amount) <==> amountRefunded >= amount
  {
  }

  /** How the handler of event `e` rewrites the payment it found: a success
      records the time and the receipt, a failure the time and Stripe's
      error message (or "Unknown error"), a refund the time; an event that
      sets no status leaves the payment as it was. */
  predicate StripeSettled(e: StripeEvent, before: Payment, after: Payment, now: Instant) {
    match e.Object
    case PaymentIntentObject(_, receiptUrl, lastError) =>
      if e.Type == "payment_intent.succeeded" then
        after == before.(Status := Succeeded, PaidAt := Some(now), ReceiptUrl := receiptUrl)
      else if e.Type == "payment_intent.payment_failed" then
        after == before.(Status := Failed, FailedAt := Some(now), FailureReason := Some(lastError.GetOr(UnknownError)))
      else if e.Type == "payment_intent.canceled" then
        after == before.(Status := PaymentStatus.Cancelled)
      else after == before
    case ChargeObject(_, amount, refunded) =>
      if e.Type == "charge.refunded" then
        after == before.(Status := if refunded >= amount then Refunded else PartiallyRefunded, RefundedAt := Some(now))
      else after == before
    case OtherObject => after == before
  }

  /** Whether the event is a succeeded payment intent, the one event that
      activates the payment's subscription. */
  predicate StripeActivates(e: StripeEvent) {
    e.Object.PaymentIntentObject? && e.Type == "payment_intent.succeeded"
  }

  function HandleStripeEvent(l: Ledger, e: StripeEvent, now: Instant): (r: Ledger)
    ensures e.Type != "payment_intent.succeeded" ==> r.subscriptions == l.subscriptions
    ensures var found := PaymentRepository.IndexByProviderId(l.payments, StripeEventKey(e));
            found.Some? ==>
              var i := found.value;
              |r.payments| == |l.payments| && ReplacedAt(l.payments, r.payments, i, r.payments[i]) &&
              StripeSettled(e, l.payments[i], r.payments[i], now) &&
              (StripeActivates(e) && l.payments[i].SubscriptionId.Some? ==>
                 r.subscriptions == PaymentService.UpdateSubscriptionAfterPayment(
                                      l.subscriptions, l.payments[i].SubscriptionId.value, true)) &&
              (!StripeActivates(e) || l.payments[i].SubscriptionId.None? ==> r.subscriptions == l.subscriptions)
  {
    match e.Object
    case PaymentIntentObject(id, receiptUrl, lastError) =>
      if e.Type == "payment_intent.succeeded" then
        Settle(l, id, (p: Payment) => p.(Status := Succeeded, PaidAt := Some(now), ReceiptUrl := receiptUrl), true)
      else if e.Type == "payment_intent.payment_failed" then
        Settle(l, id, (p: Payment) => p.(Status := Failed, FailedAt := Some(now),
                                         FailureReason := Some(lastError.GetOr(UnknownError))), false)
      else if e.Type == "payment_intent.canceled" then
        Settle(l, id, (p: Payment) => p.(Status := PaymentStatus.Cancelled), false)
      else l
    case ChargeObject(intentId, amount, refunded) =>
      FullyRefundedInCents(refunded, amount);
      if e.Type == "charge.refunded" then
        var status := if FullyRefunded(refunded, amount) then Refunded else PartiallyRefunded;
        Settle(l, intentId, (p: Payment) => p.(Status := status, RefundedAt := Some(now)), false)
      else l
    case OtherObject => l
  }

  /** The status an event gives the payment it names, if it is one that
      changes a status; refunds are compared in whole cents. */
  function StripeEventStatus(e: StripeEvent): Option<PaymentStatus> {
    match e.Object
    case PaymentIntentObject(_, _, _) =>
      if e.Type == "payment_intent.succeeded" then Some(Succeeded)
      else if e.Type == "payment_intent.payment_failed" then Some(Failed)
      else if e.Type == "payment_intent.canceled" then Some(PaymentStatus.Cancelled)
      else None
    case ChargeObject(_, amount, refunded) =>
      if e.Type == "charge.refunded" then Some(if refunded >= amount then Refunded else PartiallyRefunded)
      else None
    case OtherObject => None
  }

  /** The provider reference the event's payment is looked up by. */
  function StripeEventKey(e: StripeEvent): string {
    match e.Object
    case PaymentIntentObject(id, _, _) => id
    case ChargeObject(intentId, _, _) => intentId
    case OtherObject => ""
  }

  /** A Stripe event changes at most the payment it names, to the status of
      the event table, and keeps that payment's provider reference; a
      succeeded intent also activates the payment's subscription. */
  lemma StripeEventFollowsTable(l: Ledger, e: StripeEvent, now: Instant)
    ensures var r := HandleStripeEvent(l, e, now);
            var found := PaymentRepository.IndexByProviderId(l.payments, StripeEventKey(e));
            (StripeEventStatus(e).None? || found.None? ==> r == l) &&
            (StripeEventStatus(e).Some? && found.Some? ==>
               ReplacedAt(l.payments, r.payments, found.value, r.payments[found.value]) &&
               r.payments[found.value].Status == StripeEventStatus(e).value &&
               r.payments[found.value].ProviderPaymentId == l.payments[found.value].ProviderPaymentId &&
               r.payments[found.value].Id == l.payments[found.value].Id &&
               StripeSettled(e, l.payments[found.value], r.payments[found.value], now) &&
               (StripeActivates(e) && l.payments[found.value].SubscriptionId.Some? ==>
                  r.subscriptions == PaymentService.UpdateSubscriptionAfterPayment(
                                       l.subscriptions, l.payments[found.value].SubscriptionId.value, true)))
  {
    if e.Object.ChargeObject? {
      FullyRefundedInCents(e.Object.AmountRefunded, e.Object.Amount);
    }
  }

  /** The Stripe endpoint. A `StripeException` from building the event means
      the signature did not verify. */
  function StripeWebhook(l: Ledger, event: Result<StripeEvent>, now: Instant): (r: (Ledger, Reply))
    ensures event.Err? ==> r.0 == l
    ensures event.Err? && event.error.kind == Provider ==> r.1 == InvalidSignature
    ensures event.Err? && event.error.kind != Provider ==> r.1 == ProcessingFailed
    ensures event.Ok? ==> r.1 == Accepted
    ensures event.Ok? && StripeEventStatus(event.value).None? ==> r.0 == l
    ensures event.Ok? ==> r.0 == HandleStripeEvent(l, event.value, now)
    ensures event.Ok? && PaymentRepository.IndexByProviderId(l.payments, StripeEventKey(event.value)).None? ==> r.0 == l
  {
    match event
    case Err(f) => (l, if f.kind == Provider then InvalidSignature else ProcessingFailed)
    case Ok(e) =>
      StripeEventFollowsTable(l, e, now);
      (HandleStripeEvent(l, e, now), Accepted)
  }

  /** Every listed subscription or invoice event, and every unlisted type, is
      accepted without a change. */
  lemma StripeLoggingOnlyEvents(l: Ledger, e: StripeEvent, now: Instant)
    requires e.Type !in StripeEventTypes[..4]
    ensures StripeWebhook(l, Ok(e), now) == (l, Accepted)
  {
    assert StripeEventTypes[..4] == ["payment_intent.succeeded", "payment_intent.payment_failed",
                                     "payment_intent.canceled", "charge.refunded"];
  }

  /** Handlers overwrite the status whatever it was, so a redelivered event
      leaves every payment with the status the first delivery gave it. */
  lemma StripeReplayKeepsStatus(l: Ledger, e: StripeEvent, t1: Instant, t2: Instant)
    ensures var once := HandleStripeEvent(l, e, t1);
            var twice := HandleStripeEvent(once, e, t2);
            |twice.payments| == |once.payments| &&
            forall j :: 0 <= j < |once.payments| ==> twice.payments[j].Status == once.payments[j].Status
  {
    var once := HandleStripeEvent(l, e, t1);
    StripeEventFollowsTable(l, e, t1);
    StripeEventFollowsTable(once, e, t2);
    var key := StripeEventKey(e);
    var found := PaymentRepository.IndexByProviderId(l.payments, key);
    if StripeEventStatus(e).Some? && found.Some? {
      LookupStable(l.payments, once.payments, found.value, key);
    }
  }

  // ---------------------------------------------------------------- PayPal

  datatype Link = Link(Rel: string, Href: Option<string>)

  /** The resource of a PayPal event, as far as the handlers read it. */
  datatype Resource = Resource(
    Id: string,
    AmountValue: Option<string>,
    RelatedOrderId: Option<string>,
    Links: Option<seq<Link>>)

  datatype PayPalEvent = PayPalEvent(EventType: string, Resource: Option<Resource>)

  const CaptureDenied: string := "PayPal capture denied"

  /** The resource id, or "" when the event carries no resource. */
  function ResourceId(e: PayPalEvent): string {
    match e.Resource
    case None => ""
    case Some(res) => res.Id
  }

  /** The capture a refund belongs to: the last '/'-segment of the first
      link whose relation is "up". */
  function CaptureIdFromLinks(links: Option<seq<Link>>): (r: Option<string>)
    ensures r.Some? ==> '/' !in r.value
  {
    match links
    case None => None
    case Some(ls) =>
      match Find(ls, (k: Link) => k.Rel == "up")
      case None => None
      case Some(k) =>
        match k.Href
        case None => None
        case Some(href) => Some(LastSegment(href, '/'))
  }

  /** A refund's "up" link of the form `<base>/<capture id>` names that capture. */
  lemma UpLinkNamesCapture(base: string, captureId: string, others: seq<Link>)
    requires '/' !in captureId
    requires forall k :: k in others ==> k.Rel != "up"
    ensures CaptureIdFromLinks(Some(others + [Link("up", Some(base + "/" + captureId))])) == Some(captureId)
  {
    var ls := others + [Link("up", Some(base + "/" + captureId))];
    var i := FindIndex(ls, (k: Link) => k.Rel == "up");
    assert ls[|others|].Rel == "up";
    assert forall j :: 0 <= j < |others| ==> ls[j] in others;
    assert i == Some(|others|);
    LastSegmentAfter(base, '/', captureId);
    assert base + "/" + captureId == base + ['/'] + captureId;
  }

  /** The handler of one PayPal event; `Err` when the refund amount does not
      parse, which the endpoint reports as a processing failure. */
  function HandlePayPalEvent(l: Ledger, e: PayPalEvent, parse: string -> Option<real>, now: Instant)
    : (r: Result<Ledger>)
    ensures r.Err? ==> e.EventType == "PAYMENT.CAPTURE.REFUNDED"
    ensures ResourceId(e) == "" ==> r == Ok(l)
  {
    if ResourceId(e) == "" then Ok(l)
    else
      var res := e.Resource.value;
      if e.EventType == "PAYMENT.CAPTURE.COMPLETED" then
        Ok(Settle(l, res.RelatedOrderId.GetOr(res.Id),
                  (p: Payment) => p.(Status := Succeeded, PaidAt := Some(now), ProviderPaymentId := Some(res.Id)), true))
      else if e.EventType == "PAYMENT.CAPTURE.DENIED" then
        Ok(Settle(l, res.RelatedOrderId.GetOr(res.Id),
                  (p: Payment) => p.(Status := Failed, FailedAt := Some(now), FailureReason := Some(CaptureDenied)), false))
      else if e.EventType == "PAYMENT.CAPTURE.REFUNDED" then
        match CaptureIdFromLinks(res.Links)
        case None => Ok(l)
        case Some(captureId) =>
          if captureId == "" then Ok(l)
          else match PaymentRepository.IndexByProviderId(l.payments, captureId)
            case None => Ok(l)
            case Some(i) =>
              match parse(res.AmountValue.GetOr("0"))
              case None => Err(Throw("Input string was not in a correct format."))
              case Some(amount) =>
                var status := if amount >= l.payments[i].Amount then Refunded else PartiallyRefunded;
                Ok(Ledger(l.payments[i := l.payments[i].(Status := status, RefundedAt := Some(now))], l.subscriptions))
      else Ok(l)
  }

  /** The PayPal endpoint: `signature` is the verification call's answer (or
      its exception), `body` the deserialised event: `Ok(None)` when the body
      is JSON `null`, `Err` when it is not valid JSON. */
  function PayPalWebhook(l: Ledger, signature: Result<bool>, body: Result<Option<PayPalEvent>>,
                         parse: string -> Option<real>, now: Instant): (r: (Ledger, Reply))
    ensures r.1 != Accepted ==> r.0 == l
    ensures signature == Ok(false) ==> r.1 == InvalidSignature
    ensures signature == Ok(true) && body == Ok(None) ==> r.1 == InvalidEvent
    ensures signature.Err? || (signature == Ok(true) && body.Err?) ==> r.1 == ProcessingFailed
    ensures r.1 == Accepted <==>
              signature == Ok(true) && body.Ok? && body.value.Some? &&
              HandlePayPalEvent(l, body.value.value, parse, now).Ok?
    ensures r.1 == Accepted ==> r.0 == HandlePayPalEvent(l, body.value.value, parse, now).value
  {
    match signature
    case Err(_) => (l, ProcessingFailed)
    case Ok(valid) =>
      if !valid then (l, InvalidSignature)
      else match body
        case Err(_) => (l, ProcessingFailed)
        case Ok(None) => (l, InvalidEvent)
        case Ok(Some(e)) =>
          match HandlePayPalEvent(l, e, parse, now)
          case Err(_) => (l, ProcessingFailed)
          case Ok(l') => (l', Accepted)
  }

  /** Order events and unknown types are accepted without a change. */
  lemma PayPalOrderEventsChangeNothing(l: Ledger, e: PayPalEvent, parse: string -> Option<real>, now: Instant)
    requires e.EventType !in ["PAYMENT.CAPTURE.COMPLETED", "PAYMENT.CAPTURE.DENIED", "PAYMENT.CAPTURE.REFUNDED"]
    ensures PayPalWebhook(l, Ok(true), Ok(Some(e)), parse, now) == (l, Accepted)
  {
  }

  /** A completed capture finds its payment by the related order id when the
      event names one, else by the capture id, re-keys it by the capture and
      activates its subscription. */
  lemma PayPalCaptureCompleted(l: Ledger, res: Resource, parse: string -> Option<real>, now: Instant)
    requires res.Id != ""
    ensures var key := res.RelatedOrderId.GetOr(res.Id);
            var found := PaymentRepository.IndexByProviderId(l.payments, key);
            var r := HandlePayPalEvent(l, PayPalEvent("PAYMENT.CAPTURE.COMPLETED", Some(res)), parse, now);
            r.Ok? &&
            (found.None? ==> r.value == l) &&
            (found.Some? ==>
               var before := l.payments[found.value];
               var p := r.value.payments[found.value];
               ReplacedAt(l.payments, r.value.payments, found.value, p) &&
               p == before.(Status := Succeeded, PaidAt := Some(now), ProviderPaymentId := Some(res.Id)) &&
               (before.SubscriptionId.Some? ==>
                  r.value.subscriptions == PaymentService.UpdateSubscriptionAfterPayment(
                                             l.subscriptions, before.SubscriptionId.value, true)) &&
               (before.SubscriptionId.None? ==> r.value.subscriptions == l.subscriptions))
  {
  }

  // ---------------------------------------------------------------- the PayPal endpoint as constructed

  /** The controller's constructor assigns neither the PayPal service nor the
      PayPal settings, so both fields stay null and reading either throws. */
  const NullReference: Fault := Throw("Object reference not set to an instance of an object.")

  /** The PayPal endpoint as the controller is built: the verification call
      goes through the unassigned fields and throws before PayPal is asked,
      so `verified`, what a wired service would answer, is never consulted. */
  function PayPalWebhookAsWritten(l: Ledger, verified: Result<bool>, body: Result<Option<PayPalEvent>>,
                                  parse: string -> Option<real>, now: Instant): (r: (Ledger, Reply))
    ensures r == (l, ProcessingFailed)
  {
    PayPalWebhook(l, Err(NullReference), body, parse, now)
  }

  /** Every delivery the endpoint should accept, with a verified signature
      and an event its handler processes, is answered 500 as the controller
      is built, and its change to the payments is lost. */
  lemma PayPalAsWrittenRefusesVerifiedEvents(l: Ledger, e: PayPalEvent, parse: string -> Option<real>, now: Instant)
    requires HandlePayPalEvent(l, e, parse, now).Ok?
    ensures PayPalWebhook(l, Ok(true), Ok(Some(e)), parse, now)
         == (HandlePayPalEvent(l, e, parse, now).value, Accepted)
    ensures PayPalWebhookAsWritten(l, Ok(true), Ok(Some(e)), parse, now) == (l, ProcessingFailed)
  {
  }

  /** A refund event sets Refunded exactly when the parsed amount covers the
      payment; a missing amount is read as "0". */
  lemma PayPalRefundStatus(l: Ledger, res: Resource, parse: string -> Option<real>, now: Instant, i: nat)
    requires res.Id != ""
    requires CaptureIdFromLinks(res.Links).Some? && CaptureIdFromLinks(res.Links).value != ""
    requires PaymentRepository.IndexByProviderId(l.payments, CaptureIdFromLinks(res.Links).value) == Some(i)
    requires parse(res.AmountValue.GetOr("0")).Some?
    ensures var r := HandlePayPalEvent(l, PayPalEvent("PAYMENT.CAPTURE.REFUNDED", Some(res)), parse, now);
            var amount := parse(res.AmountValue.GetOr("0")).value;
            r.Ok? && ReplacedAt(l.payments, r.value.payments, i, r.value.payments[i]) &&
            (r.value.payments[i].Status == Refunded <==> amount >= l.payments[i].Amount) &&
            (r.value.payments[i].Status == Refunded || r.value.payments[i].Status == PartiallyRefunded)
  {
  }

  /** With a decimal parser that reads "0" as zero, a refund event without an
      amount only marks a free payment fully refunded. */
  lemma PayPalRefundWithoutAmount(l: Ledger, res: Resource, parse: string -> Option<real>, now: Instant, i: nat)
    requires res.Id != "" && res.AmountValue.None? && parse("0") == Some(0.0)
    requires CaptureIdFromLinks(res.Links).Some? && CaptureIdFromLinks(res.Links).value != ""
    requires PaymentRepository.IndexByProviderId(l.payments, CaptureIdFromLinks(res.Links).value) == Some(i)
    ensures var r := HandlePayPalEvent(l, PayPalEvent("PAYMENT.CAPTURE.REFUNDED", Some(res)), parse, now);
            r.Ok? && (r.value.payments[i].Status == Refunded <==> l.payments[i].Amount <= 0.0)
  {
    PayPalRefundStatus(l, res, parse, now, i);
  }
}

=== FILE: wrappers.dfy ===
/** Optional values and the outcome of an operation that can throw.

    The services signal failure by throwing an exception whose message the
    controllers pass back to the client; `Fault` keeps the exception's kind and
    message so that contracts can speak about both.
 */
module Wrappers {

  /** A value that may be absent (a C# null reference or an empty `Nullable`). */
  datatype Option<+T> = None | Some(value: T) {

    /** The C# `??` operator: the value if present, otherwise `default`. */
    function GetOr(default: T): T {
      match this
      case Some(v) => v
      case None => default
    }
  }

  /** The exception classes the modelled code throws. */
  datatype FaultKind =
    | General             // System.Exception
    | Unauthorized        // UnauthorizedAccessException
    | InvalidArgument     // ArgumentException
    | InvalidOperation    // InvalidOperationException
    | FileNotFound        // FileNotFoundException
    | Provider            // StripeException, raised by the payment provider's SDK

  datatype Fault = Fault(kind: FaultKind, message: string)

  /** A thrown exception carrying `message`. */
  function Throw(message: string): Fault {
    Fault(General, message)
  }

  /** Either the value an operation returns or the exception it throws. */
  datatype Result<+T> = Ok(value: T) | Err(error: Fault) {

    predicate IsFailure() {
      Err?
    }

    function PropagateFailure<U>(): Result<U>
      requires Err?
    {
      Err(error)
    }

    function Extract(): T
      requires Ok?
    {
      value
    }
  }
}
